=== FILE: README.md ===
# mortarkiller, modelled in Dafny

mortarkiller is a helper for an artillery game. It reads screenshots of the in-game map and finds three things: the red target pin (`PinDetector`), the map grid's 100 m spacing in pixels (`GridScaleDetector`) and the player's own marker (`PlayerMarkDetector`). `AutoMortarRunner` combines them into a firing distance in metres. Each detector has a parameter set, a dataset evaluator and a trainer that searches that set by coordinate descent.

Around the detectors sit several smaller pieces:

- an exponential smoother and the `--interval=` flag of the combined command line (`ProgramCombined`);
- the window-mode classifier and capture dispatch (`ScreenshotHelper`);
- the command alias router (`ProgramUnified`);
- the numbered debug file namer (`DebugDumper`).

This project models the decision and bookkeeping layer of all of these. Every pixel operation is taken as an input:

- a colour mask and its contours arrive as area, bounding box and point list;
- an axis profile arrives as a sequence of reals;
- a Hough circle arrives as a centre and a radius.

What remains is modelled as the source writes it. That covers integer and real arithmetic over lists, arrays, sets and parameter records, with the source's constants and clamps. Doubles are `real`. A distance test `d <= R` is stated as `dx*dx + dy*dy <= R*R`.

The files follow the source:

- **Pin detector:**
  - `pin_evaluator.dfy`: the branch-and-bound scorer, as a recursive specification and as the in-place search over `used`;
  - `pin_shape.dfy`, `pin_detect.dfy`: contour selection, tip finding, NMS and the hue window;
  - `pin_params.dfy`, `pin_neighbours.dfy`, `pin_steps.dfy`, `pin_trainer.dfy`: the parameter set, the neighbour builders, `Dedup`, `Steps` and the `Optimize` loop.
- **Grid detector:**
  - `grid_signal.dfy`: moving average, autocorrelation, peaks and MAD;
  - `grid_candidates.dfy`: base candidates, the anchor and acquisition;
  - `grid_score.dfy`: the windowed scorer, tile coverage and intersections;
  - `grid_detect.dfy`: candidate scoring and the winner;
  - `grid_params.dfy`, `grid_steps.dfy`, `grid_neighbours.dfy`, `grid_search.dfy`, `grid_eval.dfy`: the trainer and the dataset cost.
- **Player marker:**
  - `player_params.dfy`: parameters, clone, mutation and the random draw;
  - `player_marks.dfy`: matching, median, hue, mask bounds and detection.
- **Runner:**
  - `auto_runner.dfy`: the crop strip, the left-panel scan and aim-number parsing;
  - `auto_session.dfy`: the constructor clamps, the fail-frame throttle and the two-phase loop as a `Runner` class.
- **Helpers:** `combined.dfy`, `window_mode.dfy`, `unified_cli.dfy` and `debug_dumper.dfy` for the small helpers. `common.dfy` and `sorting.dfy` hold shared arithmetic, `Option` and a stable sort by key.

Source paths below are relative to the repository root.

## Model

| member | source | states |
|---|---|---|
| PinEvaluation.MatchRadiusBySquares | mortarkiller/PinDetector.cs:687-690 | for a distance d with d*d equal to the squared pixel offset, d <= 90 exactly when the squared offset is at most 8100 |
| PinEvaluation.EvaluateOneIsAssignmentScore | mortarkiller/PinDetector.cs:646-711 | under every prune rule the score is the total of a one-to-one assignment pairing only points at most 90 px apart; score = sum of matched distances + 300 per missing + 80 per false positive - 40 per match |
| PinEvaluation.CostIsSumOfDistances | mortarkiller/PinDetector.cs:690-696 | inside the match radius the 120 px cap never binds: the accumulated cost is the plain distance sum plus 300 per skipped ground truth |
| PinEvaluation.EvaluateOneOptimal | mortarkiller/PinDetector.cs:660-702 | without pruning, and with the corrected prune, the search returns the minimum total over all assignments |
| PinEvaluation.BoundedEqualsExhaustive | mortarkiller/PinDetector.cs:662 | the corrected prune returns the same score as exhaustive search |
| PinEvaluation.EvaluateOneDegenerate | mortarkiller/PinDetector.cs:646-652 | both lists empty give 0, no predictions give 300 per ground truth, no ground truth gives 80 per prediction |
| PinEvaluation.NoPredictionsNoMatches | mortarkiller/PinDetector.cs:684-699 | with no predictions an assignment matches nothing |
| PinEvaluation.CoincidentUpToTen | mortarkiller/PinDetector.cs:662-702 | for up to ten coincident, mutually far pairs the search as written returns -40 per pair |
| PinEvaluation.CoincidentEleven | mortarkiller/PinDetector.cs:662-702 | for eleven such pairs the prune as written returns -20 while the corrected prune returns -440 |
| PinEvaluation.CoincidentOptimum | mortarkiller/PinDetector.cs:660-702 | for any number of coincident far pairs the corrected search returns -40 per pair |
| PinEvaluation.Matcher.CountUsed | mortarkiller/PinDetector.cs:666 | the count of set entries of the used array |
| PinEvaluation.Matcher.Recurse | mortarkiller/PinDetector.cs:660-700 | the in-place recursion restores used and matchedDists and leaves best, bestMatched and bestFp as the functional search prescribes |
| PinEvaluation.EvaluateOne | mortarkiller/PinDetector.cs:634-711 | the in-place matcher returns exactly the functional search outcome, whose properties the lemmas above prove |
| PinEvaluation.EvaluateDataset | mortarkiller/PinDetector.cs:571-632 | the loop over items sums per-image scores, charging 300 per ground truth for a detector error, as the dataset specification does |
| PinEvaluation.DatasetScoreDecomposes | mortarkiller/PinDetector.cs:590-628 | the dataset score is the matched-distance sum + 300 per missing + 80 per false positive - 40 per match, over all images |
| PinParams.ToOdd | mortarkiller/PinDetector.cs:1306-1310 | the result is odd, at least 1 and at least x, at most max(1, x) + 1, and an odd positive x is kept |
| PinSampler.OddClamp | mortarkiller/PinDetector.cs:1151-1155 | the result is odd and at least lo, and at most hi when hi is odd |
| PinSampler.MutateColor | mortarkiller/PinDetector.cs:1125-1127 | a colour keeps its hue centre; its tolerance lands in [3,40] and its S/V minima in [30,220] |
| PinSampler.Mutate | mortarkiller/PinDetector.cs:1097-1138 | every mutated field lies in its clamp range: scale [0.5,3], blur odd in [1,11], open/close [1,15], erode/dilate [0,4], area ratios, template fields, aspect [0.9,1.6], NMS radius [8,50], build fractions [0.3,0.8], close gate [0,2]; colour centres unchanged |
| PinSampler.MutateNearlyInRange | mortarkiller/PinDetector.cs:1111-1136 | a mutation satisfies the trainer's whole range predicate whenever it leaves MaxAreaRatio >= 1.7 * MinAreaRatio |
| ShapeMatch.CountAnd | mortarkiller/PinDetector.cs:1162-1164 | the pixel count of the intersection is at most the mask size |
| ShapeMatch.CountOr | mortarkiller/PinDetector.cs:1163-1165 | the pixel count of the union is at most the mask size |
| ShapeMatch.AndAtMostOr | mortarkiller/PinDetector.cs:1162-1165 | the intersection count never exceeds the union count, and they are equal exactly when the masks are equal |
| ShapeMatch.IoU | mortarkiller/PinDetector.cs:1160-1167 | the overlap ratio lies in [0,1] |
| ShapeMatch.IoUFacts | mortarkiller/PinDetector.cs:1160-1167 | IoU is symmetric, and it is 1 exactly for two equal masks with at least one set pixel |
| ShapeMatch.ScoreAgainstTemplates | mortarkiller/PinDetector.cs:1229-1242 | the fill and edge IoUs are reported; the clamped edge weight makes the score lie between them and in [0,1], equal to the fill IoU for weight <= 0 and to the edge IoU for weight >= 1 |
| ShapeMatch.Intersect | mortarkiller/PinDetector.cs:1197 | the intersection rectangle has non-negative size and contains exactly the points inside both rectangles |
| ShapeMatch.TipShift | mortarkiller/PinDetector.cs:1197-1211 | for a tip inside the clipped ROI the translation lies in [outW/2 - outW, outW/2] x [outH - 2 - outH, outH - 2], so the tip lands inside the output patch |
| ShapeMatch.ScaledOffset | mortarkiller/PinDetector.cs:1205-1208 | a pixel offset inside a span of len pixels rescaled to out pixels lands in [0, out] |
| PinDetection.ClampPoint | mortarkiller/PinDetector.cs:1257-1262 | each coordinate lands inside the image when the image is non-empty, and a coordinate already inside is kept |
| PinDetection.WrapHue | mortarkiller/PinDetector.cs:1543-1546 | C#'s double-modulo wrap yields a hue in [0,180) congruent to the input |
| PinDetection.HueRanges | mortarkiller/PinDetector.cs:1533-1556 | one or two hue intervals, each inside [0,179] |
| PinDetection.HueWindowIsCircular | mortarkiller/PinDetector.cs:1531-1558 | for a tolerance below 90 a hue passes the mask's hue test exactly when its circular distance to the centre is at most the tolerance |
| PinDetection.BottomTipUnique | mortarkiller/PinDetector.cs:1561-1584 | the tie-breaking rule (largest Y, then smallest deviation from the mean X, then contour order) selects a single point |
| PinDetection.FindBottomTip | mortarkiller/PinDetector.cs:1561-1584 | the result is the clamped contour point of maximal Y, ties broken by smallest |X - mean X| and then by contour order |
| PinDetection.ClosestToMean | mortarkiller/PinDetector.cs:1581-1582 | the chosen bottom point has minimal deviation from the mean X, and every earlier one deviates strictly more (a stable OrderBy followed by First) |
| PinDetection.OrderDesc | mortarkiller/PinDetector.cs:1601-1603 | the descending-score order is a permutation of the indices, ranked by score with ties in index order |
| PinDetection.RankedHead | mortarkiller/PinDetector.cs:1603-1610 | the first index of the ranking has the top score, so it is always kept |
| PinDetection.Ascending | mortarkiller/PinDetector.cs:1620 | sorting the kept indices gives an increasing sequence holding exactly the same indices |
| PinDetection.TakeNeighbours | mortarkiller/PinDetector.cs:1611-1618 | a kept tip takes every free tip within the radius; the kept tips stay pairwise apart and every taken tip is witnessed by a kept one that precedes it in the descending score order |
| PinDetection.ComputeNmsKeepIndices | mortarkiller/PinDetector.cs:1597-1622 | with at most one input everything is kept; otherwise the keep list is ascending, contains a top-score index, its tips are pairwise more than the radius apart, and every dropped tip lies within the radius of a kept one that precedes it in the stable descending score order, as greedy suppression requires |
| PinDetection.KernelSize | mortarkiller/PinDetector.cs:1735-1738 | the morphology kernel side is odd and at least 1 |
| PinDetection.MinArea | mortarkiller/PinDetector.cs:1744 | the minimum area is at least 10 and at least MinAreaRatio times the image area |
| PinDetection.MaxArea | mortarkiller/PinDetector.cs:1745 | the maximum area is at least twice the minimum area and at least MaxAreaRatio times the image area |
| PinDetection.SelectContour | mortarkiller/PinDetector.cs:1786-1856 | no contour is chosen exactly when none passes (area in range, aspect and template score); otherwise the chosen one is the first passing contour with the greatest template score (with templates) or area (without), and its diagnostic carries its bottom tip |
| PinDetection.ChoiceSkip | mortarkiller/PinDetector.cs:1796-1826 | a contour that fails, or does not beat the current choice strictly, leaves the choice unchanged |
| PinDetection.ChoiceTake | mortarkiller/PinDetector.cs:1817-1830 | a passing contour with a strictly greater key becomes the choice |
| PinDetection.DetectColor | mortarkiller/PinDetector.cs:1754-1907 | one colour adds one diagnostic: a "pass" diagnostic used as prediction when a contour was chosen, otherwise an "allRejected" one |
| PinDetection.AlignUsed | mortarkiller/PinDetector.cs:1910-1921 | the aligned lists hold, in order, the tips and diagnostics of exactly the diagnostics used as predictions, with their global positions |
| PinDetection.MarkSuppressed | mortarkiller/PinDetector.cs:1926-1940 | each aligned diagnostic stays a prediction exactly when its position is kept, the others are marked "suppressedNMS", and the new predictions are the kept tips in order |
| PinDetection.MarkedTips | mortarkiller/PinDetector.cs:1926-1940 | after the update loop the new predictions are exactly the tips of the diagnostics still used as predictions |
| PinDetection.MarkedSuppression | mortarkiller/PinDetector.cs:1922-1941 | only NMS losers are demoted, and each demoted tip lies near a surviving one that outranks it (higher NMS score, or equal score and earlier in the list) |
| PinDetection.SuppressionOutcome | mortarkiller/PinDetector.cs:1922-1941 | the same, stated on whole diagnostic lists: survivors apart, demoted near a survivor that outranks it, nothing else changed |
| PinDetection.SurvivorsApart | mortarkiller/PinDetector.cs:1922-1941 | no two diagnostics left as predictions lie within the NMS radius of each other |
| PinDetection.DemotedNearSurvivor | mortarkiller/PinDetector.cs:1922-1941 | every changed diagnostic lies within the radius of a diagnostic still used as prediction that outranks it in score order |
| PinDetection.ApplyNms | mortarkiller/PinDetector.cs:1909-1941 | the predictions stay exactly the tips of the diagnostics used as predictions, and only NMS suppression changes the diagnostics |
| PinDetection.DetectInternal | mortarkiller/PinDetector.cs:1719-1951 | an empty image yields the "Empty Mat for:" error; otherwise there is exactly one diagnostic per active colour, chosen by the selection rule, the predictions are exactly the tips still used as predictions, survivors are more than NmsRadius apart and each "suppressedNMS" diagnostic lies near a survivor that outranks it in NMS score order |
| PinNeighbours.FixAreaConsistency | mortarkiller/PinDetector.cs:2866-2873 | only the two area ratios change; afterwards both lie in their ranges with MaxAreaRatio >= 1.7 * MinAreaRatio, an in-range minimum is kept, an in-range maximum never drops, and an already consistent set is unchanged |
| PinNeighbours.FixKeepsInRange | mortarkiller/PinDetector.cs:2866-2873 | a parameter set already in range is a fixed point of FixAreaConsistency |
| PinNeighbours.MoveArea | mortarkiller/PinDetector.cs:2877-2912 | whatever the two area ratios became, FixAreaConsistency makes the set in range again and changes nothing outside the area family |
| PinNeighbours.DedupFromList | mortarkiller/PinDetector.cs:2850-2864 | Dedup keeps only elements of its input and never more than the input holds |
| PinNeighbours.DedupDistinct | mortarkiller/PinDetector.cs:2860-2861 | no two kept candidates share a key |
| PinNeighbours.DedupCovers | mortarkiller/PinDetector.cs:2856-2862 | every key of the input is represented among the kept candidates |
| PinNeighbours.DedupKeepsFirst | mortarkiller/PinDetector.cs:2856-2862 | the first candidate with a given key is the one kept |
| PinNeighbours.OneKeyKeepsFirst | mortarkiller/PinDetector.cs:2856-2862 | when all candidates share one key only the first is kept |
| PinNeighbours.DistinctKeysKeepAll | mortarkiller/PinDetector.cs:2856-2862 | when all keys differ every candidate is kept, in order |
| PinNeighbours.Dedup | mortarkiller/PinDetector.cs:2850-2864 | the loop with its seen-set returns the first-per-key subsequence, with pairwise distinct keys, drawn from the input |
| PinNeighbours.FullKeySeparates | mortarkiller/PinDetector.cs:2858-2859 | a key that includes the six omitted fields tells apart two candidates differing in any of them |
| PinNeighbours.IndexOf | mortarkiller/PinDetector.cs:3013 | Array.IndexOf returns the first position of the value, or -1 exactly when it is absent |
| PinNeighbours.BlurOptions | mortarkiller/PinDetector.cs:3012-3016 | the blur options are the grid values two below and two above the current blur, and there are none when the blur is off the grid |
| PinNeighbours.ClampExp | mortarkiller/PinDetector.cs:2848 | the scaled value is clamped into [lo, hi] |
| PinNeighbours.ShiftedNeighbour | mortarkiller/PinDetector.cs:3050-3099 | a move of a real field that changes it yields a neighbour of an in-range set in that field's family |
| PinNeighbours.BuildScaleBlurNeighbours | mortarkiller/PinDetector.cs:3009-3046 | for an in-range parent every candidate is in range and differs from it only, and somewhere, in scale or blur; keys are distinct and there are at most 8 |
| PinNeighbours.BuildOpenCloseNeighbours | mortarkiller/PinDetector.cs:2990-3007 | the same neighbour property for the open/close family, at most 4 candidates |
| PinNeighbours.BuildErodeDilateNeighbours | mortarkiller/PinDetector.cs:2950-2988 | the same neighbour property for the erode/dilate family, at most 8 candidates |
| PinNeighbours.BuildAreaNeighbours | mortarkiller/PinDetector.cs:2877-2915 | the same neighbour property for the area family, at most 8 candidates |
| PinNeighbours.BuildColorNeighbours | mortarkiller/PinDetector.cs:2917-2948 | the same neighbour property for one colour's tolerance and S/V floors, at most 6 candidates |
| PinNeighbours.BuildFieldNeighbours | mortarkiller/PinDetector.cs:3050-3099 | for the NMS-radius, aspect, template-score and template-weight builders: neighbours of the field's family, at most 2, at most 1 under the key as written, and both moves kept under the full key |
| PinNeighbours.FieldCandidates | mortarkiller/PinDetector.cs:3050-3099 | the same facts stated on the deduplicated list of up and down moves |
| PinNeighbours.DownMoveLost | mortarkiller/PinDetector.cs:2858-2859 | with the field strictly inside its bounds the two moves are different candidates, yet the key as written keeps only the up move |
| PinNeighbours.OnePartialKey | mortarkiller/PinDetector.cs:2858-2859 | under the key as written the up and down moves of a single real field always collide |
| PinNeighbours.TwoFullKeys | mortarkiller/PinDetector.cs:2858-2859 | under the full key both moves of an in-range field are kept |
| PinNeighbours.OneKeyAtMostOne | mortarkiller/PinDetector.cs:2858-2859 | candidates that all share the key of the consistent parent are reduced to at most one |
| PinNeighbours.BuildTplBuildFracNeighbours | mortarkiller/PinDetector.cs:3102-3116 | neighbours in the build-fraction family, at most 4, at most 1 under the key as written |
| PinNeighbours.BuildCloseGateNeighbours | mortarkiller/PinDetector.cs:3119-3129 | neighbours in the close-gate family, at most 2, at most 1 under the key as written |
| PinNeighbours.BuildNeighbours | mortarkiller/PinDetector.cs:2681-2826 | the family dispatch of one pass: a colour index past the colour list is the error case, otherwise a keyed-distinct list of neighbours |
| PinSteps.ShrinkSizes | mortarkiller/PinDetector.cs:3170-3188 | shrinking keeps every step at or above its floor |
| PinSteps.Steps.constructor | mortarkiller/PinDetector.cs:3131-3148 | the initial step sizes |
| PinSteps.Steps.Shrink | mortarkiller/PinDetector.cs:3170-3188 | the step object's sizes become the shrunk snapshot |
| PinSteps.Steps.ShrinkMultipliers | mortarkiller/PinDetector.cs:3172-3176 | the multiplicative steps move to their roots but not below 1.05, 1.15, 1.10; nothing else changes |
| PinSteps.Steps.ShrinkCounts | mortarkiller/PinDetector.cs:3173-3187 | the integer steps halve (the morphology step rounding up) but not below their floors; nothing else changes |
| PinSteps.Steps.ShrinkFractions | mortarkiller/PinDetector.cs:3182-3186 | the additive real steps divide by 1.5 but not below their floors; nothing else changes |
| PinStepsProgress.TinyIsMeasureZero | mortarkiller/PinDetector.cs:3150-3168 | for valid steps IsTiny holds exactly when the progress measure is 0 |
| PinStepsProgress.MultipliersShrink | mortarkiller/PinDetector.cs:3172-3176 | the multiplicative steps never rise and lose measure while any is above its floor |
| PinStepsProgress.FractionsShrink | mortarkiller/PinDetector.cs:3182-3186 | the additive steps never rise and lose measure while any is above its floor |
| PinStepsProgress.CountsShrink | mortarkiller/PinDetector.cs:3173-3187 | the integer steps never rise and lose measure while any is above its floor |
| PinStepsProgress.ShrinkProgress | mortarkiller/PinDetector.cs:3170-3188 | Shrink never raises a step, and from steps that are not tiny it strictly lowers a natural-number measure, so finitely many shrinks reach IsTiny |
| PinStepsProgress.TinyIsFixed | mortarkiller/PinDetector.cs:3150-3188 | tiny steps are a fixed point of Shrink |
| Evaluation.EvaluateCandidates | mortarkiller/PinDetector.cs:2285-2367 | the best candidate is the first with the strictly smallest score; an empty candidate list, where First() throws, yields None |
| Evaluation.AdoptionBound | mortarkiller/PinDetector.cs:2688 | adoptions that each improve by more than a positive tolerance are bounded by the score range divided by the tolerance |
| PinTrainer.Pass | mortarkiller/PinDetector.cs:2679-2826 | one pass over the families keeps the search invariant (best is reachable by adoptions each better by more than the tolerance), and an unimproved pass leaves best unchanged |
| PinTrainer.Optimize | mortarkiller/PinDetector.cs:2655-2840 | the result starts from the scored start and every adoption improved the best by more than improveTol, so the best score never increases; at most maxPasses passes run, and a search that ends earlier with a result ends on tiny steps |
| PinTrainer.StartProgress | mortarkiller/PinDetector.cs:2665-2673 | the scored start satisfies the search invariant with no adoptions |
| PinTrainer.Adopt | mortarkiller/PinDetector.cs:2688-2693 | adopting a family's best neighbour that improves by more than the tolerance keeps the invariant with one more adoption |
| PinTrainer.AdoptionsBounded | mortarkiller/PinDetector.cs:2677-2837 | with a positive tolerance and scores bounded below, the number of adoptions is at most (start score - bound) / tolerance |
| GridParams.SobelSize | mortarkiller/GridScaleDetector.cs:1004 | the Sobel size is 3 or 5, and a size already 3 or 5 is kept |
| GridParams.DetrendSize | mortarkiller/GridScaleDetector.cs:1005 | the detrend window is odd and at least 3, at most one above max(3, w), and an odd window of at least 3 is kept |
| GridParams.TophatSize | mortarkiller/GridScaleDetector.cs:1009 | the top-hat size is 3, 5 or 7, and a size already among them is kept |
| GridParams.Clamp | mortarkiller/GridScaleDetector.cs:997-1030 | after Clamp every knob lies in its range and the period bounds equal the dataset bounds; the fields Clamp does not touch are unchanged, and a set already in range is returned as is |
| GridParams.ClampIdempotent | mortarkiller/GridScaleDetector.cs:997-1030 | clamping twice is clamping once |
| GridParams.DefaultsInRange | mortarkiller/GridScaleDetector.cs:784-845 | the default parameters are in range for period bounds 4 .. 400 |
| GridSignal.RangeSumDropFirst | mortarkiller/GridScaleDetector.cs:536 | removing the first element of a range lowers its sum by that element |
| GridSignal.MovingAverageAsWritten | mortarkiller/GridScaleDetector.cs:517-542 | as written, each output is the drifting running sum divided by the clipped window size |
| GridSignal.MovingAverage | mortarkiller/GridScaleDetector.cs:517-542 | corrected: each output is the mean of s over the clipped window of half-width win/2 |
| GridSignal.WindowStep | mortarkiller/GridScaleDetector.cs:533-536 | moving the window one place gains the entering element and loses the leaving one, only where they exist |
| GridSignal.DriftClosedForm | mortarkiller/GridScaleDetector.cs:533-536 | the running sum as written equals the window sum minus s[0] once per early step and plus s[n-1] once per clipped late step |
| GridSignal.MovingAverageCounterexample | mortarkiller/GridScaleDetector.cs:533-539 | on [1,0,0,0,0] with window 3 the code gives 0 at index 1 where the window mean is 1/3 |
| GridSignal.Smoothed | mortarkiller/GridScaleDetector.cs:572-575 | smoothing keeps the array length |
| GridSignal.SmoothInPlace | mortarkiller/GridScaleDetector.cs:572-575 | the loop that writes each average back before reading the next computes the in-place smoothing |
| GridSignal.SmoothCentered | mortarkiller/GridScaleDetector.cs:572-575 | the corrected smoothing that reads the raw left neighbour |
| GridSignal.Energy | mortarkiller/GridScaleDetector.cs:562 | the energy is the sum of squares |
| GridSignal.MeanLagProduct | mortarkiller/GridScaleDetector.cs:567-570 | the inner loop gives the mean lagged product at one lag |
| GridSignal.FillAcf | mortarkiller/GridScaleDetector.cs:565-571 | the lag loop writes the mean lagged product at every lag in [pmin, pmax] and leaves the rest 0 |
| GridSignal.ComputeACF | mortarkiller/GridScaleDetector.cs:554-578 | the result has length clamped pmax + 1; it is all zeros when N < pmin + 3 or the energy is below 1e-9; otherwise it is the smoothed mean lagged products over the clamped lag range |
| GridSignal.InPlaceBounded | mortarkiller/GridScaleDetector.cs:572-575 | an in-place smoothed value stays within bounds that hold for the raw values |
| GridSignal.SmoothingKeepsRange | mortarkiller/GridScaleDetector.cs:572-575 | smoothing, either way, never leaves the range of the values it averages |
| GridSignal.InPlaceSmoothingCounterexample | mortarkiller/GridScaleDetector.cs:572-575 | on raw values 3, 0, 0, 0 the in-place smoothing gives 1/3 at index 2 where the centred average is 0 |
| GridSignal.Deviations | mortarkiller/GridScaleDetector.cs:618 | the absolute deviation of every value from the median, in order |
| GridSignal.MiddleDeviation | mortarkiller/GridScaleDetector.cs:618-619 | the middle sorted deviation is the deviation of one of the values |
| GridSignal.MedianAbsoluteDeviation | mortarkiller/GridScaleDetector.cs:616-620 | the MAD is at least 1e-9 and equals one value's deviation plus 1e-9 |
| GridSignal.FindTopPeaks | mortarkiller/GridScaleDetector.cs:580-614 | the method returns the peak list of its specification, None where the source indexes outside the ACF |
| GridSignal.CollectPeaks | mortarkiller/GridScaleDetector.cs:589-603 | the scan collects the refined peaks at the strict-left, weak-right local maxima in order |
| GridSignal.GreedyFilter | mortarkiller/GridScaleDetector.cs:605-612 | the greedy loop keeps each peak not within minDist of a kept one, stopping at topN |
| GridSignal.FilterFacts | mortarkiller/GridScaleDetector.cs:605-612 | the greedy filter keeps prominence order and spacing, keeps at most max(topN, 1) peaks, all drawn from its input |
| GridSignal.KeepOne | mortarkiller/GridScaleDetector.cs:609-610 | appending a far-enough, no more prominent peak keeps order and spacing |
| GridSignal.RefinementWithinHalf | mortarkiller/GridScaleDetector.cs:593-597 | the parabolic refinement moves the lag by at most half a sample |
| GridSignal.LocalPeaksNear | mortarkiller/GridScaleDetector.cs:590-603 | every collected peak lies within half a sample of a local-maximum index |
| GridSignal.TopPeaksFacts | mortarkiller/GridScaleDetector.cs:580-614 | FindTopPeaks fails exactly when [pmin, pmax] is not inside the ACF; otherwise it returns at most max(topN, 1) peaks, in non-increasing prominence, pairwise at least max(2, round(0.03 (pmax - pmin))) apart, each within 0.5 of a local maximum |
| GridSignal.FilteredPeaksFacts | mortarkiller/GridScaleDetector.cs:604-613 | the same facts for a given median and scale |
| GridSignal.BestNearSpec | mortarkiller/GridScaleDetector.cs:625 | the best near prominence is absent exactly when no peak is within tol, and otherwise is a near peak's prominence no near peak exceeds |
| GridSignal.PeakPromNearSpec | mortarkiller/GridScaleDetector.cs:622-627 | PeakPromNear is 0 when no peak is near, and otherwise the prominence of a near peak that no other near peak exceeds |
| GridCandidates.Admitted | mortarkiller/GridScaleDetector.cs:233-237 | the Add helper admits only rounded values inside [PMin, PMax] |
| GridCandidates.AdmittedConcat | mortarkiller/GridScaleDetector.cs:238-251 | admitting the proposals of several loops is the union of admitting each |
| GridCandidates.AdmittedMember | mortarkiller/GridScaleDetector.cs:233-237 | an integer is admitted exactly when it is in [PMin, PMax] and is the rounding (Math.Round, ties to even) of some proposal |
| GridCandidates.AddDivisions | mortarkiller/GridScaleDetector.cs:240-244 | the harmonic loop adds exactly the admitted values x/1 .. x/HarmonicMax |
| GridCandidates.AddRatioDivisions | mortarkiller/GridScaleDetector.cs:246-252 | the ratio loop adds exactly the admitted a/m for m in 2 .. HarmonicMax with |ratio - m| below the tolerance |
| GridCandidates.BuildBaseCandidates | mortarkiller/GridScaleDetector.cs:229-255 | the base set is exactly the admitted harmonics of every peak and raw period, so every candidate is an integer in [PMin, PMax] |
| GridCandidates.FindAnchor | mortarkiller/GridScaleDetector.cs:299-314 | X is chosen exactly when X has a peak, marginX >= marginY and marginX >= AnchorMargin; Y exactly when Y has a peak, marginY > marginX and marginY >= AnchorMargin; the anchor carries the leading peak, and (None, 0, 0) otherwise |
| GridCandidates.Acquired | mortarkiller/GridScaleDetector.cs:316-349 | the acquired set is a subset of the base set, the whole base set when anchoring is off or there is no anchor, and empty only when the base set is |
| GridCandidates.TryAdd | mortarkiller/GridScaleDetector.cs:322-331 | TryAdd adds b and its in-range neighbours within the jitter, and nothing when b is out of range |
| GridCandidates.FilterByAnchor | mortarkiller/GridScaleDetector.cs:321-346 | the anchored filter equals its specification: jittered windows around round(lag/m), then the optional fundamental test |
| GridCandidates.KeepFundamental | mortarkiller/GridScaleDetector.cs:336-346 | the RequireK1OnAnchor pass keeps exactly the candidates whose near-peak prominence on the anchor axis reaches RequireK1MinProm |
| GridCandidates.AcquireCandidates | mortarkiller/GridScaleDetector.cs:316-349 | the method returns the acquired set of its specification |
| GridCandidates.AnchorWindowsNearHarmonic | mortarkiller/GridScaleDetector.cs:326-335 | every anchored window candidate lies within the jitter of a rounded harmonic lag/m of the anchor |
| GridCandidates.MinRelDist | mortarkiller/GridScaleDetector.cs:258-264 | the minimum relative distance is attained by some harmonic and is at most every harmonic's distance |
| GridCandidates.RelativeHarmonicDistance | mortarkiller/GridScaleDetector.cs:256-266 | the loop returns the smallest relative distance from b to lag/1 .. lag/6 |
| GridCandidates.CombinedHarmonicScore | mortarkiller/GridScaleDetector.cs:267-280 | the loop returns the weighted sum of near-peak prominences at k*b on both axes, k = 1 .. min(HarmonicMax, 5) |
| GridCandidates.PromNearNonNegative | mortarkiller/GridScaleDetector.cs:622-628 | peaks of non-negative prominence give a non-negative PeakPromNear |
| GridCandidates.HarmonicNonNegative | mortarkiller/GridScaleDetector.cs:267-280 | with non-negative prominences and K1Boost the harmonic score is never negative |
| GridCandidates.DecadePenaltyOf | mortarkiller/GridScaleDetector.cs:281-295 | the penalty is 0 or DecadePenalty, and positive exactly when lower harmonics are preferred, the penalty is positive and some m in 5 .. 12 has round(b/m) >= 2 in the base set with a harmonic score at least 0.6 times b's |
| GridCandidates.DecadePenaltyTerm | mortarkiller/GridScaleDetector.cs:281-295 | the loop with its early returns computes DecadePenaltyOf |
| GridScore.ContrastSign | mortarkiller/GridScaleDetector.cs:451-453 | the contrast (onAvg - offAvg) / (|offAvg| + 1) is positive exactly when the on average exceeds the off average, and 0 exactly when they are equal |
| GridScore.WindowSize | mortarkiller/GridScaleDetector.cs:439-440 | the clipped window around a sample holds at most 2w + 1 samples, and at least the sample itself |
| GridScore.SumWindow | mortarkiller/GridScaleDetector.cs:439-440 | the inner loop sums and counts the clipped window around a sample |
| GridScore.SumComb | mortarkiller/GridScaleDetector.cs:436-449 | the comb loop sums the windows of the on comb (or the off comb, shifted by step/2) |
| GridScore.ScoreShift | mortarkiller/GridScaleDetector.cs:436-453 | the body of the shift loop computes the on/off contrast of one shift |
| GridScore.BestShift | mortarkiller/GridScaleDetector.cs:432-460 | the shift loop returns the first shift with the greatest contrast, and that contrast |
| GridScore.ScorePeriodWindowed | mortarkiller/GridScaleDetector.cs:426-462 | an empty profile or period < 2 gives -1e9 with shift 0; otherwise the shift is the first s in [0, min(step, len)) maximising the contrast, and the score is its contrast |
| GridScore.WindowedShiftBound | mortarkiller/GridScaleDetector.cs:434-460 | the winning shift is below the period and the profile length, and no shift scores above it |
| GridScore.TileBounds | mortarkiller/GridScaleDetector.cs:372-377 | every tile lies inside the profile, starting no later than it ends |
| GridScore.Coverage | mortarkiller/GridScaleDetector.cs:374-401 | one coverage flag per tile, each telling whether that tile's best shift has a positive contrast |
| GridScore.CoverTile | mortarkiller/GridScaleDetector.cs:376-400 | one pass of the tile loop decides the tile's coverage flag |
| GridScore.TileCoverage | mortarkiller/GridScaleDetector.cs:369-403 | 0 when period < 2, the profile is shorter than two periods or tiles <= 1; otherwise the share of covered tiles; always in [0,1] |
| GridScore.CoverageMeaning | mortarkiller/GridScaleDetector.cs:369-403 | the coverage is 1 exactly when every tile is covered and 0 exactly when none is |
| GridScore.PosSum | mortarkiller/GridScaleDetector.cs:361 | a sum of positive parts is never negative |
| GridScore.SumRow | mortarkiller/GridScaleDetector.cs:358-363 | the inner loop sums the lattice products of one row and counts them |
| GridScore.ScoreIntersections | mortarkiller/GridScaleDetector.cs:351-367 | the double loop computes the intersection score of its specification |
| GridScore.RowNonNegative | mortarkiller/GridScaleDetector.cs:358-363 | every row sum of products of positive parts is non-negative |
| GridScore.GridNonNegative | mortarkiller/GridScaleDetector.cs:355-364 | the lattice sum is non-negative |
| GridScore.IntersectionsNonNegative | mortarkiller/GridScaleDetector.cs:351-367 | the intersection score is never negative |
| GridScore.ZeroProduct | mortarkiller/GridScaleDetector.cs:365 | a product of counts below 1 means one count is 0 |
| GridScore.IntersectionsIsMean | mortarkiller/GridScaleDetector.cs:353-366 | on non-degenerate input the score is the lattice sum divided by the number of lattice points |
| GridDetect.AxisBoundsOrdered | mortarkiller/GridScaleDetector.cs:85-88 | the clamped lower lag bound plus one never exceeds max(10, len - 2), so Math.Clamp never sees crossed bounds |
| GridDetect.AxisMax | mortarkiller/GridScaleDetector.cs:86-88 | the upper lag bound lies strictly above the lower one |
| GridDetect.AnalyzeAxis | mortarkiller/GridScaleDetector.cs:544-552 | the computed ACF has the clamped length, is all zeros for a profile too short or without energy, and is otherwise the in-place smoothed mean lagged products; None exactly when the peak search on that ACF falls outside it (the exception); otherwise the peaks are FindTopPeaks' result and the raw period and prominence come from the first peak (0 without peaks) |
| GridDetect.BalanceRange | mortarkiller/GridScaleDetector.cs:128-131 | with non-negative prominences the axis imbalance lies in [0,1] |
| GridDetect.AnchorBonusRange | mortarkiller/GridScaleDetector.cs:132-137 | the anchor bonus lies in [0, 0.8] and is 0.8 exactly on a harmonic of the anchor |
| GridDetect.ProjectionTerms | mortarkiller/GridScaleDetector.cs:115-126 | computes the windowed, intersection, coverage and edge terms of one candidate, leaving the other terms alone |
| GridDetect.PeakTerms | mortarkiller/GridScaleDetector.cs:112-145 | computes the harmonic, balance, anchor and decade terms of one candidate, leaving the other terms alone |
| GridDetect.ScoreCandidate | mortarkiller/GridScaleDetector.cs:112-154 | the candidate's terms are those its specification prescribes, and the score is their weighted combination |
| GridDetect.ScanFirstBest | mortarkiller/GridScaleDetector.cs:110-165 | visiting candidates in increasing order, the loop ends on the first (smallest) candidate with the greatest score; the near-tie clause never fires |
| GridDetect.ScanStep | mortarkiller/GridScaleDetector.cs:158-164 | a later, larger candidate replaces the best only by scoring strictly more |
| GridDetect.NearTieIgnored | mortarkiller/GridScaleDetector.cs:158 | a smaller candidate scoring within 0.1 of a larger winner still loses under the code as written |
| GridDetect.MaxScore | mortarkiller/GridScaleDetector.cs:158 | the greatest score of a non-empty list is attained and bounds every entry |
| GridDetect.SelectPreferLower | mortarkiller/GridScaleDetector.cs:158 | the intended rule: the first (smallest) candidate whose score lies within 0.1 of the greatest score |
| GridDetect.BestScore | mortarkiller/GridScaleDetector.cs:158 | one pass over the list finds its greatest score |
| GridDetect.NearTiePreferLower | mortarkiller/GridScaleDetector.cs:158 | with the intended rule the near-tie goes to the smaller period |
| GridDetect.EnumerateOrdered | mortarkiller/GridScaleDetector.cs:110 | OrderBy enumerates candidates strictly increasing, inside the range |
| GridDetect.EnumerateComplete | mortarkiller/GridScaleDetector.cs:110 | every candidate in the range is enumerated |
| GridDetect.NonEmptyEnumerate | mortarkiller/GridScaleDetector.cs:110 | a non-empty candidate set enumerates to a non-empty list |
| GridDetect.SelectCandidate | mortarkiller/GridScaleDetector.cs:102-165 | the loop scores every candidate in increasing order and its running best is the scan's result |
| GridDetect.PeriodFor | mortarkiller/GridScaleDetector.cs:168-186 | the reported period is b, except that 284 and 135 are reported as a tenth of themselves |
| GridDetect.HarmonicPeakMax | mortarkiller/GridScaleDetector.cs:188-194 | the greatest near-peak prominence over harmonics 1 .. k, floored at 0, attained by some harmonic unless 0 |
| GridDetect.Reliability | mortarkiller/GridScaleDetector.cs:195 | the reliability lies in [0,100] |
| GridDetect.ComputeReliability | mortarkiller/GridScaleDetector.cs:188-195 | the loop computes the weaker axis's best harmonic prominence, clamped to [0,100] |
| GridDetect.PrepareScoring | mortarkiller/GridScaleDetector.cs:100-108 | the acquired candidates are within [PMin, PMax], and empty exactly when the base set is |
| GridDetect.ChooseWinner | mortarkiller/GridScaleDetector.cs:110-165 | the candidate loop's result obeys the chosen tie rule over the scored list |
| GridDetect.Report | mortarkiller/GridScaleDetector.cs:167-197 | a positive winner is reported with its period (tenfold correction applied), shifts, clamped reliability and score, keeping the raw periods and consistency |
| GridDetect.DetectFromPeaks | mortarkiller/GridScaleDetector.cs:93-197 | no positive raw period fails with "No valid ACF peaks", no base candidate with "No base candidates", a non-positive winner with "No valid candidate scored"; on success the winner lies in [PMin, PMax] and reliability in [0,100]; every failure has a reason |
| GridDetect.Detect100m | mortarkiller/GridScaleDetector.cs:27-228 | each axis's ACF and peaks are those of its profile within its lag bounds; a peak search that throws makes the result a failure with an "Exception: " reason; no ACF peak on either axis fails with "No valid ACF peaks", no base candidate with "No base candidates"; otherwise every acquired candidate is scored in increasing order and the winner is the one the tie rule picks (as written: the smallest candidate with the strictly greatest score), a non-positive winner failing with "No valid candidate scored"; success reports that winner, in [PMin, PMax]; every failure has a reason |
| GridSteps.MakeSteps | mortarkiller/GridScaleDetector.cs:1261-1315 | both the coarse and the fine schedule are valid step sizes: every real step is non-negative, every integer step and the harmonic-max tries are at least 1, and the shrink factor is 0.6 |
| GridSteps.Steps.constructor | mortarkiller/GridScaleDetector.cs:1559 | a fresh step object holds the schedule of the chosen mode and is valid |
| GridSteps.Steps.Shrink | mortarkiller/GridScaleDetector.cs:1778-1805 | every real step is multiplied by the shrink factor and every integer step becomes max(1, round(step × factor)) |
| GridStepsProgress.ScaleTicks | mortarkiller/GridScaleDetector.cs:1780-1796 | one multiplication by 0.6 lowers a real step's tick count by at least one whenever the step is still at or above its tiny threshold |
| GridStepsProgress.CountShrinks | mortarkiller/GridScaleDetector.cs:1798-1804 | max(1, round(n × 0.6)) stays at least 1 and drops below n whenever n is above 1 |
| GridStepsProgress.ShrinkValid | mortarkiller/GridScaleDetector.cs:1778-1805 | shrinking keeps the step sizes valid |
| GridStepsProgress.PreprocessingShrink | mortarkiller/GridScaleDetector.cs:1780-1782 | the CLAHE, blur and unsharp steps lose at least as many ticks as they have non-tiny members |
| GridStepsProgress.GatingShrink | mortarkiller/GridScaleDetector.cs:1783-1789 | the gradient and gating steps lose at least as many ticks as they have non-tiny members |
| GridStepsProgress.WeightShrink | mortarkiller/GridScaleDetector.cs:1790-1796 | the weight, prior and anchor-margin steps lose at least as many ticks as they have non-tiny members |
| GridStepsProgress.CountsShrink | mortarkiller/GridScaleDetector.cs:1798-1804 | the integer steps lose at least as much as they have members above 1 |
| GridStepsProgress.NotTinyDrops | mortarkiller/GridScaleDetector.cs:1766-1776 | a schedule that is not tiny has at least one step above its threshold |
| GridStepsProgress.ShrinkProgress | mortarkiller/GridScaleDetector.cs:1766-1805 | shrinking never raises the progress measure and lowers it strictly unless the schedule is already tiny |
| GridStepsProgress.TinyStaysTiny | mortarkiller/GridScaleDetector.cs:1766-1805 | a tiny schedule stays tiny after a shrink |
| GridStepsProgress.ZeroMeasureTiny | mortarkiller/GridScaleDetector.cs:1766-1776 | a schedule whose measure is zero is tiny |
| GridStepsProgress.EventuallyTiny | mortarkiller/GridScaleDetector.cs:1596-1604 | after as many shrinks as the measure the schedule is tiny, so the search's stop test is always reached |
| GridStepsProgress.StaysTiny | mortarkiller/GridScaleDetector.cs:1596-1604 | any number of shrinks of a tiny schedule leaves it tiny |
| GridNeighbours.OptionsSpec | mortarkiller/GridScaleDetector.cs:1480-1482 | the HarmonicMax options are the values 1 .. 12 without the current one, ascending: eleven of them when the current value is in 1 .. 12, twelve otherwise |
| GridNeighbours.ClampKeepsMask | mortarkiller/GridScaleDetector.cs:1452 | an edit that changes only one family's knobs, clamped again, is a neighbour: in range and equal to the clamped parent outside that family |
| GridNeighbours.ClampKeepsPreprocessing | mortarkiller/GridScaleDetector.cs:997-1030 | the clamp leaves the knobs outside the preprocessing family as they were |
| GridNeighbours.ClampKeepsGradient | mortarkiller/GridScaleDetector.cs:997-1030 | the clamp leaves the knobs outside the gradient family as they were |
| GridNeighbours.ClampKeepsGating | mortarkiller/GridScaleDetector.cs:997-1030 | the clamp leaves the knobs outside the gating family as they were |
| GridNeighbours.ClampKeepsWeights | mortarkiller/GridScaleDetector.cs:997-1030 | the clamp leaves the knobs outside the weights family as they were |
| GridNeighbours.ClampKeepsTiling | mortarkiller/GridScaleDetector.cs:997-1030 | the clamp leaves the knobs outside the tiling family as they were |
| GridNeighbours.ClampKeepsAnchorPrior | mortarkiller/GridScaleDetector.cs:997-1030 | the clamp leaves the knobs outside the anchor and prior family as they were |
| GridNeighbours.EditsStayInFamily | mortarkiller/GridScaleDetector.cs:1449-1550 | each family makes its fixed number of moves (11, 5, 12, 12, 6, 13, plus one per HarmonicMax choice in the gating family) and every move changes only that family's knobs |
| GridNeighbours.PreprocessingEdits | mortarkiller/GridScaleDetector.cs:1505-1521 | the preprocessing family makes eleven moves, all inside the family |
| GridNeighbours.GradientEdits | mortarkiller/GridScaleDetector.cs:1492-1503 | the gradient family makes five moves, all inside the family |
| GridNeighbours.GatingEdits | mortarkiller/GridScaleDetector.cs:1467-1490 | the gating family makes twelve moves plus one per HarmonicMax choice, all inside the family |
| GridNeighbours.GatingMovesStay | mortarkiller/GridScaleDetector.cs:1473-1478 | the twelve gate and tolerance moves change only gating knobs |
| GridNeighbours.HarmonicMaxEditsStay | mortarkiller/GridScaleDetector.cs:1486-1487 | each HarmonicMax move sets HarmonicMax to its chosen value and changes nothing else |
| GridNeighbours.WeightsEdits | mortarkiller/GridScaleDetector.cs:1523-1537 | the weights family makes twelve moves, all inside the family |
| GridNeighbours.TilingEdits | mortarkiller/GridScaleDetector.cs:1539-1550 | the tiling family makes six moves, all inside the family |
| GridNeighbours.AnchorPriorEdits | mortarkiller/GridScaleDetector.cs:1449-1465 | the anchor and prior family makes thirteen moves, all inside the family |
| GridNeighbours.NeighboursSpec | mortarkiller/GridScaleDetector.cs:1449-1550 | a neighbourhood has the family's move count and every entry is in range and differs from the clamped parent only in that family |
| GridNeighbours.NeighboursLength | mortarkiller/GridScaleDetector.cs:1449-1550 | a neighbourhood has the family's move count, plus the HarmonicMax choices for the gating family |
| GridNeighbours.EditsLength | mortarkiller/GridScaleDetector.cs:1449-1550 | the unclamped edits of a family have the family's move count |
| GridNeighbours.HarmonicMaxNeighbours | mortarkiller/GridScaleDetector.cs:1480-1487 | the gating neighbourhood ends with min(number of options, max(1, tries)) HarmonicMax trials, the options numbering eleven or twelve, each trial in 1 .. 12, none equal to the original value, all different |
| GridNeighbours.HarmonicMaxEntry | mortarkiller/GridScaleDetector.cs:1486-1487 | the gating neighbour at position 12 + i carries the i-th shuffled HarmonicMax value |
| GridNeighbours.ShuffleSpec | mortarkiller/GridScaleDetector.cs:1481-1483 | a shuffle of the options has at least eleven entries, each in 1 .. 12 and different from the current value, and no repeats |
| GridNeighbours.ShuffleLength | mortarkiller/GridScaleDetector.cs:1481-1483 | a shuffle of the options has at least eleven entries |
| GridNeighbours.ShuffleValues | mortarkiller/GridScaleDetector.cs:1481-1483 | every shuffled option is in 1 .. 12 and differs from the current value |
| GridNeighbours.ShuffleDistinct | mortarkiller/GridScaleDetector.cs:1481-1483 | the shuffled options are pairwise different |
| GridSearch.EvalBest | mortarkiller/GridScaleDetector.cs:1433-1447 | with no candidates the result is the start parameters with their score; otherwise it is the first candidate of minimum score, with that score |
| GridSearch.TryFamily | mortarkiller/GridScaleDetector.cs:1565-1569 | a family's best neighbour is adopted only when its score plus the tolerance is below the current best; otherwise the best is unchanged; the search invariant is kept either way |
| GridSearch.Pass | mortarkiller/GridScaleDetector.cs:1560-1595 | one pass over the six families keeps the search invariant, leaves the best unchanged when nothing was adopted, and lowers the score by more than the tolerance when something was |
| GridSearch.SmartLocalSearch | mortarkiller/GridScaleDetector.cs:1418-1609 | the returned best's score belongs to its parameters, every adoption lowered the score by more than the tolerance, a best other than the start is in the training range, and a search that stops before maxPasses stops because the steps are tiny |
| GridSearch.NeighboursInRange | mortarkiller/GridScaleDetector.cs:1449-1550 | every neighbour the search scores is within the clamp ranges |
| GridSearch.Adopt | mortarkiller/GridScaleDetector.cs:1568 | adopting a candidate that beats the best by more than the tolerance keeps the search invariant with one more adoption |
| GridSearch.AdoptionsBounded | mortarkiller/GridScaleDetector.cs:1560-1605 | with a positive tolerance and scores bounded below, the number of adoptions is at most (start score − bound) / tolerance |
| GridEval.Capped | mortarkiller/GridScaleDetector.cs:1973-1978 | the bonus is cut to BonusCapFrac of the penalties: the cost never falls below (1 − BonusCapFrac) × penalties, equals penalties − bonuses when they fit under the cap, and never exceeds the penalties for non-negative bonuses |
| GridEval.RelPenalty | mortarkiller/GridScaleDetector.cs:1963-1964 | the reliability penalty lies between 0 and TargetReliability × weight |
| GridEval.Ape | mortarkiller/GridScaleDetector.cs:1955 | the absolute percentage error is non-negative |
| GridEval.ApeCost | mortarkiller/GridScaleDetector.cs:1959-1960 | the APE cost lies between 0 and ApeCap × ApeWeight |
| GridEval.AxisPenalty | mortarkiller/GridScaleDetector.cs:1967 | the axis penalty lies between 0 and AxisConsistencyWeight |
| GridEval.GtRawPos | mortarkiller/GridScaleDetector.cs:1959-1974 | the penalties of a labelled success are non-negative and bounded by the sum of their caps |
| GridEval.NoGtRawPos | mortarkiller/GridScaleDetector.cs:2005-2011 | the penalties of an unlabelled success lie between NoGtBaseCost and NoGtBaseCost plus half the largest reliability penalty |
| GridEval.Assess | mortarkiller/GridScaleDetector.cs:1927-2032 | an image's cost is non-negative; a labelled failure costs FailPenalty (500), an unlabelled failure NoGtBaseCost + 0.5 × FailPenalty (270); a labelled success costs at least a fifth of its penalties and an unlabelled one at least 4 |
| GridEval.SuccessCheaperThanFailure | mortarkiller/GridScaleDetector.cs:1946-2029 | with a non-negative quality, a success always costs less than a failure of the same kind of image |
| GridEval.FoldCounts | mortarkiller/GridScaleDetector.cs:1944-1993 | the good, ok and loose counts are disjoint parts of the labelled successes, which number as many as the relative errors kept, and detectOk counts every success |
| GridEval.FoldScoreNonNegative | mortarkiller/GridScaleDetector.cs:2032-2033 | the summed score is at least 500 per labelled failure plus 270 per unlabelled failure |
| GridEval.EvalsCached | mortarkiller/GridScaleDetector.cs:1925-1928 | only images found in the cache are evaluated, in order: all of them when all are cached, none when none is |
| GridEval.EvalsCosts | mortarkiller/GridScaleDetector.cs:1925-2034 | every evaluated image's cost is non-negative and matches its outcome |
| GridEval.SumSquares | mortarkiller/GridScaleDetector.cs:2042 | the sum of squared deviations is non-negative |
| GridEval.SampleVariance | mortarkiller/GridScaleDetector.cs:2041-2042 | the variance, divided by max(1, n − 1), is non-negative |
| GridEval.EvaluateDataset | mortarkiller/GridScaleDetector.cs:1897-2046 | the loop over the items computes the dataset summary: the per-image costs folded in item order plus the stability penalty |
| GridEval.DatasetScoreBound | mortarkiller/GridScaleDetector.cs:1925-2046 | the dataset score is at least 500 per labelled failure plus 270 per unlabelled failure, and so never negative |
| PlayerParameters.CopySpec | mortarkiller/PlayerMarkDetector.cs:550-555 | the calibrated-colour copy always has both dictionaries: the originals where present, empty ones where missing, and two empty ones when there was no calibration |
| PlayerParameters.Clone | mortarkiller/PlayerMarkDetector.cs:523-559 | a clone equals the original in every field but the calibration, which is the normalised copy |
| PlayerParameters.CloneSpec | mortarkiller/PlayerMarkDetector.cs:523-559 | a clone is complete, a complete set of parameters clones to itself, and cloning twice is cloning once |
| PlayerParameters.Jit | mortarkiller/PlayerMarkDetector.cs:952 | an integer jitter always lands in [lo, hi] |
| PlayerParameters.JitD | mortarkiller/PlayerMarkDetector.cs:953 | a real jitter always lands in [lo, hi] |
| PlayerParameters.IndexOf | mortarkiller/PlayerMarkDetector.cs:959 | Array.IndexOf: the first position holding the value, or −1 when there is none |
| PlayerParameters.NextBlurSpec | mortarkiller/PlayerMarkDetector.cs:959 | the blur kernel moves to the next or previous of 3, 5, 7 cyclically, always lands in {3, 5, 7} and changes; a kernel outside the cycle (index −1) goes to 5 or 3 |
| PlayerParameters.ColorIndex | mortarkiller/PlayerMarkDetector.cs:20-22 | each colour has its position in the enum order |
| PlayerParameters.OrderAreas | mortarkiller/PlayerMarkDetector.cs:976 | after the swap the minimum area is the smaller and the maximum the larger of the two, and nothing else changes |
| PlayerParameters.MutatePlayer | mortarkiller/PlayerMarkDetector.cs:950-978 | a HueShift missing any colour throws KeyNotFoundException (None), and exactly then; otherwise the mutation keeps UseHough and carries the cloned calibration |
| PlayerParameters.MutateInBounds | mortarkiller/PlayerMarkDetector.cs:950-978 | whatever the draws and the scale, a mutation that does not throw has every field within its clamp, the blur in {3, 5, 7}, every hue shift within ±20 and the areas ordered |
| PlayerParameters.NextInt | mortarkiller/PlayerMarkDetector.cs:982 | Random.Next(lo, hi) yields a value in [lo, hi) |
| PlayerParameters.RandDRange | mortarkiller/PlayerMarkDetector.cs:983 | RandD(a, b) with a draw in [0, 1) lies in [a, b] |
| PlayerParameters.RandomPlayerParams | mortarkiller/PlayerMarkDetector.cs:980-1009 | a random parameter set has dH in 10..20, dS in 30..120, dV in 30..150, a blur in {3, 5, 7}, open and close in 0..3, the Hough pads in [−8, −2) and [4, 12), hue shifts within ±10, ordered areas, Hough on and an empty calibration |
| PlayerParameters.RandomWithinMutateBounds | mortarkiller/PlayerMarkDetector.cs:980-1009 | a random parameter set already lies inside the mutation clamps |
| PlayerMarks.Median | mortarkiller/PlayerMarkDetector.cs:245-250 | the median of no values is 0 |
| PlayerMarks.MedianWithinSorted | mortarkiller/PlayerMarkDetector.cs:245-250 | the median lies between the smallest and the largest value, and is the middle sorted value for an odd count |
| PlayerMarks.MedianSpec | mortarkiller/PlayerMarkDetector.cs:245-250 | some value is at or below the median and some at or above it; values within [lo, hi] give a median within [lo, hi]; an odd count gives one of the values |
| PlayerMarks.HueDistanceSpec | mortarkiller/PlayerMarkDetector.cs:702-703 | the circular hue distance lies in [0, 90], is symmetric, is zero exactly for equal hues or hues 180 apart, and wraps round 180 |
| PlayerMarks.NearestByHue | mortarkiller/PlayerMarkDetector.cs:697-707 | the chosen colour is the first centre of least circular hue distance; if no distance beats the 1e9 start the first key is kept; for hues in [0, 180] a nearest centre is always chosen |
| PlayerMarks.CreateMask | mortarkiller/PlayerMarkDetector.cs:88-123 | the mask is one or two HSV boxes, with saturation and value bounds clamped into [0, 255] |
| PlayerMarks.CreateMaskSpec | mortarkiller/PlayerMarkDetector.cs:88-123 | a pixel passes the mask exactly when its hue is within dH of the rounded centre hue circularly (except hue 0 when centre + dH is exactly 180) and its saturation and value are within dS and dV of the rounded centre |
| PlayerMarks.ClampWindow | mortarkiller/PlayerMarkDetector.cs:96-99 | a channel value in [0, 255] lies between the clamped bounds exactly when it is within d of the centre |
| PlayerMarks.DetectBestCircleByContour | mortarkiller/PlayerMarkDetector.cs:420-459 | the result and bestR are exactly ContourBest: the scan keeps a contour only when it is accepted (area in range, perimeter above 1, round enough, non-zero moment) and strictly beats the best so far, bestR is that winner's radius (0 when nothing is accepted), and the winner is returned only when its score reaches detectionScoreMin; equivalently, a result is the first accepted contour of greatest circularity × √area, and no result means no accepted contour or a best that scored too low |
| PlayerMarks.HoughRadii | mortarkiller/PlayerMarkDetector.cs:468-470 | the Hough radius range is max(6, avg + minPad) .. min(40, avg + maxPad), around the rounded mean contour radius or 11 when there is none |
| PlayerMarks.LargestCircle | mortarkiller/PlayerMarkDetector.cs:477 | the circle taken is the first of largest radius |
| PlayerMarks.HoughPrediction | mortarkiller/PlayerMarkDetector.cs:475-490 | no circles give nothing; otherwise the largest circle is returned exactly when its area π r² is within [minArea, maxArea], scored by its radius |
| PlayerMarks.Distinct | mortarkiller/PlayerMarkDetector.cs:386-388 | the distinct colours are the same set without repeats |
| PlayerMarks.ColorsToUse | mortarkiller/PlayerMarkDetector.cs:386-388 | the requested colours without repeats, or every colour in enum order when none is requested |
| PlayerMarks.Mod180 | mortarkiller/PlayerMarkDetector.cs:398 | the remainder of a non-negative hue by 180 lies in [0, 180) |
| PlayerMarks.ShiftHueSpec | mortarkiller/PlayerMarkDetector.cs:398 | the shifted hue lies in [0, 180), wrapping by 180 below 0 and at or above 180 |
| PlayerMarks.DetectColor | mortarkiller/PlayerMarkDetector.cs:400-412 | the prediction and the new radii are exactly ColorResult on the mask of the given centre: the contour winner when ContourBest returns one, with its radius appended only when positive; otherwise, when useHough is on, the Hough result with radius bounds from the radii so far and the radii unchanged; otherwise nothing |
| PlayerMarks.ScanContoursColor | mortarkiller/PlayerMarkDetector.cs:450-455 | every winner of the contour scan is a prediction of the colour being scanned |
| PlayerMarks.ColorResultShape | mortarkiller/PlayerMarkDetector.cs:403-412 | a colour's detection only ever predicts that colour, and either keeps the radii or appends one positive radius after them |
| PlayerMarks.DetectSpecShape | mortarkiller/PlayerMarkDetector.cs:393-414 | over distinct colours, DetectSpec yields at most one prediction per colour scanned, each for a scanned colour with a centre, no colour twice, and only positive radii |
| PlayerMarks.Detect | mortarkiller/PlayerMarkDetector.cs:384-418 | a requested colour with a calibrated centre but no HueShift entry throws KeyNotFoundException, reported as the first such colour in order, and exactly then; otherwise the predictions are exactly DetectSpec: for each requested colour in order that has a centre, ColorResult on that centre with its hue moved to (H + HueShift + 180) % 180, threading the contour radii from colour to colour, and avgRadius is the mean of those radii (0 when there are none); at most one prediction per requested colour, each for a colour that has a calibrated centre, no colour twice, and avgRadius non-negative |
| PlayerMarks.RemoveAt | mortarkiller/PlayerMarkDetector.cs:906-907 | List.RemoveAt drops exactly the element at the index and keeps the rest in order |
| PlayerMarks.ClosestUnique | mortarkiller/PlayerMarkDetector.cs:893-903 | the first closest pair in scan order is unique |
| PlayerMarks.FirstMin | mortarkiller/PlayerMarkDetector.cs:898-901 | the first position of the least value |
| PlayerMarks.Row | mortarkiller/PlayerMarkDetector.cs:898-900 | a row holds the distances from one prediction to every remaining ground truth |
| PlayerMarks.RowMins | mortarkiller/PlayerMarkDetector.cs:896-902 | each row's least distance |
| PlayerMarks.ClosestExists | mortarkiller/PlayerMarkDetector.cs:893-903 | two non-empty lists always have a closest pair |
| PlayerMarks.ScanStep | mortarkiller/PlayerMarkDetector.cs:900-901 | one comparison of the scan keeps the first least pair seen so far |
| PlayerMarks.ScanRow | mortarkiller/PlayerMarkDetector.cs:896-902 | finishing a row keeps the first least pair seen so far |
| PlayerMarks.ScanClosest | mortarkiller/PlayerMarkDetector.cs:893-903 | the double loop finds the first closest remaining pair |
| PlayerMarks.GreedyStep | mortarkiller/PlayerMarkDetector.cs:891-908 | greedy matching takes the closest pair and goes on with both removed |
| PlayerMarks.MatchAndScore | mortarkiller/PlayerMarkDetector.cs:885-916 | the total is the greedy matched distances plus missPenalty per unmatched ground truth and fpPenalty per unmatched prediction; the average error is the mean matched distance, or the miss, false-positive or zero fallback |
| PlayerMarks.MatchTotals | mortarkiller/PlayerMarkDetector.cs:910-914 | the running totals at the end of the loop equal the closed forms |
| PlayerMarks.MatchStep | mortarkiller/PlayerMarkDetector.cs:904-907 | one round of the loop adds the next greedy distance |
| PlayerMarks.MatchEnd | mortarkiller/PlayerMarkDetector.cs:892 | when either list is empty all greedy distances have been collected |
| PlayerMarks.GreedyLength | mortarkiller/PlayerMarkDetector.cs:891-908 | greedy matching pairs min(predictions, ground truths) points |
| PlayerMarks.PairsAtLeastRemove | mortarkiller/PlayerMarkDetector.cs:906-907 | removing one of each keeps a lower bound on all pair distances |
| PlayerMarks.GreedyAtLeast | mortarkiller/PlayerMarkDetector.cs:891-908 | every matched distance is at least any lower bound on the pair distances |
| PlayerMarks.GreedyAscending | mortarkiller/PlayerMarkDetector.cs:891-908 | the matched distances come out in ascending order |
| PlayerMarks.SumNonNegative | mortarkiller/PlayerMarkDetector.cs:904 | a sum of non-negative distances is non-negative |
| PlayerMarks.ScoreLowerBound | mortarkiller/PlayerMarkDetector.cs:885-916 | with non-negative distances the total is at least the penalties for the points left unmatched |
| AutoRunner.BuildCentralStrip | mortarkiller/AutoMortarRunner.cs:477-484 | the strip starts at round(w × side), round(h × top) and is at least 1 × 1 |
| AutoRunner.StripInsideFrame | mortarkiller/AutoMortarRunner.cs:477-484 | for crops within the runner's clamps the strip starts inside the frame, never passes its right edge, is centred when there is width left, and stays inside vertically exactly when its top is inside |
| AutoRunner.PanelRoi | mortarkiller/AutoMortarRunner.cs:492-494 | the panel search region starts at column 0 and at least 2 rows down, and is at least 1 × 1 |
| AutoRunner.CloseKernelHeight | mortarkiller/AutoMortarRunner.cs:508-509 | the closing kernel's height is max(9, h / 40), raised by one when even, so always odd and at least 9 |
| AutoRunner.ColumnCount | mortarkiller/AutoMortarRunner.cs:525-527 | a column's count of black mask pixels lies between 0 and the mask height |
| AutoRunner.ColumnCounts | mortarkiller/AutoMortarRunner.cs:523-527 | one count per column of the search region |
| AutoRunner.CountColumns | mortarkiller/AutoMortarRunner.cs:523-527 | the double loop fills the column counts array with exactly those counts |
| AutoRunner.LastHigh | mortarkiller/AutoMortarRunner.cs:534-536 | the last column at or above 94 % black, or −1 when there is none |
| AutoRunner.LowCount | mortarkiller/AutoMortarRunner.cs:549-551 | the number of columns in a window at or below 20 % black, equal to the window size exactly when the whole window is low |
| AutoRunner.Win | mortarkiller/AutoMortarRunner.cs:544 | the quiet window is max(4, w / 900) columns, so at least 4 |
| AutoRunner.FirstQuiet | mortarkiller/AutoMortarRunner.cs:547-558 | the first start column from which a whole window is low, and none only when no start in range qualifies |
| AutoRunner.LeftBand | mortarkiller/AutoMortarRunner.cs:560-562 | the count of high columns among the up to eight ending at the candidate |
| AutoRunner.RightBand | mortarkiller/AutoMortarRunner.cs:564-566 | the count of low columns among the up to 32 after the candidate |
| AutoRunner.CandidateOf | mortarkiller/AutoMortarRunner.cs:545-558 | the candidate is the first quiet window start at or after the last high column, or that column itself |
| AutoRunner.BandWidth | mortarkiller/AutoMortarRunner.cs:565 | the right band spans min(32, rw − 1 − candidate) columns and stays inside the region |
| AutoRunner.MaxCut | mortarkiller/AutoMortarRunner.cs:576 | the upper clamp (int)(w × 0.47) is non-negative |
| AutoRunner.PanelCutSpec | mortarkiller/AutoMortarRunner.cs:486-590 | the panel cut always lies between 0 and (int)(w × 0.47); it is 0 when no column is high, and 0 when fewer than three of the eight columns up to the candidate are high |
| AutoRunner.FindLastHigh | mortarkiller/AutoMortarRunner.cs:534-536 | the loop finds the last high column |
| AutoRunner.CountLow | mortarkiller/AutoMortarRunner.cs:549-551 | the loop counts the low columns of one window |
| AutoRunner.FindCandidate | mortarkiller/AutoMortarRunner.cs:545-558 | the loop finds the candidate column |
| AutoRunner.CountLeftBand | mortarkiller/AutoMortarRunner.cs:560-562 | the loop counts the left band |
| AutoRunner.CountRightBand | mortarkiller/AutoMortarRunner.cs:564-566 | the loop counts the right band |
| AutoRunner.DetectLeftPanelCut | mortarkiller/AutoMortarRunner.cs:486-590 | the left panel cut computed from the mask: 0 without a high column or when the bands do not look like a panel, otherwise the candidate clamped to [0, (int)(w × 0.47)] |
| AutoRunner.LeftBandPastStart | mortarkiller/AutoMortarRunner.cs:561 | the left band stops early at the region's first column |
| AutoRunner.LastDigitEnd | mortarkiller/AutoMortarRunner.cs:631 | the end of the last run of digits: everything after it is not a digit |
| AutoRunner.RunStart | mortarkiller/AutoMortarRunner.cs:631 | the start of the digit run ending there: a maximal run of digits |
| AutoRunner.ExtractAimNumber | mortarkiller/AutoMortarRunner.cs:628-636 | a blank label gives null, and any number returned fits an int |
| AutoRunner.ExtractAimNumberSpec | mortarkiller/AutoMortarRunner.cs:628-636 | the last run of digits is parsed: its value when it fits an int, null when it overflows |
| AutoRunner.NoDigitsNoNumber | mortarkiller/AutoMortarRunner.cs:632 | a label without digits gives null |
| AutoSession.SavedAmong | mortarkiller/AutoMortarRunner.cs:238 | the number of dumped failures among the first n lies between 0 and n |
| AutoSession.SavedAmongFirstFive | mortarkiller/AutoMortarRunner.cs:238 | the first five failures are all dumped |
| AutoSession.SavedAmongCount | mortarkiller/AutoMortarRunner.cs:238 | from five failures on, 5 + (n − 1) / 20 of them are dumped: the first five and then every twentieth |
| AutoSession.Fail | mortarkiller/AutoMortarRunner.cs:236-244 | a failed iteration moves the counter on by one and adds a dump exactly when debugging is on and the throttle lets that failure through |
| AutoSession.FailThrottled | mortarkiller/AutoMortarRunner.cs:236-244 | every failure keeps the dump count equal to the throttled failures since the start |
| AutoSession.PinInWindow | mortarkiller/AutoMortarRunner.cs:216-219 | the phase 1 pin is the strip prediction moved by the strip's offset |
| AutoSession.PhaseOneFrom | mortarkiller/AutoMortarRunner.cs:177-254 | phase 1 ends Done exactly when it has a pin, and the failure counter never decreases |
| AutoSession.PhaseOneFindsFirstPin | mortarkiller/AutoMortarRunner.cs:177-254 | when phase 1 ends Done its pin comes from the first capture that found one before any cancellation, and that first hit always gives the result |
| AutoSession.PhaseOneThrottled | mortarkiller/AutoMortarRunner.cs:177-254 | over phase 1 the dumps are exactly the throttled failures |
| AutoSession.LeftCutOf | mortarkiller/AutoMortarRunner.cs:292 | the black panel's cut is never negative |
| AutoSession.TopMarker | mortarkiller/AutoMortarRunner.cs:329-332 | the best marker is the first of the highest score, and there is none only for no markers |
| AutoSession.MarkerSeen | mortarkiller/AutoMortarRunner.cs:329-332 | FirstOrDefault of the markers sorted by score and moved right by the cut: the top marker, or the origin for none |
| AutoSession.ScaleAfter | mortarkiller/AutoMortarRunner.cs:303-309 | only an accepted reading (success, finite and positive) changes the scale: to the raw value without smoothing, to the updated EWMA value with it; pin, marker and tally are untouched |
| AutoSession.PinAfter | mortarkiller/AutoMortarRunner.cs:317-321 | a pin prediction, moved right by the cut, replaces the earlier pin; no prediction keeps it |
| AutoSession.MarkerAfter | mortarkiller/AutoMortarRunner.cs:329-333 | the best marker replaces the earlier one unless it is the origin; no markers keep it |
| AutoSession.Seen | mortarkiller/AutoMortarRunner.cs:292-333 | what a processed capture finds never touches the failure tally |
| AutoSession.Settle | mortarkiller/AutoMortarRunner.cs:336-378 | an iteration with pin, marker and scale all present is not a failure; any other is counted and throttled |
| AutoSession.PhaseTwoFrom | mortarkiller/AutoMortarRunner.cs:268-382 | phase 2 ends Done exactly when it has the pin, the marker and the scale |
| AutoSession.ScaleKeeps | mortarkiller/AutoMortarRunner.cs:303-309 | a scale once set stays set and stays positive, smoothed or not |
| AutoSession.StepKeeps | mortarkiller/AutoMortarRunner.cs:268-382 | one phase 2 iteration loses nothing found and keeps the scale positive |
| AutoSession.PhaseTwoKeeps | mortarkiller/AutoMortarRunner.cs:268-382 | over phase 2 nothing found is lost, the scale stays positive and the dumps are exactly the throttled failures |
| AutoSession.MeasurementScalePositive | mortarkiller/AutoMortarRunner.cs:389-394 | a finished session always has a positive scale, so the distance can be computed |
| AutoSession.Round2 | mortarkiller/AutoMortarRunner.cs:394 | rounding to two decimals moves a value by at most 0.005 |
| AutoSession.Metres | mortarkiller/AutoMortarRunner.cs:394 | metres × pixels per 100 m equals pixels × 100, and the result is non-negative |
| AutoSession.DistanceMeters | mortarkiller/AutoMortarRunner.cs:393-394 | the distance is non-negative and within 0.005 of the exact pixel distance over the scale times 100 |
| AutoSession.IndexFrom | mortarkiller/AutoMortarRunner.cs:415-423 | the first occurrence of a word at or after a position, or none when there is no occurrence |
| AutoSession.FeedbackSpec | mortarkiller/AutoMortarRunner.cs:415-425 | a beep sounds only for a best label mentioning "short" or "overshoot" and a non-empty second label; it is low exactly when the second label mentions "short", and high exactly when it mentions "overshoot" but not "short"; no best label means silence |
| AutoSession.ContainsMentions | mortarkiller/AutoMortarRunner.cs:416 | string.Contains on the lower-cased label holds exactly when the word occurs in it |
| AutoSession.Runner.constructor | mortarkiller/AutoMortarRunner.cs:85-94 | the interval is clamped to at least 0, the top crop to [0, 0.9] and the side crop to [0, 0.49]; no session, counters at 0, no EWMA |
| AutoSession.Runner.Stop | mortarkiller/AutoMortarRunner.cs:457-463 | after Stop no session is running |
| AutoSession.Runner.RunPhaseOne | mortarkiller/AutoMortarRunner.cs:177-254 | the phase 1 loop ends as the phase 1 function says, with the same pin and failure tally |
| AutoSession.Runner.ReadScale | mortarkiller/AutoMortarRunner.cs:303-309 | the scale part of an iteration matches ScaleAfter, the EWMA state included |
| AutoSession.Runner.LeftCutOfFrame | mortarkiller/AutoMortarRunner.cs:292 | the cut computed on a capture matches the panel-cut function |
| AutoSession.Runner.Observe | mortarkiller/AutoMortarRunner.cs:292-333 | a processed capture updates pin, marker, scale and EWMA as Seen says |
| AutoSession.Runner.FailedInPhaseTwo | mortarkiller/AutoMortarRunner.cs:351-372 | a failed phase 2 iteration updates the counter and dumps as Fail says |
| AutoSession.Runner.RunPhaseTwo | mortarkiller/AutoMortarRunner.cs:268-382 | the phase 2 loop ends as the phase 2 function says, with the same findings, EWMA and tally |
| AutoSession.Runner.Start | mortarkiller/AutoMortarRunner.cs:113-455 | a session stops any earlier one, makes a fresh EWMA exactly when smoothing is on, and yields the measurement of SessionOf: none unless phase 1 found the pin, the map wait was not cancelled and phase 2 found all three pieces; both failure counters restart from 0, so afterwards each holds its phase's throttled failure tally counted from zero (phase 2's stays 0 when phase 2 does not run), with the matching dumps |
| Smoothing.Blend | mortarkiller/ProgramCombined.cs:220 | the blended value's offset from the new sample is (1 − alpha) times the previous value's offset |
| Smoothing.BlendBetween | mortarkiller/ProgramCombined.cs:220 | a blend lies between the previous value and the new sample |
| Smoothing.Next | mortarkiller/ProgramCombined.cs:217-222 | with no state or a non-finite state the sample is taken as is; otherwise a finite sample gives a finite value between the old state and the sample, and a non-finite sample stays non-finite |
| Smoothing.ConstantFixedPoint | mortarkiller/ProgramCombined.cs:217-222 | updating with the value already held leaves it unchanged |
| Smoothing.RepeatDistance | mortarkiller/ProgramCombined.cs:217-222 | after n updates with a constant sample the offset from it has shrunk by (1 − alpha)^n |
| Smoothing.Ewma.Value | mortarkiller/ProgramCombined.cs:224 | Value is NaN before the first update and the state afterwards |
| Smoothing.Ewma.constructor | mortarkiller/ProgramCombined.cs:212-215 | alpha is clamped to [0.01, 1] and there is no state yet |
| Smoothing.Ewma.Update | mortarkiller/ProgramCombined.cs:217-222 | the new state and the returned value are the next smoothed value from the old state |
| Smoothing.Ewma.Reset | mortarkiller/ProgramCombined.cs:225 | the state becomes the seed, none by default |
| CombinedCli.DigitValue | mortarkiller/ProgramCombined.cs:39 | a decimal digit's value lies in 0 .. 9 |
| CombinedCli.Trim | mortarkiller/ProgramCombined.cs:39 | trimming never lengthens, and a non-empty result neither starts nor ends with white space |
| CombinedCli.ParseInt | mortarkiller/ProgramCombined.cs:39 | int.TryParse succeeds only with a value in the 32-bit range |
| CombinedCli.IntervalArg | mortarkiller/ProgramCombined.cs:38-42 | a valid --interval= flag (prefix in any case) sets a non-negative interval, max(0, N) |
| CombinedCli.IntervalLastWins | mortarkiller/ProgramCombined.cs:35-43 | the interval is never negative, is 200 when no flag is valid, and otherwise is the value of the last valid flag |
| CombinedCli.ParseInterval | mortarkiller/ProgramCombined.cs:35-43 | the loop over the arguments after the first four computes that interval, and 200 when there are none |
| CombinedCli.Start | mortarkiller/ProgramCombined.cs:21-56 | fewer than four arguments, a missing parameter file, or grid or players JSON that deserialises to null exit with 1; otherwise the live loop is launched, with all three files, the fourth argument as process name and a non-negative interval |
| UnifiedCli.IndexOf | mortarkiller/ProgramUnified.cs:73 | string.IndexOf: the first position of the character, or −1 exactly when it does not occur |
| UnifiedCli.SplitAlias | mortarkiller/ProgramUnified.cs:71-76 | an alias without a dash, or one that starts with a dash, stays whole; otherwise it splits at the first dash into a non-empty head without a dash and the tail |
| UnifiedCli.SplitAliasJoin | mortarkiller/ProgramUnified.cs:71-76 | joining the parts with a dash gives back the alias |
| UnifiedCli.AliasParts | mortarkiller/ProgramUnified.cs:71-76 | a mode without a dash joined to any sub-command splits back into the two |
| UnifiedCli.Run | mortarkiller/ProgramUnified.cs:11-17 | no arguments, or a null argument list, exit with 1 |
| UnifiedCli.RouteSpec | mortarkiller/ProgramUnified.cs:22-68 | an unknown command exits with 1 and help with 0; combined-live, grid, pin and players pass on the remaining arguments; the dashed aliases pass on the split alias in front of them; grid, pin and player modes are reached only by their own names and aliases |
| UnifiedCli.RunIgnoresCase | mortarkiller/ProgramUnified.cs:19 | commands that differ only in letter case are routed the same way |
| WindowModes.DetectWindowMode | mortarkiller/ScreenshotHelper.cs:140-167 | the window is minimized exactly when WS_MINIMIZE is set; full screen exactly for a visible, clip-siblings, app window that is topmost and neither popup nor minimized; borderless exactly for a visible, clip-siblings, popup app window that is neither minimized nor topmost; unknown otherwise |
| WindowModes.ModeDependsOnFlags | mortarkiller/ScreenshotHelper.cs:145-152 | two windows that agree on the six style bits it reads get the same mode |
| WindowModes.SameFlag | mortarkiller/ScreenshotHelper.cs:145 | values agreeing under a mask agree on every flag inside it |
| WindowModes.CaptureSmart | mortarkiller/ScreenshotHelper.cs:80-95 | no process or a zero window handle gives no image and Unknown; otherwise the mode is the window's detected mode |
| WindowModes.CaptureSmartSpec | mortarkiller/ScreenshotHelper.cs:89-94 | a minimized window gives no image, the screen is grabbed exactly in full-screen mode, and the window itself is printed exactly when it is neither minimized nor full screen |
| WindowModes.CaptureWindow | mortarkiller/ScreenshotHelper.cs:109-130 | a bitmap is made exactly when the handle is non-zero and the window rectangle is known; it is at least 1 × 1 and has the rectangle's size whenever that is positive |
| WindowModes.FirstOfSize | mortarkiller/ScreenshotHelper.cs:206-208 | the first display of the screen's size, or none when no display has it |
| WindowModes.SelectDisplay | mortarkiller/ScreenshotHelper.cs:201-209 | a display is chosen exactly when there is one; it has the screen's size whenever any display does, and it is the first display otherwise |
| WindowModes.OpaqueAlphaPixels | mortarkiller/ScreenshotHelper.cs:47-49 | setting every fourth byte to 255 keeps the length and the blue, green and red of every pixel, makes the alpha 255, and doing it twice is doing it once |
| WindowModes.Blit | mortarkiller/ScreenshotHelper.cs:45 | the buffer receives the captured bytes unchanged |
| WindowModes.FillAlpha | mortarkiller/ScreenshotHelper.cs:48-49 | the loop over i = 3, 7, 11, … makes the buffer the opaque version of what it held |
| WindowModes.DxCapture.constructor | mortarkiller/ScreenshotHelper.cs:20-25 | the capture starts with nothing set up and an empty size |
| WindowModes.DxCapture.Ensure | mortarkiller/ScreenshotHelper.cs:181-217 | when the set-up capture already has the screen's size nothing changes; otherwise with no display it fails with nothing set up, and with displays it sets up the selected display with a fresh buffer |
| WindowModes.DxCapture.CaptureFullScreen | mortarkiller/ScreenshotHelper.cs:27-77 | no bitmap exactly when set-up fails; otherwise a bitmap holding the grabbed frame with opaque alpha, which the buffer also holds, whose size is the old one when the zone already served the screen and otherwise that of the display SelectDisplay picks |
| Dumper.SafeChar | mortarkiller/DebugDumper.cs:36-37 | an invalid file-name character becomes '_' and a space '-', so the result is neither |
| Dumper.Sanitize | mortarkiller/DebugDumper.cs:32-38 | a null name or one made only of char.IsWhiteSpace characters (Unicode spaces included) becomes "noname"; any other keeps its length with every character made safe, so the result holds no invalid character and no space |
| Dumper.SanitizeKeepsSafeNames | mortarkiller/DebugDumper.cs:32-38 | a name that is already safe is left as it is |
| Dumper.FirstInvalid | mortarkiller/DebugDumper.cs:50 | the position of the first invalid file-name character, or the length when there is none |
| Dumper.PiecesClean | mortarkiller/DebugDumper.cs:50 | splitting at invalid characters and dropping empty entries leaves only non-empty pieces without invalid characters |
| Dumper.ConsClean | mortarkiller/DebugDumper.cs:50 | a clean non-empty piece in front of clean pieces keeps them clean |
| Dumper.PiecesOfValidName | mortarkiller/DebugDumper.cs:50 | a non-empty name without invalid characters splits into itself alone |
| Dumper.JoinClean | mortarkiller/DebugDumper.cs:50 | joining clean pieces with a clean separator gives a name without invalid characters |
| Dumper.SafeName | mortarkiller/DebugDumper.cs:50 | the file-name part of a dump never holds an invalid character |
| Dumper.SafeNameKeepsValidNames | mortarkiller/DebugDumper.cs:50 | a non-empty valid name is used as it is |
| Dumper.Digits | mortarkiller/DebugDumper.cs:52 | the decimal digits of a number |
| Dumper.Pad3 | mortarkiller/DebugDumper.cs:52 | the sequence number has at least three digits, zero-padded |
| Dumper.DebugDumper.constructor | mortarkiller/DebugDumper.cs:17-30 | the dumper keeps its root and flag, its session folder is the root joined to the timestamp, followed by the sanitized suffix unless that suffix is null or white space (Unicode spaces included), and when enabled the session note has taken number 1 |
| Dumper.NoBreakSpaceBlank | mortarkiller/DebugDumper.cs:34 | a name of no-break and ideographic spaces is blank, so Sanitize gives "noname" |
| Dumper.DebugDumper.BuildPath | mortarkiller/DebugDumper.cs:47-53 | each path takes the next sequence number and is the category folder joined to the padded number, an underscore, the safe name and the extension |
| Dumper.DebugDumper.Save | mortarkiller/DebugDumper.cs:55-77 | a disabled dumper or a missing image gives "" and uses no number; otherwise the next number is taken and its path returned |
| Dumper.Open | mortarkiller/DebugDumper.cs:17-20 | a null root fails with no dumper; otherwise a fresh dumper with that root and session folder |
| Common.RoundEven | mortarkiller/GridScaleDetector.cs:178 | `Math.Round` to an integer: the result is within one half of its argument, and an exact half goes to the even neighbour |
| Common.LowerString | mortarkiller/ProgramUnified.cs:19 | `ToLowerInvariant` keeps the length and lowers each character independently (ASCII letters only) |
| Sorting.SortBy | mortarkiller/PlayerMarkDetector.cs:247 | `OrderBy` on a numeric key gives a sequence sorted by that key that is a permutation of its input |
| PinEvaluation.SearchSound | mortarkiller/PinDetector.cs:634-711 | the matching search returns either the best it was given or a strictly better score that some one-to-one completion of the current partial assignment achieves |
| PinEvaluation.SearchComplete | mortarkiller/PinDetector.cs:634-711 | with a sound prune the matching search finds an assignment whose score is at most that of any complete assignment |

## Left out

- Pixel work: every OpenCV call is a foreign library, so masks, contours, moments, Hough circles, projections, colour conversion, morphology, resizing and template rendering arrive as inputs. This includes the per-pixel `colCnt` fill in the left-panel scan and the image-to-profile reduction in the grid detector.
- Transcendental maths: square roots, `exp`, `log`, `acos`, `atan2`, π and `GoertzelAmpNorm` are inputs. These are the Goertzel term, the period prior, the anchor margin bonus, the tip angle, the variance's square root and the pixel distance. A pixel distance is given together with the fact that its square is the squared distance.
- Random draws are inputs: the `Sampler.Mutate` and `MutatePlayer` offsets, the shuffled HarmonicMax options and `RandomPlayerParams`. `Sampler.CreateRandomInitial`, `Sampler.Normal` and `DetectorParams.SampleRandom` are not part of this model beyond the clamps their callers apply.
- Concurrency: `EvaluateCandidatesParallel` (Parallel.ForEach with a lock), the async runner task and the progress counters are modelled as the sequential "keep the strictly better result" fold. `Stop` racing a running session is not modelled.
- Cancellation is observed only where the loops read the token. A cancellation that lands inside `Task.Delay` throws and ends the session; the model ends the session at the next test instead, which gives the same outcome.
- Phase 1, cancelled with no pin found, still beeps and presses M before the delay throws. The model records this with `cancelledAtMap` and returns no measurement.
- `AutoSession.Runner.Start` leaves `IsRunning` true after a session ends, as the source does: its token source is only cancelled by `Stop`.
- Phase 2 tests cancellation before it tests completeness. A finished scan gives the same result in either order.
- Timing (`Stopwatch`, metrics), speech synthesis, console output, the `computeSolutions` callback and the static detection counter are not part of this model. Of the beeps, only which one sounds is modelled.
- DebugDumper's file and directory writes are not modelled, nor is `CreateSubDir`. The model counts the files that would be written and builds their names.
- Capture details: `GetWindowLongSafe`'s 64-to-32-bit truncation, the `CaptureScreen` retry loop, the GDI and PrintWindow pixel copies and the exceptions that make a capture return null. The window style arrives as a 32-bit value.
- Not part of this model: the CLI modes of the pin, grid and marker programs (`Run`/`Train`/`Live`), `ParamsIO` and `JsonSerializer` parsing, image caches and diagnostics saving. Whether a parameter file's JSON deserialises to null is an input of `CombinedCli.Start`.
- Also not part of this model: `Trainer.EvaluatePlayers`, `TrainPlayers`, `CalibrateColorsFromGT`, `Utils.MedianCircular`, the HSV median sampling, the grid trainer's driver loop, `TryRecoverFromRawMerge` (dead code) and the WinForms form.
- `double.PositiveInfinity`, `MinValue` and `MaxValue` starting bests are modelled as `Option`/`found` flags.
- Doubles are exact reals:
  - `float` casts (in `MovingAverage`, `ComputeACF` and the player mutation clamps) are not rounded;
  - `Math.Round` to an integer rounds half to even;
  - the two-decimal distance rounding is stated to within 0.005;
  - NaN is not a value, except for the smoother's empty state, which is an explicit flag.
- `\d` and `ToLowerInvariant` are taken over ASCII only. `char.IsWhiteSpace` (behind `string.IsNullOrWhiteSpace`) has its full Unicode set. The white space `int.TryParse` skips is ASCII, as in .NET. Dictionary and hash-set iteration order is sequence order.
- `ColorOps.CreateMask` does not split a hue window that ends exactly at 180, so hue 0 is outside it although 0 and 180 are the same hue. The model keeps this, and `PlayerMarks.CreateMaskSpec` states it as its one exception.
- GridScaleDetector's own `ProgramGrid.EWMA` is the same smoother as `Smoothing.Ewma`, without `Reset`. It is not modelled separately.
- AutoSession.DistanceMeters: does not state that coincident pin and marker give 0 m. The rounding bound is stated instead, because the real square root of 0 is an input here.

## Findings

| source | as written | input that shows it | evidently intended | confidence | as-written member | corrected member |
|---|---|---|---|---|---|---|
| mortarkiller/PinDetector.cs:662 | the prune `cost >= best` compares a partial cost that does not yet include the -40 reward of the matches still to come | eleven coincident prediction/ground-truth pairs, each more than 90 px from the others: the skip-first branch sets best to -20 and the all-matched branch is cut at its root | the minimum over all one-to-one assignments, -440 here | not executed | PinEvaluation.CoincidentEleven | PinEvaluation.BoundedEqualsExhaustive |
| mortarkiller/GridScaleDetector.cs:158 | the near-tie clause `Math.Abs(score - bestScore) < 0.1 && b < bestBase` runs on candidates visited in increasing order, so `b < bestBase` never holds | candidates 10 (score 1.0) and 20 (score 1.05): 20 wins | a candidate within 0.1 of the best score goes to the smaller period, 10 here | not executed | GridDetect.NearTieIgnored | GridDetect.NearTiePreferLower |
| mortarkiller/PinDetector.cs:2858-2859 | the `Dedup` key leaves out NmsRadius, AspectMin, the template fields and the build fractions | a parameter set with a field one step inside its bounds: the up and down moves share a key and the down move is dropped | both moves kept as distinct neighbours | not executed | PinNeighbours.DownMoveLost | PinNeighbours.TwoFullKeys |
| mortarkiller/GridScaleDetector.cs:533-536 | the running sum clamps the outgoing and incoming indices, so it removes `s[0]` while the window has not yet moved and re-adds the last element near the end | `[1, 0, 0, 0, 0]` with window 3: index 1 gives 0 | the mean of the clamped window, 1/3 at index 1 | not executed | GridSignal.MovingAverageCounterexample | GridSignal.MovingAverage |
| mortarkiller/GridScaleDetector.cs:572-575 | the three-point smoothing writes each value back before the next one reads it as its left neighbour | autocorrelation values 3, 0, 0, 0 smoothed over lags 1 and 2: lag 2 becomes 1/3 | the centred average of the raw values, 0 at lag 2 | not executed | GridSignal.InPlaceSmoothingCounterexample | GridSignal.SmoothCentered |

The members that model these places take the variant as a parameter:

- `EvaluateOne` and `EvaluateDataset` take a `Prune`;
- `Dedup`, the neighbour builders and `Optimize` take a `KeyRule`;
- `ComputeACF` takes a smoothing rule.

Each property is proved for the corrected variant. `AsWritten`, `PartialKey` and `InPlace` reproduce the source. `AnalyzeAxis` and the candidate loop of `Detect100m` follow the source as written, because the detector's outputs are stated as the source produces them.

=== FILE: auto_runner.dfy ===
/**
 * AutoRunner: the automatic two-phase measurement of AutoMortarRunner.
 * Phase 1 looks for the pin in a central strip of the game window; phase 2
 * (map open) looks for the pin, the player marker and the map scale on the
 * frame without the black left panel, and ends with the distance in metres.
 * Screenshots, detectors, sounds and speech are outside the model: what
 * each iteration sees is an input, and what is modelled is the runner's own
 * arithmetic, its loops, its counters and its cancellation.
 */
module AutoRunner {
  import opened Common
  import opened Smoothing
  import CombinedCli
  import Dumper

  // ---------------------------------------------------------------- Crops

  /** System.Drawing.Rectangle. */
  datatype Rectangle = Rectangle(x: int, y: int, width: int, height: int)

  const MaxCropTop: real := 0.9
  const MaxCropSide: real := 0.49

  /**
   * BuildCentralStrip: x = round(w * side) cut from both sides, y =
   * round(h * top) cut from the top; width and height at least 1.
   */
  function BuildCentralStrip(w: int, h: int, top: real, side: real): (r: Rectangle)
    ensures r.width >= 1 && r.height >= 1
    ensures r.x == RoundEven(w as real * side) && r.y == RoundEven(h as real * top)
  {
    var x := RoundEven(w as real * side);
    var y := RoundEven(h as real * top);
    Rectangle(x, y, MaxInt(1, w - 2 * x), MaxInt(1, h - y))
  }

  /**
   * With the constructor's clamped fractions the strip lies within the
   * frame's width and is centred whenever the side cuts leave a column; it
   * lies within the frame's height exactly when the top cut leaves a row
   * (for very short frames with a large top fraction it does not).
   */
  lemma {:induction false} StripInsideFrame(w: int, h: int, top: real, side: real)
    requires w >= 1 && h >= 1
    requires 0.0 <= top <= MaxCropTop && 0.0 <= side <= MaxCropSide
    ensures var r := BuildCentralStrip(w, h, top, side);
            0 <= r.x && r.x + r.width <= w && 0 <= r.y
            && (w - 2 * r.x >= 1 ==> r.x + r.width == w - r.x)
            && (r.y + r.height <= h <==> r.y < h)
  {
    var r := BuildCentralStrip(w, h, top, side);
    MulNonNegative(w as real, side);
    MulNonNegative(w as real, MaxCropSide - side);
    MulNonNegative(h as real, top);
    assert r.x as real <= w as real * MaxCropSide + 0.5;
  }

  // ------------------------------------------------- Left-panel detection

  /** The ROI the black panel is looked for in: the left 48% of the frame without 2% at top and bottom. */
  function PanelRoi(w: int, h: int): (r: Rectangle)
    ensures r.x == 0 && r.width >= 1 && r.height >= 1 && r.y >= 2
  {
    var xMax := MaxInt(1, RoundEven(w as real * 0.48));
    var yPad := MaxInt(2, RoundEven(h as real * 0.02));
    Rectangle(0, yPad, xMax, MaxInt(1, h - 2 * yPad))
  }

  /** The height of the closing kernel: max(9, h / 40), made odd. */
  function CloseKernelHeight(h: int): (k: int)
    requires h >= 0
    ensures k >= 9 && k % 2 == 1
    ensures k == MaxInt(9, h / 40) || k == MaxInt(9, h / 40) + 1
  {
    var k := MaxInt(9, h / 40);
    if k % 2 == 0 then k + 1 else k
  }

  /** The mask is rh rows of rw pixels. */
  predicate IsGrid(mask: seq<seq<bool>>, rw: int)
  {
    forall y :: 0 <= y < |mask| ==> |mask[y]| == rw
  }

  /** The number of set pixels in column x. */
  function ColumnCount(mask: seq<seq<bool>>, rw: int, x: int): (r: int)
    requires IsGrid(mask, rw) && 0 <= x < rw
    ensures 0 <= r <= |mask|
    decreases |mask|
  {
    if mask == [] then 0
    else
      var init := mask[..|mask| - 1];
      assert IsGrid(init, rw);
      ColumnCount(init, rw, x) + (if mask[|mask| - 1][x] then 1 else 0)
  }

  /** colCnt: every column's count. */
  function ColumnCounts(mask: seq<seq<bool>>, rw: int): (r: seq<int>)
    requires IsGrid(mask, rw) && rw >= 0
    ensures |r| == rw && forall x :: 0 <= x < rw ==> r[x] == ColumnCount(mask, rw, x)
  {
    seq(rw, x requires 0 <= x < rw => ColumnCount(mask, rw, x))
  }

  /** The counting loop over the mask, row by row. */
  method CountColumns(mask: seq<seq<bool>>, rw: int) returns (colCnt: array<int>)
    requires IsGrid(mask, rw) && rw >= 0
    ensures fresh(colCnt) && colCnt[..] == ColumnCounts(mask, rw)
  {
    colCnt := new int[rw](_ => 0);
    for y := 0 to |mask|
      invariant forall x :: 0 <= x < rw ==> colCnt[x] == ColumnCount(mask[..y], rw, x)
    {
      assert mask[..y + 1][..y] == mask[..y];
      for x := 0 to rw
        invariant forall x' :: 0 <= x' < x ==> colCnt[x'] == ColumnCount(mask[..y + 1], rw, x')
        invariant forall x' :: x <= x' < rw ==> colCnt[x'] == ColumnCount(mask[..y], rw, x')
      {
        if mask[y][x] {
          colCnt[x] := colCnt[x] + 1;
        }
      }
    }
    assert mask[..|mask|] == mask;
  }

  /** A column that is almost entirely black: at least 94% of the rows. */
  predicate IsHigh(c: int, rh: int)
  {
    c as real >= rh as real * 0.94
  }

  /** A column that is mostly not black: at most 20% of the rows. */
  predicate IsLow(c: int, rh: int)
  {
    c as real <= rh as real * 0.20
  }

  /** The last high column before `end`, or -1. */
  function LastHigh(cnt: seq<int>, rh: int, end: int): (r: int)
    requires 0 <= end <= |cnt|
    ensures -1 <= r < end
    ensures r >= 0 ==> IsHigh(cnt[r], rh)
    ensures forall k :: r < k < end ==> !IsHigh(cnt[k], rh)
    decreases end
  {
    if end == 0 then -1
    else if IsHigh(cnt[end - 1], rh) then end - 1
    else LastHigh(cnt, rh, end - 1)
  }

  /** The n columns from x on are all low. */
  predicate AllLow(cnt: seq<int>, rh: int, x: int, n: int)
    requires 0 <= x && 0 <= n && x + n <= |cnt|
  {
    forall k :: x <= k < x + n ==> IsLow(cnt[k], rh)
  }

  /** How many of the n columns from x on are low: all n exactly when they are all low. */
  function LowCount(cnt: seq<int>, rh: int, x: int, n: int): (r: int)
    requires 0 <= x && 0 <= n && x + n <= |cnt|
    ensures 0 <= r <= n
    ensures r == n <==> AllLow(cnt, rh, x, n)
    decreases n
  {
    if n == 0 then 0 else LowCount(cnt, rh, x, n - 1) + (if IsLow(cnt[x + n - 1], rh) then 1 else 0)
  }

  /** The window width: max(4, w / 900). */
  function Win(w: int): (r: int)
    ensures r >= 4
  {
    MaxInt(4, w / 900)
  }

  /**
   * The first x in [from, last] whose window of `win` columns is all low:
   * none of the windows before it is, and there is none when no window is.
   */
  function FirstQuiet(cnt: seq<int>, rh: int, win: int, from: int, last: int): (r: Option<int>)
    requires 0 <= from && 0 <= win && last + win <= |cnt|
    ensures r.Some? ==> from <= r.value <= last && AllLow(cnt, rh, r.value, win)
    ensures r.Some? ==> forall x :: from <= x < r.value ==> !AllLow(cnt, rh, x, win)
    ensures r.None? ==> forall x :: from <= x <= last ==> !AllLow(cnt, rh, x, win)
    decreases last - from + 1
  {
    if from > last then None
    else if LowCount(cnt, rh, from, win) == win then Some(from)
    else FirstQuiet(cnt, rh, win, from + 1, last)
  }

  /** How many of the columns c, c - 1, ..., c - (n - 1) exist and are high. */
  function LeftBand(cnt: seq<int>, rh: int, c: int, n: int): (r: int)
    requires c < |cnt| && 0 <= n
    ensures 0 <= r <= n
    decreases n
  {
    if n == 0 then 0
    else LeftBand(cnt, rh, c, n - 1) + (if c - (n - 1) >= 0 && IsHigh(cnt[c - (n - 1)], rh) then 1 else 0)
  }

  /** How many of the columns c + 1, ..., c + n are low. */
  function RightBand(cnt: seq<int>, rh: int, c: int, n: int): (r: int)
    requires 0 <= c && 0 <= n && c + n < |cnt|
    ensures 0 <= r <= n
    decreases n
  {
    if n == 0 then 0 else RightBand(cnt, rh, c, n - 1) + (if IsLow(cnt[c + n], rh) then 1 else 0)
  }

  /** The window scan's upper end: the window of the last start ends before the last column. */
  function ScanLast(rw: int, win: int): int
  {
    rw - win - 1
  }

  /**
   * The candidate edge: the first start, from the last high column up to the
   * scan's end, of `win` low columns, or the last high column itself.
   */
  function CandidateOf(cnt: seq<int>, rh: int, lastHi: int, win: int): (c: int)
    requires 0 <= lastHi < |cnt| && win >= 0
    ensures lastHi <= c < |cnt|
  {
    var last := ScanLast(|cnt|, win);
    if last < lastHi then lastHi
    else
      var quiet := FirstQuiet(cnt, rh, win, lastHi, last);
      if quiet.Some? then quiet.value else lastHi
  }

  /**
   * The cut DetectLeftPanelCutByDilatedBlack returns for the column counts
   * of its mask: 0 without a high column or without a convincing panel edge,
   * otherwise the candidate edge clamped into [0, (int)(w * 0.47)].
   */
  function PanelCut(cnt: seq<int>, rh: int, w: int): (cut: int)
    requires w >= 0
  {
    var lastHi := LastHigh(cnt, rh, |cnt|);
    if lastHi < 0 then 0
    else
      var candidate := CandidateOf(cnt, rh, lastHi, Win(w));
      var n := BandWidth(|cnt|, candidate);
      if !LooksLikePanel(LeftBand(cnt, rh, candidate, 8), RightBand(cnt, rh, candidate, n), n) then 0
      else ClampInt(candidate, 0, MaxCut(w))
  }

  /** How many columns right of the candidate are looked at: min(32, rw - 1 - candidate). */
  function BandWidth(rw: int, candidate: int): (n: int)
    requires candidate < rw
    ensures 0 <= n <= 32 && candidate + n < rw
  {
    MinInt(32, rw - 1 - candidate)
  }

  /** At least three high columns on the left and 70% low columns on the right. */
  predicate LooksLikePanel(leftBand: int, rightBand: int, n: int)
  {
    leftBand >= 3 && rightBand as real >= n as real * 0.7
  }

  /** (int)(w * 0.47). */
  function MaxCut(w: int): (r: int)
    requires w >= 0
    ensures r >= 0
  {
    MulNonNegative(w as real, 0.47);
    Truncate(w as real * 0.47)
  }

  /**
   * The cut is never negative and never beyond 47% of the width; it is 0
   * when no column is almost all black or when fewer than three of the eight
   * columns up to the candidate are.
   */
  lemma {:induction false} PanelCutSpec(cnt: seq<int>, rh: int, w: int)
    requires w >= 0
    ensures 0 <= PanelCut(cnt, rh, w) <= MaxCut(w)
    ensures (forall k :: 0 <= k < |cnt| ==> !IsHigh(cnt[k], rh)) ==> PanelCut(cnt, rh, w) == 0
    ensures LastHigh(cnt, rh, |cnt|) >= 0
            && LeftBand(cnt, rh, CandidateOf(cnt, rh, LastHigh(cnt, rh, |cnt|), Win(w)), 8) < 3
            ==> PanelCut(cnt, rh, w) == 0
  {
    if forall k :: 0 <= k < |cnt| ==> !IsHigh(cnt[k], rh) {
      assert LastHigh(cnt, rh, |cnt|) == -1;
    }
  }

  /** The loop for the last high column. */
  method FindLastHigh(colCnt: array<int>, rh: int) returns (lastHi: int)
    ensures lastHi == LastHigh(colCnt[..], rh, colCnt.Length)
  {
    lastHi := -1;
    for x := 0 to colCnt.Length
      invariant lastHi == LastHigh(colCnt[..], rh, x)
    {
      if colCnt[x] as real >= rh as real * 0.94 {
        lastHi := x;
      }
    }
  }

  /** The inner loop: how many of the win columns from x are low. */
  method CountLow(colCnt: array<int>, rh: int, x: int, win: int) returns (below: int)
    requires 0 <= x && 0 <= win && x + win <= colCnt.Length
    ensures below == LowCount(colCnt[..], rh, x, win)
  {
    below := 0;
    for j := 0 to win
      invariant below == LowCount(colCnt[..], rh, x, j)
    {
      if colCnt[x + j] as real <= rh as real * 0.20 {
        below := below + 1;
      }
    }
  }

  /** The window scan from the last high column, leaving at the first all-low window. */
  method FindCandidate(colCnt: array<int>, rh: int, lastHi: int, win: int) returns (candidate: int)
    requires 0 <= lastHi < colCnt.Length && win >= 0
    ensures candidate == CandidateOf(colCnt[..], rh, lastHi, win)
  {
    ghost var cnt := colCnt[..];
    ghost var last := ScanLast(colCnt.Length, win);
    candidate := lastHi;
    var x := lastHi;
    while x <= colCnt.Length - win - 1
      invariant lastHi <= x <= last + 1 || last < lastHi
      invariant last >= lastHi ==> FirstQuiet(cnt, rh, win, lastHi, last) == FirstQuiet(cnt, rh, win, x, last)
      decreases colCnt.Length - x
    {
      var below := CountLow(colCnt, rh, x, win);
      if below == win {
        return x;
      }
      x := x + 1;
    }
  }

  /** The loop over the eight columns up to the candidate. */
  method CountLeftBand(colCnt: array<int>, rh: int, candidate: int) returns (leftBand: int)
    requires 0 <= candidate < colCnt.Length
    ensures leftBand == LeftBand(colCnt[..], rh, candidate, 8)
  {
    leftBand := 0;
    var i := 0;
    while i < 8 && candidate - i >= 0
      invariant 0 <= i <= 8 && i <= candidate + 1
      invariant leftBand == LeftBand(colCnt[..], rh, candidate, i)
    {
      if colCnt[candidate - i] as real >= rh as real * 0.94 {
        leftBand := leftBand + 1;
      }
      i := i + 1;
    }
    LeftBandPastStart(colCnt[..], rh, candidate, i);
  }

  /** The loop over the up to 32 columns right of the candidate. */
  method CountRightBand(colCnt: array<int>, rh: int, candidate: int, n: int) returns (rightBand: int)
    requires 0 <= candidate && 0 <= n && candidate + n < colCnt.Length
    ensures rightBand == RightBand(colCnt[..], rh, candidate, n)
  {
    rightBand := 0;
    for k := 1 to n + 1
      invariant rightBand == RightBand(colCnt[..], rh, candidate, k - 1)
    {
      if colCnt[candidate + k] as real <= rh as real * 0.20 {
        rightBand := rightBand + 1;
      }
    }
  }

  /**
   * DetectLeftPanelCutByDilatedBlack after the morphology: the column
   * counts of the cleaned mask, the last high column, the window scan, the
   * two band counts and the clamp.
   */
  method DetectLeftPanelCut(mask: seq<seq<bool>>, rw: int, w: int) returns (cut: int)
    requires IsGrid(mask, rw) && rw >= 0 && w >= 0
    ensures cut == PanelCut(ColumnCounts(mask, rw), |mask|, w)
  {
    var colCnt := CountColumns(mask, rw);
    var rh := |mask|;
    var lastHi := FindLastHigh(colCnt, rh);
    if lastHi < 0 {
      return 0;
    }
    var candidate := FindCandidate(colCnt, rh, lastHi, Win(w));
    var leftBand := CountLeftBand(colCnt, rh, candidate);
    var n := BandWidth(rw, candidate);
    var rightBand := CountRightBand(colCnt, rh, candidate, n);
    if !LooksLikePanel(leftBand, rightBand, n) {
      return 0;
    }
    cut := ClampInt(candidate, 0, MaxCut(w));
  }

  /** Columns left of column 0 add nothing to the left band. */
  lemma {:induction false} LeftBandPastStart(cnt: seq<int>, rh: int, c: int, i: int)
    requires 0 <= i <= 8 && c < |cnt| && (i == 8 || c - i < 0)
    ensures LeftBand(cnt, rh, c, 8) == LeftBand(cnt, rh, c, i)
    decreases 8 - i
  {
    if i < 8 {
      LeftBandPastStart(cnt, rh, c, i + 1);
    }
  }

  // --------------------------------------------------------- Aim number

  /** The end of the last run of digits: 0 when there is no digit. */
  function LastDigitEnd(s: string): (j: int)
    ensures 0 <= j <= |s|
    ensures j > 0 ==> CombinedCli.IsDigit(s[j - 1])
    ensures forall k :: j <= k < |s| ==> !CombinedCli.IsDigit(s[k])
    decreases |s|
  {
    if s == [] then 0
    else if CombinedCli.IsDigit(s[|s| - 1]) then |s|
    else LastDigitEnd(s[..|s| - 1])
  }

  /** The start of the run of digits that ends at j. */
  function RunStart(s: string, j: int): (i: int)
    requires 0 <= j <= |s|
    ensures 0 <= i <= j
    ensures forall k :: i <= k < j ==> CombinedCli.IsDigit(s[k])
    ensures i > 0 ==> !CombinedCli.IsDigit(s[i - 1])
    decreases j
  {
    if j == 0 || !CombinedCli.IsDigit(s[j - 1]) then j else RunStart(s, j - 1)
  }

  /**
   * ExtractAimNumber: null for a blank label, for a label without digits
   * and when the last run of digits (Regex \d+, last match) does not fit an
   * int; otherwise its value.
   */
  function ExtractAimNumber(aimLabel: Option<string>): (r: Option<int>)
    ensures r.Some? ==> 0 <= r.value <= 0x7FFF_FFFF
    ensures Dumper.IsBlank(aimLabel) ==> r.None?
  {
    if Dumper.IsBlank(aimLabel) then None
    else
      var s := aimLabel.value;
      var j := LastDigitEnd(s);
      if j == 0 then None
      else
        var v := CombinedCli.DigitsValue(s[RunStart(s, j)..j]);
        if v <= 0x7FFF_FFFF then Some(v) else None
  }

  /**
   * A label made of a prefix not ending in a digit, a run of digits and a
   * suffix without digits gives the value of that run when it fits an int,
   * and null when it does not.
   */
  lemma {:induction false} ExtractAimNumberSpec(prefix: string, digits: string, suffix: string)
    requires prefix == [] || !CombinedCli.IsDigit(prefix[|prefix| - 1])
    requires digits != [] && forall k :: 0 <= k < |digits| ==> CombinedCli.IsDigit(digits[k])
    requires forall k :: 0 <= k < |suffix| ==> !CombinedCli.IsDigit(suffix[k])
    ensures CombinedCli.DigitsValue(digits) <= 0x7FFF_FFFF
            ==> ExtractAimNumber(Some(prefix + digits + suffix)) == Some(CombinedCli.DigitsValue(digits))
    ensures CombinedCli.DigitsValue(digits) > 0x7FFF_FFFF ==> ExtractAimNumber(Some(prefix + digits + suffix)).None?
  {
    var s := prefix + digits + suffix;
    var e := |prefix| + |digits|;
    assert CombinedCli.IsDigit(s[e - 1]);
    assert !Dumper.IsBlank(Some(s)) by {
      assert !IsWhiteSpace(s[e - 1]);
    }
    assert forall k :: e <= k < |s| ==> s[k] == suffix[k - e];
    var j := LastDigitEnd(s);
    assert j == e;
    var i := RunStart(s, j);
    assert forall k :: |prefix| <= k < e ==> s[k] == digits[k - |prefix|];
    assert |prefix| > 0 ==> s[|prefix| - 1] == prefix[|prefix| - 1];
    assert i == |prefix|;
    assert s[i..j] == digits;
  }

  lemma {:induction false} NoDigitsNoNumber(s: string)
    requires forall k :: 0 <= k < |s| ==> !CombinedCli.IsDigit(s[k])
    ensures ExtractAimNumber(Some(s)).None?
  {
  }
}

=== FILE: auto_session.dfy ===
/**
 * AutoSession: one run of AutoMortarRunner after Start.  Phase 1 repeats
 * captures until the pin is found in the central strip; phase 2 (map open)
 * repeats captures until the pin, the player marker and the map scale have
 * all been seen, each kept from the last capture that showed it.  What every
 * capture shows is an input (a Shot1 or Shot2), and so is the cancellation
 * the loop test sees; the frame dumps of failed iterations are counted.
 */
module AutoSession {
  import opened Common
  import opened Smoothing
  import WindowModes
  import AutoRunner
  import Dumper

  // ------------------------------------------------------- Failed frames

  /** The throttle of the failed-frame dumps: failures 0 to 4 and then every twentieth. */
  predicate SavesFailure(n: int)
  {
    n < 5 || n % 20 == 0
  }

  /** How many of the failures 0 .. n - 1 are dumped. */
  function SavedAmong(n: int): (r: int)
    requires n >= 0
    ensures 0 <= r <= n
    decreases n
  {
    if n == 0 then 0 else SavedAmong(n - 1) + (if SavesFailure(n - 1) then 1 else 0)
  }

  lemma {:induction false} SavedAmongFirstFive(n: int)
    requires 0 <= n <= 5
    ensures SavedAmong(n) == n
    decreases n
  {
    if n > 0 {
      SavedAmongFirstFive(n - 1);
    }
  }

  /** Of the first n >= 5 failures, the first five and one in twenty after them are dumped: 5 + (n - 1) / 20. */
  lemma {:induction false} SavedAmongCount(n: int)
    requires n >= 5
    ensures SavedAmong(n) == 5 + (n - 1) / 20
    decreases n
  {
    if n == 5 {
      SavedAmongFirstFive(5);
    } else {
      SavedAmongCount(n - 1);
      var m := n - 1;
      assert m >= 5 && (SavesFailure(m) <==> m % 20 == 0);
      assert m % 20 == 0 ==> m / 20 == (m - 1) / 20 + 1;
      assert m % 20 != 0 ==> m / 20 == (m - 1) / 20;
    }
  }

  /** The failure counter (_p1FailSaved / _p2FailSaved) and the number of failed frames dumped. */
  datatype Tally = Tally(failSaved: int, dumps: int)

  /** One failed iteration: its frame is dumped when there is a dumper and the throttle lets it through; the counter moves on. */
  function Fail(t: Tally, dbgOn: bool): (r: Tally)
    ensures r.failSaved == t.failSaved + 1
    ensures r.dumps == t.dumps + (if dbgOn && SavesFailure(t.failSaved) then 1 else 0)
  {
    Tally(t.failSaved + 1, t.dumps + if dbgOn && (t.failSaved < 5 || t.failSaved % 20 == 0) then 1 else 0)
  }

  /** From t0 to t, the dumps are exactly the throttled failures in between (none without a dumper). */
  predicate Throttled(t0: Tally, t: Tally, dbgOn: bool)
  {
    0 <= t0.failSaved <= t.failSaved
    && t.dumps - t0.dumps == (if dbgOn then SavedAmong(t.failSaved) - SavedAmong(t0.failSaved) else 0)
  }

  lemma {:induction false} FailThrottled(t0: Tally, t: Tally, dbgOn: bool)
    requires Throttled(t0, t, dbgOn)
    ensures Throttled(t0, Fail(t, dbgOn), dbgOn)
  {
    assert SavedAmong(t.failSaved + 1) == SavedAmong(t.failSaved) + (if SavesFailure(t.failSaved) then 1 else 0);
  }

  // ------------------------------------------------------------- Phases

  /** How a phase loop ends: its goal reached, cancelled at the loop test, or still searching when the captures run out. */
  datatype Ending = Done | Stopped | Searching

  /** A capture that is processed: the window is not minimized and a frame came back. */
  predicate Usable(mode: WindowModes.WindowMode, frame: Option<WindowModes.Size>)
  {
    mode != WindowModes.FullScreenMinimized && frame.Some?
  }

  // -------------------------------------------------------------- Phase 1

  /**
   * One iteration of phase 1: whether the token was cancelled at the loop
   * test, the capture (window mode and frame size) and the first pin
   * prediction of the detector in the central strip, in strip coordinates.
   */
  datatype Shot1 = Shot1(cancelled: bool, mode: WindowModes.WindowMode, frame: Option<WindowModes.Size>, pin: Option<Point>)

  /** The end of phase 1: the pin in window coordinates when found, and the failure tally. */
  datatype PhaseOne = PhaseOne(ending: Ending, pin: Option<Point>, tally: Tally)

  /** The strip a frame is cropped to. */
  function StripOf(frame: WindowModes.Size, top: real, side: real): AutoRunner.Rectangle
  {
    AutoRunner.BuildCentralStrip(frame.width, frame.height, top, side)
  }

  /** The pin found in a capture, moved from strip to window coordinates. */
  function PinInWindow(shot: Shot1, top: real, side: real): (p: Point)
    requires shot.frame.Some? && shot.pin.Some?
    ensures p.x - shot.pin.value.x == StripOf(shot.frame.value, top, side).x
    ensures p.y - shot.pin.value.y == StripOf(shot.frame.value, top, side).y
  {
    var crop := StripOf(shot.frame.value, top, side);
    Point(shot.pin.value.x + crop.x, shot.pin.value.y + crop.y)
  }

  /** Capture i finds the pin. */
  predicate Hit1(shot: Shot1)
  {
    Usable(shot.mode, shot.frame) && shot.pin.Some?
  }

  /** Phase 1 from capture i on, with the tally so far. */
  function PhaseOneFrom(shots: seq<Shot1>, i: int, top: real, side: real, dbgOn: bool, t: Tally): (r: PhaseOne)
    requires 0 <= i <= |shots|
    ensures r.ending == Done <==> r.pin.Some?
    ensures r.tally.failSaved >= t.failSaved
    decreases |shots| - i
  {
    if i == |shots| then PhaseOne(Searching, None, t)
    else if shots[i].cancelled then PhaseOne(Stopped, None, t)
    else if !Usable(shots[i].mode, shots[i].frame) then PhaseOneFrom(shots, i + 1, top, side, dbgOn, t)
    else if shots[i].pin.Some? then PhaseOne(Done, Some(PinInWindow(shots[i], top, side)), t)
    else PhaseOneFrom(shots, i + 1, top, side, dbgOn, Fail(t, dbgOn))
  }

  /** Capture k is the first that finds the pin, and no cancellation is seen from i up to it. */
  predicate FirstHit1(shots: seq<Shot1>, i: int, k: int)
    requires 0 <= i <= k < |shots|
  {
    !shots[k].cancelled && Hit1(shots[k])
    && forall j :: i <= j < k ==> !shots[j].cancelled && !Hit1(shots[j])
  }

  /**
   * Phase 1 ends with the pin exactly when some capture finds it before any
   * cancellation, and then the pin is that of the first such capture, moved
   * by the strip's offset.
   */
  lemma {:induction false} PhaseOneFindsFirstPin(shots: seq<Shot1>, i: int, top: real, side: real, dbgOn: bool, t: Tally)
    requires 0 <= i <= |shots|
    ensures forall k :: i <= k < |shots| && FirstHit1(shots, i, k)
                        ==> PhaseOneFrom(shots, i, top, side, dbgOn, t).pin == Some(PinInWindow(shots[k], top, side))
    ensures PhaseOneFrom(shots, i, top, side, dbgOn, t).ending == Done
            ==> exists k :: i <= k < |shots| && FirstHit1(shots, i, k)
    decreases |shots| - i
  {
    if i < |shots| && !shots[i].cancelled && !Hit1(shots[i]) {
      var t' := if Usable(shots[i].mode, shots[i].frame) then Fail(t, dbgOn) else t;
      PhaseOneFindsFirstPin(shots, i + 1, top, side, dbgOn, t');
      assert PhaseOneFrom(shots, i, top, side, dbgOn, t) == PhaseOneFrom(shots, i + 1, top, side, dbgOn, t');
      forall k | i <= k < |shots| && FirstHit1(shots, i, k)
        ensures FirstHit1(shots, i + 1, k)
      {
      }
      if PhaseOneFrom(shots, i, top, side, dbgOn, t).ending == Done {
        var k :| i + 1 <= k < |shots| && FirstHit1(shots, i + 1, k);
        assert FirstHit1(shots, i, k);
      }
    } else if i < |shots| && !shots[i].cancelled {
      assert FirstHit1(shots, i, i);
      forall k | i <= k < |shots| && FirstHit1(shots, i, k)
        ensures k == i
      {
      }
    }
  }

  /** Phase 1 dumps exactly the throttled failures. */
  lemma {:induction false} PhaseOneThrottled(shots: seq<Shot1>, i: int, top: real, side: real, dbgOn: bool, t0: Tally, t: Tally)
    requires 0 <= i <= |shots| && Throttled(t0, t, dbgOn)
    ensures Throttled(t0, PhaseOneFrom(shots, i, top, side, dbgOn, t).tally, dbgOn)
    decreases |shots| - i
  {
    if i < |shots| && !shots[i].cancelled && !Hit1(shots[i]) {
      if Usable(shots[i].mode, shots[i].frame) {
        FailThrottled(t0, t, dbgOn);
        PhaseOneThrottled(shots, i + 1, top, side, dbgOn, t0, Fail(t, dbgOn));
      } else {
        PhaseOneThrottled(shots, i + 1, top, side, dbgOn, t0, t);
      }
    }
  }

  // -------------------------------------------------------------- Phase 2

  /** The grid detector's answer: Success and PxPer100m. */
  datatype GridReading = GridReading(success: bool, pxPer100m: Double)

  /** A player marker candidate: its score and its position in the work area. */
  datatype Marker = Marker(score: real, at: Point)

  /**
   * One iteration of phase 2: the cancellation seen at the loop test, the
   * capture, the cleaned mask of near-black pixels in the panel ROI, the
   * grid reading, the first pin prediction and the marker candidates, all
   * on the work area right of the panel cut.
   */
  datatype Shot2 = Shot2(cancelled: bool, mode: WindowModes.WindowMode, frame: Option<WindowModes.Size>,
                         mask: seq<seq<bool>>, grid: GridReading, pin: Option<Point>, markers: seq<Marker>)

  /** The mask has the ROI's width in every row of a processed frame. */
  predicate WellFormed(shot: Shot2)
  {
    shot.frame.Some? ==> shot.frame.value.width >= 0
                         && AutoRunner.IsGrid(shot.mask, AutoRunner.PanelRoi(shot.frame.value.width, shot.frame.value.height).width)
  }

  predicate AllWellFormed(shots: seq<Shot2>)
  {
    forall k :: 0 <= k < |shots| ==> WellFormed(shots[k])
  }

  /** The black panel's cut for a processed capture. */
  function LeftCutOf(shot: Shot2): (cut: int)
    requires WellFormed(shot) && shot.frame.Some?
    ensures 0 <= cut
  {
    var f := shot.frame.value;
    var rw := AutoRunner.PanelRoi(f.width, f.height).width;
    AutoRunner.PanelCutSpec(AutoRunner.ColumnCounts(shot.mask, rw), |shot.mask|, f.width);
    AutoRunner.PanelCut(AutoRunner.ColumnCounts(shot.mask, rw), |shot.mask|, f.width)
  }

  /** A reading is taken when it succeeded with a finite, positive scale. */
  predicate Accepted(g: GridReading)
  {
    g.success && g.pxPer100m.Finite? && g.pxPer100m.v > 0.0
  }

  /** The EWMA's weight in the runner. */
  const SmoothingAlpha: real := 0.25

  /** The index of the best marker: the first of the highest score (a stable descending sort), -1 for none. */
  function TopMarker(ms: seq<Marker>): (k: int)
    ensures ms == [] <==> k == -1
    ensures ms != [] ==> 0 <= k < |ms|
                         && (forall j :: 0 <= j < |ms| ==> ms[j].score <= ms[k].score)
                         && (forall j :: 0 <= j < k ==> ms[j].score < ms[k].score)
    decreases |ms|
  {
    if ms == [] then -1
    else
      var k := TopMarker(ms[..|ms| - 1]);
      if k == -1 || ms[|ms| - 1].score > ms[k].score then |ms| - 1 else k
  }

  /** FirstOrDefault of the markers moved right by the cut: the origin when there is none. */
  function MarkerSeen(ms: seq<Marker>, leftCut: int): (p: Point)
    ensures ms == [] ==> p == Point(0, 0)
    ensures ms != [] ==> p.x - leftCut == ms[TopMarker(ms)].at.x && p.y == ms[TopMarker(ms)].at.y
  {
    var k := TopMarker(ms);
    if k == -1 then Point(0, 0) else Point(ms[k].at.x + leftCut, ms[k].at.y)
  }

  /** What phase 2 has found so far, the EWMA's state and the failure tally. */
  datatype Scan = Scan(pin: Option<Point>, marker: Option<Point>, px: Option<real>, ewma: Option<Double>, tally: Tally)

  /** The three pieces of phase 2 are all there. */
  predicate Complete(s: Scan)
  {
    s.pin.Some? && s.marker.Some? && s.px.Some?
  }

  /** The scale after a reading: a new value when the reading is accepted (smoothed or raw), the old one otherwise. */
  function ScaleAfter(g: GridReading, smooth: bool, s: Scan): (r: Scan)
    ensures r.pin == s.pin && r.marker == s.marker && r.tally == s.tally
    ensures !Accepted(g) ==> r == s
    ensures Accepted(g) && !smooth ==> r.px == Some(g.pxPer100m.v) && r.ewma == s.ewma
    ensures Accepted(g) && smooth ==> r.ewma.Some? && r.ewma.value.Finite? && r.px == Some(r.ewma.value.v)
  {
    if !Accepted(g) then s
    else if !smooth then s.(px := Some(g.pxPer100m.v))
    else
      var n := Next(SmoothingAlpha, s.ewma, g.pxPer100m);
      s.(px := Some(n.v), ewma := Some(n))
  }

  /** A pin prediction, moved right by the cut, replaces the pin found before. */
  function PinAfter(pin: Option<Point>, found: Option<Point>, cut: int): (r: Option<Point>)
    ensures found.None? ==> r == pin
    ensures found.Some? ==> r == Some(Point(found.value.x + cut, found.value.y))
  {
    if found.Some? then Some(Point(found.value.x + cut, found.value.y)) else pin
  }

  /** The best marker, moved right by the cut, replaces the one found before unless it is the origin. */
  function MarkerAfter(marker: Option<Point>, ms: seq<Marker>, cut: int): (r: Option<Point>)
    ensures ms == [] ==> r == marker
    ensures MarkerSeen(ms, cut) != Point(0, 0) ==> r == Some(MarkerSeen(ms, cut))
  {
    var m := MarkerSeen(ms, cut);
    if m != Point(0, 0) then Some(m) else marker
  }

  /** The findings after a processed capture: each piece seen now replaces the earlier one. */
  function Seen(shot: Shot2, cut: int, smooth: bool, s: Scan): (r: Scan)
    ensures r.tally == s.tally
  {
    ScaleAfter(shot.grid, smooth, s).(pin := PinAfter(s.pin, shot.pin, cut), marker := MarkerAfter(s.marker, shot.markers, cut))
  }

  /** One iteration of phase 2 on a capture. */
  function Step2(shot: Shot2, smooth: bool, dbgOn: bool, s: Scan): (r: Scan)
    requires WellFormed(shot)
  {
    if !Usable(shot.mode, shot.frame) then s else Settle(Seen(shot, LeftCutOf(shot), smooth, s), dbgOn)
  }

  /** The end of an iteration: unless all three pieces are there, it counts as a failure. */
  function Settle(s: Scan, dbgOn: bool): (r: Scan)
    ensures Complete(s) ==> r == s
    ensures !Complete(s) ==> r == s.(tally := Fail(s.tally, dbgOn))
  {
    if Complete(s) then s else s.(tally := Fail(s.tally, dbgOn))
  }

  /** The end of phase 2. */
  datatype PhaseTwo = PhaseTwo(ending: Ending, scan: Scan)

  /** Phase 2 from capture i on. */
  function PhaseTwoFrom(shots: seq<Shot2>, i: int, smooth: bool, dbgOn: bool, s: Scan): (r: PhaseTwo)
    requires 0 <= i <= |shots| && AllWellFormed(shots)
    ensures r.ending == Done <==> Complete(r.scan)
    decreases |shots| - i
  {
    if Complete(s) then PhaseTwo(Done, s)
    else if i == |shots| then PhaseTwo(Searching, s)
    else if shots[i].cancelled then PhaseTwo(Stopped, s)
    else PhaseTwoFrom(shots, i + 1, smooth, dbgOn, Step2(shots[i], smooth, dbgOn, s))
  }

  /** A piece once found stays found; a positive smoothed or raw scale stays positive. */
  predicate Kept(s0: Scan, s: Scan)
  {
    (s0.pin.Some? ==> s.pin.Some?) && (s0.marker.Some? ==> s.marker.Some?) && (s0.px.Some? ==> s.px.Some?)
  }

  /** The scale and the EWMA's state are positive whenever they are set. */
  predicate PositiveScale(s: Scan)
  {
    (s.px.Some? ==> s.px.value > 0.0) && (s.ewma.Some? ==> s.ewma.value.Finite? && s.ewma.value.v > 0.0)
  }

  lemma {:induction false} ScaleKeeps(g: GridReading, smooth: bool, s: Scan)
    requires PositiveScale(s)
    ensures Kept(s, ScaleAfter(g, smooth, s)) && PositiveScale(ScaleAfter(g, smooth, s))
  {
    if Accepted(g) && smooth && s.ewma.Some? {
      BlendBetween(SmoothingAlpha, s.ewma.value.v, g.pxPer100m.v);
    }
  }

  lemma {:induction false} StepKeeps(shot: Shot2, smooth: bool, dbgOn: bool, s: Scan)
    requires WellFormed(shot) && PositiveScale(s)
    ensures Kept(s, Step2(shot, smooth, dbgOn, s)) && PositiveScale(Step2(shot, smooth, dbgOn, s))
  {
    if Usable(shot.mode, shot.frame) {
      ScaleKeeps(shot.grid, smooth, s);
      var s1 := ScaleAfter(shot.grid, smooth, s);
      var s' := Seen(shot, LeftCutOf(shot), smooth, s);
      assert s'.px == s1.px && s'.ewma == s1.ewma;
      assert s.pin.Some? ==> s'.pin.Some?;
      assert s.marker.Some? ==> s'.marker.Some?;
    }
  }

  /**
   * Over phase 2 nothing found is lost, the scale is always positive, and
   * the failed frames dumped are exactly the throttled ones.
   */
  lemma {:induction false} PhaseTwoKeeps(shots: seq<Shot2>, i: int, smooth: bool, dbgOn: bool, t0: Tally, s: Scan)
    requires 0 <= i <= |shots| && AllWellFormed(shots)
    requires PositiveScale(s) && Throttled(t0, s.tally, dbgOn)
    ensures Kept(s, PhaseTwoFrom(shots, i, smooth, dbgOn, s).scan)
    ensures PositiveScale(PhaseTwoFrom(shots, i, smooth, dbgOn, s).scan)
    ensures Throttled(t0, PhaseTwoFrom(shots, i, smooth, dbgOn, s).scan.tally, dbgOn)
    decreases |shots| - i
  {
    if !Complete(s) && i < |shots| && !shots[i].cancelled {
      var s' := Step2(shots[i], smooth, dbgOn, s);
      StepKeeps(shots[i], smooth, dbgOn, s);
      if Usable(shots[i].mode, shots[i].frame) && !Complete(Seen(shots[i], LeftCutOf(shots[i]), smooth, s)) {
        FailThrottled(t0, s.tally, dbgOn);
      }
      PhaseTwoKeeps(shots, i + 1, smooth, dbgOn, t0, s');
    }
  }

  // -------------------------------------------------------------- Session

  /** What a finished session measures: the pin's row from phase 1, the pin and marker on the map, the scale. */
  datatype Measurement = Measurement(pinY: int, pin: Point, marker: Point, pxPer100: real)

  /** The state phase 2 starts from. */
  function Fresh(): Scan
  {
    Scan(None, None, None, None, Tally(0, 0))
  }

  /**
   * A whole session from Start: phase 1, the wait after pressing M (which
   * ends the session when the token is cancelled by then), phase 2, and the
   * measurement when phase 2 found all three pieces.
   */
  function SessionOf(shots1: seq<Shot1>, cancelledAtMap: bool, shots2: seq<Shot2>,
                     top: real, side: real, dbgOn: bool, smooth: bool): (r: Option<Measurement>)
    requires AllWellFormed(shots2)
  {
    var one := PhaseOneFrom(shots1, 0, top, side, dbgOn, Tally(0, 0));
    if one.ending != Done || cancelledAtMap then None
    else
      var two := PhaseTwoFrom(shots2, 0, smooth, dbgOn, Fresh());
      if two.ending != Done then None
      else Some(Measurement(one.pin.value.y, two.scan.pin.value, two.scan.marker.value, two.scan.px.value))
  }

  /** A measurement always carries a positive scale, so the distance can be computed. */
  lemma {:induction false} MeasurementScalePositive(shots1: seq<Shot1>, cancelledAtMap: bool, shots2: seq<Shot2>,
                                                    top: real, side: real, dbgOn: bool, smooth: bool)
    requires AllWellFormed(shots2)
    ensures var r := SessionOf(shots1, cancelledAtMap, shots2, top, side, dbgOn, smooth);
            r.Some? ==> r.value.pxPer100 > 0.0
  {
    PhaseTwoKeeps(shots2, 0, smooth, dbgOn, Tally(0, 0), Fresh());
  }

  // --------------------------------------------------------------- Result

  /** Math.Round(x, 2): to the nearest hundredth, ties to even. */
  function Round2(x: real): (r: real)
    ensures -0.005 <= r - x <= 0.005
  {
    RoundEven(x * 100.0) as real / 100.0
  }

  /** A non-negative pixel distance over a positive scale, in metres. */
  function Metres(distPx: real, pxPer100: real): (r: real)
    requires distPx >= 0.0 && pxPer100 > 0.0
    ensures r >= 0.0 && r * pxPer100 == distPx * 100.0
  {
    var q := distPx / pxPer100;
    assert q * pxPer100 == distPx;
    MulNonNegative(q, pxPer100);
    q * 100.0
  }

  /**
   * distanceMeters: the pixel distance from pin to marker (its square root
   * is given as distPx) over the pixels per 100 m, in metres, to two decimals.
   */
  function DistanceMeters(m: Measurement, distPx: real): (r: real)
    requires m.pxPer100 > 0.0 && distPx >= 0.0 && distPx * distPx == SqDist(m.pin, m.marker) as real
    ensures r >= 0.0
    ensures -0.005 <= r - Metres(distPx, m.pxPer100) <= 0.005
  {
    Round2(Metres(distPx, m.pxPer100))
  }

  // ------------------------------------------------------------- Feedback

  /** t occurs in s at position i. */
  predicate OccursAt(s: string, t: string, i: int)
  {
    0 <= i && i + |t| <= |s| && s[i..i + |t|] == t
  }

  /** The first position from i on where t occurs in s. */
  function IndexFrom(s: string, t: string, i: int): (r: Option<int>)
    requires 0 <= i
    ensures r.Some? ==> i <= r.value && OccursAt(s, t, r.value)
                        && forall k :: i <= k < r.value ==> !OccursAt(s, t, k)
    ensures r.None? ==> forall k :: i <= k ==> !OccursAt(s, t, k)
    decreases |s| - i
  {
    if i + |t| > |s| then None
    else if s[i..i + |t|] == t then Some(i)
    else IndexFrom(s, t, i + 1)
  }

  /** string.Contains. */
  predicate Contains(s: string, t: string)
  {
    IndexFrom(s, t, 0).Some?
  }

  /** The lower-cased label, "" for null. */
  function Lowered(text: Option<string>): string
  {
    LowerString(if text.None? then "" else text.value)
  }

  /** The best solution is green when its label mentions neither "short" nor "overshoot", in any case. */
  predicate Green(best: Option<string>)
  {
    !(Contains(Lowered(best), "short") || Contains(Lowered(best), "overshoot"))
  }

  /** The sounds after the result: BeepLow, BeepHigh or none. */
  datatype Beep = Silent | Low | High

  /**
   * When the best solution is not green and there is a second one, its label
   * decides: "short" beeps low, otherwise "overshoot" beeps high.
   */
  function Feedback(best: Option<string>, second: Option<string>): Beep
  {
    if Green(best) || second.None? || second.value == [] then Silent
    else if Contains(Lowered(second), "short") then Low
    else if Contains(Lowered(second), "overshoot") then High
    else Silent
  }

  /** Some position of the lower-cased label holds the word. */
  ghost predicate Mentions(text: Option<string>, word: string)
  {
    exists i :: OccursAt(Lowered(text), word, i)
  }

  /**
   * A beep sounds only for a best label mentioning "short" or "overshoot"
   * and a non-empty second label; it is low exactly when the second label
   * mentions "short", high exactly when it mentions "overshoot" and not
   * "short".  No best label at all counts as green.
   */
  lemma {:induction false} FeedbackSpec(best: Option<string>, second: Option<string>)
    ensures Feedback(best, second) != Silent
            ==> (Mentions(best, "short") || Mentions(best, "overshoot")) && second.Some? && second.value != []
    ensures Feedback(best, second) == Low
            <==> !Green(best) && second.Some? && second.value != [] && Mentions(second, "short")
    ensures Feedback(best, second) == High
            <==> !Green(best) && second.Some? && second.value != []
                 && !Mentions(second, "short") && Mentions(second, "overshoot")
    ensures best.None? ==> Feedback(best, second) == Silent
  {
    ContainsMentions(best, "short");
    ContainsMentions(best, "overshoot");
    ContainsMentions(second, "short");
    ContainsMentions(second, "overshoot");
    if best.None? {
      assert Lowered(best) == [];
    }
  }

  lemma {:induction false} ContainsMentions(text: Option<string>, word: string)
    ensures Contains(Lowered(text), word) <==> Mentions(text, word)
  {
    var r := IndexFrom(Lowered(text), word, 0);
    if r.None? {
      forall i | OccursAt(Lowered(text), word, i)
        ensures false
      {
      }
    }
  }

  // --------------------------------------------------------------- Runner

  /**
   * AutoMortarRunner's own state: its settings (clamped by the
   * constructor), whether a session's cancellation source exists, the two
   * failure counters and the EWMA of the map scale.
   */
  class Runner {
    const intervalMs: int
    const cropTop: real
    const cropSide: real
    const enableDebug: bool
    const useScaleSmoothing: bool
    var running: bool
    var p1FailSaved: int
    var p2FailSaved: int
    var ewma: Ewma?

    constructor (interval: int, top: real, side: real, debug: bool, smoothing: bool)
      ensures intervalMs == MaxInt(0, interval)
      ensures cropTop == ClampReal(top, 0.0, AutoRunner.MaxCropTop)
      ensures cropSide == ClampReal(side, 0.0, AutoRunner.MaxCropSide)
      ensures enableDebug == debug && useScaleSmoothing == smoothing
      ensures !running && p1FailSaved == 0 && p2FailSaved == 0 && ewma == null
    {
      intervalMs := MaxInt(0, interval);
      cropTop := ClampReal(top, 0.0, AutoRunner.MaxCropTop);
      cropSide := ClampReal(side, 0.0, AutoRunner.MaxCropSide);
      enableDebug := debug;
      useScaleSmoothing := smoothing;
      running := false;
      p1FailSaved, p2FailSaved := 0, 0;
      ewma := null;
    }

    /** IsRunning: a session's cancellation source exists and was not cancelled. */
    predicate IsRunning()
      reads this
    {
      running
    }

    /** The EWMA's state, none without an EWMA. */
    function EwmaState(): Option<Double>
      reads this, ewma
    {
      if ewma == null then None else ewma.s
    }

    /** With smoothing on there is an EWMA of weight 0.25. */
    predicate SmoothingReady()
      reads this
    {
      useScaleSmoothing ==> ewma != null && ewma.alpha == SmoothingAlpha
    }

    /** Stop: cancels and drops the session's cancellation source, if any. */
    method Stop()
      modifies this`running
      ensures !running
    {
      if !running {
        return;
      }
      running := false;
    }

    /** The phase 1 loop, from the current failure counter. */
    method RunPhaseOne(shots: seq<Shot1>) returns (ending: Ending, pin1: Option<Point>, dumps: int)
      modifies this`p1FailSaved
      ensures PhaseOne(ending, pin1, Tally(p1FailSaved, dumps))
              == PhaseOneFrom(shots, 0, cropTop, cropSide, enableDebug, Tally(old(p1FailSaved), 0))
    {
      ghost var goal := PhaseOneFrom(shots, 0, cropTop, cropSide, enableDebug, Tally(p1FailSaved, 0));
      dumps := 0;
      pin1 := None;
      var i := 0;
      while i < |shots| && !shots[i].cancelled && pin1.None?
        invariant 0 <= i <= |shots|
        invariant pin1.None? ==> PhaseOneFrom(shots, i, cropTop, cropSide, enableDebug, Tally(p1FailSaved, dumps)) == goal
        invariant pin1.Some? ==> goal == PhaseOne(Done, pin1, Tally(p1FailSaved, dumps))
      {
        var shot := shots[i];
        i := i + 1;
        if !Usable(shot.mode, shot.frame) {
          continue;
        }
        var crop := AutoRunner.BuildCentralStrip(shot.frame.value.width, shot.frame.value.height, cropTop, cropSide);
        if shot.pin.Some? {
          pin1 := Some(Point(shot.pin.value.x + crop.x, shot.pin.value.y + crop.y));
        } else {
          if enableDebug && (p1FailSaved < 5 || p1FailSaved % 20 == 0) {
            dumps := dumps + 1;
          }
          p1FailSaved := p1FailSaved + 1;
        }
      }
      ending := if pin1.Some? then Done else if i < |shots| then Stopped else Searching;
    }

    /** The scale part of a phase 2 iteration: an accepted reading replaces pxPer100, through the EWMA when smoothing. */
    method ReadScale(g: GridReading, pxPer100: Option<real>, ghost s: Scan) returns (px: Option<real>)
      requires SmoothingReady() && s.px == pxPer100 && s.ewma == EwmaState()
      modifies ewma
      ensures ScaleAfter(g, useScaleSmoothing, s) == s.(px := px, ewma := EwmaState())
    {
      px := pxPer100;
      if g.success && g.pxPer100m.Finite? && g.pxPer100m.v > 0.0 {
        var val := g.pxPer100m;
        if useScaleSmoothing {
          val := ewma.Update(val);
        }
        px := Some(val.v);
      }
    }

    /** DetectLeftPanelCutByDilatedBlack on a processed capture: the panel ROI of the frame and its cleaned mask. */
    static method LeftCutOfFrame(shot: Shot2) returns (cut: int)
      requires WellFormed(shot) && shot.frame.Some?
      ensures cut == LeftCutOf(shot)
    {
      var f := shot.frame.value;
      cut := AutoRunner.DetectLeftPanelCut(shot.mask, AutoRunner.PanelRoi(f.width, f.height).width, f.width);
    }

    /** What one processed capture of phase 2 finds right of the cut, before the failure check. */
    method Observe(shot: Shot2, leftCut: int, pin2: Option<Point>, marker2: Option<Point>, pxPer100: Option<real>, ghost t: Tally)
      returns (pin: Option<Point>, marker: Option<Point>, px: Option<real>)
      requires SmoothingReady()
      modifies ewma
      ensures Seen(shot, leftCut, useScaleSmoothing, Scan(pin2, marker2, pxPer100, old(EwmaState()), t))
              == Scan(pin, marker, px, EwmaState(), t)
    {
      ghost var before := Scan(pin2, marker2, pxPer100, EwmaState(), t);
      px := ReadScale(shot.grid, pxPer100, before);
      pin := pin2;
      if shot.pin.Some? {
        pin := Some(Point(shot.pin.value.x + leftCut, shot.pin.value.y));
      }
      assert pin == PinAfter(pin2, shot.pin, leftCut);
      marker := marker2;
      var markerFound := MarkerSeen(shot.markers, leftCut);
      if markerFound != Point(0, 0) {
        marker := Some(markerFound);
      }
      assert marker == MarkerAfter(marker2, shot.markers, leftCut);
    }

    /** A failed phase 2 iteration: the frame is dumped if the throttle lets it, and _p2FailSaved moves on. */
    method FailedInPhaseTwo(dumps: int) returns (dumps': int)
      modifies this`p2FailSaved
      ensures Tally(p2FailSaved, dumps') == Fail(Tally(old(p2FailSaved), dumps), enableDebug)
    {
      dumps' := dumps;
      if enableDebug && (p2FailSaved < 5 || p2FailSaved % 20 == 0) {
        dumps' := dumps + 1;
      }
      p2FailSaved := p2FailSaved + 1;
    }

    /** The phase 2 loop, from nothing found, the current failure counter and the current EWMA. */
    method RunPhaseTwo(shots: seq<Shot2>)
      returns (ending: Ending, pin2: Option<Point>, marker2: Option<Point>, pxPer100: Option<real>, dumps: int)
      requires AllWellFormed(shots) && SmoothingReady()
      modifies this`p2FailSaved, ewma
      ensures PhaseTwo(ending, Scan(pin2, marker2, pxPer100, EwmaState(), Tally(p2FailSaved, dumps)))
              == PhaseTwoFrom(shots, 0, useScaleSmoothing, enableDebug,
                              Scan(None, None, None, old(EwmaState()), Tally(old(p2FailSaved), 0)))
    {
      ghost var goal := PhaseTwoFrom(shots, 0, useScaleSmoothing, enableDebug,
                                     Scan(None, None, None, EwmaState(), Tally(p2FailSaved, 0)));
      pin2, marker2, pxPer100, dumps := None, None, None, 0;
      var i := 0;
      while i < |shots| && !shots[i].cancelled && (pin2.None? || marker2.None? || pxPer100.None?)
        invariant 0 <= i <= |shots|
        invariant PhaseTwoFrom(shots, i, useScaleSmoothing, enableDebug,
                               Scan(pin2, marker2, pxPer100, EwmaState(), Tally(p2FailSaved, dumps))) == goal
      {
        var shot := shots[i];
        ghost var before := Scan(pin2, marker2, pxPer100, EwmaState(), Tally(p2FailSaved, dumps));
        i := i + 1;
        if !Usable(shot.mode, shot.frame) {
          continue;
        }
        var leftCut := LeftCutOfFrame(shot);
        pin2, marker2, pxPer100 := Observe(shot, leftCut, pin2, marker2, pxPer100, before.tally);
        ghost var seen := Scan(pin2, marker2, pxPer100, EwmaState(), before.tally);
        if !(pin2.Some? && marker2.Some? && pxPer100.Some?) {
          dumps := FailedInPhaseTwo(dumps);
        }
        assert Settle(seen, enableDebug) == Scan(pin2, marker2, pxPer100, seen.ewma, Tally(p2FailSaved, dumps));
      }
      ending := if pin2.Some? && marker2.Some? && pxPer100.Some? then Done else if i < |shots| then Stopped else Searching;
    }

    /**
     * Start followed by the session it launches: any earlier session is
     * stopped, the counters are reset, a fresh EWMA is made when smoothing
     * is on, and the two phases run.  The cancellation source stays in place
     * when the session ends, so the runner still reports running until Stop.
     * Both failure counters restart from 0, so the throttle of each phase
     * (and with it which failed frames are dumped) counts from the session's
     * own first failure; phase 2's counter stays 0 when phase 2 never runs.
     */
    method Start(shots1: seq<Shot1>, cancelledAtMap: bool, shots2: seq<Shot2>)
      returns (result: Option<Measurement>, ghost dumps1: int, ghost dumps2: int)
      requires AllWellFormed(shots2)
      modifies this
      ensures running
      ensures result == SessionOf(shots1, cancelledAtMap, shots2, cropTop, cropSide, enableDebug, useScaleSmoothing)
      ensures Tally(p1FailSaved, dumps1) == PhaseOneFrom(shots1, 0, cropTop, cropSide, enableDebug, Tally(0, 0)).tally
      ensures (PhaseOneFrom(shots1, 0, cropTop, cropSide, enableDebug, Tally(0, 0)).ending == Done && !cancelledAtMap)
              ==> Tally(p2FailSaved, dumps2) == PhaseTwoFrom(shots2, 0, useScaleSmoothing, enableDebug, Fresh()).scan.tally
      ensures (PhaseOneFrom(shots1, 0, cropTop, cropSide, enableDebug, Tally(0, 0)).ending != Done || cancelledAtMap)
              ==> p2FailSaved == 0 && dumps2 == 0
      ensures useScaleSmoothing ==> ewma != null && fresh(ewma)
      ensures !useScaleSmoothing ==> ewma == null
    {
      Stop();
      running := true;
      p1FailSaved, p2FailSaved := 0, 0;
      if useScaleSmoothing {
        ewma := new Ewma(SmoothingAlpha);
      } else {
        ewma := null;
      }
      dumps2 := 0;
      var ending1, pin1, d1 := RunPhaseOne(shots1);
      dumps1 := d1;
      if ending1 != Done || cancelledAtMap {
        return None, dumps1, dumps2;
      }
      var ending2, pin2, marker2, pxPer100, d2 := RunPhaseTwo(shots2);
      dumps2 := d2;
      if ending2 != Done {
        return None, dumps1, dumps2;
      }
      result := Some(Measurement(pin1.value.y, pin2.value, marker2.value, pxPer100.value));
    }
  }
}

=== FILE: combined.dfy ===
/**
 * Smoothing: the EWMA class shared by the live modes (ProgramCombined.EWMA,
 * duplicated as ProgramGrid.EWMA).  Its state is a nullable double; an
 * update from no state or from a non-finite state takes the input as it is,
 * any other update blends it in with weight alpha.
 */
module Smoothing {
  import opened Common

  /** A double: a finite value, or NaN / an infinity. */
  datatype Double = Finite(v: real) | NonFinite

  const MinAlpha: real := 0.01
  const MaxAlpha: real := 1.0

  /** alpha * x + (1 - alpha) * prev: its offset from x is that of prev scaled by (1 - alpha). */
  function Blend(alpha: real, prev: real, x: real): (r: real)
    requires 0.0 <= alpha <= 1.0
    ensures r - x == (1.0 - alpha) * (prev - x)
  {
    alpha * x + (1.0 - alpha) * prev
  }

  /** A blend lies between the previous value and the input. */
  lemma {:induction false} BlendBetween(alpha: real, prev: real, x: real)
    requires 0.0 <= alpha <= 1.0
    ensures MinReal(prev, x) <= Blend(alpha, prev, x) <= MaxReal(prev, x)
  {
    assert Blend(alpha, prev, x) - prev == alpha * (x - prev);
    if prev <= x {
      MulNonNegative(1.0 - alpha, x - prev);
      MulNonNegative(alpha, x - prev);
    } else {
      MulNonNegative(1.0 - alpha, prev - x);
      MulNonNegative(alpha, prev - x);
    }
  }

  /**
   * The state after Update(x): x itself when there was no finite state,
   * otherwise the blend (NaN or infinity when x is not finite).
   */
  function Next(alpha: real, s: Option<Double>, x: Double): (r: Double)
    requires 0.0 <= alpha <= 1.0
    ensures (s.None? || s.value.NonFinite?) ==> r == x
    ensures s.Some? && s.value.Finite? && x.Finite?
            ==> r.Finite? && MinReal(s.value.v, x.v) <= r.v <= MaxReal(s.value.v, x.v)
    ensures s.Some? && s.value.Finite? && x.NonFinite? ==> r.NonFinite?
  {
    if s.None? || s.value.NonFinite? then x
    else if x.NonFinite? then NonFinite
    else
      BlendBetween(alpha, s.value.v, x.v);
      Finite(Blend(alpha, s.value.v, x.v))
  }

  /** A constant input is a fixed point of Update. */
  lemma {:induction false} ConstantFixedPoint(alpha: real, c: real)
    requires 0.0 <= alpha <= 1.0
    ensures Next(alpha, Some(Finite(c)), Finite(c)) == Finite(c)
  {
    assert Blend(alpha, c, c) - c == (1.0 - alpha) * 0.0;
  }

  /** The power b^n. */
  function Pow(b: real, n: nat): real
    decreases n
  {
    if n == 0 then 1.0 else b * Pow(b, n - 1)
  }

  /** n updates with the same finite input c, from prev. */
  function Repeat(alpha: real, prev: real, c: real, n: nat): real
    requires 0.0 <= alpha <= 1.0
    decreases n
  {
    if n == 0 then prev else Blend(alpha, Repeat(alpha, prev, c, n - 1), c)
  }

  /** After n updates with a constant input its offset from that input has shrunk by (1 - alpha)^n. */
  lemma {:induction false} RepeatDistance(alpha: real, prev: real, c: real, n: nat)
    requires 0.0 <= alpha <= 1.0
    ensures Repeat(alpha, prev, c, n) - c == Pow(1.0 - alpha, n) * (prev - c)
    decreases n
  {
    if n > 0 {
      RepeatDistance(alpha, prev, c, n - 1);
      var p, d := Pow(1.0 - alpha, n - 1), prev - c;
      assert (1.0 - alpha) * (p * d) == ((1.0 - alpha) * p) * d;
    }
  }

  /** ProgramCombined.EWMA. */
  class Ewma {
    const alpha: real
    var s: Option<Double>

    predicate Valid()
    {
      MinAlpha <= alpha <= MaxAlpha
    }

    /** The smoothed value, NaN before any update. */
    function Value(): (r: Double)
      reads this
      ensures s.None? ==> r == NonFinite
      ensures s.Some? ==> r == s.value
    {
      if s.None? then NonFinite else s.value
    }

    /** new EWMA(alpha): alpha clamped into [0.01, 1], no state. */
    constructor (a: real)
      ensures alpha == ClampReal(a, MinAlpha, MaxAlpha) && s == None && Valid()
    {
      alpha := ClampReal(a, MinAlpha, MaxAlpha);
      s := None;
    }

    method Update(x: Double) returns (r: Double)
      requires Valid()
      modifies this
      ensures r == Next(alpha, old(s), x) && s == Some(r)
    {
      if s.None? || s.value.NonFinite? {
        s := Some(x);
      } else if x.NonFinite? {
        s := Some(NonFinite);
      } else {
        s := Some(Finite(alpha * x.v + (1.0 - alpha) * s.value.v));
      }
      r := s.value;
    }

    /** Reset(seed): the next update blends with the seed, or starts afresh without one. */
    method Reset(seed: Option<Double>)
      modifies this
      ensures s == seed
    {
      s := seed;
    }
  }
}

/**
 * CombinedCli: the argument handling of ProgramCombined.MainCombined before
 * the live loop starts.
 */
module CombinedCli {
  import opened Common

  const DefaultIntervalMs: int := 200
  const IntervalFlag: string := "--interval="

  /** StartsWith with StringComparison.OrdinalIgnoreCase, for ASCII letters. */
  predicate StartsWithIgnoreCase(s: string, prefix: string)
  {
    |prefix| <= |s| && forall i :: 0 <= i < |prefix| ==> LowerAscii(s[i]) == LowerAscii(prefix[i])
  }

  predicate IsDigit(c: char)
  {
    '0' <= c <= '9'
  }

  function DigitValue(c: char): (r: int)
    requires IsDigit(c)
    ensures 0 <= r <= 9
  {
    c as int - '0' as int
  }

  /** The value of a string of decimal digits. */
  function DigitsValue(ds: string): (r: nat)
    requires forall i :: 0 <= i < |ds| ==> IsDigit(ds[i])
    decreases |ds|
  {
    if ds == [] then 0
    else 10 * DigitsValue(ds[..|ds| - 1]) + DigitValue(ds[|ds| - 1])
  }

  /** The string without leading and trailing white space. */
  function Trim(s: string): (r: string)
    ensures |r| <= |s|
    ensures r != [] ==> !IsWhite(r[0]) && !IsWhite(r[|r| - 1])
    decreases |s|
  {
    if s == [] then s
    else if IsWhite(s[0]) then Trim(s[1..])
    else if IsWhite(s[|s| - 1]) then Trim(s[..|s| - 1])
    else s
  }

  /**
   * int.TryParse with NumberStyles.Integer: optional white space around an
   * optional sign and one or more digits, within the 32-bit range.
   */
  function ParseInt(s: string): (r: Option<int>)
    ensures r.Some? ==> -0x8000_0000 <= r.value <= 0x7FFF_FFFF
  {
    var t := Trim(s);
    var neg := t != [] && t[0] == '-';
    var body := if t != [] && (t[0] == '-' || t[0] == '+') then t[1..] else t;
    if body == [] || exists i :: 0 <= i < |body| && !IsDigit(body[i]) then None
    else
      var v: int := if neg then -(DigitsValue(body) as int) else DigitsValue(body) as int;
      if -0x8000_0000 <= v <= 0x7FFF_FFFF then Some(v) else None
  }

  /** The value a single argument sets the interval to, if it is a valid --interval=N flag. */
  function IntervalArg(a: string): (r: Option<int>)
    ensures r.Some? ==> r.value >= 0
  {
    if StartsWithIgnoreCase(a, IntervalFlag) then
      match ParseInt(a[|IntervalFlag|..])
      case Some(v) => Some(MaxInt(0, v))
      case None => None
    else None
  }

  /** The interval after the flags in `rest`, each valid one overriding the previous. */
  function IntervalOf(rest: seq<string>): int
    decreases |rest|
  {
    if rest == [] then DefaultIntervalMs
    else match IntervalArg(rest[|rest| - 1])
      case Some(v) => v
      case None => IntervalOf(rest[..|rest| - 1])
  }

  /** The last valid flag wins; with none the interval is the default 200; it is never negative. */
  lemma {:induction false} IntervalLastWins(rest: seq<string>)
    ensures IntervalOf(rest) >= 0
    ensures (forall k :: 0 <= k < |rest| ==> IntervalArg(rest[k]).None?) ==> IntervalOf(rest) == DefaultIntervalMs
    ensures forall k :: 0 <= k < |rest| && IntervalArg(rest[k]).Some?
                        && (forall j :: k < j < |rest| ==> IntervalArg(rest[j]).None?)
                        ==> IntervalOf(rest) == IntervalArg(rest[k]).value
    decreases |rest|
  {
    if rest != [] {
      var init := rest[..|rest| - 1];
      IntervalLastWins(init);
      assert forall k :: 0 <= k < |init| ==> init[k] == rest[k];
    }
  }

  /** The loop over args.Skip(4). */
  method ParseInterval(args: seq<string>) returns (intervalMs: int)
    ensures |args| > 4 ==> intervalMs == IntervalOf(args[4..])
    ensures |args| <= 4 ==> intervalMs == DefaultIntervalMs
  {
    intervalMs := DefaultIntervalMs;
    if |args| <= 4 {
      return;
    }
    var rest := args[4..];
    for i := 0 to |rest|
      invariant intervalMs == IntervalOf(rest[..i])
    {
      assert rest[..i + 1][..i] == rest[..i];
      var a := rest[i];
      if StartsWithIgnoreCase(a, IntervalFlag) {
        var v := ParseInt(a[|IntervalFlag|..]);
        if v.Some? {
          intervalMs := MaxInt(0, v.value);
        }
      }
    }
    assert rest[..|rest|] == rest;
  }

  /** How MainCombined starts: an exit code, or the live loop with its inputs. */
  datatype Startup = Exit(code: int)
                   | Launch(gridParams: string, pinParams: string, playersParams: string, processName: string,
                            intervalMs: int)

  /**
   * Fewer than four arguments, a missing parameter file, or grid or players
   * JSON that deserialises to null end with 1; otherwise the live loop
   * starts.  `nonNull(path)` is whether the JSON in that file deserialises to
   * an object.
   */
  function Start(args: seq<string>, fileExists: string -> bool, nonNull: string -> bool): (r: Startup)
    ensures |args| < 4 ==> r == Exit(1)
    ensures |args| >= 4 && !(fileExists(args[0]) && fileExists(args[1]) && fileExists(args[2])) ==> r == Exit(1)
    ensures |args| >= 4 && !(nonNull(args[0]) && nonNull(args[2])) ==> r == Exit(1)
    ensures r.Launch? ==> |args| >= 4 && fileExists(r.gridParams) && fileExists(r.pinParams)
                          && fileExists(r.playersParams) && nonNull(r.gridParams) && nonNull(r.playersParams)
                          && r.processName == args[3] && r.intervalMs >= 0
    ensures (|args| >= 4 && fileExists(args[0]) && fileExists(args[1]) && fileExists(args[2])
             && nonNull(args[0]) && nonNull(args[2])) ==> r.Launch?
  {
    if |args| < 4 then Exit(1)
    else
      var interval := if |args| > 4 then IntervalOf(args[4..]) else DefaultIntervalMs;
      if !fileExists(args[0]) || !fileExists(args[1]) || !fileExists(args[2]) then Exit(1)
      else if !nonNull(args[0]) || !nonNull(args[2]) then Exit(1)
      else
        IntervalLastWins(if |args| > 4 then args[4..] else []);
        Launch(args[0], args[1], args[2], args[3], interval)
  }
}

=== FILE: common.dfy ===
/** Shared vocabulary: optional values, points, clamps and the rounding modes of .NET. */
module Common {

  datatype Option<T> = None | Some(value: T)

  /** An integer pixel position (System.Drawing.Point). */
  datatype Point = Point(x: int, y: int)

  function SqDist(a: Point, b: Point): (r: int)
    ensures r >= 0
  {
    (a.x - b.x) * (a.x - b.x) + (a.y - b.y) * (a.y - b.y)
  }

  function MinInt(a: int, b: int): int { if a <= b then a else b }
  function MaxInt(a: int, b: int): int { if a >= b then a else b }
  function MinReal(a: real, b: real): real { if a <= b then a else b }
  function MaxReal(a: real, b: real): real { if a >= b then a else b }
  function AbsReal(x: real): real { if x < 0.0 then -x else x }
  function AbsInt(x: int): int { if x < 0 then -x else x }

  /** Math.Clamp on int; .NET throws when lo > hi, every caller passes ordered bounds. */
  function ClampInt(v: int, lo: int, hi: int): (r: int)
    requires lo <= hi
    ensures lo <= r <= hi
    ensures lo <= v <= hi ==> r == v
  {
    if v < lo then lo else if v > hi then hi else v
  }

  /** Math.Clamp on double. */
  function ClampReal(v: real, lo: real, hi: real): (r: real)
    requires lo <= hi
    ensures lo <= r <= hi
    ensures lo <= v <= hi ==> r == v
  {
    if v < lo then lo else if v > hi then hi else v
  }

  /** Math.Round(double): nearest integer, a tie goes to the even neighbour. */
  function RoundEven(x: real): (r: int)
    ensures -(1.0 / 2.0) <= r as real - x <= 1.0 / 2.0
    ensures r as real - x == 1.0 / 2.0 || x - r as real == 1.0 / 2.0 ==> r % 2 == 0
  {
    var f := x.Floor;
    var frac := x - f as real;
    if frac < 1.0 / 2.0 then f
    else if frac > 1.0 / 2.0 then f + 1
    else if f % 2 == 0 then f else f + 1
  }

  /** The (int) cast of a double: truncation toward zero. */
  function Truncate(x: real): (r: int)
    ensures x >= 0.0 ==> r == x.Floor
    ensures AbsReal(x - r as real) < 1.0 && AbsInt(r) as real <= AbsReal(x)
  {
    if x >= 0.0 then x.Floor else -((-x).Floor)
  }

  /** Ceiling of a real number. */
  function Ceil(x: real): (r: int)
    ensures x <= r as real < x + 1.0
  {
    -((-x).Floor)
  }

  function SumReals(s: seq<real>): real
  {
    if s == [] then 0.0 else SumReals(s[..|s| - 1]) + s[|s| - 1]
  }

  function SumInts(s: seq<int>): int
  {
    if s == [] then 0 else SumInts(s[..|s| - 1]) + s[|s| - 1]
  }

  /** Number of true entries. */
  function CountTrue(s: seq<bool>): (r: nat)
    ensures r <= |s|
  {
    if s == [] then 0 else CountTrue(s[..|s| - 1]) + (if s[|s| - 1] then 1 else 0)
  }

  lemma {:induction false} CountTrueSet(s: seq<bool>, i: nat)
    requires i < |s| && !s[i]
    ensures CountTrue(s[i := true]) == CountTrue(s) + 1
  {
    var t := s[i := true];
    if i < |s| - 1 {
      assert t[..|t| - 1] == s[..|s| - 1][i := true];
      CountTrueSet(s[..|s| - 1], i);
    } else {
      assert t[..|t| - 1] == s[..|s| - 1];
    }
  }

  lemma {:induction false} CountTrueAllFalse(n: nat)
    ensures CountTrue(seq(n, _ => false)) == 0
  {
    if n > 0 {
      assert seq(n, _ => false)[..n - 1] == seq(n - 1, _ => false);
      CountTrueAllFalse(n - 1);
    }
  }

  /** All entries are true exactly when the count is the length, none exactly when it is 0. */
  lemma {:induction false} CountTrueExtremes(s: seq<bool>)
    ensures CountTrue(s) == |s| <==> forall k :: 0 <= k < |s| ==> s[k]
    ensures CountTrue(s) == 0 <==> forall k :: 0 <= k < |s| ==> !s[k]
  {
    if s != [] {
      var init := s[..|s| - 1];
      CountTrueExtremes(init);
      assert forall k :: 0 <= k < |init| ==> init[k] == s[k];
    }
  }

  /** A product of non-negative reals is non-negative (kept apart so the nonlinear step stays small). */
  lemma {:induction false} MulNonNegative(a: real, b: real)
    requires a >= 0.0 && b >= 0.0
    ensures a * b >= 0.0
  {
  }

  /** A member of a non-empty set of integers. */
  lemma {:induction false} Member(s: set<int>) returns (x: int)
    requires s != {}
    ensures x in s
  {
    if forall y :: y !in s {
      assert false;
    }
    x :| x in s;
  }

  /** ASCII upper case letters map to lower case; everything else stays. */
  function LowerAscii(c: char): (r: char)
    ensures 'A' <= c <= 'Z' ==> 'a' <= r <= 'z'
    ensures !('A' <= c <= 'Z') ==> r == c
  {
    if 'A' <= c <= 'Z' then (c as int - 'A' as int + 'a' as int) as char else c
  }

  /** The white space int.TryParse skips around a number: space and U+0009 .. U+000D. */
  predicate IsWhite(c: char)
  {
    c == ' ' || c == '\t' || c == '\n' || c == '\r' || c == '\U{000B}' || c == '\U{000C}'
  }

  /**
   * char.IsWhiteSpace: the ASCII white space above, U+0085, and the Unicode
   * space, line and paragraph separators (U+00A0, U+1680, U+2000 .. U+200A,
   * U+2028, U+2029, U+202F, U+205F, U+3000).
   */
  predicate IsWhiteSpace(c: char)
  {
    IsWhite(c) || c == '\U{0085}' || c == '\U{00A0}' || c == '\U{1680}'
    || ('\U{2000}' <= c <= '\U{200A}') || c == '\U{2028}' || c == '\U{2029}'
    || c == '\U{202F}' || c == '\U{205F}' || c == '\U{3000}'
  }

  /** ToLowerInvariant, for ASCII letters. */
  function LowerString(s: string): (r: string)
    ensures |r| == |s| && forall i :: 0 <= i < |s| ==> r[i] == LowerAscii(s[i])
  {
    seq(|s|, i requires 0 <= i < |s| => LowerAscii(s[i]))
  }
}

=== FILE: debug_dumper.dfy ===
/**
 * Dumper: DebugDumper's naming of its session folder and of the files it
 * saves.  Every saved file takes the next sequence number; a disabled dumper
 * saves nothing, returns "" and never advances the counter.  Creating
 * directories and writing files are left to the caller; the clock's
 * timestamp is an input.
 */
module Dumper {
  import opened Common

  /** Path.GetInvalidFileNameChars() on Windows: control characters and " < > | : * ? \ /. */
  predicate InvalidFileNameChar(c: char)
  {
    c as int < 32 || c == '"' || c == '<' || c == '>' || c == '|' || c == ':' || c == '*' || c == '?'
    || c == '\\' || c == '/'
  }

  /** string.IsNullOrWhiteSpace: null, or only char.IsWhiteSpace characters. */
  predicate IsBlank(s: Option<string>)
  {
    s.None? || forall i :: 0 <= i < |s.value| ==> IsWhiteSpace(s.value[i])
  }

  /** A name of no-break spaces is blank, as it is for string.IsNullOrWhiteSpace. */
  lemma NoBreakSpaceBlank()
    ensures IsBlank(Some("\U{00A0}\U{3000}")) && Sanitize(Some("\U{00A0}")) == "noname"
  {
  }

  /** The replacement Sanitize makes for one character. */
  function SafeChar(c: char): (r: char)
    ensures !InvalidFileNameChar(r) && r != ' '
  {
    if InvalidFileNameChar(c) then '_' else if c == ' ' then '-' else c
  }

  /**
   * Sanitize: "noname" for a blank name; otherwise the same length, every
   * invalid character replaced by '_' and every space by '-'.
   */
  function Sanitize(name: Option<string>): (r: string)
    ensures IsBlank(name) ==> r == "noname"
    ensures !IsBlank(name) ==> |r| == |name.value|
                               && forall i :: 0 <= i < |r| ==> r[i] == SafeChar(name.value[i])
    ensures forall i :: 0 <= i < |r| ==> !InvalidFileNameChar(r[i]) && r[i] != ' '
  {
    if IsBlank(name) then "noname"
    else seq(|name.value|, i requires 0 <= i < |name.value| => SafeChar(name.value[i]))
  }

  /** A name already made of valid characters other than spaces survives Sanitize unchanged. */
  lemma {:induction false} SanitizeKeepsSafeNames(name: string)
    requires !IsBlank(Some(name))
    requires forall i :: 0 <= i < |name| ==> !InvalidFileNameChar(name[i]) && name[i] != ' '
    ensures Sanitize(Some(name)) == name
  {
    var r := Sanitize(Some(name));
    assert forall i :: 0 <= i < |r| ==> r[i] == name[i];
  }

  /** Path.IsPathRooted on Windows: a leading separator, or a drive letter and ':'. */
  predicate IsRooted(name: string)
  {
    (|name| >= 1 && (name[0] == '\\' || name[0] == '/'))
    || (|name| >= 2 && ('A' <= name[0] <= 'Z' || 'a' <= name[0] <= 'z') && name[1] == ':')
  }

  /** Path.Combine of a directory and a name: a rooted name replaces the directory. */
  function Combine(dir: string, name: string): string
  {
    if dir == [] || IsRooted(name) then name
    else if dir[|dir| - 1] == '\\' || dir[|dir| - 1] == '/' || dir[|dir| - 1] == ':' then dir + name
    else dir + "\\" + name
  }

  /** The first invalid character of s, or |s|. */
  function FirstInvalid(s: string): (k: int)
    ensures 0 <= k <= |s|
    ensures k < |s| ==> InvalidFileNameChar(s[k])
    ensures forall j :: 0 <= j < k ==> !InvalidFileNameChar(s[j])
    decreases |s|
  {
    if s == [] then 0
    else if InvalidFileNameChar(s[0]) then 0
    else
      var k := FirstInvalid(s[1..]);
      assert forall j :: 1 <= j < |s| ==> s[j] == s[1..][j - 1];
      k + 1
  }

  /** Split(GetInvalidFileNameChars(), RemoveEmptyEntries): the maximal runs of valid characters. */
  function Pieces(s: string): seq<string>
    decreases |s|
  {
    if s == [] then []
    else
      var k := FirstInvalid(s);
      var tail := if k < |s| then Pieces(s[k + 1..]) else [];
      if k == 0 then tail else [s[..k]] + tail
  }

  /** Every piece is non-empty and free of invalid characters. */
  predicate CleanPieces(ps: seq<string>)
  {
    forall k :: 0 <= k < |ps| ==> ps[k] != [] && forall j :: 0 <= j < |ps[k]| ==> !InvalidFileNameChar(ps[k][j])
  }

  lemma {:induction false} PiecesClean(s: string)
    ensures CleanPieces(Pieces(s))
    decreases |s|
  {
    if s != [] {
      var k := FirstInvalid(s);
      if k < |s| {
        PiecesClean(s[k + 1..]);
      }
      var tail := if k < |s| then Pieces(s[k + 1..]) else [];
      if k != 0 {
        assert forall j :: 0 <= j < k ==> s[..k][j] == s[j];
        ConsClean(s[..k], tail);
      }
    }
  }

  lemma {:induction false} ConsClean(head: string, tail: seq<string>)
    requires head != [] && forall j :: 0 <= j < |head| ==> !InvalidFileNameChar(head[j])
    requires CleanPieces(tail)
    ensures CleanPieces([head] + tail)
  {
    var ps := [head] + tail;
    assert forall i :: 1 <= i < |ps| ==> ps[i] == tail[i - 1];
  }

  /** A name without invalid characters is its own single piece. */
  lemma {:induction false} PiecesOfValidName(s: string)
    requires s != [] && forall j :: 0 <= j < |s| ==> !InvalidFileNameChar(s[j])
    ensures Pieces(s) == [s]
  {
    assert FirstInvalid(s) == |s|;
    assert s[..|s|] == s;
  }

  /** string.Join(sep, parts). */
  function Join(parts: seq<string>, sep: string): string
    decreases |parts|
  {
    if parts == [] then ""
    else if |parts| == 1 then parts[0]
    else Join(parts[..|parts| - 1], sep) + sep + parts[|parts| - 1]
  }

  /** Joining clean pieces with a valid separator leaves no invalid character. */
  lemma {:induction false} JoinClean(ps: seq<string>, sep: string)
    requires CleanPieces(ps)
    requires forall j :: 0 <= j < |sep| ==> !InvalidFileNameChar(sep[j])
    ensures forall j :: 0 <= j < |Join(ps, sep)| ==> !InvalidFileNameChar(Join(ps, sep)[j])
    decreases |ps|
  {
    if |ps| > 1 {
      var init := ps[..|ps| - 1];
      assert forall k :: 0 <= k < |init| ==> init[k] == ps[k];
      JoinClean(init, sep);
      var a, b := Join(init, sep) + sep, ps[|ps| - 1];
      assert forall j :: 0 <= j < |a| ==> !InvalidFileNameChar(a[j]);
      assert forall j :: |a| <= j < |a + b| ==> (a + b)[j] == b[j - |a|];
    } else if |ps| == 1 {
      assert Join(ps, sep) == ps[0];
    }
  }

  /** The file name part BuildPath makes of nameNoExt ("noname" for null). */
  function SafeName(nameNoExt: Option<string>): (r: string)
    ensures forall j :: 0 <= j < |r| ==> !InvalidFileNameChar(r[j])
  {
    var s := if nameNoExt.None? then "noname" else nameNoExt.value;
    PiecesClean(s);
    JoinClean(Pieces(s), "_");
    Join(Pieces(s), "_")
  }

  /** A valid, non-empty name is kept as it is. */
  lemma {:induction false} SafeNameKeepsValidNames(name: string)
    requires name != [] && forall j :: 0 <= j < |name| ==> !InvalidFileNameChar(name[j])
    ensures SafeName(Some(name)) == name
  {
    PiecesOfValidName(name);
  }

  /** The decimal digits of n. */
  function Digits(n: nat): (r: string)
    ensures r != [] && forall j :: 0 <= j < |r| ==> '0' <= r[j] <= '9'
    decreases n
  {
    var d := [(n % 10 + '0' as int) as char];
    if n < 10 then d else Digits(n / 10) + d
  }

  /** The format "{n:000}": at least three digits, zero padded. */
  function Pad3(n: nat): (r: string)
    ensures |r| >= 3 && forall j :: 0 <= j < |r| ==> '0' <= r[j] <= '9'
  {
    var ds := Digits(n);
    if |ds| >= 3 then ds else seq(3 - |ds|, _ => '0') + ds
  }

  /** The folder of a session: the timestamp, followed by the sanitized suffix when there is one. */
  function SessionFolder(timestamp: string, suffix: Option<string>): string
  {
    if IsBlank(suffix) then timestamp else timestamp + "_" + Sanitize(suffix)
  }

  /** DebugDumper. */
  class DebugDumper {
    const enabled: bool
    const rootDir: string
    const sessionDir: string
    var seqNo: nat

    /** EnsureDir: the session directory, or its sub-directory for a category. */
    function Dir(category: Option<string>): string
    {
      if IsBlank(category) then sessionDir else Combine(sessionDir, category.value)
    }

    /**
     * new DebugDumper(rootDir, enabled, sessionSuffix) with a non-null
     * rootDir (null throws, see Open).  It saves the "session" text file
     * first, which takes sequence number 1 when enabled.
     */
    constructor (root: string, on: bool, suffix: Option<string>, timestamp: string)
      ensures enabled == on && rootDir == root
      ensures sessionDir == Combine(root, SessionFolder(timestamp, suffix))
      ensures seqNo == (if on then 1 else 0)
    {
      enabled := on;
      rootDir := root;
      sessionDir := Combine(root, SessionFolder(timestamp, suffix));
      seqNo := if on then 1 else 0;
    }

    /** BuildPath: the next sequence number, the safe name and the extension, in the category's directory. */
    method BuildPath(nameNoExt: Option<string>, ext: string, category: Option<string>) returns (path: string)
      modifies this
      ensures seqNo == old(seqNo) + 1
      ensures path == Combine(Dir(category), Pad3(seqNo) + "_" + SafeName(nameNoExt) + ext)
    {
      seqNo := seqNo + 1;
      path := Combine(Dir(category), Pad3(seqNo) + "_" + SafeName(nameNoExt) + ext);
    }

    /**
     * SaveBitmap / SaveMat / SaveText: nothing is saved, "" returned and the
     * counter kept when the dumper is disabled or there is nothing to save
     * (a null bitmap, a null or empty Mat); otherwise the file takes the next
     * number.
     */
    method Save(hasImage: bool, nameNoExt: Option<string>, ext: string, category: Option<string>)
      returns (path: string)
      modifies this
      ensures !enabled || !hasImage ==> path == "" && seqNo == old(seqNo)
      ensures enabled && hasImage ==> seqNo == old(seqNo) + 1
                                      && path == Combine(Dir(category), Pad3(seqNo) + "_" + SafeName(nameNoExt) + ext)
    {
      if !enabled || !hasImage {
        return "";
      }
      path := BuildPath(nameNoExt, ext, category);
    }
  }

  /** The constructor's null check: no dumper without a root directory. */
  method Open(root: Option<string>, on: bool, suffix: Option<string>, timestamp: string)
    returns (d: Option<DebugDumper>)
    ensures root.None? <==> d.None?
    ensures d.Some? ==> fresh(d.value) && d.value.enabled == on && d.value.seqNo == (if on then 1 else 0)
                        && d.value.sessionDir == Combine(root.value, SessionFolder(timestamp, suffix))
  {
    if root.None? {
      return None;
    }
    var dumper := new DebugDumper(root.value, on, suffix, timestamp);
    d := Some(dumper);
  }
}

=== FILE: evaluation.dfy ===
/**
 * The keep-the-strictly-better fold both trainers use to score a list of
 * candidate parameter sets (SmartTrainer.EvaluateCandidates in the pin
 * trainer, EvaluateCandidatesParallel in the grid trainer), and the
 * arithmetic of the improvement tolerance their searches share.
 */
module Evaluation {
  import opened Common

  /** A candidate's score together with the parameters it was obtained with. */
  datatype Evaluated<T> = Evaluated(score: real, params: T)

  /** Candidate `i` has the lowest score, and every candidate before it scores strictly more. */
  predicate FirstMinimum<T>(cands: seq<T>, score: T -> real, i: int)
  {
    0 <= i < |cands|
    && (forall j :: 0 <= j < |cands| ==> score(cands[i]) <= score(cands[j]))
    && (forall j :: 0 <= j < i ==> score(cands[i]) < score(cands[j]))
  }

  /**
   * The fold, one candidate after the other: the best starts at +infinity
   * (None) and a candidate replaces it when it scores strictly less.  An
   * empty list has no First() and fails.
   */
  method EvaluateCandidates<T>(cands: seq<T>, score: T -> real) returns (r: Option<Evaluated<T>>)
    ensures r.None? <==> cands == []
    ensures r.Some? ==> exists i :: FirstMinimum(cands, score, i) && r.value == Evaluated(score(cands[i]), cands[i])
  {
    if cands == [] {
      return None;
    }
    var best: Option<Evaluated<T>> := None;
    ghost var bi := 0;
    for i := 0 to |cands|
      invariant best.None? <==> i == 0
      invariant i > 0 ==> FirstMinimum(cands[..i], score, bi)
                          && best.value == Evaluated(score(cands[bi]), cands[bi])
    {
      var s := score(cands[i]);
      if best.None? || s < best.value.score {
        best, bi := Some(Evaluated(s, cands[i])), i;
      }
    }
    assert cands[..|cands|] == cands;
    r := best;
  }

  /** One more adoption, one more tolerance below the start. */
  lemma {:induction false} ToleranceStep(prev: real, next: real, a: nat, tol: real, top: real)
    requires prev + a as real * tol <= top && next + tol < prev
    ensures next + (a + 1) as real * tol <= top
  {
    assert (a + 1) as real * tol == a as real * tol + tol;
  }

  /** Adoptions that each cost more than a positive tolerance are bounded by the score range. */
  lemma {:induction false} AdoptionBound(a: nat, tol: real, top: real, lower: real, last: real)
    requires tol > 0.0 && last + a as real * tol <= top && last >= lower
    ensures a as real <= (top - lower) / tol
  {
    var x := a as real;
    assert x * tol <= top - lower;
    assert (top - lower) / tol * tol == top - lower;
  }
}

=== FILE: grid_candidates.dfy ===
/**
 * GridCandidates: the candidate periods Detect100m scores.  Base candidates
 * are the rounded harmonics lag/m of the ACF peaks and raw periods; a
 * dominant ACF peak on one axis (the anchor) narrows them to a jittered
 * window around its own harmonics.  Also the harmonic score of a candidate,
 * its relative distance to the anchor's harmonics and the penalty for a
 * candidate that is ten-odd times a strong candidate of its own.
 */
module GridCandidates {
  import opened Common
  import opened GridSignal
  import opened GridParams

  // ------------------------------------------------ BuildBaseCandidates

  /** x/m for a divisor m >= 1. */
  function Fraction(x: real, m: int): real
    requires m >= 1
  {
    x / m as real
  }

  /** x/1, x/2, ..., x/n. */
  function Divisions(x: real, n: int): seq<real>
    decreases n
  {
    if n < 1 then [] else Divisions(x, n - 1) + [Fraction(x, n)]
  }

  /** The divisions of every peak lag, peak after peak. */
  function PeakDivisions(peaks: seq<Peak>, n: int): seq<real>
    decreases |peaks|
  {
    if peaks == [] then []
    else PeakDivisions(peaks[..|peaks| - 1], n) + Divisions(peaks[|peaks| - 1].lag, n)
  }

  /** Whether the ratio of the raw periods is within tol of the integer m. */
  predicate RatioNear(ratio: real, tol: real, m: int)
  {
    AbsReal(ratio - m as real) < tol
  }

  /** a/m for every m in 2 .. n whose ratio passes |ratio - m| < tol. */
  function RatioDivisions(a: real, ratio: real, tol: real, n: int): seq<real>
    decreases n
  {
    if n < 2 then []
    else RatioDivisions(a, ratio, tol, n - 1) + (if RatioNear(ratio, tol, n) then [Fraction(a, n)] else [])
  }

  /** Every value BuildBaseCandidates hands to its Add, in order. */
  function Proposals(px: seq<Peak>, py: seq<Peak>, rawX: real, rawY: real, p: DetectorParams): seq<real>
  {
    PeakDivisions(px + py, p.harmonicMax)
    + (if rawX > 0.0 then Divisions(rawX, p.harmonicMax) else [])
    + (if rawY > 0.0 then Divisions(rawY, p.harmonicMax) else [])
    + (if rawX > 0.0 && rawY > 0.0 then
         RatioDivisions(MaxReal(rawX, rawY), MaxReal(rawX, rawY) / MinReal(rawX, rawY), p.harmonicTol, p.harmonicMax)
       else [])
  }

  /** The rounded value Add keeps, if it lands in [lo, hi]. */
  function Keep(v: real, lo: int, hi: int): set<int>
  {
    var c := RoundEven(v);
    if lo <= c <= hi then {c} else {}
  }

  /** The values of `vs`, rounded (Math.Round), that land in [lo, hi]. */
  function Admitted(vs: seq<real>, lo: int, hi: int): (r: set<int>)
    ensures forall c :: c in r ==> lo <= c <= hi
  {
    if vs == [] then {}
    else Admitted(vs[..|vs| - 1], lo, hi) + Keep(vs[|vs| - 1], lo, hi)
  }

  lemma {:induction false} AdmitLast(vs: seq<real>, v: real, lo: int, hi: int)
    ensures Admitted(vs + [v], lo, hi) == Admitted(vs, lo, hi) + Keep(v, lo, hi)
  {
    assert (vs + [v])[..|vs|] == vs;
  }

  /** Admitting a concatenation admits both parts. */
  lemma {:induction false} AdmittedConcat(a: seq<real>, b: seq<real>, lo: int, hi: int)
    ensures Admitted(a + b, lo, hi) == Admitted(a, lo, hi) + Admitted(b, lo, hi)
    decreases |b|
  {
    if b == [] {
      assert a + b == a;
    } else {
      var b', v := b[..|b| - 1], b[|b| - 1];
      assert a + b == (a + b') + [v];
      assert b == b' + [v];
      AdmittedConcat(a, b', lo, hi);
      AdmitLast(a + b', v, lo, hi);
      AdmitLast(b', v, lo, hi);
    }
  }

  /** An admitted candidate is exactly the in-range rounding of some proposal. */
  lemma {:induction false} AdmittedMember(vs: seq<real>, lo: int, hi: int, c: int)
    ensures c in Admitted(vs, lo, hi) <==> lo <= c <= hi && exists i :: 0 <= i < |vs| && RoundEven(vs[i]) == c
  {
    if vs != [] {
      var init := vs[..|vs| - 1];
      AdmittedMember(init, lo, hi, c);
      if exists i :: 0 <= i < |init| && RoundEven(init[i]) == c {
        var i :| 0 <= i < |init| && RoundEven(init[i]) == c;
        assert vs[i] == init[i];
      }
      if exists i :: 0 <= i < |vs| && RoundEven(vs[i]) == c {
        var i :| 0 <= i < |vs| && RoundEven(vs[i]) == c;
        if i < |init| {
          assert init[i] == vs[i];
        }
      }
    }
  }

  /** The Add helper applied to x/1 .. x/n. */
  method AddDivisions(s: set<int>, x: real, n: int, lo: int, hi: int) returns (s': set<int>)
    ensures s' == s + Admitted(Divisions(x, n), lo, hi)
  {
    s' := s;
    var m := 1;
    while m <= n
      invariant 1 <= m <= MaxInt(1, n + 1)
      invariant s' == s + Admitted(Divisions(x, m - 1), lo, hi)
    {
      var v := Fraction(x, m);
      var c := RoundEven(v);
      if lo <= c <= hi {
        s' := s' + {c};
      }
      assert Divisions(x, m) == Divisions(x, m - 1) + [v];
      AdmitLast(Divisions(x, m - 1), v, lo, hi);
      m := m + 1;
    }
    if n < 1 {
      assert Divisions(x, n) == [] == Divisions(x, m - 1);
    }
  }

  /** The Add helper applied to a/m for every m in 2 .. n that passes the ratio test. */
  method AddRatioDivisions(s: set<int>, a: real, ratio: real, tol: real, n: int, lo: int, hi: int) returns (s': set<int>)
    ensures s' == s + Admitted(RatioDivisions(a, ratio, tol, n), lo, hi)
  {
    s' := s;
    var m := 2;
    while m <= n
      invariant 2 <= m <= MaxInt(2, n + 1)
      invariant s' == s + Admitted(RatioDivisions(a, ratio, tol, m - 1), lo, hi)
    {
      if RatioNear(ratio, tol, m) {
        var v := Fraction(a, m);
        var c := RoundEven(v);
        if lo <= c <= hi {
          s' := s' + {c};
        }
        assert RatioDivisions(a, ratio, tol, m) == RatioDivisions(a, ratio, tol, m - 1) + [v];
        AdmitLast(RatioDivisions(a, ratio, tol, m - 1), v, lo, hi);
      } else {
        assert RatioDivisions(a, ratio, tol, m) == RatioDivisions(a, ratio, tol, m - 1);
      }
      m := m + 1;
    }
    if n < 2 {
      assert RatioDivisions(a, ratio, tol, n) == [] == RatioDivisions(a, ratio, tol, m - 1);
    }
  }

  /**
   * BuildBaseCandidates: the rounded harmonics lag/m (m = 1 .. HarmonicMax)
   * of every ACF peak on both axes and of each positive raw period, and,
   * when both raw periods are positive and their ratio is within HarmonicTol
   * of an integer m >= 2, the larger one divided by m; all kept only inside
   * [PMin, PMax].
   */
  method BuildBaseCandidates(px: seq<Peak>, py: seq<Peak>, rawX: real, rawY: real, p: DetectorParams)
    returns (r: set<int>)
    ensures r == Admitted(Proposals(px, py, rawX, rawY, p), p.pMin, p.pMax)
    ensures forall c :: c in r ==> p.pMin <= c <= p.pMax
  {
    var lo, hi, hm := p.pMin, p.pMax, p.harmonicMax;
    var peaks := px + py;
    r := {};
    for k := 0 to |peaks|
      invariant r == Admitted(PeakDivisions(peaks[..k], hm), lo, hi)
    {
      assert peaks[..k + 1][..k] == peaks[..k];
      r := AddDivisions(r, peaks[k].lag, hm, lo, hi);
      AdmittedConcat(PeakDivisions(peaks[..k], hm), Divisions(peaks[k].lag, hm), lo, hi);
    }
    assert peaks[..|peaks|] == peaks;
    ghost var a := PeakDivisions(peaks, hm);
    ghost var b: seq<real> := if rawX > 0.0 then Divisions(rawX, hm) else [];
    ghost var c: seq<real> := if rawY > 0.0 then Divisions(rawY, hm) else [];
    ghost var d: seq<real> := [];
    if rawX > 0.0 {
      r := AddDivisions(r, rawX, hm, lo, hi);
    }
    if rawY > 0.0 {
      r := AddDivisions(r, rawY, hm, lo, hi);
    }
    if rawX > 0.0 && rawY > 0.0 {
      var big, small := MaxReal(rawX, rawY), MinReal(rawX, rawY);
      var ratio := big / small;
      d := RatioDivisions(big, ratio, p.harmonicTol, hm);
      r := AddRatioDivisions(r, big, ratio, p.harmonicTol, hm, lo, hi);
    }
    assert Proposals(px, py, rawX, rawY, p) == a + b + c + d;
    AdmittedConcat(a, b, lo, hi);
    AdmittedConcat(a + b, c, lo, hi);
    AdmittedConcat(a + b + c, d, lo, hi);
  }

  // ------------------------------------------------------------ FindAnchor

  /** DetectAxis: the anchor axis, with the source's Axis.None renamed. */
  datatype Axis = NoAxis | XAxis | YAxis

  datatype Anchor = Anchor(axis: Axis, lag: real, prom: real)

  /** The prominence of the k-th peak, 0 when there is none. */
  function TopProm(peaks: seq<Peak>, k: nat): real
  {
    if k < |peaks| then peaks[k].prominence else 0.0
  }

  /** How far the first peak stands above the second. */
  function Margin(peaks: seq<Peak>): real
  {
    TopProm(peaks, 0) - TopProm(peaks, 1)
  }

  /**
   * FindAnchor: the axis whose leading peak stands out by the larger margin
   * (ties to X), provided that margin reaches AnchorMargin and the axis has a
   * peak; otherwise no anchor.
   */
  function FindAnchor(px: seq<Peak>, py: seq<Peak>, p: DetectorParams): (r: Anchor)
    ensures r.axis == XAxis <==> |px| > 0 && Margin(px) >= Margin(py) && Margin(px) >= p.anchorMargin
    ensures r.axis == YAxis <==> |py| > 0 && Margin(py) > Margin(px) && Margin(py) >= p.anchorMargin
    ensures r.axis == XAxis ==> r.lag == px[0].lag && r.prom == px[0].prominence
    ensures r.axis == YAxis ==> r.lag == py[0].lag && r.prom == py[0].prominence
    ensures r.axis == NoAxis ==> r.lag == 0.0 && r.prom == 0.0
  {
    var mx, my := Margin(px), Margin(py);
    if mx >= my && mx >= p.anchorMargin && |px| > 0 then Anchor(XAxis, px[0].lag, px[0].prominence)
    else if my > mx && my >= p.anchorMargin && |py| > 0 then Anchor(YAxis, py[0].lag, py[0].prominence)
    else Anchor(NoAxis, 0.0, 0.0)
  }

  // ------------------------------------------------------ AcquireCandidates

  /** The integers a .. z. */
  function Interval(a: int, z: int): (r: set<int>)
    ensures forall c :: c in r <==> a <= c <= z
    decreases z - a
  {
    if z < a then {} else Interval(a, z - 1) + {z}
  }

  /** What TryAdd contributes: b and its neighbours up to the jitter, inside [lo, hi]; nothing for b outside. */
  function Jittered(b: int, jitter: int, lo: int, hi: int): set<int>
  {
    if b < lo || b > hi then {} else Interval(MaxInt(lo, b - MaxInt(0, jitter)), MinInt(hi, b + MaxInt(0, jitter)))
  }

  /** The jittered windows around round(lag/1) .. round(lag/n). */
  function AnchorWindows(lag: real, jitter: int, lo: int, hi: int, n: int): (r: set<int>)
    ensures forall c :: c in r ==> lo <= c <= hi
    decreases n
  {
    if n < 1 then {} else AnchorWindows(lag, jitter, lo, hi, n - 1) + Jittered(RoundEven(Fraction(lag, n)), jitter, lo, hi)
  }

  /** The tolerance PeakPromNear is asked with around a candidate b and its harmonics: max(1, 0.06 b). */
  function K1Tol(b: int): real
  {
    MaxReal(1.0, b as real * 0.06)
  }

  /** The fundamental of b has at least `minProm` prominence among `peaks`. */
  predicate K1Passes(b: int, peaks: seq<Peak>, minProm: real)
  {
    PeakPromNear(peaks, b as real, K1Tol(b)) >= minProm
  }

  /** The candidates whose fundamental passes on the anchor axis. */
  function KeepK1(s: set<int>, peaks: seq<Peak>, minProm: real): (r: set<int>)
    ensures forall b :: b in r <==> b in s && K1Passes(b, peaks, minProm)
  {
    set b | b in s && K1Passes(b, peaks, minProm)
  }

  function AxisPeaks(axis: Axis, px: seq<Peak>, py: seq<Peak>): seq<Peak>
  {
    if axis == XAxis then px else py
  }

  /** The anchored candidate set before it is intersected with the base candidates. */
  function AnchorFiltered(px: seq<Peak>, py: seq<Peak>, p: DetectorParams, anchor: Anchor): set<int>
  {
    var windows := AnchorWindows(anchor.lag, p.anchorJitterPx, p.pMin, p.pMax, p.harmonicMax);
    if p.requireK1OnAnchor then KeepK1(windows, AxisPeaks(anchor.axis, px, py), p.requireK1MinProm) else windows
  }

  /**
   * What AcquireCandidates returns: the base candidates when anchoring is off,
   * there is no anchor or there are no base candidates; otherwise the base
   * candidates near the anchor's harmonics, or all of them if none is.
   */
  function Acquired(px: seq<Peak>, py: seq<Peak>, rawX: real, rawY: real, p: DetectorParams, anchor: Anchor): (r: set<int>)
    ensures r <= Admitted(Proposals(px, py, rawX, rawY, p), p.pMin, p.pMax)
    ensures !p.useAnchor || anchor.axis == NoAxis ==> r == Admitted(Proposals(px, py, rawX, rawY, p), p.pMin, p.pMax)
    ensures r == {} <==> Admitted(Proposals(px, py, rawX, rawY, p), p.pMin, p.pMax) == {}
  {
    var base := Admitted(Proposals(px, py, rawX, rawY, p), p.pMin, p.pMax);
    if !p.useAnchor || anchor.axis == NoAxis || base == {} then base
    else
      var filtered := AnchorFiltered(px, py, p, anchor) * base;
      if filtered != {} then filtered else base
  }

  /** TryAdd(b): add b and, jitter by jitter, its in-range neighbours, when b itself is in range. */
  method TryAdd(s: set<int>, b: int, jitter: int, lo: int, hi: int) returns (s': set<int>)
    ensures s' == s + Jittered(b, jitter, lo, hi)
  {
    if b < lo || b > hi {
      return s;
    }
    s' := s + {b};
    var d := 1;
    while d <= jitter
      invariant 1 <= d <= MaxInt(1, jitter + 1)
      invariant forall c :: c in s' <==> c in s || MaxInt(lo, b - (d - 1)) <= c <= MinInt(hi, b + (d - 1))
    {
      if b - d >= lo {
        s' := s' + {b - d};
      }
      if b + d <= hi {
        s' := s' + {b + d};
      }
      d := d + 1;
    }
    assert d - 1 == MaxInt(0, jitter);
    assert forall c :: c in s' <==> c in s + Jittered(b, jitter, lo, hi);
  }

  /** The anchored filter of AcquireCandidates: windows, then the optional fundamental test. */
  method FilterByAnchor(px: seq<Peak>, py: seq<Peak>, p: DetectorParams, anchor: Anchor) returns (filtered: set<int>)
    ensures filtered == AnchorFiltered(px, py, p, anchor)
  {
    var lag, jitter, lo, hi, hm := anchor.lag, p.anchorJitterPx, p.pMin, p.pMax, p.harmonicMax;
    filtered := {};
    var m := 1;
    while m <= hm
      invariant 1 <= m <= MaxInt(1, hm + 1)
      invariant filtered == AnchorWindows(lag, jitter, lo, hi, m - 1)
    {
      filtered := TryAdd(filtered, RoundEven(Fraction(lag, m)), jitter, lo, hi);
      m := m + 1;
    }
    if hm < 1 {
      assert AnchorWindows(lag, jitter, lo, hi, hm) == {} == AnchorWindows(lag, jitter, lo, hi, m - 1);
    }
    if p.requireK1OnAnchor {
      var peaks := if anchor.axis == XAxis then px else py;
      filtered := KeepFundamental(filtered, peaks, p.requireK1MinProm, lo, hi);
    }
  }

  /**
   * The RequireK1OnAnchor pass: keep the candidates whose own lag is a peak of
   * enough prominence.  The set is visited in increasing order over its
   * range [lo, hi]; the result does not depend on the order.
   */
  method KeepFundamental(filtered: set<int>, peaks: seq<Peak>, minProm: real, lo: int, hi: int) returns (keep: set<int>)
    requires forall c :: c in filtered ==> lo <= c <= hi
    ensures keep == KeepK1(filtered, peaks, minProm)
  {
    keep := {};
    var b := lo;
    while b <= hi
      invariant lo <= b <= MaxInt(lo, hi + 1)
      invariant forall c :: c in keep <==> c in filtered && c < b && K1Passes(c, peaks, minProm)
    {
      if b in filtered {
        var tol := K1Tol(b);
        var promK1 := PeakPromNear(peaks, b as real, tol);
        assert K1Passes(b, peaks, minProm) <==> promK1 >= minProm;
        if promK1 >= minProm {
          keep := keep + {b};
        }
      }
      b := b + 1;
    }
    assert forall c :: c in keep <==> c in KeepK1(filtered, peaks, minProm);
  }

  /** AcquireCandidates. */
  method AcquireCandidates(px: seq<Peak>, py: seq<Peak>, rawX: real, rawY: real, p: DetectorParams, anchor: Anchor)
    returns (r: set<int>)
    ensures r == Acquired(px, py, rawX, rawY, p, anchor)
  {
    var base := BuildBaseCandidates(px, py, rawX, rawY, p);
    if !p.useAnchor || anchor.axis == NoAxis || |base| == 0 {
      return base;
    }
    var filtered := FilterByAnchor(px, py, p, anchor);
    filtered := filtered * base;
    r := if |filtered| > 0 then filtered else base;
  }

  /** c is within the jitter of round(lag/m). */
  predicate WithinJitter(c: int, lag: real, jitter: int, m: int)
    requires m >= 1
  {
    AbsInt(c - RoundEven(Fraction(lag, m))) <= MaxInt(0, jitter)
  }

  /** Every anchored window candidate lies within the jitter of a rounded harmonic lag/m of the anchor. */
  lemma {:induction false} AnchorWindowsNearHarmonic(lag: real, jitter: int, lo: int, hi: int, n: int, c: int)
    requires c in AnchorWindows(lag, jitter, lo, hi, n)
    ensures exists m :: 1 <= m <= n && WithinJitter(c, lag, jitter, m)
    decreases n
  {
    if c in AnchorWindows(lag, jitter, lo, hi, n - 1) {
      AnchorWindowsNearHarmonic(lag, jitter, lo, hi, n - 1, c);
      var m :| 1 <= m <= n - 1 && WithinJitter(c, lag, jitter, m);
    } else {
      assert WithinJitter(c, lag, jitter, n);
    }
  }

  // ------------------------------------------------ RelativeHarmonicDistance

  /** |b - lag/m| relative to max(lag/m, 1). */
  function RelDist(b: int, lag: real, m: int): real
    requires m >= 1
  {
    var target := lag / m as real;
    AbsReal(b as real - target) / MaxReal(target, 1.0)
  }

  /** RelativeHarmonicDistance: the smallest relative distance from b to lag/1 .. lag/6. */
  method RelativeHarmonicDistance(b: int, lag: real) returns (r: real)
    ensures r == MinRelDist(b, lag, 6)
  {
    var best: Option<real> := None;
    for m := 1 to 7
      invariant best.None? <==> m == 1
      invariant best.Some? ==> best.value == MinRelDist(b, lag, m - 1)
    {
      var target := lag / m as real;
      var rel := AbsReal(b as real - target) / MaxReal(target, 1.0);
      assert rel == RelDist(b, lag, m);
      if best.None? || rel < best.value {
        best := Some(rel);
      }
    }
    r := best.value;
  }

  /** The smallest relative distance from b to lag/1 .. lag/m: attained by some m and below all of them. */
  function MinRelDist(b: int, lag: real, m: int): (r: real)
    requires m >= 1
    ensures forall k :: 1 <= k <= m ==> r <= RelDist(b, lag, k)
    ensures exists k :: 1 <= k <= m && r == RelDist(b, lag, k)
  {
    if m == 1 then RelDist(b, lag, 1) else MinReal(MinRelDist(b, lag, m - 1), RelDist(b, lag, m))
  }

  // --------------------------------------------------- CombinedHarmonicScore

  /** The weights of harmonics 1 .. 5: K1Boost, 0.7, 0.5, 0.35, 0.25. */
  function HarmonicWeight(k1Boost: real, k: int): real
  {
    if k == 1 then k1Boost else if k == 2 then 0.7 else if k == 3 then 0.5 else if k == 4 then 0.35 else if k == 5 then 0.25 else 0.0
  }

  /** The k-th harmonic k*b of a candidate period b. */
  function HarmonicLag(b: int, k: int): real
  {
    (k * b) as real
  }

  /** The prominence found near the k-th harmonic of b on both axes, within max(1, 0.06 b). */
  function HarmonicProm(px: seq<Peak>, py: seq<Peak>, b: int, k: int): real
  {
    PeakPromNear(px, HarmonicLag(b, k), K1Tol(b)) + PeakPromNear(py, HarmonicLag(b, k), K1Tol(b))
  }

  /** The weighted prominences near harmonics 1 .. k of b. */
  function HarmonicUpTo(px: seq<Peak>, py: seq<Peak>, b: int, k1Boost: real, k: int): real
    decreases k
  {
    if k < 1 then 0.0
    else HarmonicUpTo(px, py, b, k1Boost, k - 1) + HarmonicWeight(k1Boost, k) * HarmonicProm(px, py, b, k)
  }

  /** CombinedHarmonicScore: harmonics 1 .. min(HarmonicMax, 5); only K1Boost and HarmonicMax are read. */
  function Harmonic(px: seq<Peak>, py: seq<Peak>, b: int, p: DetectorParams): real
  {
    HarmonicUpTo(px, py, b, p.k1Boost, MinInt(p.harmonicMax, 5))
  }

  method CombinedHarmonicScore(px: seq<Peak>, py: seq<Peak>, b: int, p: DetectorParams) returns (sum: real)
    ensures sum == Harmonic(px, py, b, p)
  {
    var k1Boost := p.k1Boost;
    var w := [0.0, 1.0 * k1Boost, 0.7, 0.5, 0.35, 0.25];
    sum := 0.0;
    var kmax := MinInt(p.harmonicMax, 5);
    var k := 1;
    while k <= kmax
      invariant 1 <= k <= MaxInt(1, kmax + 1)
      invariant sum == HarmonicUpTo(px, py, b, k1Boost, k - 1)
    {
      var tol := K1Tol(b);
      var hx := PeakPromNear(px, HarmonicLag(b, k), tol);
      var hy := PeakPromNear(py, HarmonicLag(b, k), tol);
      var wk := w[k];
      assert wk == HarmonicWeight(k1Boost, k);
      HarmonicStep(px, py, b, k1Boost, k, hx + hy);
      sum := sum + wk * (hx + hy);
      k := k + 1;
    }
  }

  lemma {:induction false} HarmonicStep(px: seq<Peak>, py: seq<Peak>, b: int, k1Boost: real, k: int, prom: real)
    requires k >= 1 && prom == HarmonicProm(px, py, b, k)
    ensures HarmonicUpTo(px, py, b, k1Boost, k) == HarmonicUpTo(px, py, b, k1Boost, k - 1) + HarmonicWeight(k1Boost, k) * prom
  {
  }

  /** Peaks of non-negative prominence give a non-negative PeakPromNear. */
  lemma {:induction false} PromNearNonNegative(peaks: seq<Peak>, lag: real, tol: real)
    requires forall i :: 0 <= i < |peaks| ==> peaks[i].prominence >= 0.0
    ensures PeakPromNear(peaks, lag, tol) >= 0.0
  {
    PeakPromNearSpec(peaks, lag, tol);
    if exists i :: 0 <= i < |peaks| && Near(peaks[i], lag, tol) {
      var i :| 0 <= i < |peaks| && Near(peaks[i], lag, tol) && PeakPromNear(peaks, lag, tol) == peaks[i].prominence;
    }
  }

  /** With non-negative prominences and K1Boost, the harmonic score is never negative. */
  lemma {:induction false} HarmonicNonNegative(px: seq<Peak>, py: seq<Peak>, b: int, k1Boost: real, k: int)
    requires forall i :: 0 <= i < |px| ==> px[i].prominence >= 0.0
    requires forall i :: 0 <= i < |py| ==> py[i].prominence >= 0.0
    requires k1Boost >= 0.0
    ensures HarmonicUpTo(px, py, b, k1Boost, k) >= 0.0
    decreases k
  {
    if k >= 1 {
      HarmonicNonNegative(px, py, b, k1Boost, k - 1);
      PromNearNonNegative(px, HarmonicLag(b, k), K1Tol(b));
      PromNearNonNegative(py, HarmonicLag(b, k), K1Tol(b));
      MulNonNegative(HarmonicWeight(k1Boost, k), HarmonicProm(px, py, b, k));
    }
  }

  // ------------------------------------------------------- DecadePenaltyTerm

  /** Divisor m flags b: f = round(b/m) is at least 2, a base candidate, and scores 0.6 of b's harmonic score. */
  predicate DecadeHit(b: int, base: set<int>, px: seq<Peak>, py: seq<Peak>, p: DetectorParams, harmB: real, m: int)
    requires m >= 1
  {
    var f := RoundEven(b as real / m as real);
    f >= 2 && f in base && Harmonic(px, py, f, p) >= 0.6 * harmB
  }

  /**
   * DecadePenaltyTerm: DecadePenalty when lower harmonics are preferred, the
   * penalty is positive and some m in 5 .. 12 flags b; 0 otherwise.
   */
  function DecadePenaltyOf(b: int, base: set<int>, px: seq<Peak>, py: seq<Peak>, p: DetectorParams, harmB: real): (r: real)
    ensures r == 0.0 || (r == p.decadePenalty && r > 0.0)
    ensures r > 0.0 <==> p.preferLowerHarmonic && p.decadePenalty > 0.0
                         && exists m :: 5 <= m <= 12 && DecadeHit(b, base, px, py, p, harmB, m)
  {
    if !p.preferLowerHarmonic || p.decadePenalty <= 0.0 then 0.0
    else if exists m :: 5 <= m <= 12 && DecadeHit(b, base, px, py, p, harmB, m) then p.decadePenalty
    else 0.0
  }

  method DecadePenaltyTerm(b: int, base: set<int>, px: seq<Peak>, py: seq<Peak>, p: DetectorParams, harmB: real)
    returns (r: real)
    ensures r == DecadePenaltyOf(b, base, px, py, p, harmB)
  {
    if !p.preferLowerHarmonic || p.decadePenalty <= 0.0 {
      return 0.0;
    }
    for m := 5 to 13
      invariant forall k :: 5 <= k < m ==> !DecadeHit(b, base, px, py, p, harmB, k)
    {
      var f := RoundEven(b as real / m as real);
      if f < 2 {
        continue;
      }
      if f !in base {
        continue;
      }
      var harmF := CombinedHarmonicScore(px, py, f, p);
      if harmF >= 0.6 * harmB {
        assert DecadeHit(b, base, px, py, p, harmB, m);
        return p.decadePenalty;
      }
    }
    r := 0.0;
  }
}

=== FILE: grid_detect.dfy ===
/**
 * GridDetect: Detect100m once the image has been reduced to its two
 * detrended gradient profiles.  Each axis is analysed (ACF and its top
 * peaks), the candidate periods are acquired, every candidate is scored and
 * the best one becomes the 100 m period, with the hard-coded tenfold
 * correction and the reliability of the winner.
 */
module GridDetect {
  import opened Common
  import opened GridSignal
  import opened GridScore
  import opened GridParams
  import opened GridCandidates

  // ----------------------------------------------------- per-axis analysis

  /** The lower lag bound Detect100m asks of an axis: PMin clamped to [2, max(2, trunc(0.45 len))]. */
  function AxisMin(len: nat, pMin: int): int
  {
    ClampInt(pMin, 2, MaxInt(2, Truncate(len as real * 0.45)))
  }

  lemma {:induction false} AxisBoundsOrdered(len: nat, pMin: int)
    ensures AxisMin(len, pMin) + 1 <= MaxInt(10, len - 2)
  {
    var t := Truncate(len as real * 0.45);
    assert t as real <= len as real * 0.45;
  }

  /** The upper lag bound: PMax clamped to [AxisMin + 1, max(10, len - 2)]; Math.Clamp never sees crossed bounds here. */
  function AxisMax(len: nat, pMin: int, pMax: int): (r: int)
    ensures AxisMin(len, pMin) < r
  {
    AxisBoundsOrdered(len, pMin);
    ClampInt(pMax, AxisMin(len, pMin) + 1, MaxInt(10, len - 2))
  }

  /** AnalyzeAxis: the ACF, its top peaks, and the lag and prominence of the first peak (0 without peaks). */
  datatype AxisAnalysis = AxisAnalysis(acf: seq<real>, peaks: seq<Peak>, raw: real, relProm: real)

  /**
   * AnalyzeAxis.  The peak search indexes the ACF directly; when its bounds do
   * not fit the ACF the source throws, which Detect100m turns into a failure.
   * `acf` is the ACF computed either way.
   */
  method AnalyzeAxis(proj: seq<real>, pmin: int, pmax: int, topN: int) returns (r: Option<AxisAnalysis>, acf: seq<real>)
    ensures IsAcf(proj, pmin, pmax, InPlace, acf)
    ensures r.None? <==> TopPeaks(acf, pmin, pmax, topN).None?
    ensures r.Some? ==> r.value.acf == acf && TopPeaks(acf, pmin, pmax, topN) == Some(r.value.peaks)
    ensures r.Some? ==> r.value.raw == (if |r.value.peaks| > 0 then r.value.peaks[0].lag else 0.0)
    ensures r.Some? ==> r.value.relProm == (if |r.value.peaks| > 0 then r.value.peaks[0].prominence else 0.0)
  {
    acf := ComputeACF(proj, pmin, pmax, InPlace);
    var found := FindTopPeaks(acf, pmin, pmax, topN);
    if found.None? {
      return None, acf;
    }
    var peaks := found.value;
    var raw := if |peaks| > 0 then peaks[0].lag else 0.0;
    var relProm := if |peaks| > 0 then peaks[0].prominence else 0.0;
    r := Some(AxisAnalysis(acf, peaks, raw, relProm));
  }

  // ------------------------------------------------------ candidate scores

  /** Everything the candidate score reads that is not a candidate-score term. */
  datatype Context = Context(
    projX: seq<real>, projY: seq<real>,
    peaksX: seq<Peak>, peaksY: seq<Peak>,
    p: DetectorParams,
    anchor: Anchor,
    base: set<int>,
    goertzel: int -> real,   // GoertzelAmpNorm(projX, b) + GoertzelAmpNorm(projY, b)
    prior: int -> real,      // exp(-ln(b / prior)^2 / (2 PriorSigma^2))
    priorOn: bool)           // a positive prior period was given

  /** The terms Detect100m computes for one candidate. */
  datatype Terms = Terms(
    harm: real, goert: real,
    gridX: real, shiftX: int, gridY: real, shiftY: int,
    inter: real, coverX: real, coverY: real,
    k1x: real, k1y: real, rel: real, prior: real, decade: real)

  /** The shift ScorePeriodWindowed returns: 0 when degenerate, otherwise the first best. */
  predicate ShiftOf(proj: seq<real>, period: int, halfWidth: int, s: int)
  {
    if |proj| == 0 || period < 2 then s == 0
    else
      var step := MaxInt(2, period);
      FirstMaximiser(proj, 0, |proj|, step, MaxInt(0, halfWidth), MinInt(step, |proj|), s)
  }

  /** The score and shift ScorePeriodWindowed returns. */
  predicate Windowed(proj: seq<real>, period: int, halfWidth: int, g: real, s: int)
  {
    ShiftOf(proj, period, halfWidth, s)
    && if |proj| == 0 || period < 2 then g == NoScore
       else g == ShiftScore(proj, 0, |proj|, MaxInt(2, period), MaxInt(0, halfWidth), s)
  }

  /** The value TileCoverage returns. */
  function CoverageShare(proj: seq<real>, period: int, tiles: int, halfWidth: int): real
  {
    if CoverageDegenerate(|proj|, period, tiles) then 0.0
    else CountTrue(Coverage(proj, period, tiles, halfWidth)) as real / tiles as real
  }

  /** The anchor bonus applies when anchoring is on and an anchor was found. */
  predicate Anchored(ctx: Context)
  {
    ctx.p.useAnchor && ctx.anchor.axis != NoAxis
  }

  /** The projection terms: windowed scores and shifts, intersections and tile coverage. */
  predicate ProjectionTermsOf(ctx: Context, b: int, t: Terms)
  {
    var p := ctx.p;
    Windowed(ctx.projX, b, p.lineHalfWidth, t.gridX, t.shiftX)
    && Windowed(ctx.projY, b, p.lineHalfWidth, t.gridY, t.shiftY)
    && t.shiftX >= 0 && t.shiftY >= 0
    && t.inter == Intersections(ctx.projX, ctx.projY, b, t.shiftX, t.shiftY)
    && t.coverX == CoverageShare(ctx.projX, b, MaxInt(2, p.tilesX), p.lineHalfWidth)
    && t.coverY == CoverageShare(ctx.projY, b, MaxInt(2, p.tilesY), p.lineHalfWidth)
  }

  /** The peak terms: harmonic support, the fundamental's prominence, anchor distance and decade penalty. */
  predicate PeakTermsOf(ctx: Context, b: int, t: Terms)
  {
    var p := ctx.p;
    t.harm == Harmonic(ctx.peaksX, ctx.peaksY, b, p)
    && t.k1x == PeakPromNear(ctx.peaksX, b as real, K1Tol(b))
    && t.k1y == PeakPromNear(ctx.peaksY, b as real, K1Tol(b))
    && (Anchored(ctx) ==> t.rel == MinRelDist(b, ctx.anchor.lag, 6))
    && t.decade == DecadePenaltyOf(b, ctx.base, ctx.peaksX, ctx.peaksY, p, t.harm)
  }

  /** Each term is what the corresponding scorer returns for candidate b. */
  predicate TermsOf(ctx: Context, b: int, t: Terms)
  {
    t.goert == ctx.goertzel(b)
    && t.prior == (if ctx.priorOn then ctx.p.priorWeight * ctx.prior(b) else 0.0)
    && ProjectionTermsOf(ctx, b, t) && PeakTermsOf(ctx, b, t)
  }

  /** EdgePenalty once for a candidate within 2 of PMin and once within 2 of PMax. */
  function EdgeTerm(p: DetectorParams, b: int): real
  {
    (if b <= p.pMin + 2 then p.edgePenalty else 0.0) + (if b >= p.pMax - 2 then p.edgePenalty else 0.0)
  }

  /** The imbalance of the fundamental's prominence between the axes; 1 when both are (nearly) zero. */
  function Balance(k1x: real, k1y: real): real
  {
    if k1x + k1y > 0.000001 then AbsReal(k1x - k1y) / (k1x + k1y) else 1.0
  }

  /** 0.8 (1 - distance), floored at 0, when anchored. */
  function AnchorBonus(anchored: bool, rel: real): real
  {
    if anchored then 0.8 * MaxReal(0.0, 1.0 - rel) else 0.0
  }

  /** The candidate score of Detect100m. */
  function CandidateScore(ctx: Context, b: int, t: Terms): real
  {
    var p := ctx.p;
    p.combAlpha * t.harm + p.goertzelBeta * t.goert + p.gridGammaW * (t.gridX + t.gridY)
    + p.intersectWeight * t.inter + p.tileWeight * (0.5 * (t.coverX + t.coverY))
    + AnchorBonus(Anchored(ctx), t.rel) + t.prior
    - p.axisBalanceWeight * Balance(t.k1x, t.k1y) - EdgeTerm(p, b) - t.decade
  }

  /** With non-negative prominences the imbalance lies in [0, 1]. */
  lemma {:induction false} BalanceRange(k1x: real, k1y: real)
    requires k1x >= 0.0 && k1y >= 0.0
    ensures 0.0 <= Balance(k1x, k1y) <= 1.0
  {
    if k1x + k1y > 0.000001 {
      assert AbsReal(k1x - k1y) <= k1x + k1y;
      DivAtMostOne(AbsReal(k1x - k1y), k1x + k1y);
    }
  }

  lemma {:induction false} DivAtMostOne(a: real, d: real)
    requires 0.0 <= a <= d && d > 0.0
    ensures 0.0 <= a / d <= 1.0
  {
  }

  /** The anchor bonus lies in [0, 0.8], and is 0.8 exactly at a harmonic (distance 0). */
  lemma {:induction false} AnchorBonusRange(anchored: bool, rel: real)
    requires rel >= 0.0
    ensures 0.0 <= AnchorBonus(anchored, rel) <= 0.8
    ensures anchored && rel == 0.0 ==> AnchorBonus(anchored, rel) == 0.8
  {
  }

  /** The projection terms of one candidate; the other terms are left as in `t0`. */
  method ProjectionTerms(ctx: Context, b: int, t0: Terms) returns (t: Terms)
    ensures ProjectionTermsOf(ctx, b, t)
    ensures t.harm == t0.harm && t.goert == t0.goert && t.k1x == t0.k1x && t.k1y == t0.k1y
    ensures t.rel == t0.rel && t.prior == t0.prior && t.decade == t0.decade
  {
    var p := ctx.p;
    var gX, sX := ScorePeriodWindowed(ctx.projX, b, p.lineHalfWidth);
    var gY, sY := ScorePeriodWindowed(ctx.projY, b, p.lineHalfWidth);
    var inter := ScoreIntersections(ctx.projX, ctx.projY, b, sX, sY);
    var coverX := TileCoverage(ctx.projX, b, MaxInt(2, p.tilesX), p.lineHalfWidth);
    var coverY := TileCoverage(ctx.projY, b, MaxInt(2, p.tilesY), p.lineHalfWidth);
    t := t0.(gridX := gX, shiftX := sX, gridY := gY, shiftY := sY, inter := inter, coverX := coverX, coverY := coverY);
  }

  /** The peak terms of one candidate; the other terms are left as in `t0`. */
  method PeakTerms(ctx: Context, b: int, t0: Terms) returns (t: Terms)
    ensures PeakTermsOf(ctx, b, t)
    ensures t.goert == t0.goert && t.prior == t0.prior
    ensures t.gridX == t0.gridX && t.shiftX == t0.shiftX && t.gridY == t0.gridY && t.shiftY == t0.shiftY
    ensures t.inter == t0.inter && t.coverX == t0.coverX && t.coverY == t0.coverY
  {
    var p := ctx.p;
    var harm := CombinedHarmonicScore(ctx.peaksX, ctx.peaksY, b, p);
    var tol := K1Tol(b);
    var k1x := PeakPromNear(ctx.peaksX, b as real, tol);
    var k1y := PeakPromNear(ctx.peaksY, b as real, tol);
    var rel := 0.0;
    if p.useAnchor && ctx.anchor.axis != NoAxis {
      rel := RelativeHarmonicDistance(b, ctx.anchor.lag);
    }
    var decadePenalty := DecadePenaltyTerm(b, ctx.base, ctx.peaksX, ctx.peaksY, p, harm);
    t := t0.(harm := harm, k1x := k1x, k1y := k1y, rel := rel, decade := decadePenalty);
  }

  /** The score of one candidate, computed term by term as the candidate loop does. */
  method ScoreCandidate(ctx: Context, b: int) returns (score: real, sX: int, sY: int, t: Terms)
    ensures TermsOf(ctx, b, t) && score == CandidateScore(ctx, b, t)
    ensures sX == t.shiftX && sY == t.shiftY
  {
    var priorTerm := 0.0;
    if ctx.priorOn {
      priorTerm := ctx.p.priorWeight * ctx.prior(b);
    }
    var t0 := Terms(0.0, ctx.goertzel(b), 0.0, 0, 0.0, 0, 0.0, 0.0, 0.0, 0.0, 0.0, 0.0, priorTerm, 0.0);
    var t1 := PeakTerms(ctx, b, t0);
    t := ProjectionTerms(ctx, b, t1);
    assert PeakTermsOf(ctx, b, t);
    sX, sY := t.shiftX, t.shiftY;
    score := CandidateScore(ctx, b, t);
  }

  // ------------------------------------------------------------- selection

  /** One scored candidate, in visiting order. */
  datatype Scored = Scored(base: int, score: real, shiftX: int, shiftY: int)

  /** The running best of the candidate loop; `found` false stands for bestScore = -infinity, bestBase = -1. */
  datatype Best = Best(found: bool, base: int, score: real, shiftX: int, shiftY: int)

  const NoBest := Best(false, -1, 0.0, 0, 0)

  /** The update of the candidate loop, near-tie clause included. */
  function Visit(st: Best, c: Scored): Best
  {
    if !st.found || c.score > st.score || (AbsReal(c.score - st.score) < 0.1 && c.base < st.base)
    then Best(true, c.base, c.score, c.shiftX, c.shiftY)
    else st
  }

  /** The loop's best after visiting `list` in order. */
  function Scan(list: seq<Scored>): Best
  {
    if list == [] then NoBest else Visit(Scan(list[..|list| - 1]), list[|list| - 1])
  }

  predicate Ascending(list: seq<Scored>)
  {
    forall i, j :: 0 <= i < j < |list| ==> list[i].base < list[j].base
  }

  /** Entry k has the greatest score, and every entry before it scores strictly less. */
  predicate FirstBestAt(list: seq<Scored>, k: int)
  {
    0 <= k < |list|
    && (forall i :: 0 <= i < |list| ==> list[i].score <= list[k].score)
    && (forall i :: 0 <= i < k ==> list[i].score < list[k].score)
  }

  function Chosen(c: Scored): Best
  {
    Best(true, c.base, c.score, c.shiftX, c.shiftY)
  }

  /**
   * Visiting the candidates in increasing order, the near-tie clause never
   * fires: the loop ends on the first (smallest) candidate with the
   * greatest score.
   */
  lemma {:induction false} ScanFirstBest(list: seq<Scored>)
    requires Ascending(list) && |list| > 0
    ensures exists k :: FirstBestAt(list, k) && Scan(list) == Chosen(list[k])
  {
    var init, c := list[..|list| - 1], list[|list| - 1];
    assert list == init + [c];
    if init == [] {
      assert Scan(list) == Visit(NoBest, c);
      assert FirstBestAt(list, 0) && Scan(list) == Chosen(list[0]);
    } else {
      assert Ascending(init);
      ScanFirstBest(init);
      var k :| FirstBestAt(init, k) && Scan(init) == Chosen(init[k]);
      assert Scan(list) == Visit(Chosen(init[k]), c);
      ScanStep(init, c, k);
      if c.score > init[k].score {
        assert FirstBestAt(list, |list| - 1) && Scan(list) == Chosen(list[|list| - 1]);
      } else {
        assert FirstBestAt(list, k) && Scan(list) == Chosen(list[k]);
      }
    }
  }

  /** One step of ScanFirstBest: a later, larger period replaces the first best only by scoring strictly more. */
  lemma {:induction false} ScanStep(init: seq<Scored>, c: Scored, k: int)
    requires FirstBestAt(init, k) && c.base > init[k].base
    ensures c.score > init[k].score ==> FirstBestAt(init + [c], |init|) && Visit(Chosen(init[k]), c) == Chosen(c)
    ensures c.score <= init[k].score ==> FirstBestAt(init + [c], k) && Visit(Chosen(init[k]), c) == Chosen(init[k])
  {
    var list := init + [c];
    assert forall i :: 0 <= i < |init| ==> list[i] == init[i];
  }

  /** The near-tie the clause was written for: a smaller candidate within 0.1 of the winner still loses. */
  lemma NearTieIgnored()
    ensures var list := [Scored(10, 1.0, 0, 0), Scored(20, 1.05, 0, 0)];
      AbsReal(list[0].score - list[1].score) < 0.1 && list[0].base < list[1].base && Scan(list).base == 20
  {
    var list := [Scored(10, 1.0, 0, 0), Scored(20, 1.05, 0, 0)];
    assert list[..1] == [list[0]];
    assert [list[0]][..0] == [];
  }

  /** The greatest score in a non-empty list. */
  function MaxScore(list: seq<Scored>): (m: real)
    requires |list| > 0
    ensures forall i :: 0 <= i < |list| ==> list[i].score <= m
    ensures exists i :: 0 <= i < |list| && list[i].score == m
  {
    if |list| == 1 then list[0].score
    else
      var m0 := MaxScore(list[..|list| - 1]);
      assert forall i :: 0 <= i < |list| - 1 ==> list[..|list| - 1][i] == list[i];
      MaxReal(m0, list[|list| - 1].score)
  }

  /** The near-tie rule as intended: an entry within 0.1 of the best score, none before it. */
  predicate PreferLowerAt(list: seq<Scored>, k: int)
    requires |list| > 0
  {
    0 <= k < |list|
    && list[k].score > MaxScore(list) - 0.1
    && forall i :: 0 <= i < k ==> list[i].score <= MaxScore(list) - 0.1
  }

  /**
   * The selection with the near-tie rule working: the first candidate (the
   * smallest period, candidates being visited in increasing order) whose
   * score is within 0.1 of the greatest.
   */
  method SelectPreferLower(list: seq<Scored>) returns (k: int)
    requires |list| > 0
    ensures PreferLowerAt(list, k)
  {
    var best := BestScore(list);
    ghost var w :| 0 <= w < |list| && list[w].score == best;
    k := 0;
    while list[k].score <= best - 0.1
      invariant 0 <= k <= w
      invariant forall i :: 0 <= i < k ==> list[i].score <= best - 0.1
      decreases w - k
    {
      k := k + 1;
    }
  }

  /** The greatest score, by one pass over the list. */
  method BestScore(list: seq<Scored>) returns (best: real)
    requires |list| > 0
    ensures best == MaxScore(list)
  {
    best := list[0].score;
    for i := 1 to |list|
      invariant best == MaxScore(list[..i])
    {
      assert list[..i + 1][..i] == list[..i];
      best := MaxReal(best, list[i].score);
    }
    assert list[..|list|] == list;
  }

  /** With the intended rule, the near-tie above goes to the smaller period. */
  lemma NearTiePreferLower()
    ensures var list := [Scored(10, 1.0, 0, 0), Scored(20, 1.05, 0, 0)];
      PreferLowerAt(list, 0) && list[0].base == 10
  {
    var list := [Scored(10, 1.0, 0, 0), Scored(20, 1.05, 0, 0)];
    assert list[..1] == [list[0]];
    assert MaxScore(list) == 1.05;
  }

  /** The candidate loop's visiting order: the candidates in [lo, n) in increasing order. */
  function Enumerate(cands: set<int>, lo: int, n: int): (r: seq<int>)
    decreases n - lo
  {
    if n <= lo then []
    else Enumerate(cands, lo, n - 1) + (if n - 1 in cands then [n - 1] else [])
  }

  /** `r` holds candidates in [lo, n), strictly increasing. */
  predicate IncreasingWithin(r: seq<int>, cands: set<int>, lo: int, n: int)
  {
    (forall i :: 0 <= i < |r| ==> r[i] in cands && lo <= r[i] < n)
    && forall i, j :: 0 <= i < j < |r| ==> r[i] < r[j]
  }

  /** The enumeration holds candidates in [lo, n), strictly increasing. */
  lemma {:induction false} EnumerateOrdered(cands: set<int>, lo: int, n: int)
    ensures IncreasingWithin(Enumerate(cands, lo, n), cands, lo, n)
    decreases n - lo
  {
    if n > lo {
      EnumerateOrdered(cands, lo, n - 1);
      var prev := Enumerate(cands, lo, n - 1);
      var r := Enumerate(cands, lo, n);
      assert IncreasingWithin(prev, cands, lo, n - 1);
      if n - 1 in cands {
        assert r == prev + [n - 1];
      } else {
        assert r == prev;
      }
    }
  }

  /** Every candidate in [lo, n) is enumerated. */
  lemma {:induction false} EnumerateComplete(cands: set<int>, lo: int, n: int, c: int)
    requires c in cands && lo <= c < n
    ensures c in Enumerate(cands, lo, n)
    decreases n - lo
  {
    if c < n - 1 {
      EnumerateComplete(cands, lo, n - 1, c);
    }
  }

  /** The periods of a scored list, in order. */
  function Bases(list: seq<Scored>): (r: seq<int>)
    ensures |r| == |list|
    ensures forall i :: 0 <= i < |list| ==> r[i] == list[i].base
  {
    if list == [] then [] else Bases(list[..|list| - 1]) + [list[|list| - 1].base]
  }

  /** Entry by entry, `list` holds the score and shifts of its period, from `terms`, the terms TermsOf fixes. */
  predicate Scoring(ctx: Context, list: seq<Scored>, terms: seq<Terms>)
  {
    |list| == |terms|
    && (list != [] ==>
          var c, t := list[|list| - 1], terms[|terms| - 1];
          Scoring(ctx, list[..|list| - 1], terms[..|terms| - 1])
          && TermsOf(ctx, c.base, t) && c.score == CandidateScore(ctx, c.base, t)
          && c.shiftX == t.shiftX && c.shiftY == t.shiftY)
  }

  /** Scoring read entry by entry. */
  lemma {:induction false} ScoringAt(ctx: Context, list: seq<Scored>, terms: seq<Terms>, i: int)
    requires Scoring(ctx, list, terms) && 0 <= i < |list|
    ensures TermsOf(ctx, list[i].base, terms[i]) && list[i].score == CandidateScore(ctx, list[i].base, terms[i])
    ensures list[i].shiftX == terms[i].shiftX && list[i].shiftY == terms[i].shiftY
    decreases |list|
  {
    if i < |list| - 1 {
      ScoringAt(ctx, list[..|list| - 1], terms[..|terms| - 1], i);
    }
  }

  /** A list whose periods are an enumeration visits them in increasing order. */
  lemma {:induction false} AscendingBases(list: seq<Scored>, cands: set<int>, lo: int, n: int)
    requires Bases(list) == Enumerate(cands, lo, n)
    ensures Ascending(list)
  {
    EnumerateOrdered(cands, lo, n);
    var r := Bases(list);
    assert forall i, j :: 0 <= i < j < |list| ==> r[i] < r[j];
  }

  /** Every entry of the list is an enumerated candidate. */
  lemma {:induction false} EntryIsCandidate(list: seq<Scored>, cands: set<int>, lo: int, n: int, k: int)
    requires Bases(list) == Enumerate(cands, lo, n) && 0 <= k < |list|
    ensures list[k].base in cands && lo <= list[k].base < n
  {
    EnumerateOrdered(cands, lo, n);
    assert Bases(list)[k] == list[k].base;
  }

  /** Scoring grows by one entry whose terms are those of its period. */
  lemma {:induction false} ScoringSnoc(ctx: Context, list: seq<Scored>, terms: seq<Terms>, entry: Scored, t: Terms)
    requires Scoring(ctx, list, terms)
    requires TermsOf(ctx, entry.base, t) && entry.score == CandidateScore(ctx, entry.base, t)
    requires entry.shiftX == t.shiftX && entry.shiftY == t.shiftY
    ensures Scoring(ctx, list + [entry], terms + [t])
  {
    assert (list + [entry])[..|list|] == list;
    assert (terms + [t])[..|terms|] == terms;
  }

  /** The enumeration grows by b exactly when b is a candidate. */
  lemma {:induction false} BasesSnoc(list: seq<Scored>, cands: set<int>, lo: int, b: int, entry: Scored)
    requires lo <= b && Bases(list) == Enumerate(cands, lo, b) && entry.base == b
    ensures b in cands ==> Bases(list + [entry]) == Enumerate(cands, lo, b + 1)
    ensures b !in cands ==> Bases(list) == Enumerate(cands, lo, b + 1)
  {
    assert (list + [entry])[..|list|] == list;
    assert Bases(list + [entry]) == Bases(list) + [b];
  }

  /** The candidate loop: every candidate scored in increasing order, with the running best. */
  method SelectCandidate(ctx: Context, cands: set<int>, lo: int, hi: int)
    returns (list: seq<Scored>, best: Best, ghost terms: seq<Terms>)
    requires forall c :: c in cands ==> lo <= c <= hi
    ensures Bases(list) == Enumerate(cands, lo, hi + 1)
    ensures Scoring(ctx, list, terms)
    ensures best == Scan(list)
  {
    list, best, terms := [], NoBest, [];
    var b := lo;
    while b <= hi
      invariant lo <= b <= MaxInt(lo, hi + 1)
      invariant Bases(list) == Enumerate(cands, lo, b)
      invariant Scoring(ctx, list, terms)
      invariant best == Scan(list)
    {
      if b in cands {
        var score, sX, sY, t := ScoreCandidate(ctx, b);
        var entry := Scored(b, score, sX, sY);
        ScoringSnoc(ctx, list, terms, entry, t);
        BasesSnoc(list, cands, lo, b, entry);
        assert (list + [entry])[..|list|] == list;
        best := Visit(best, entry);
        list, terms := list + [entry], terms + [t];
      } else {
        BasesSnoc(list, cands, lo, b, Scored(b, 0.0, 0, 0));
      }
      b := b + 1;
    }
    if b != hi + 1 {
      assert Enumerate(cands, lo, hi + 1) == [];
    }
  }

  // ----------------------------------------------------------- the result

  /** DetectionResult, without the debug images. */
  datatype DetectionResult = DetectionResult(
    success: bool, failReason: string,
    periodX: real, periodY: real, shiftX: int, shiftY: int,
    reliability: real, gridScore: real,
    rawPeriodX: Option<real>, rawPeriodY: Option<real>, consistency: real)

  const Unset := DetectionResult(false, "", 0.0, 0.0, 0, 0, 0.0, 0.0, None, None, 0.0)

  /** The hard-coded tenfold correction: 284 and 135 are taken as ten times the period. */
  predicate Tenfold(b: int)
  {
    b == 284 || b == 135
  }

  /** The reported period of the winning candidate b. */
  function PeriodFor(b: int): (r: real)
    ensures Tenfold(b) ==> r * 10.0 == b as real
    ensures !Tenfold(b) ==> r == b as real
  {
    if Tenfold(b) then b as real / 10.0 else b as real
  }

  /** |rawX - rawY| over their mean, when both are positive. */
  function RawConsistency(rawX: real, rawY: real): Option<real>
  {
    if rawX > 0.0 && rawY > 0.0 then Some(AbsReal(rawX - rawY) / (0.5 * (rawX + rawY))) else None
  }

  /** The greatest prominence near the harmonics 1 .. k of b, floored at 0. */
  function HarmonicPeakMax(peaks: seq<Peak>, b: int, k: int): (r: real)
    ensures r >= 0.0
    ensures forall j :: 1 <= j <= k ==> PeakPromNear(peaks, HarmonicLag(b, j), K1Tol(b)) <= r
    ensures r == 0.0 || exists j :: 1 <= j <= k && r == PeakPromNear(peaks, HarmonicLag(b, j), K1Tol(b))
    decreases k
  {
    if k < 1 then 0.0 else MaxReal(HarmonicPeakMax(peaks, b, k - 1), PeakPromNear(peaks, HarmonicLag(b, k), K1Tol(b)))
  }

  /** Reliability: the weaker axis's best harmonic prominence, clamped to [0, 100]. */
  function Reliability(px: seq<Peak>, py: seq<Peak>, b: int, harmonicMax: int): (r: real)
    ensures 0.0 <= r <= 100.0
  {
    ClampReal(MinReal(HarmonicPeakMax(px, b, harmonicMax), HarmonicPeakMax(py, b, harmonicMax)), 0.0, 100.0)
  }

  /** The reliability loop of Detect100m. */
  method ComputeReliability(px: seq<Peak>, py: seq<Peak>, b: int, harmonicMax: int) returns (r: real)
    ensures r == Reliability(px, py, b, harmonicMax)
  {
    var relBestX, relBestY := 0.0, 0.0;
    var k := 1;
    while k <= harmonicMax
      invariant 1 <= k <= MaxInt(1, harmonicMax + 1)
      invariant relBestX == HarmonicPeakMax(px, b, k - 1) && relBestY == HarmonicPeakMax(py, b, k - 1)
    {
      var tol := K1Tol(b);
      relBestX := MaxReal(relBestX, PeakPromNear(px, HarmonicLag(b, k), tol));
      relBestY := MaxReal(relBestY, PeakPromNear(py, HarmonicLag(b, k), tol));
      k := k + 1;
    }
    r := ClampReal(MinReal(relBestX, relBestY), 0.0, 100.0);
  }

  /** Which near-tie rule picks the winner: the loop as written, or the intended preference for the smaller period. */
  datatype TieRule = AsWrittenTie | PreferLowerTie

  /** The base candidates of Detect100m once the raw periods are known. */
  function BaseOf(ctx0: Context, rawX: real, rawY: real): set<int>
  {
    Admitted(Proposals(ctx0.peaksX, ctx0.peaksY, rawX, rawY, ctx0.p), ctx0.p.pMin, ctx0.p.pMax)
  }

  /** The scoring context: the anchor and the base candidates filled in. */
  function ScoringContext(ctx0: Context, rawX: real, rawY: real): Context
  {
    ctx0.(anchor := FindAnchor(ctx0.peaksX, ctx0.peaksY, ctx0.p), base := BaseOf(ctx0, rawX, rawY))
  }

  /** The candidates that are scored: the base set after the anchor filter. */
  function CandidatesOf(ctx0: Context, rawX: real, rawY: real): set<int>
  {
    Acquired(ctx0.peaksX, ctx0.peaksY, rawX, rawY, ctx0.p, FindAnchor(ctx0.peaksX, ctx0.peaksY, ctx0.p))
  }

  /** A successful result for a positive winner: tenfold-corrected period, shifts, score and reliability. */
  predicate Reports(res: DetectionResult, ctx0: Context, winner: Best)
    requires winner.base > 0
  {
    var p := ctx0.p;
    var period := PeriodFor(winner.base);
    res.success && res.periodX == period && res.periodY == period
    && res.gridScore == winner.score
    && res.reliability == Reliability(ctx0.peaksX, ctx0.peaksY, winner.base, p.harmonicMax)
    && (!Tenfold(winner.base) ==> res.shiftX == winner.shiftX && res.shiftY == winner.shiftY)
    && (Tenfold(winner.base) ==>
          ShiftOf(ctx0.projX, RoundEven(period), p.lineHalfWidth, res.shiftX)
          && ShiftOf(ctx0.projY, RoundEven(period), p.lineHalfWidth, res.shiftY))
  }

  /**
   * Detect100m from line 93 on: the two axes' peaks and raw periods are given.
   * Fails without a positive raw period, without base candidates, or when the
   * winner is not a positive period; otherwise reports the winner (tenfold
   * corrected) with its shifts, score and reliability.
   */
  method DetectFromPeaks(ctx0: Context, rawX: real, rawY: real, rule: TieRule)
    returns (res: DetectionResult, list: seq<Scored>, winner: Best, ghost terms: seq<Terms>)
    ensures rawX <= 0.0 && rawY <= 0.0 ==> !res.success && res.failReason == "No valid ACF peaks"
    ensures !(rawX <= 0.0 && rawY <= 0.0) && BaseOf(ctx0, rawX, rawY) == {} ==>
      !res.success && res.failReason == "No base candidates"
    ensures !(rawX <= 0.0 && rawY <= 0.0) && BaseOf(ctx0, rawX, rawY) != {} ==>
      Outcome(ScoringContext(ctx0, rawX, rawY), CandidatesOf(ctx0, rawX, rawY), rule, list, winner, terms)
      && (winner.base <= 0 ==> !res.success && res.failReason == "No valid candidate scored")
      && (winner.base > 0 ==> Reports(res, ctx0, winner))
    ensures res.success ==> ctx0.p.pMin <= winner.base <= ctx0.p.pMax
    ensures !res.success ==> res.failReason != ""
    ensures res.success ==> 0.0 <= res.reliability <= 100.0
  {
    var p := ctx0.p;
    list, winner, terms := [], NoBest, [];
    res := Unset;
    if rawX <= 0.0 && rawY <= 0.0 {
      return res.(failReason := "No valid ACF peaks"), list, winner, terms;
    }
    var consistency := RawConsistency(rawX, rawY);
    res := res.(rawPeriodX := if rawX > 0.0 then Some(rawX) else None,
                rawPeriodY := if rawY > 0.0 then Some(rawY) else None,
                consistency := if consistency.Some? then consistency.value else 0.0);
    var base := BuildBaseCandidates(ctx0.peaksX, ctx0.peaksY, rawX, rawY, p);
    if |base| == 0 {
      return res.(failReason := "No base candidates"), list, winner, terms;
    }
    var ctx, cands := PrepareScoring(ctx0, rawX, rawY);
    list, winner, terms := ChooseWinner(ctx, cands, rule);
    if winner.base <= 0 {
      return res.(failReason := "No valid candidate scored"), list, winner, terms;
    }
    res := Report(ctx0, winner, res);
  }

  /**
   * What the candidate loop and the near-tie rule leave: every candidate scored
   * in increasing order, and the winner the rule picks.
   */
  ghost predicate Outcome(ctx: Context, cands: set<int>, rule: TieRule, list: seq<Scored>, winner: Best, terms: seq<Terms>)
  {
    Bases(list) == Enumerate(cands, ctx.p.pMin, ctx.p.pMax + 1) && |list| > 0
    && Scoring(ctx, list, terms)
    && (rule == AsWrittenTie ==> winner == Scan(list) && exists k :: FirstBestAt(list, k) && winner == Chosen(list[k]))
    && (rule == PreferLowerTie ==> exists k :: PreferLowerAt(list, k) && winner == Chosen(list[k]))
    && winner.base in cands
  }

  /** The anchor and the acquired candidates, ahead of the candidate loop. */
  method PrepareScoring(ctx0: Context, rawX: real, rawY: real) returns (ctx: Context, cands: set<int>)
    ensures ctx == ScoringContext(ctx0, rawX, rawY) && cands == CandidatesOf(ctx0, rawX, rawY)
    ensures forall c :: c in cands ==> ctx.p.pMin <= c <= ctx.p.pMax
    ensures cands == {} <==> BaseOf(ctx0, rawX, rawY) == {}
  {
    var p := ctx0.p;
    var base := BuildBaseCandidates(ctx0.peaksX, ctx0.peaksY, rawX, rawY, p);
    var anchor := FindAnchor(ctx0.peaksX, ctx0.peaksY, p);
    cands := AcquireCandidates(ctx0.peaksX, ctx0.peaksY, rawX, rawY, p, anchor);
    ctx := ctx0.(anchor := anchor, base := base);
  }

  /** The candidate loop followed by the near-tie rule; the candidates are non-empty and within the period bounds. */
  method ChooseWinner(ctx: Context, cands: set<int>, rule: TieRule)
    returns (list: seq<Scored>, winner: Best, ghost terms: seq<Terms>)
    requires cands != {} && forall c :: c in cands ==> ctx.p.pMin <= c <= ctx.p.pMax
    ensures Outcome(ctx, cands, rule, list, winner, terms)
  {
    var best;
    list, best, terms := SelectCandidate(ctx, cands, ctx.p.pMin, ctx.p.pMax);
    NonEmptyEnumerate(cands, ctx.p.pMin, ctx.p.pMax);
    if rule == AsWrittenTie {
      AscendingBases(list, cands, ctx.p.pMin, ctx.p.pMax + 1);
      ScanFirstBest(list);
      winner := best;
      ghost var k :| FirstBestAt(list, k) && winner == Chosen(list[k]);
      EntryIsCandidate(list, cands, ctx.p.pMin, ctx.p.pMax + 1, k);
    } else {
      var k := SelectPreferLower(list);
      winner := Chosen(list[k]);
      EntryIsCandidate(list, cands, ctx.p.pMin, ctx.p.pMax + 1, k);
    }
  }

  /** The successful result for a positive winner, on top of the raw periods already recorded in `res0`. */
  method Report(ctx0: Context, winner: Best, res0: DetectionResult) returns (res: DetectionResult)
    requires winner.base > 0
    ensures Reports(res, ctx0, winner)
    ensures res.rawPeriodX == res0.rawPeriodX && res.rawPeriodY == res0.rawPeriodY
    ensures res.consistency == res0.consistency
  {
    var p := ctx0.p;
    var period := PeriodFor(winner.base);
    var shiftX, shiftY := winner.shiftX, winner.shiftY;
    if winner.base == 284 || winner.base == 135 {
      var f := RoundEven(period);
      var _, sXf := ScorePeriodWindowed(ctx0.projX, f, p.lineHalfWidth);
      var _, sYf := ScorePeriodWindowed(ctx0.projY, f, p.lineHalfWidth);
      shiftX, shiftY := sXf, sYf;
    }
    var reliability := ComputeReliability(ctx0.peaksX, ctx0.peaksY, winner.base, p.harmonicMax);
    res := res0.(success := true, periodX := period, periodY := period, shiftX := shiftX, shiftY := shiftY,
                 reliability := reliability, gridScore := winner.score);
  }

  /** The failure reason of the catch block, before the exception's own message. */
  const ExceptionPrefix := "Exception: "

  /** The context Detect100m scores in, before the anchor and the base candidates are known. */
  function InitialContext(projX: seq<real>, projY: seq<real>, peaksX: seq<Peak>, peaksY: seq<Peak>, p: DetectorParams,
                          goertzel: int -> real, prior: int -> real, priorOn: bool): Context
  {
    Context(projX, projY, peaksX, peaksY, p, Anchor(NoAxis, 0.0, 0.0), {}, goertzel, prior, priorOn)
  }

  /** The analysis of one axis within its lag bounds: the ACF of the profile and the peaks found in it. */
  predicate AxisOutcome(proj: seq<real>, pmin: int, pmax: int, topN: int, acf: seq<real>, a: Option<AxisAnalysis>)
  {
    IsAcf(proj, pmin, pmax, InPlace, acf)
    && (a.None? <==> TopPeaks(acf, pmin, pmax, topN).None?)
    && (a.Some? ==> a.value.acf == acf && TopPeaks(acf, pmin, pmax, topN) == Some(a.value.peaks))
  }

  /**
   * Detect100m on the two detrended profiles.  Each axis is analysed within
   * its own lag bounds; a peak search that would index past the ACF is the
   * exception the source catches.  Otherwise the outcome is that of
   * DetectFromPeaks on the two analyses: the scored candidate list and the
   * winner the tie rule picks from it.
   */
  method Detect100m(projX: seq<real>, projY: seq<real>, p: DetectorParams,
                    goertzel: int -> real, prior: int -> real, priorOn: bool, rule: TieRule)
    returns (res: DetectionResult, winner: Best, ax: Option<AxisAnalysis>, ay: Option<AxisAnalysis>,
             acfX: seq<real>, acfY: seq<real>, list: seq<Scored>, ghost terms: seq<Terms>)
    ensures AxisOutcome(projX, AxisMin(|projX|, p.pMin), AxisMax(|projX|, p.pMin, p.pMax), p.peakCount, acfX, ax)
    ensures ax.Some? ==>
      AxisOutcome(projY, AxisMin(|projY|, p.pMin), AxisMax(|projY|, p.pMin, p.pMax), p.peakCount, acfY, ay)
    ensures ax.None? || ay.None? ==> !res.success && |res.failReason| >= |ExceptionPrefix|
                                     && res.failReason[..|ExceptionPrefix|] == ExceptionPrefix
    ensures ax.Some? && ay.Some? && ax.value.raw <= 0.0 && ay.value.raw <= 0.0 ==>
      !res.success && res.failReason == "No valid ACF peaks"
    ensures ax.Some? && ay.Some? && !(ax.value.raw <= 0.0 && ay.value.raw <= 0.0) ==>
      var ctx0 := InitialContext(projX, projY, ax.value.peaks, ay.value.peaks, p, goertzel, prior, priorOn);
      var rawX, rawY := ax.value.raw, ay.value.raw;
      (BaseOf(ctx0, rawX, rawY) == {} ==> !res.success && res.failReason == "No base candidates")
      && (BaseOf(ctx0, rawX, rawY) != {} ==>
            Outcome(ScoringContext(ctx0, rawX, rawY), CandidatesOf(ctx0, rawX, rawY), rule, list, winner, terms)
            && (winner.base <= 0 ==> !res.success && res.failReason == "No valid candidate scored"))
    ensures res.success ==>
      ax.Some? && ay.Some? && winner.base > 0 && p.pMin <= winner.base <= p.pMax
      && Reports(res, InitialContext(projX, projY, ax.value.peaks, ay.value.peaks, p, goertzel, prior, priorOn), winner)
    ensures !res.success ==> res.failReason != ""
  {
    res, winner, list, terms := Unset, NoBest, [], [];
    var pminX, pmaxX := AxisMin(|projX|, p.pMin), AxisMax(|projX|, p.pMin, p.pMax);
    var pminY, pmaxY := AxisMin(|projY|, p.pMin), AxisMax(|projY|, p.pMin, p.pMax);
    ax, acfX := AnalyzeAxis(projX, pminX, pmaxX, p.peakCount);
    if ax.None? {
      ay, acfY := None, [];
      res := res.(failReason := ExceptionPrefix + "index out of range");
      return;
    }
    ay, acfY := AnalyzeAxis(projY, pminY, pmaxY, p.peakCount);
    if ay.None? {
      res := res.(failReason := ExceptionPrefix + "index out of range");
      return;
    }
    var ctx0 := InitialContext(projX, projY, ax.value.peaks, ay.value.peaks, p, goertzel, prior, priorOn);
    res, list, winner, terms := DetectFromPeaks(ctx0, ax.value.raw, ay.value.raw, rule);
  }

  /** A non-empty candidate set inside [lo, hi] enumerates to a non-empty list. */
  lemma {:induction false} NonEmptyEnumerate(cands: set<int>, lo: int, hi: int)
    requires cands != {} && forall c :: c in cands ==> lo <= c <= hi
    ensures |Enumerate(cands, lo, hi + 1)| > 0
  {
    var c := Member(cands);
    EnumerateComplete(cands, lo, hi + 1, c);
  }
}

=== FILE: grid_eval.dfy ===
/**
 * GridEval: Grid100mEvaluator.EvaluateDataset, the cost the grid trainer
 * minimises.  Each cached image is detected with the candidate parameters
 * and costed: a failure costs a fixed penalty, a success its penalties less
 * its bonuses, the bonuses capped at 0.8 of the penalties.  The costs are
 * summed, and a stability penalty on the spread of the relative errors is
 * added once there are at least three of them.  The detector, exp and sqrt
 * are inputs.
 */
module GridEval {
  import opened Common

  /** TrainingItem: the known pixels per 100 m, if any, and the image path. */
  datatype TrainingItem = TrainingItem(gt: Option<real>, path: string)

  /**
   * The parts of a DetectionResult the cost reads.  `px` is PxPer100m,
   * None where the detector's value is NaN.
   */
  datatype Detection = Detection(success: bool, px: Option<real>, reliability: real,
                                 quality: real, scoreMargin: real, consistency: real)

  // GridEvalConfig
  const ApeCap: real := 0.30
  const ApeWeight: real := 400.0
  const FailPenalty: real := 500.0
  const TargetReliability: real := 0.75
  const LowRelPenalty: real := 20.0
  const AxisConsistencyWeight: real := 25.0
  const QualityBonusWeight: real := 80.0
  const MarginBonusWeight: real := 30.0
  const NoGtBaseCost: real := 20.0
  const NoGtFailPenaltyFactor: real := 0.5
  const StabilityWeight: real := 120.0
  const BonusCapFrac: real := 0.8
  const MinPerImageCost: real := 0.0
  const TGood: real := 0.02
  const TOk: real := 0.05
  const TLoose: real := 0.10
  /** The floor under the ground truth in every division by it. */
  const GtFloor: real := 0.000001

  /** A detection counts as a success only with a positive, defined PxPer100m. */
  predicate Succeeded(d: Detection)
  {
    d.success && d.px.Some? && d.px.value > 0.0
  }

  function Margin(d: Detection): real
  {
    MaxReal(0.0, d.scoreMargin)
  }

  /** Quality bonus plus margin bonus; decay(m) stands for exp(-0.06 m). */
  function Bonuses(d: Detection, decay: real -> real): real
  {
    d.quality * QualityBonusWeight + (1.0 - decay(Margin(d))) * MarginBonusWeight
  }

  /** Penalties less the bonuses, the bonuses capped at a fraction of the penalties, floored at 0. */
  function Capped(rawPos: real, bonuses: real): (r: real)
    requires rawPos >= 0.0
    ensures r >= (1.0 - BonusCapFrac) * rawPos
    ensures bonuses >= 0.0 ==> r <= rawPos
    ensures bonuses >= BonusCapFrac * rawPos ==> r == (1.0 - BonusCapFrac) * rawPos
    ensures bonuses <= BonusCapFrac * rawPos ==> r == rawPos - bonuses
  {
    MaxReal(MinPerImageCost, rawPos - MinReal(bonuses, BonusCapFrac * rawPos))
  }

  /** How far the reliability (0..100) falls short of the target, weighted. */
  function RelPenalty(d: Detection, weight: real): (r: real)
    requires weight >= 0.0
    ensures 0.0 <= r <= TargetReliability * weight
  {
    var short := MaxReal(0.0, TargetReliability - ClampReal(d.reliability / 100.0, 0.0, 1.0));
    MulNonNegative(short, weight);
    MulNonNegative(TargetReliability - short, weight);
    short * weight
  }

  /** Absolute percentage error against the ground truth. */
  function Ape(px: real, gt: real): (r: real)
    ensures r >= 0.0
  {
    AbsReal(px - gt) / MaxReal(gt, GtFloor)
  }

  function ApeCost(ape: real): (r: real)
    requires ape >= 0.0
    ensures 0.0 <= r <= ApeCap * ApeWeight
  {
    MinReal(ape, ApeCap) * ApeWeight
  }

  function AxisPenalty(d: Detection): (r: real)
    ensures 0.0 <= r <= AxisConsistencyWeight
  {
    ClampReal(d.consistency, 0.0, 1.0) * AxisConsistencyWeight
  }

  /** The penalties of a success against the ground truth. */
  function GtRawPos(d: Detection, gt: real): (r: real)
    requires d.px.Some?
    ensures 0.0 <= r <= ApeCap * ApeWeight + TargetReliability * LowRelPenalty + AxisConsistencyWeight
  {
    ApeCost(Ape(d.px.value, gt)) + RelPenalty(d, LowRelPenalty) + AxisPenalty(d)
  }

  /** The penalties of a success without ground truth. */
  function NoGtRawPos(d: Detection): (r: real)
    ensures NoGtBaseCost <= r <= NoGtBaseCost + TargetReliability * (0.5 * LowRelPenalty)
  {
    NoGtBaseCost + RelPenalty(d, 0.5 * LowRelPenalty)
  }

  /**
   * PerImageEval100m, reduced to what the totals read.  relError and ape
   * are meaningful for a success against ground truth only.
   */
  datatype ImageEval = ImageEval(hasGt: bool, success: bool, cost: real, relError: real, ape: real)

  /**
   * The evaluation of one cached image.  Every image costs at least 0; a
   * failure costs 500 with ground truth and 270 without; a success is costed
   * at least 0.2 of its penalties, so the floor at 0 never binds.
   */
  function Assess(it: TrainingItem, d: Detection, decay: real -> real): (e: ImageEval)
    ensures e.cost >= 0.0 && e.hasGt == it.gt.Some? && e.success == Succeeded(d)
    ensures it.gt.Some? && !Succeeded(d) ==> e.cost == 500.0
    ensures it.gt.None? && !Succeeded(d) ==> e.cost == 270.0
    ensures it.gt.Some? && Succeeded(d) ==> e.cost >= 0.2 * GtRawPos(d, it.gt.value)
    ensures it.gt.None? && Succeeded(d) ==> e.cost >= 4.0
  {
    if it.gt.Some? then
      if Succeeded(d) then
        var gt := it.gt.value;
        var px := d.px.value;
        ImageEval(true, true, Capped(GtRawPos(d, gt), Bonuses(d, decay)), px / MaxReal(gt, GtFloor) - 1.0, Ape(px, gt))
      else
        ImageEval(true, false, FailPenalty, 0.0, 0.0)
    else if Succeeded(d) then
      ImageEval(false, true, Capped(NoGtRawPos(d), Bonuses(d, decay)), 0.0, 0.0)
    else
      ImageEval(false, false, NoGtBaseCost + FailPenalty * NoGtFailPenaltyFactor, 0.0, 0.0)
  }

  /**
   * With non-negative bonuses (quality >= 0, and exp of a non-positive
   * number at most 1) a success costs at most its penalties: at most 160
   * with ground truth and 27.5 without, well below the failure costs.
   */
  lemma {:induction false} SuccessCheaperThanFailure(it: TrainingItem, d: Detection, decay: real -> real)
    requires Succeeded(d) && d.quality >= 0.0 && decay(Margin(d)) <= 1.0
    ensures it.gt.Some? ==> Assess(it, d, decay).cost <= 160.0 < FailPenalty
    ensures it.gt.None? ==> Assess(it, d, decay).cost <= 27.5 < NoGtBaseCost + FailPenalty * NoGtFailPenaltyFactor
  {
    MulNonNegative(d.quality, QualityBonusWeight);
    MulNonNegative(1.0 - decay(Margin(d)), MarginBonusWeight);
  }

  /** The evaluations of the cached items, in order; uncached items are skipped. */
  function Evals(items: seq<TrainingItem>, cached: set<string>, detect: string -> Detection, decay: real -> real): seq<ImageEval>
    decreases |items|
  {
    if items == [] then []
    else
      var init := Evals(items[..|items| - 1], cached, detect, decay);
      var it := items[|items| - 1];
      if it.path in cached then init + [Assess(it, detect(it.path), decay)] else init
  }

  /** The running totals of EvaluateDataset. */
  datatype Totals = Totals(score: real, detectOk: int, gtSuccess: int, good: int, ok: int, loose: int,
                           relErrors: seq<real>)

  /** The APE bands: within 2%, within 5%, within 10%. */
  function Band(ape: real, lo: real, hi: real): int
  {
    if lo < ape <= hi then 1 else 0
  }

  /** One image added to the totals. */
  function Add(t: Totals, e: ImageEval): Totals
  {
    var t1 := t.(score := t.score + e.cost, detectOk := t.detectOk + (if e.success then 1 else 0));
    if e.hasGt && e.success then
      t1.(gtSuccess := t1.gtSuccess + 1, relErrors := t1.relErrors + [e.relError],
          good := t1.good + (if e.ape <= TGood then 1 else 0),
          ok := t1.ok + Band(e.ape, TGood, TOk),
          loose := t1.loose + Band(e.ape, TOk, TLoose))
    else t1
  }

  /** The totals over a list of evaluations. */
  function Fold(evals: seq<ImageEval>): Totals
    decreases |evals|
  {
    if evals == [] then Totals(0.0, 0, 0, 0, 0, 0, [])
    else Add(Fold(evals[..|evals| - 1]), evals[|evals| - 1])
  }

  /** Number of evaluations with the given outcome. */
  function CountOutcome(evals: seq<ImageEval>, hasGt: bool, success: bool): nat
    decreases |evals|
  {
    if evals == [] then 0
    else CountOutcome(evals[..|evals| - 1], hasGt, success)
         + (if evals[|evals| - 1].hasGt == hasGt && evals[|evals| - 1].success == success then 1 else 0)
  }

  /** The counters agree: the banded counts fit in the ground-truth successes, which are the relative errors and successes. */
  lemma {:induction false} FoldCounts(evals: seq<ImageEval>)
    ensures var t := Fold(evals);
            0 <= t.good && 0 <= t.ok && 0 <= t.loose
            && t.good + t.ok + t.loose <= t.gtSuccess
            && t.gtSuccess == |t.relErrors| == CountOutcome(evals, true, true)
            && t.detectOk == CountOutcome(evals, true, true) + CountOutcome(evals, false, true)
            && t.detectOk <= |evals|
    decreases |evals|
  {
    if evals != [] {
      FoldCounts(evals[..|evals| - 1]);
    }
  }

  /** What Assess promises about an evaluation's cost. */
  predicate Costed(e: ImageEval)
  {
    e.cost >= 0.0
    && (e.hasGt && !e.success ==> e.cost == FailPenalty)
    && (!e.hasGt && !e.success ==> e.cost == NoGtBaseCost + FailPenalty * NoGtFailPenaltyFactor)
  }

  /** With no negative cost, the total is at least the failure penalties among the evaluations. */
  lemma {:induction false} FoldScoreNonNegative(evals: seq<ImageEval>)
    requires forall k :: 0 <= k < |evals| ==> Costed(evals[k])
    ensures Fold(evals).score >= 500.0 * CountOutcome(evals, true, false) as real
                                 + 270.0 * CountOutcome(evals, false, false) as real
    decreases |evals|
  {
    if evals != [] {
      FoldScoreNonNegative(evals[..|evals| - 1]);
    }
  }

  /** Every cached image is evaluated, in order, and no uncached one is. */
  lemma {:induction false} EvalsCached(items: seq<TrainingItem>, cached: set<string>, detect: string -> Detection,
                                       decay: real -> real)
    ensures |Evals(items, cached, detect, decay)| <= |items|
    ensures (forall k :: 0 <= k < |items| ==> items[k].path in cached)
            ==> |Evals(items, cached, detect, decay)| == |items|
                && (forall k :: 0 <= k < |items| ==>
                      Evals(items, cached, detect, decay)[k] == Assess(items[k], detect(items[k].path), decay))
    ensures (forall k :: 0 <= k < |items| ==> items[k].path !in cached) ==> Evals(items, cached, detect, decay) == []
    decreases |items|
  {
    if items != [] {
      var init := items[..|items| - 1];
      EvalsCached(init, cached, detect, decay);
    }
  }

  /** Every evaluation is costed as Assess promises. */
  lemma {:induction false} EvalsCosts(items: seq<TrainingItem>, cached: set<string>, detect: string -> Detection,
                                      decay: real -> real)
    ensures forall k :: 0 <= k < |Evals(items, cached, detect, decay)| ==> Costed(Evals(items, cached, detect, decay)[k])
    decreases |items|
  {
    if items != [] {
      var it := items[|items| - 1];
      EvalsCosts(items[..|items| - 1], cached, detect, decay);
    }
  }

  /** The sample variance of the relative errors. */
  function Mean(errs: seq<real>): real
  {
    if errs == [] then 0.0 else SumReals(errs) / |errs| as real
  }

  function SumSquares(errs: seq<real>, mean: real): (r: real)
    ensures r >= 0.0
    decreases |errs|
  {
    if errs == [] then 0.0
    else
      var e := errs[|errs| - 1] - mean;
      MulNonNegative(AbsReal(e), AbsReal(e));
      assert AbsReal(e) * AbsReal(e) == e * e;
      SumSquares(errs[..|errs| - 1], mean) + e * e
  }

  function SampleVariance(errs: seq<real>): (r: real)
    ensures r >= 0.0
  {
    SumSquares(errs, Mean(errs)) / MaxInt(1, |errs| - 1) as real
  }

  /**
   * The stability penalty: 120 times the standard deviation (root stands for
   * sqrt) times the number of relative errors, only when there are at least
   * three.
   */
  function Stability(errs: seq<real>, root: real -> real): real
  {
    if |errs| >= 3 then StabilityWeight * root(SampleVariance(errs)) * |errs| as real else 0.0
  }

  /** GridCandidateResult's score and counters. */
  datatype DatasetEval = DatasetEval(score: real, total: int, totalGt: int, detectOk: int, gtSuccess: int,
                                     good: int, ok: int, loose: int)

  function CountGt(items: seq<TrainingItem>): nat
    decreases |items|
  {
    if items == [] then 0 else CountGt(items[..|items| - 1]) + (if items[|items| - 1].gt.Some? then 1 else 0)
  }

  /** What EvaluateDataset returns, as a function of the dataset. */
  function Summary(items: seq<TrainingItem>, cached: set<string>, detect: string -> Detection,
                   decay: real -> real, root: real -> real): DatasetEval
  {
    var t := Fold(Evals(items, cached, detect, decay));
    DatasetEval(t.score + Stability(t.relErrors, root), |items|, CountGt(items), t.detectOk, t.gtSuccess,
                t.good, t.ok, t.loose)
  }

  /** EvaluateDataset: the loop over the items with its running totals. */
  method EvaluateDataset(items: seq<TrainingItem>, cached: set<string>, detect: string -> Detection,
                         decay: real -> real, root: real -> real)
    returns (r: DatasetEval)
    ensures r == Summary(items, cached, detect, decay, root)
  {
    var t := Totals(0.0, 0, 0, 0, 0, 0, []);
    for i := 0 to |items|
      invariant t == Fold(Evals(items[..i], cached, detect, decay))
    {
      assert items[..i + 1][..i] == items[..i];
      var it := items[i];
      if it.path in cached {
        var e := Assess(it, detect(it.path), decay);
        FoldSnoc(Evals(items[..i], cached, detect, decay), e);
        t := Add(t, e);
      }
    }
    assert items[..|items|] == items;
    var score := t.score;
    if |t.relErrors| >= 3 {
      score := score + StabilityWeight * root(SampleVariance(t.relErrors)) * |t.relErrors| as real;
    }
    r := DatasetEval(score, |items|, CountGt(items), t.detectOk, t.gtSuccess, t.good, t.ok, t.loose);
  }

  lemma {:induction false} FoldSnoc(evals: seq<ImageEval>, e: ImageEval)
    ensures Fold(evals + [e]) == Add(Fold(evals), e)
  {
    assert (evals + [e])[..|evals|] == evals;
  }

  /**
   * The dataset score is at least the failure penalties it contains, hence
   * never negative (given a non-negative square root).
   */
  lemma {:induction false} DatasetScoreBound(items: seq<TrainingItem>, cached: set<string>, detect: string -> Detection,
                                             decay: real -> real, root: real -> real)
    requires forall x :: x >= 0.0 ==> root(x) >= 0.0
    ensures var evals := Evals(items, cached, detect, decay);
            Summary(items, cached, detect, decay, root).score
            >= 500.0 * CountOutcome(evals, true, false) as real + 270.0 * CountOutcome(evals, false, false) as real
            >= 0.0
  {
    var evals := Evals(items, cached, detect, decay);
    EvalsCosts(items, cached, detect, decay);
    FoldScoreNonNegative(evals);
    var errs := Fold(evals).relErrors;
    if |errs| >= 3 {
      MulNonNegative(StabilityWeight, root(SampleVariance(errs)));
      MulNonNegative(StabilityWeight * root(SampleVariance(errs)), |errs| as real);
    }
  }
}

=== FILE: grid_neighbours.dfy ===
/**
 * The neighbourhoods of the grid trainer's local search (the Build*Neighbors
 * functions inside ProgramGrid.SmartLocalSearch): for one family of knobs,
 * the current parameters clamped, moved one step in that family, and
 * clamped again.
 */
module GridNeighbours {
  import opened Common
  import opened GridParams
  import opened GridSteps

  /** The families one pass of the search visits, in this order. */
  datatype Family = Preprocessing | Gradient | Gating | Weights | Tiling | AnchorPrior

  const FamilyOrder: seq<Family> := [Preprocessing, Gradient, Gating, Weights, Tiling, AnchorPrior]

  /** `p` with the knobs of `fam` blanked: two parameter sets agree outside `fam` iff their masks are equal. */
  function Mask(p: DetectorParams, fam: Family): DetectorParams
  {
    match fam
    case Preprocessing =>
      p.(invert := false, claheClipLimit := 0.0, claheTileGrid := 0, blurSigma := 0.0, unsharpAmount := 0.0,
         useTophat := false, tophatKSize := 0)
    case Gradient => p.(sobelKSize := 0, gradGamma := 0.0, detrendWindow := 0)
    case Gating =>
      p.(minRelPeak := 0.0, consistencyTol := 0.0, harmonicTol := 0.0, k1Boost := 0.0, familyTol := 0.0,
         decadePenalty := 0.0, harmonicMax := 0)
    case Weights =>
      p.(combAlpha := 0.0, goertzelBeta := 0.0, gridGammaW := 0.0, intersectWeight := 0.0, tileWeight := 0.0,
         axisBalanceWeight := 0.0)
    case Tiling => p.(lineHalfWidth := 0, tilesX := 0, tilesY := 0)
    case AnchorPrior =>
      p.(useAnchor := false, anchorMargin := 0.0, requireK1OnAnchor := false, requireK1MinProm := 0.0,
         anchorJitterPx := 0, priorWeight := 0.0, priorSigma := 0.0, preferLowerHarmonic := false)
  }

  /** A neighbour is in range and differs from its (clamped) parent only in `fam`. */
  predicate IsNeighbour(q: DetectorParams, c: DetectorParams, fam: Family, pMin: int, pMax: int)
  {
    InRange(c, pMin, pMax) && Mask(c, fam) == Mask(q, fam)
  }

  predicate AllNeighbours(q: DetectorParams, cs: seq<DetectorParams>, fam: Family, pMin: int, pMax: int)
  {
    forall k :: 0 <= k < |cs| ==> IsNeighbour(q, cs[k], fam, pMin, pMax)
  }

  /** The HarmonicMax values 1 .. 12 other than the current one, ascending. */
  function HarmonicMaxOptions(current: int): seq<int>
  {
    var all := seq(12, i => i + 1);
    if 1 <= current <= 12 then all[..current - 1] + all[current..] else all
  }

  /** Option i is i + 1, skipping the current value. */
  function OptionAt(current: int, i: int): int
  {
    if 1 <= current <= 12 && i >= current - 1 then i + 2 else i + 1
  }

  /** The options, position by position: eleven or twelve of them, ascending, none the current value. */
  lemma {:induction false} OptionsSpec(current: int)
    ensures |HarmonicMaxOptions(current)| == if 1 <= current <= 12 then 11 else 12
    ensures forall i :: 0 <= i < |HarmonicMaxOptions(current)| ==> HarmonicMaxOptions(current)[i] == OptionAt(current, i)
  {
    var all := seq(12, i => i + 1);
    var opts := HarmonicMaxOptions(current);
    if 1 <= current <= 12 {
      forall i | 0 <= i < |opts|
        ensures opts[i] == OptionAt(current, i)
      {
        if i < current - 1 {
          assert opts[i] == all[i];
        } else {
          assert opts[i] == all[i + 1];
        }
      }
    }
  }

  /** The shuffled options, as the random draw leaves them: a permutation of HarmonicMaxOptions. */
  predicate IsShuffle(order: seq<int>, current: int)
  {
    multiset(order) == multiset(HarmonicMaxOptions(current))
  }

  /** How many HarmonicMax values one gating neighbourhood tries: Take(Math.Max(1, tries)). */
  function HarmonicMaxChoices(order: seq<int>, tries: int): seq<int>
  {
    order[..MinInt(|order|, MaxInt(1, tries))]
  }

  /** The edits of one family applied to the clamped parameters `q`, before the second clamp. */
  function Edits(q: DetectorParams, s: GridStepSizes, fam: Family, hmChoices: seq<int>): seq<DetectorParams>
  {
    match fam
    case Preprocessing =>
      [q.(invert := !q.invert),
       q.(claheClipLimit := q.claheClipLimit + s.claheClip), q.(claheClipLimit := q.claheClipLimit - s.claheClip),
       q.(claheTileGrid := q.claheTileGrid + s.claheTile), q.(claheTileGrid := q.claheTileGrid - s.claheTile),
       q.(blurSigma := q.blurSigma + s.blur), q.(blurSigma := q.blurSigma - s.blur),
       q.(unsharpAmount := q.unsharpAmount + s.unsharp), q.(unsharpAmount := q.unsharpAmount - s.unsharp),
       q.(useTophat := !q.useTophat),
       q.(tophatKSize := if q.tophatKSize == 3 then 5 else 3)]
    case Gradient =>
      [q.(sobelKSize := if q.sobelKSize == 3 then 5 else 3),
       q.(gradGamma := q.gradGamma + s.gradGamma), q.(gradGamma := q.gradGamma - s.gradGamma),
       q.(detrendWindow := q.detrendWindow + s.detrend), q.(detrendWindow := q.detrendWindow - s.detrend)]
    case Gating => GatingMoves(q, s) + HarmonicMaxEdits(q, hmChoices)
    case Weights =>
      [q.(combAlpha := q.combAlpha + s.alpha), q.(combAlpha := q.combAlpha - s.alpha),
       q.(goertzelBeta := q.goertzelBeta + s.beta), q.(goertzelBeta := q.goertzelBeta - s.beta),
       q.(gridGammaW := q.gridGammaW + s.gammaW), q.(gridGammaW := q.gridGammaW - s.gammaW),
       q.(intersectWeight := q.intersectWeight + s.weight), q.(intersectWeight := q.intersectWeight - s.weight),
       q.(tileWeight := q.tileWeight + s.weight), q.(tileWeight := q.tileWeight - s.weight),
       q.(axisBalanceWeight := q.axisBalanceWeight + s.weight), q.(axisBalanceWeight := q.axisBalanceWeight - s.weight)]
    case Tiling =>
      [q.(lineHalfWidth := q.lineHalfWidth + s.lineHalfWidth), q.(lineHalfWidth := q.lineHalfWidth - s.lineHalfWidth),
       q.(tilesX := q.tilesX + s.tiles), q.(tilesX := q.tilesX - s.tiles),
       q.(tilesY := q.tilesY + s.tiles), q.(tilesY := q.tilesY - s.tiles)]
    case AnchorPrior =>
      [q.(useAnchor := !q.useAnchor),
       q.(anchorMargin := q.anchorMargin + s.anchorMargin), q.(anchorMargin := q.anchorMargin - s.anchorMargin),
       q.(requireK1OnAnchor := !q.requireK1OnAnchor),
       q.(requireK1MinProm := q.requireK1MinProm + s.weight), q.(requireK1MinProm := q.requireK1MinProm - s.weight),
       q.(anchorJitterPx := q.anchorJitterPx + s.anchorJitter), q.(anchorJitterPx := q.anchorJitterPx - s.anchorJitter),
       q.(priorWeight := q.priorWeight + s.priorWeight), q.(priorWeight := q.priorWeight - s.priorWeight),
       q.(priorSigma := q.priorSigma + s.priorSigma), q.(priorSigma := q.priorSigma - s.priorSigma),
       q.(preferLowerHarmonic := !q.preferLowerHarmonic)]
  }

  /** The twelve gating moves: each gate and tolerance one step up and one step down. */
  function GatingMoves(q: DetectorParams, s: GridStepSizes): seq<DetectorParams>
  {
    [q.(minRelPeak := q.minRelPeak + s.minRelPeak), q.(minRelPeak := q.minRelPeak - s.minRelPeak),
     q.(consistencyTol := q.consistencyTol + s.consistencyTol), q.(consistencyTol := q.consistencyTol - s.consistencyTol),
     q.(harmonicTol := q.harmonicTol + s.harmTol), q.(harmonicTol := q.harmonicTol - s.harmTol),
     q.(k1Boost := q.k1Boost + s.k1Boost), q.(k1Boost := q.k1Boost - s.k1Boost),
     q.(familyTol := q.familyTol + s.familyTol), q.(familyTol := q.familyTol - s.familyTol),
     q.(decadePenalty := q.decadePenalty + s.decadePenalty), q.(decadePenalty := q.decadePenalty - s.decadePenalty)]
  }

  /** One edit per chosen HarmonicMax value. */
  function HarmonicMaxEdits(q: DetectorParams, hm: seq<int>): seq<DetectorParams>
  {
    seq(|hm|, k requires 0 <= k < |hm| => q.(harmonicMax := hm[k]))
  }

  /** How many fixed moves each family makes (the gating family adds its HarmonicMax choices). */
  function MoveCount(fam: Family): int
  {
    match fam
    case Preprocessing => 11
    case Gradient => 5
    case Gating => 12
    case Weights => 12
    case Tiling => 6
    case AnchorPrior => 13
  }

  /**
   * Build<Family>Neighbors: every entry is Add's clone of `p`, clamped,
   * edited and clamped again.  `order` is the random order of the
   * HarmonicMax options, drawn for the original (unclamped) HarmonicMax.
   */
  function Neighbours(p: DetectorParams, s: GridStepSizes, fam: Family, order: seq<int>, pMin: int, pMax: int)
    : seq<DetectorParams>
  {
    var es := Edits(Clamp(p, pMin, pMax), s, fam, HarmonicMaxChoices(order, s.harmonicMaxTries));
    seq(|es|, k requires 0 <= k < |es| => Clamp(es[k], pMin, pMax))
  }

  /** An edit that stays inside `fam` stays inside it after the clamp, which works knob by knob. */
  lemma {:induction false} ClampKeepsMask(q: DetectorParams, e: DetectorParams, fam: Family, pMin: int, pMax: int)
    requires InRange(q, pMin, pMax) && Mask(e, fam) == Mask(q, fam)
    ensures IsNeighbour(q, Clamp(e, pMin, pMax), fam, pMin, pMax)
  {
    match fam
    case Preprocessing => ClampKeepsPreprocessing(q, e, pMin, pMax);
    case Gradient => ClampKeepsGradient(q, e, pMin, pMax);
    case Gating => ClampKeepsGating(q, e, pMin, pMax);
    case Weights => ClampKeepsWeights(q, e, pMin, pMax);
    case Tiling => ClampKeepsTiling(q, e, pMin, pMax);
    case AnchorPrior => ClampKeepsAnchorPrior(q, e, pMin, pMax);
  }

  lemma {:induction false} ClampKeepsPreprocessing(q: DetectorParams, e: DetectorParams, pMin: int, pMax: int)
    requires InRange(q, pMin, pMax) && Mask(e, Preprocessing) == Mask(q, Preprocessing)
    ensures Mask(Clamp(e, pMin, pMax), Preprocessing) == Mask(q, Preprocessing)
  {
    assert Clamp(q, pMin, pMax) == q;
  }

  lemma {:induction false} ClampKeepsGradient(q: DetectorParams, e: DetectorParams, pMin: int, pMax: int)
    requires InRange(q, pMin, pMax) && Mask(e, Gradient) == Mask(q, Gradient)
    ensures Mask(Clamp(e, pMin, pMax), Gradient) == Mask(q, Gradient)
  {
    assert Clamp(q, pMin, pMax) == q;
  }

  lemma {:induction false} ClampKeepsGating(q: DetectorParams, e: DetectorParams, pMin: int, pMax: int)
    requires InRange(q, pMin, pMax) && Mask(e, Gating) == Mask(q, Gating)
    ensures Mask(Clamp(e, pMin, pMax), Gating) == Mask(q, Gating)
  {
    assert Clamp(q, pMin, pMax) == q;
  }

  lemma {:induction false} ClampKeepsWeights(q: DetectorParams, e: DetectorParams, pMin: int, pMax: int)
    requires InRange(q, pMin, pMax) && Mask(e, Weights) == Mask(q, Weights)
    ensures Mask(Clamp(e, pMin, pMax), Weights) == Mask(q, Weights)
  {
    assert Clamp(q, pMin, pMax) == q;
  }

  lemma {:induction false} ClampKeepsTiling(q: DetectorParams, e: DetectorParams, pMin: int, pMax: int)
    requires InRange(q, pMin, pMax) && Mask(e, Tiling) == Mask(q, Tiling)
    ensures Mask(Clamp(e, pMin, pMax), Tiling) == Mask(q, Tiling)
  {
    assert Clamp(q, pMin, pMax) == q;
  }

  lemma {:induction false} ClampKeepsAnchorPrior(q: DetectorParams, e: DetectorParams, pMin: int, pMax: int)
    requires InRange(q, pMin, pMax) && Mask(e, AnchorPrior) == Mask(q, AnchorPrior)
    ensures Mask(Clamp(e, pMin, pMax), AnchorPrior) == Mask(q, AnchorPrior)
  {
    assert Clamp(q, pMin, pMax) == q;
  }

  /** Every edit of a family touches only that family's knobs. */
  lemma {:induction false} EditsStayInFamily(q: DetectorParams, s: GridStepSizes, fam: Family, hm: seq<int>)
    ensures |Edits(q, s, fam, hm)| == MoveCount(fam) + (if fam == Gating then |hm| else 0)
    ensures forall k :: 0 <= k < |Edits(q, s, fam, hm)| ==> Mask(Edits(q, s, fam, hm)[k], fam) == Mask(q, fam)
  {
    match fam
    case Preprocessing => PreprocessingEdits(q, s, hm);
    case Gradient => GradientEdits(q, s, hm);
    case Gating => GatingEdits(q, s, hm);
    case Weights => WeightsEdits(q, s, hm);
    case Tiling => TilingEdits(q, s, hm);
    case AnchorPrior => AnchorPriorEdits(q, s, hm);
  }

  lemma {:induction false} PreprocessingEdits(q: DetectorParams, s: GridStepSizes, hm: seq<int>)
    ensures |Edits(q, s, Preprocessing, hm)| == MoveCount(Preprocessing)
    ensures forall k :: 0 <= k < |Edits(q, s, Preprocessing, hm)| ==> Mask(Edits(q, s, Preprocessing, hm)[k], Preprocessing) == Mask(q, Preprocessing)
  {
  }

  lemma {:induction false} GradientEdits(q: DetectorParams, s: GridStepSizes, hm: seq<int>)
    ensures |Edits(q, s, Gradient, hm)| == MoveCount(Gradient)
    ensures forall k :: 0 <= k < |Edits(q, s, Gradient, hm)| ==> Mask(Edits(q, s, Gradient, hm)[k], Gradient) == Mask(q, Gradient)
  {
  }

  lemma {:induction false} GatingEdits(q: DetectorParams, s: GridStepSizes, hm: seq<int>)
    ensures |Edits(q, s, Gating, hm)| == MoveCount(Gating) + |hm|
    ensures forall k :: 0 <= k < |Edits(q, s, Gating, hm)| ==> Mask(Edits(q, s, Gating, hm)[k], Gating) == Mask(q, Gating)
  {
    var fixed, tail := GatingMoves(q, s), HarmonicMaxEdits(q, hm);
    GatingMovesStay(q, s);
    HarmonicMaxEditsStay(q, hm);
    var es := Edits(q, s, Gating, hm);
    assert es == fixed + tail;
    forall k | 0 <= k < |es|
      ensures Mask(es[k], Gating) == Mask(q, Gating)
    {
      if k < 12 {
        assert es[k] == fixed[k];
      } else {
        assert es[k] == tail[k - 12];
      }
    }
  }

  lemma {:induction false} GatingMovesStay(q: DetectorParams, s: GridStepSizes)
    ensures |GatingMoves(q, s)| == 12
    ensures forall k :: 0 <= k < 12 ==> Mask(GatingMoves(q, s)[k], Gating) == Mask(q, Gating)
  {
  }

  lemma {:induction false} HarmonicMaxEditsStay(q: DetectorParams, hm: seq<int>)
    ensures |HarmonicMaxEdits(q, hm)| == |hm|
    ensures forall k :: 0 <= k < |hm| ==> HarmonicMaxEdits(q, hm)[k] == q.(harmonicMax := hm[k])
    ensures forall k :: 0 <= k < |hm| ==> Mask(HarmonicMaxEdits(q, hm)[k], Gating) == Mask(q, Gating)
  {
  }

  lemma {:induction false} WeightsEdits(q: DetectorParams, s: GridStepSizes, hm: seq<int>)
    ensures |Edits(q, s, Weights, hm)| == MoveCount(Weights)
    ensures forall k :: 0 <= k < |Edits(q, s, Weights, hm)| ==> Mask(Edits(q, s, Weights, hm)[k], Weights) == Mask(q, Weights)
  {
  }

  lemma {:induction false} TilingEdits(q: DetectorParams, s: GridStepSizes, hm: seq<int>)
    ensures |Edits(q, s, Tiling, hm)| == MoveCount(Tiling)
    ensures forall k :: 0 <= k < |Edits(q, s, Tiling, hm)| ==> Mask(Edits(q, s, Tiling, hm)[k], Tiling) == Mask(q, Tiling)
  {
  }

  lemma {:induction false} AnchorPriorEdits(q: DetectorParams, s: GridStepSizes, hm: seq<int>)
    ensures |Edits(q, s, AnchorPrior, hm)| == MoveCount(AnchorPrior)
    ensures forall k :: 0 <= k < |Edits(q, s, AnchorPrior, hm)| ==> Mask(Edits(q, s, AnchorPrior, hm)[k], AnchorPrior) == Mask(q, AnchorPrior)
  {
  }

  /**
   * Every neighbour is in range and agrees with the clamped parameters
   * outside its family; the family makes its fixed moves, plus one per
   * HarmonicMax choice for gating.
   */
  lemma {:induction false} NeighboursSpec(p: DetectorParams, s: GridStepSizes, fam: Family, order: seq<int>,
                                          pMin: int, pMax: int)
    ensures |Neighbours(p, s, fam, order, pMin, pMax)|
            == MoveCount(fam) + (if fam == Gating then |HarmonicMaxChoices(order, s.harmonicMaxTries)| else 0)
    ensures AllNeighbours(Clamp(p, pMin, pMax), Neighbours(p, s, fam, order, pMin, pMax), fam, pMin, pMax)
  {
    var q := Clamp(p, pMin, pMax);
    var hm := HarmonicMaxChoices(order, s.harmonicMaxTries);
    var es := Edits(q, s, fam, hm);
    EditsStayInFamily(q, s, fam, hm);
    var cs := Neighbours(p, s, fam, order, pMin, pMax);
    forall k | 0 <= k < |cs|
      ensures IsNeighbour(q, cs[k], fam, pMin, pMax)
    {
      ClampKeepsMask(q, es[k], fam, pMin, pMax);
    }
  }

  /** A family's neighbourhood holds its fixed moves, plus one per HarmonicMax choice for gating. */
  lemma {:induction false} NeighboursLength(p: DetectorParams, s: GridStepSizes, fam: Family, order: seq<int>,
                                            pMin: int, pMax: int)
    ensures |Neighbours(p, s, fam, order, pMin, pMax)|
            == MoveCount(fam) + (if fam == Gating then |HarmonicMaxChoices(order, s.harmonicMaxTries)| else 0)
  {
    var hm := HarmonicMaxChoices(order, s.harmonicMaxTries);
    EditsLength(Clamp(p, pMin, pMax), s, fam, hm);
  }

  lemma {:induction false} EditsLength(q: DetectorParams, s: GridStepSizes, fam: Family, hm: seq<int>)
    ensures |Edits(q, s, fam, hm)| == MoveCount(fam) + (if fam == Gating then |hm| else 0)
  {
  }

  /** The HarmonicMax values the gating neighbours from position 12 on try. */
  predicate TriesHarmonicMax(cs: seq<DetectorParams>, current: int)
  {
    (forall k :: 12 <= k < |cs| ==> 1 <= cs[k].harmonicMax <= 12 && cs[k].harmonicMax != current)
    && (forall k, l :: 12 <= k < l < |cs| ==> cs[k].harmonicMax != cs[l].harmonicMax)
  }

  /**
   * The gating family's last entries try HarmonicMax values other than the
   * original one, each in 1 .. 12, all different: at least one, and
   * HarmonicMaxTries of them as long as the eleven options last.
   */
  lemma {:induction false} HarmonicMaxNeighbours(p: DetectorParams, s: GridStepSizes, order: seq<int>,
                                                 pMin: int, pMax: int)
    requires IsShuffle(order, p.harmonicMax)
    ensures |Neighbours(p, s, Gating, order, pMin, pMax)| == 12 + MinInt(|order|, MaxInt(1, s.harmonicMaxTries))
    ensures |order| >= 11
    ensures TriesHarmonicMax(Neighbours(p, s, Gating, order, pMin, pMax), p.harmonicMax)
  {
    NeighboursLength(p, s, Gating, order, pMin, pMax);
    var cs := Neighbours(p, s, Gating, order, pMin, pMax);
    ShuffleSpec(order, p.harmonicMax);
    forall k | 12 <= k < |cs|
      ensures cs[k].harmonicMax == order[k - 12]
    {
      HarmonicMaxEntry(p, s, order, pMin, pMax, k);
    }
  }

  /** Gating entry k >= 12 sets HarmonicMax to the (k - 12)-th choice, which the clamp keeps. */
  lemma {:induction false} HarmonicMaxEntry(p: DetectorParams, s: GridStepSizes, order: seq<int>,
                                            pMin: int, pMax: int, k: int)
    requires 12 <= k < 12 + |HarmonicMaxChoices(order, s.harmonicMaxTries)|
    requires 1 <= order[k - 12] <= 12
    ensures k < |Neighbours(p, s, Gating, order, pMin, pMax)|
    ensures Neighbours(p, s, Gating, order, pMin, pMax)[k].harmonicMax == order[k - 12]
  {
    var q := Clamp(p, pMin, pMax);
    var hm := HarmonicMaxChoices(order, s.harmonicMaxTries);
    var es := Edits(q, s, Gating, hm);
    GatingMovesStay(q, s);
    HarmonicMaxEditsStay(q, hm);
    assert es == GatingMoves(q, s) + HarmonicMaxEdits(q, hm);
    assert es[k] == q.(harmonicMax := hm[k - 12]);
    assert Clamp(es[k], pMin, pMax).harmonicMax == ClampInt(hm[k - 12], 1, 12);
  }

  /** A shuffle holds the options' values, each once, and at least eleven of them. */
  lemma {:induction false} ShuffleSpec(order: seq<int>, current: int)
    requires IsShuffle(order, current)
    ensures |order| >= 11
    ensures forall i :: 0 <= i < |order| ==> 1 <= order[i] <= 12 && order[i] != current
    ensures forall i, j :: 0 <= i < j < |order| ==> order[i] != order[j]
  {
    ShuffleLength(order, current);
    ShuffleValues(order, current);
    ShuffleDistinct(order, current);
  }

  lemma {:induction false} ShuffleLength(order: seq<int>, current: int)
    requires IsShuffle(order, current)
    ensures |order| >= 11
  {
    var opts := HarmonicMaxOptions(current);
    assert |multiset(order)| == |multiset(opts)|;
    OptionsSpec(current);
  }

  lemma {:induction false} ShuffleValues(order: seq<int>, current: int)
    requires IsShuffle(order, current)
    ensures forall i :: 0 <= i < |order| ==> 1 <= order[i] <= 12 && order[i] != current
  {
    var opts := HarmonicMaxOptions(current);
    OptionsSpec(current);
    forall i | 0 <= i < |order|
      ensures 1 <= order[i] <= 12 && order[i] != current
    {
      assert order[i] in multiset(opts);
      var j :| 0 <= j < |opts| && opts[j] == order[i];
      assert opts[j] == OptionAt(current, j);
    }
  }

  lemma {:induction false} ShuffleDistinct(order: seq<int>, current: int)
    requires IsShuffle(order, current)
    ensures forall i, j :: 0 <= i < j < |order| ==> order[i] != order[j]
  {
    var opts := HarmonicMaxOptions(current);
    OptionsSpec(current);
    IncreasingOnce(opts);
    forall i, j | 0 <= i < j < |order|
      ensures order[i] != order[j]
    {
      if order[i] == order[j] {
        TwiceCounted(order, i, j);
        assert false;
      }
    }
  }

  /** A value found at two positions is counted at least twice. */
  lemma {:induction false} TwiceCounted(s: seq<int>, i: int, j: int)
    requires 0 <= i < j < |s| && s[i] == s[j]
    ensures multiset(s)[s[i]] >= 2
  {
    assert s == s[..i] + [s[i]] + s[i + 1..j] + [s[j]] + s[j + 1..];
  }

  /** A strictly increasing sequence counts each value at most once. */
  lemma {:induction false} IncreasingOnce(s: seq<int>)
    requires forall i, j :: 0 <= i < j < |s| ==> s[i] < s[j]
    ensures forall v :: multiset(s)[v] <= 1
    decreases |s|
  {
    if s != [] {
      IncreasingOnce(s[1..]);
      assert s == [s[0]] + s[1..];
      assert s[0] !in s[1..];
    }
  }
}

=== FILE: grid_params.dfy ===
/**
 * The grid detector's tunable parameters (DetectorParams) and the range
 * clamp the trainer applies to every candidate (ProgramGrid.Clamp).  The
 * trainer only ever clamps and edits a fresh Clone(), so a parameter set is
 * a value here and the clamp returns the clamped copy.
 */
module GridParams {
  import opened Common

  datatype DetectorParams = DetectorParams(
    invert: bool,
    claheClipLimit: real,
    claheTileGrid: int,
    blurSigma: real,
    unsharpAmount: real,
    sobelKSize: int,
    detrendWindow: int,
    pMin: int,
    pMax: int,
    minRelPeak: real,
    consistencyTol: real,
    findShift: bool,
    gradGamma: real,
    useTophat: bool,
    tophatKSize: int,
    harmonicTol: real,
    peakCount: int,
    harmonicMax: int,
    lineHalfWidth: int,
    edgePenalty: real,
    minPeriodsAcrossShortSide: real,
    useAnchor: bool,
    anchorMargin: real,
    requireK1OnAnchor: bool,
    requireK1MinProm: real,
    anchorJitterPx: int,
    intersectWeight: real,
    tileWeight: real,
    axisBalanceWeight: real,
    tilesX: int,
    tilesY: int,
    k1Boost: real,
    combAlpha: real,
    goertzelBeta: real,
    gridGammaW: real,
    preferLowerHarmonic: bool,
    familyTol: real,
    decadePenalty: real,
    priorWeight: real,
    priorSigma: real)

  /** The defaults of a freshly constructed DetectorParams. */
  const Defaults := DetectorParams(
    false, 2.5, 8, 0.8, 0.3, 3, 101, 4, 400, 3.0, 0.08, true, 0.6, false, 3, 0.12, 5, 4, 2, 1.0, 3.0,
    true, 1.0, true, 3.0, 2, 2.0, 1.0, 1.0, 3, 3, 1.5, 1.0, 0.8, 0.6, true, 0.08, 6.0, 3.0, 0.25)

  /** The ranges ProgramGrid.Clamp establishes, with the period bounds taken from the dataset. */
  predicate InRange(p: DetectorParams, pMin: int, pMax: int)
  {
    p.pMin == pMin && p.pMax == pMax
    && 0.5 <= p.claheClipLimit <= 8.0
    && 4 <= p.claheTileGrid <= 16
    && 0.0 <= p.blurSigma <= 2.0
    && 0.0 <= p.unsharpAmount <= 1.5
    && (p.sobelKSize == 3 || p.sobelKSize == 5)
    && p.detrendWindow >= 3 && p.detrendWindow % 2 == 1
    && 1.0 <= p.minRelPeak <= 10.0
    && 0.01 <= p.consistencyTol <= 0.3
    && 0.2 <= p.gradGamma <= 1.5
    && (p.tophatKSize == 3 || p.tophatKSize == 5 || p.tophatKSize == 7)
    && 0.02 <= p.harmonicTol <= 0.25
    && 1 <= p.harmonicMax <= 12
    && 1 <= p.lineHalfWidth <= 4
    && 0.0 <= p.edgePenalty <= 4.0
    && 0.0 <= p.combAlpha <= 3.0
    && 0.0 <= p.goertzelBeta <= 3.0
    && 0.0 <= p.gridGammaW <= 3.0
    && 0.0 <= p.intersectWeight <= 4.0
    && 0.0 <= p.tileWeight <= 4.0
    && 0.0 <= p.axisBalanceWeight <= 4.0
    && 2 <= p.tilesX <= 8
    && 2 <= p.tilesY <= 8
    && 0.5 <= p.k1Boost <= 3.0
    && 0.02 <= p.familyTol <= 0.25
    && 0.0 <= p.decadePenalty <= 12.0
    && 0.0 <= p.priorWeight <= 8.0
    && 0.05 <= p.priorSigma <= 0.7
    && 0.0 <= p.anchorMargin <= 3.0
    && 0 <= p.anchorJitterPx <= 6
    && 0.0 <= p.requireK1MinProm <= 10.0
  }

  /** The fields ProgramGrid.Clamp never touches agree. */
  predicate SameUnclamped(p: DetectorParams, q: DetectorParams)
  {
    p.invert == q.invert && p.findShift == q.findShift && p.useTophat == q.useTophat
    && p.peakCount == q.peakCount && p.minPeriodsAcrossShortSide == q.minPeriodsAcrossShortSide
    && p.useAnchor == q.useAnchor && p.requireK1OnAnchor == q.requireK1OnAnchor
    && p.preferLowerHarmonic == q.preferLowerHarmonic
  }

  /** SobelKSize: 3 or below becomes 3, anything else 5. */
  function SobelSize(k: int): (r: int)
    ensures r == 3 || r == 5
    ensures (k == 3 || k == 5) ==> r == k
  {
    if k <= 3 then 3 else 5
  }

  /** DetrendWindow: at least 3, and an even window grows by one. */
  function DetrendSize(w: int): (r: int)
    ensures r >= 3 && r % 2 == 1
    ensures r - MaxInt(3, w) <= 1
    ensures w >= 3 && w % 2 == 1 ==> r == w
  {
    var m := MaxInt(3, w);
    if m % 2 == 0 then m + 1 else m
  }

  /** TophatKSize: clamped to [3, 7], and an even size grows by one. */
  function TophatSize(k: int): (r: int)
    ensures r == 3 || r == 5 || r == 7
    ensures (k == 3 || k == 5 || k == 7) ==> r == k
  {
    var c := ClampInt(k, 3, 7);
    if c % 2 == 0 then c + 1 else c
  }

  /** ProgramGrid.Clamp on a copy: the period bounds are overwritten, every other knob clamped. */
  function Clamp(p: DetectorParams, pMin: int, pMax: int): (r: DetectorParams)
    ensures InRange(r, pMin, pMax)
    ensures SameUnclamped(p, r)
    ensures InRange(p, pMin, pMax) ==> r == p
  {
    p.(pMin := pMin, pMax := pMax,
       claheClipLimit := ClampReal(p.claheClipLimit, 0.5, 8.0),
       claheTileGrid := ClampInt(p.claheTileGrid, 4, 16),
       blurSigma := ClampReal(p.blurSigma, 0.0, 2.0),
       unsharpAmount := ClampReal(p.unsharpAmount, 0.0, 1.5),
       sobelKSize := SobelSize(p.sobelKSize),
       detrendWindow := DetrendSize(p.detrendWindow),
       minRelPeak := ClampReal(p.minRelPeak, 1.0, 10.0),
       consistencyTol := ClampReal(p.consistencyTol, 0.01, 0.3),
       gradGamma := ClampReal(p.gradGamma, 0.2, 1.5),
       tophatKSize := TophatSize(p.tophatKSize),
       harmonicTol := ClampReal(p.harmonicTol, 0.02, 0.25),
       harmonicMax := ClampInt(p.harmonicMax, 1, 12),
       lineHalfWidth := ClampInt(p.lineHalfWidth, 1, 4),
       edgePenalty := ClampReal(p.edgePenalty, 0.0, 4.0),
       combAlpha := ClampReal(p.combAlpha, 0.0, 3.0),
       goertzelBeta := ClampReal(p.goertzelBeta, 0.0, 3.0),
       gridGammaW := ClampReal(p.gridGammaW, 0.0, 3.0),
       intersectWeight := ClampReal(p.intersectWeight, 0.0, 4.0),
       tileWeight := ClampReal(p.tileWeight, 0.0, 4.0),
       axisBalanceWeight := ClampReal(p.axisBalanceWeight, 0.0, 4.0),
       tilesX := ClampInt(p.tilesX, 2, 8),
       tilesY := ClampInt(p.tilesY, 2, 8),
       k1Boost := ClampReal(p.k1Boost, 0.5, 3.0),
       familyTol := ClampReal(p.familyTol, 0.02, 0.25),
       decadePenalty := ClampReal(p.decadePenalty, 0.0, 12.0),
       priorWeight := ClampReal(p.priorWeight, 0.0, 8.0),
       priorSigma := ClampReal(p.priorSigma, 0.05, 0.7),
       anchorMargin := ClampReal(p.anchorMargin, 0.0, 3.0),
       anchorJitterPx := ClampInt(p.anchorJitterPx, 0, 6),
       requireK1MinProm := ClampReal(p.requireK1MinProm, 0.0, 10.0))
  }

  /** Clamping twice is clamping once. */
  lemma {:induction false} ClampIdempotent(p: DetectorParams, pMin: int, pMax: int)
    ensures Clamp(Clamp(p, pMin, pMax), pMin, pMax) == Clamp(p, pMin, pMax)
  {
    var once := Clamp(p, pMin, pMax);
    assert InRange(once, pMin, pMax);
  }

  /** The defaults are in range for the default period bounds 4 .. 400. */
  lemma {:induction false} DefaultsInRange()
    ensures InRange(Defaults, 4, 400)
  {
  }
}

=== FILE: grid_score.dfy ===
/**
 * GridScore: the three scores GridScaleDetector computes on a pair of 1-D
 * projection profiles for a candidate grid period — the windowed on/off
 * contrast of ScorePeriodWindowed, the share of tiles in which that contrast
 * is positive (TileCoverage), and the mean product at the lattice points
 * (ScoreIntersections).  Profiles are sequences of reals; the source only
 * reads them.
 */
module GridScore {
  import opened Common
  import opened GridSignal

  // ------------------------------------------------------------- windows

  /** A running sum of samples together with the number of samples in it. */
  datatype Tally = Tally(sum: real, count: int)

  function Add(a: Tally, b: Tally): Tally
  {
    Tally(a.sum + b.sum, a.count + b.count)
  }

  /**
   * The samples of [max(start, i - w), min(end - 1, i + w)], empty when that
   * range is (or, for callers that do not keep end <= |proj|, would leave the profile).
   */
  function Window(proj: seq<real>, start: nat, end: int, i: int, w: int): Tally
  {
    var lo := MaxInt(start, i - w);
    var hi := MinInt(end - 1, i + w);
    if lo <= hi < |proj| then Tally(RangeSum(proj, lo, hi + 1), hi - lo + 1) else Tally(0.0, 0)
  }

  /** The windows around i, i + step, i + 2 step, ... below `end`, added up. */
  function Comb(proj: seq<real>, start: nat, end: int, w: int, i: int, step: int): Tally
    requires step >= 1
    decreases end - i
  {
    if i >= end then Tally(0.0, 0)
    else Add(Window(proj, start, end, i, w), Comb(proj, start, end, w, i + step, step))
  }

  /** (onAvg - offAvg) / (|offAvg| + 1), each average over at least one sample. */
  function Contrast(on: Tally, off: Tally): real
  {
    var onAvg := on.sum / MaxInt(1, on.count) as real;
    var offAvg := off.sum / MaxInt(1, off.count) as real;
    (onAvg - offAvg) / (AbsReal(offAvg) + 1.0)
  }

  /**
   * The contrast of shift `s` inside [start, end): the "on" comb starts at
   * start + s, the "off" comb half a step later.
   */
  function ShiftScore(proj: seq<real>, start: nat, end: int, step: int, w: int, s: int): real
    requires start <= end <= |proj| && step >= 1
  {
    Contrast(Comb(proj, start, end, w, CombStart(start, s, step, false), step),
             Comb(proj, start, end, w, CombStart(start, s, step, true), step))
  }

  /** The "on" comb starts at start + s, the "off" comb half a step later. */
  function CombStart(start: int, s: int, step: int, off: bool): int
  {
    if off then start + s + step / 2 else start + s
  }

  /** The contrast is positive exactly when the "on" average exceeds the "off" average. */
  lemma {:induction false} ContrastSign(on: Tally, off: Tally)
    ensures var onAvg := on.sum / MaxInt(1, on.count) as real;
            var offAvg := off.sum / MaxInt(1, off.count) as real;
      (Contrast(on, off) > 0.0 <==> onAvg > offAvg) && (Contrast(on, off) == 0.0 <==> onAvg == offAvg)
  {
    var onAvg := on.sum / MaxInt(1, on.count) as real;
    var offAvg := off.sum / MaxInt(1, off.count) as real;
    var d := AbsReal(offAvg) + 1.0;
    assert Contrast(on, off) * d == onAvg - offAvg;
  }

  /** The window of half-width w around a sample holds at most 2w + 1 samples, and the sample itself when w >= 0. */
  lemma {:induction false} WindowSize(proj: seq<real>, start: nat, end: int, i: int, w: int)
    requires start <= end <= |proj|
    ensures Window(proj, start, end, i, w).count <= MaxInt(0, 2 * w + 1)
    ensures w >= 0 && start <= i < end ==> Window(proj, start, end, i, w).count >= 1
  {
  }

  /** Sums the window around `i`. */
  method SumWindow(proj: seq<real>, start: nat, end: int, i: int, w: int) returns (t: Tally)
    requires start <= end <= |proj|
    ensures t == Window(proj, start, end, i, w)
  {
    var i0 := MaxInt(start, i - w);
    var i1 := MinInt(end - 1, i + w);
    var sum, n := 0.0, 0;
    var j := i0;
    while j <= i1
      invariant i0 <= i1 ==> i0 <= j <= i1 + 1 && sum == RangeSum(proj, i0, j) && n == j - i0
      invariant i0 > i1 ==> j == i0 && sum == 0.0 && n == 0
      decreases i1 - j
    {
      sum := sum + proj[j];
      n := n + 1;
      j := j + 1;
    }
    t := Tally(sum, n);
  }

  /** Sums the windows of the "on" or the "off" comb of shift `s`. */
  method SumComb(proj: seq<real>, start: nat, end: int, w: int, s: int, step: int, off: bool) returns (t: Tally)
    requires start <= end <= |proj| && step >= 1
    ensures t == Comb(proj, start, end, w, CombStart(start, s, step, off), step)
  {
    var first := CombStart(start, s, step, off);
    t := Tally(0.0, 0);
    var i := first;
    CombRest(proj, start, end, w, first, step, t, first);
    while i < end
      invariant CombSoFar(proj, start, end, w, first, step, t, i)
      decreases end - i
    {
      var next := SumWindow(proj, start, end, i, w);
      CombStep(proj, start, end, w, first, step, t, i, next);
      t := Add(t, next);
      i := i + step;
    }
    CombRest(proj, start, end, w, first, step, t, i);
  }

  /** `t` is the part of the comb from `first` that lies before `i`. */
  predicate CombSoFar(proj: seq<real>, start: nat, end: int, w: int, first: int, step: int, t: Tally, i: int)
    requires step >= 1
  {
    Add(t, Comb(proj, start, end, w, i, step)) == Comb(proj, start, end, w, first, step)
  }

  lemma {:induction false} CombStep(proj: seq<real>, start: nat, end: int, w: int, first: int, step: int, t: Tally, i: int, next: Tally)
    requires step >= 1 && i < end && next == Window(proj, start, end, i, w)
    requires CombSoFar(proj, start, end, w, first, step, t, i)
    ensures CombSoFar(proj, start, end, w, first, step, Add(t, next), i + step)
  {
  }

  /** The comb so far starts empty, and is the whole comb once `i` passes `end`. */
  lemma {:induction false} CombRest(proj: seq<real>, start: nat, end: int, w: int, first: int, step: int, t: Tally, i: int)
    requires step >= 1
    ensures i == first && t == Tally(0.0, 0) ==> CombSoFar(proj, start, end, w, first, step, t, i)
    ensures i >= end && CombSoFar(proj, start, end, w, first, step, t, i) ==> t == Comb(proj, start, end, w, first, step)
  {
  }

  /** The on/off contrast of one shift: the body of the shift loops of ScorePeriodWindowed and TileCoverage. */
  method ScoreShift(proj: seq<real>, start: nat, end: int, step: int, w: int, s: int) returns (score: real)
    requires start <= end <= |proj| && step >= 1
    ensures score == ShiftScore(proj, start, end, step, w, s)
  {
    var on := SumComb(proj, start, end, w, s, step, false);
    var off := SumComb(proj, start, end, w, s, step, true);
    score := Contrast(on, off);
  }

  /** Shift k attains the greatest score among [0, bound), and every earlier shift scores strictly less. */
  predicate FirstMaximiser(proj: seq<real>, start: nat, end: int, step: int, w: int, bound: int, k: int)
    requires start <= end <= |proj| && step >= 1
  {
    0 <= k < bound
    && (forall s :: 0 <= s < bound ==> ShiftScore(proj, start, end, step, w, s) <= ShiftScore(proj, start, end, step, w, k))
    && (forall s :: 0 <= s < k ==> ShiftScore(proj, start, end, step, w, s) < ShiftScore(proj, start, end, step, w, k))
  }

  /**
   * The shift loop: the best starts at -infinity and a shift replaces it only
   * when it scores strictly more, so the first maximising shift wins.
   */
  method BestShift(proj: seq<real>, start: nat, end: int, step: int, w: int, bound: int) returns (best: real, shift: int)
    requires start <= end <= |proj| && step >= 1 && bound >= 1
    ensures FirstMaximiser(proj, start, end, step, w, bound, shift)
    ensures best == ShiftScore(proj, start, end, step, w, shift)
  {
    best := ScoreShift(proj, start, end, step, w, 0);
    shift := 0;
    for s := 1 to bound
      invariant FirstMaximiser(proj, start, end, step, w, s, shift)
      invariant best == ShiftScore(proj, start, end, step, w, shift)
    {
      var score := ScoreShift(proj, start, end, step, w, s);
      if score > best {
        best, shift := score, s;
      }
    }
  }

  // ------------------------------------------------- ScorePeriodWindowed

  /** The score ScorePeriodWindowed returns for an empty profile or a period below 2. */
  const NoScore: real := -1e9

  /**
   * ScorePeriodWindowed: the best on/off contrast over the shifts
   * [0, min(step, |proj|)) with step = max(2, period) and half-width
   * max(0, halfWidth), and the first shift that attains it.
   */
  method ScorePeriodWindowed(proj: seq<real>, period: int, halfWidth: int) returns (best: real, bestShift: int)
    ensures |proj| == 0 || period < 2 ==> best == NoScore && bestShift == 0
    ensures |proj| > 0 && period >= 2 ==>
      var step := MaxInt(2, period);
      FirstMaximiser(proj, 0, |proj|, step, MaxInt(0, halfWidth), MinInt(step, |proj|), bestShift)
      && best == ShiftScore(proj, 0, |proj|, step, MaxInt(0, halfWidth), bestShift)
  {
    if |proj| == 0 || period < 2 {
      return NoScore, 0;
    }
    var step := MaxInt(2, period);
    var w := MaxInt(0, halfWidth);
    var shift;
    best, shift := BestShift(proj, 0, |proj|, step, w, MinInt(step, |proj|));
    ModBelow(shift, step);
    bestShift := shift % step;
  }

  lemma {:induction false} ModBelow(a: int, b: int)
    requires 0 <= a < b
    ensures a % b == a
  {
  }

  /** The winning shift of a non-degenerate profile is below the period, and no shift scores above it. */
  lemma {:induction false} WindowedShiftBound(proj: seq<real>, period: int, halfWidth: int, best: real, bestShift: int)
    requires |proj| > 0 && period >= 2
    requires FirstMaximiser(proj, 0, |proj|, period, MaxInt(0, halfWidth), MinInt(period, |proj|), bestShift)
    requires best == ShiftScore(proj, 0, |proj|, period, MaxInt(0, halfWidth), bestShift)
    ensures 0 <= bestShift < period && bestShift < |proj|
    ensures forall s :: 0 <= s < MinInt(period, |proj|) ==> ShiftScore(proj, 0, |proj|, period, MaxInt(0, halfWidth), s) <= best
  {
  }

  // ------------------------------------------------------- TileCoverage

  /** Tile t covers [t * size, (t + 1) * size), the last one reaching to the end, size = n / tiles. */
  function TileStart(n: nat, tiles: int, t: nat): int
    requires tiles >= 1
  {
    t * (n / tiles)
  }

  function TileEnd(n: nat, tiles: int, t: nat): int
    requires tiles >= 1
  {
    if t == tiles - 1 then n else (t + 1) * (n / tiles)
  }

  /** Tiles lie inside the profile, one after the other. */
  lemma {:induction false} TileBounds(n: nat, tiles: int, t: nat)
    requires tiles >= 1 && t < tiles
    ensures 0 <= TileStart(n, tiles, t) <= TileEnd(n, tiles, t) <= n
  {
    var size := n / tiles;
    DivFloor(n, tiles);
    MulMonoInt(t, t + 1, size);
    MulMonoInt(t + 1, tiles, size);
  }

  lemma {:induction false} DivFloor(n: nat, d: int)
    requires d >= 1
    ensures 0 <= d * (n / d) <= n
  {
  }

  lemma {:induction false} MulMonoInt(a: int, b: int, c: nat)
    requires 0 <= a <= b
    ensures 0 <= a * c <= b * c
  {
  }

  /** A tile at least a period long in which some shift has a positive contrast. */
  predicate TileCovered(proj: seq<real>, period: int, tiles: int, halfWidth: int, t: nat)
    requires period >= 1 && tiles >= 1 && t < tiles
  {
    TileBounds(|proj|, tiles, t);
    var start, end := TileStart(|proj|, tiles, t), TileEnd(|proj|, tiles, t);
    end - start >= period
    && exists s :: 0 <= s < MinInt(period, end - start) && ShiftScore(proj, start, end, period, halfWidth, s) > 0.0
  }

  /** Whether each tile is covered, in tile order. */
  function Coverage(proj: seq<real>, period: int, tiles: int, halfWidth: int): (r: seq<bool>)
    requires period >= 1 && tiles >= 1
    ensures |r| == tiles
    ensures forall t :: 0 <= t < tiles ==> r[t] == TileCovered(proj, period, tiles, halfWidth, t)
  {
    seq(tiles, t requires 0 <= t < tiles => TileCovered(proj, period, tiles, halfWidth, t))
  }

  /** TileCoverage's degenerate cases: a period below 2, a profile shorter than two periods, a single tile. */
  predicate CoverageDegenerate(n: nat, period: int, tiles: int)
  {
    period < 2 || n < period * 2 || tiles <= 1
  }

  /**
   * TileCoverage: the share of tiles in which the best shift has a positive
   * contrast, 0 in the degenerate cases.
   */
  method TileCoverage(proj: seq<real>, period: int, tiles: int, halfWidth: int) returns (r: real)
    ensures CoverageDegenerate(|proj|, period, tiles) ==> r == 0.0
    ensures !CoverageDegenerate(|proj|, period, tiles) ==>
      r == CountTrue(Coverage(proj, period, tiles, halfWidth)) as real / tiles as real
    ensures 0.0 <= r <= 1.0
  {
    if CoverageDegenerate(|proj|, period, tiles) {
      return 0.0;
    }
    ghost var cov := Coverage(proj, period, tiles, halfWidth);
    var covered := 0;
    for t := 0 to tiles
      invariant covered == CountTrue(cov[..t])
    {
      var isCovered := CoverTile(proj, period, tiles, halfWidth, t);
      assert cov[..t + 1][..t] == cov[..t];
      if isCovered {
        covered := covered + 1;
      }
    }
    assert cov[..tiles] == cov;
    r := covered as real / tiles as real;
    Share(covered, tiles);
  }

  /** One pass of the tile loop: skip a tile shorter than a period, otherwise test its best shift. */
  method CoverTile(proj: seq<real>, period: int, tiles: int, halfWidth: int, t: nat) returns (covered: bool)
    requires period >= 2 && tiles >= 1 && t < tiles
    ensures covered == TileCovered(proj, period, tiles, halfWidth, t)
  {
    TileBounds(|proj|, tiles, t);
    var start, end := TileStart(|proj|, tiles, t), TileEnd(|proj|, tiles, t);
    if end - start < period {
      return false;
    }
    var best, shift := BestShift(proj, start, end, period, halfWidth, MinInt(period, end - start));
    covered := best > 0.0;
  }

  lemma {:induction false} Share(c: nat, n: int)
    requires 1 <= n && c <= n
    ensures 0.0 <= c as real / n as real <= 1.0
    ensures c as real / n as real == 1.0 <==> c == n
    ensures c as real / n as real == 0.0 <==> c == 0
  {
    var q := c as real / n as real;
    assert q * n as real == c as real;
  }

  /** TileCoverage is 1 exactly when every tile is covered, 0 exactly when none is. */
  lemma {:induction false} CoverageMeaning(proj: seq<real>, period: int, tiles: int, halfWidth: int)
    requires !CoverageDegenerate(|proj|, period, tiles)
    ensures var r := CountTrue(Coverage(proj, period, tiles, halfWidth)) as real / tiles as real;
      (r == 1.0 <==> forall k :: 0 <= k < tiles ==> TileCovered(proj, period, tiles, halfWidth, k))
      && (r == 0.0 <==> forall k :: 0 <= k < tiles ==> !TileCovered(proj, period, tiles, halfWidth, k))
  {
    var cov := Coverage(proj, period, tiles, halfWidth);
    CountTrueExtremes(cov);
    Share(CountTrue(cov), tiles);
  }

  // ------------------------------------------------- ScoreIntersections

  function Pos(x: real): real
  {
    MaxReal(0.0, x)
  }

  /** How many of i, i + step, ... lie below n. */
  function CombCount(n: int, i: int, step: int): nat
    requires step >= 1
    decreases n - i
  {
    if i >= n then 0 else 1 + CombCount(n, i + step, step)
  }

  /** The positive parts of proj at i, i + step, ... added up. */
  function PosSum(proj: seq<real>, i: nat, step: int): (r: real)
    requires step >= 1
    ensures r >= 0.0
    decreases |proj| - i
  {
    if i >= |proj| then 0.0 else Pos(proj[i]) + PosSum(proj, i + step, step)
  }

  /** The products max(0, ex) * max(0, projY[y]) along the column comb starting at y. */
  function RowSum(ex: real, projY: seq<real>, y: nat, step: int): real
    requires step >= 1
    decreases |projY| - y
  {
    if y >= |projY| then 0.0 else Pos(ex) * Pos(projY[y]) + RowSum(ex, projY, y + step, step)
  }

  /** The products at every lattice point (x, y) with x and y on their combs. */
  function GridSum(projX: seq<real>, projY: seq<real>, x: nat, y0: nat, step: int): real
    requires step >= 1
    decreases |projX| - x
  {
    if x >= |projX| then 0.0 else RowSum(projX[x], projY, y0, step) + GridSum(projX, projY, x + step, y0, step)
  }

  /**
   * What ScoreIntersections computes: the mean product over the lattice, 0
   * for a period below 2, a profile shorter than a period, or an empty lattice.
   */
  function Intersections(projX: seq<real>, projY: seq<real>, period: int, shiftX: nat, shiftY: nat): real
  {
    if period < 2 || |projX| < period || |projY| < period then 0.0
    else
      LatticeMean(GridSum(projX, projY, shiftX, shiftY, period), CombCount(|projX|, shiftX, period), CombCount(|projY|, shiftY, period))
  }

  /** A total over a cx by cy lattice divided by its number of points, 0 for an empty lattice. */
  function LatticeMean(total: real, cx: nat, cy: nat): real
  {
    if cx == 0 || cy == 0 then 0.0 else total / (cx as real * cy as real)
  }

  /**
   * ScoreIntersections.  The shifts index the profiles directly, so they must
   * not be negative; ScorePeriodWindowed's shifts never are.
   */
  method ScoreIntersections(projX: seq<real>, projY: seq<real>, period: int, shiftX: nat, shiftY: nat) returns (r: real)
    ensures r == Intersections(projX, projY, period, shiftX, shiftY)
  {
    if period < 2 || |projX| < period || |projY| < period {
      return 0.0;
    }
    var cy := CombCount(|projY|, shiftY, period);
    var sum, count := 0.0, 0;
    var x := shiftX;
    while x < |projX|
      invariant sum + GridSum(projX, projY, x, shiftY, period) == GridSum(projX, projY, shiftX, shiftY, period)
      invariant count + CombCount(|projX|, x, period) * cy == CombCount(|projX|, shiftX, period) * cy
      decreases |projX| - x
    {
      var row, n := SumRow(projX[x], projY, shiftY, period);
      sum, count := sum + row, count + n;
      assert CombCount(|projX|, x, period) * cy == cy + CombCount(|projX|, x + period, period) * cy;
      x := x + period;
    }
    CastMul(CombCount(|projX|, shiftX, period), cy);
    if count < 1 {
      ZeroProduct(CombCount(|projX|, shiftX, period), cy);
      return 0.0;
    }
    r := sum / count as real;
  }

  /** The inner loop of ScoreIntersections over one row. */
  method SumRow(ex: real, projY: seq<real>, shiftY: nat, period: int) returns (sum: real, count: nat)
    requires period >= 1
    ensures sum == RowSum(ex, projY, shiftY, period) && count == CombCount(|projY|, shiftY, period)
  {
    sum, count := 0.0, 0;
    var y := shiftY;
    while y < |projY|
      invariant sum + RowSum(ex, projY, y, period) == RowSum(ex, projY, shiftY, period)
      invariant count + CombCount(|projY|, y, period) == CombCount(|projY|, shiftY, period)
      decreases |projY| - y
    {
      sum, count := sum + Pos(ex) * Pos(projY[y]), count + 1;
      y := y + period;
    }
  }

  /** Every lattice product is a product of positive parts, so the row sums are never negative. */
  lemma {:induction false} RowNonNegative(ex: real, projY: seq<real>, y: nat, step: int)
    requires step >= 1
    ensures RowSum(ex, projY, y, step) >= 0.0
    decreases |projY| - y
  {
    if y < |projY| {
      RowNonNegative(ex, projY, y + step, step);
      MulNonNegative(Pos(ex), Pos(projY[y]));
    }
  }

  lemma {:induction false} GridNonNegative(projX: seq<real>, projY: seq<real>, x: nat, y0: nat, step: int)
    requires step >= 1
    ensures GridSum(projX, projY, x, y0, step) >= 0.0
    decreases |projX| - x
  {
    if x < |projX| {
      GridNonNegative(projX, projY, x + step, y0, step);
      RowNonNegative(projX[x], projY, y0, step);
    }
  }

  /** The intersection score is never negative. */
  lemma {:induction false} IntersectionsNonNegative(projX: seq<real>, projY: seq<real>, period: int, shiftX: nat, shiftY: nat)
    ensures Intersections(projX, projY, period, shiftX, shiftY) >= 0.0
  {
    if period >= 2 && |projX| >= period && |projY| >= period {
      GridNonNegative(projX, projY, shiftX, shiftY, period);
      IntersectionsIsMean(projX, projY, period, shiftX, shiftY);
      MeanNonNegative(GridSum(projX, projY, shiftX, shiftY, period), CombCount(|projX|, shiftX, period), CombCount(|projY|, shiftY, period));
    }
  }

  lemma {:induction false} MeanNonNegative(g: real, cx: nat, cy: nat)
    requires g >= 0.0
    ensures LatticeMean(g, cx, cy) >= 0.0
  {
    if cx >= 1 && cy >= 1 {
      assert cx as real * cy as real > 0.0;
    }
  }

  lemma {:induction false} CastMul(a: nat, b: nat)
    ensures (a * b) as real == a as real * b as real
  {
  }

  /** A product of counts is below 1 only when one of them is 0. */
  lemma {:induction false} ZeroProduct(a: nat, b: nat)
    ensures a * b < 1 ==> a == 0 || b == 0
  {
    if a >= 1 && b >= 1 {
      MulMonoInt(1, a, b);
    }
  }

  lemma {:induction false} IntersectionsIsMean(projX: seq<real>, projY: seq<real>, period: int, shiftX: nat, shiftY: nat)
    requires period >= 2 && |projX| >= period && |projY| >= period
    ensures Intersections(projX, projY, period, shiftX, shiftY)
            == LatticeMean(GridSum(projX, projY, shiftX, shiftY, period), CombCount(|projX|, shiftX, period), CombCount(|projY|, shiftY, period))
  {
  }
}

=== FILE: grid_search.dfy ===
/**
 * GridSearch: the grid trainer's local search (ProgramGrid.SmartLocalSearch).
 * Each pass walks the six families in order, scores the neighbours of the
 * current best in one family, and adopts the best of them when it beats the
 * current best by more than a tolerance; a pass that adopts nothing shrinks
 * the steps and ends the search once they are tiny.  Scoring a parameter set
 * runs the detector over the whole dataset (EvaluateDataset's Score); here
 * it is an input function.
 */
module GridSearch {
  import opened Common
  import opened GridParams
  import opened GridSteps
  import opened GridStepsProgress
  import opened GridNeighbours
  import opened Evaluation

  /** GridCandidateResult, reduced to the score and the parameters it was obtained with. */
  type GridCandidateResult = Evaluated<DetectorParams>

  /**
   * What the search keeps true of its current best: the score belongs to the
   * parameters, every adoption lowered the score by more than the tolerance,
   * and a best other than the start was adopted and is in range.
   */
  predicate Progress(start: DetectorParams, score: DetectorParams -> real, improveTol: real,
                     best: GridCandidateResult, adopted: nat, pMin: int, pMax: int)
  {
    best.score == score(best.params)
    && (improveTol >= 0.0 ==> best.score + adopted as real * improveTol <= score(start))
    && (best.params != start ==> adopted >= 1 && InRange(best.params, pMin, pMax))
  }

  /** EvalBestAsync: the best of the candidates, or the start itself when there are none. */
  method EvalBest(cands: seq<DetectorParams>, start: DetectorParams, score: DetectorParams -> real)
    returns (r: GridCandidateResult)
    ensures cands == [] ==> r == Evaluated(score(start), start)
    ensures cands != [] ==> exists i :: FirstMinimum(cands, score, i) && r == Evaluated(score(cands[i]), cands[i])
  {
    var res;
    if cands == [] {
      res := EvaluateCandidates([start], score);
      ghost var i :| FirstMinimum([start], score, i) && res.value == Evaluated(score([start][i]), [start][i]);
      assert i == 0;
    } else {
      res := EvaluateCandidates(cands, score);
    }
    r := res.value;
  }

  /**
   * One family of a pass: score the neighbours of the current best in that
   * family and adopt the best of them when it improves by more than the
   * tolerance.
   */
  method TryFamily(start: DetectorParams, score: DetectorParams -> real, st: GridStepSizes, improveTol: real,
                   order: seq<int>, fam: Family, pMin: int, pMax: int, cur: GridCandidateResult, ghost adopted: nat)
    returns (next: GridCandidateResult, adoptedNow: bool)
    requires Progress(start, score, improveTol, cur, adopted, pMin, pMax)
    ensures Progress(start, score, improveTol, next, if adoptedNow then adopted + 1 else adopted, pMin, pMax)
    ensures !adoptedNow ==> next == cur
    ensures adoptedNow ==> next.score + improveTol < cur.score
  {
    var cands := Neighbours(cur.params, st, fam, order, pMin, pMax);
    NeighboursInRange(cur.params, st, fam, order, pMin, pMax);
    var b := EvalBest(cands, start, score);
    if b.score + improveTol < cur.score {
      Adopt(start, score, improveTol, cur, adopted, b, cands, pMin, pMax);
      next, adoptedNow := b, true;
    } else {
      next, adoptedNow := cur, false;
    }
  }

  /**
   * One pass over the families in order.  `order` is the random order of the
   * HarmonicMax options the gating family draws in this pass.
   */
  method Pass(start: DetectorParams, score: DetectorParams -> real, st: GridStepSizes, improveTol: real,
              order: seq<int>, pMin: int, pMax: int, best: GridCandidateResult, ghost adopted: nat)
    returns (cur: GridCandidateResult, improved: bool, ghost adopted': nat)
    requires Progress(start, score, improveTol, best, adopted, pMin, pMax)
    ensures Progress(start, score, improveTol, cur, adopted', pMin, pMax)
    ensures !improved ==> cur == best && adopted' == adopted
    ensures improved ==> adopted' > adopted && (improveTol >= 0.0 ==> cur.score + improveTol < best.score)
  {
    cur, improved := best, false;
    adopted' := adopted;
    for k := 0 to |FamilyOrder|
      invariant Progress(start, score, improveTol, cur, adopted', pMin, pMax)
      invariant !improved ==> cur == best && adopted' == adopted
      invariant improved ==> adopted' > adopted && (improveTol >= 0.0 ==> cur.score + improveTol < best.score)
    {
      var next, adoptedNow := TryFamily(start, score, st, improveTol, order, FamilyOrder[k], pMin, pMax, cur, adopted');
      if adoptedNow {
        cur, improved, adopted' := next, true, adopted' + 1;
      }
    }
  }

  /**
   * SmartLocalSearch.  `draws(pass)` is the HarmonicMax order the gating
   * family draws in that pass.  The search runs at most maxPasses passes and
   * ends early only on tiny steps; `passes` and `finalSteps` record how far
   * it went.
   */
  method SmartLocalSearch(start: DetectorParams, score: DetectorParams -> real, draws: int -> seq<int>,
                          maxPasses: int, fine: bool, improveTol: real, pMin: int, pMax: int)
    returns (best: GridCandidateResult, ghost adopted: nat, ghost passes: int, ghost finalSteps: GridStepSizes)
    ensures Progress(start, score, improveTol, best, adopted, pMin, pMax)
    ensures 0 <= passes <= MaxInt(0, maxPasses) && StepsValid(finalSteps)
    ensures passes < maxPasses ==> Tiny(finalSteps)
  {
    var init := EvaluateCandidates([start], score);
    best := init.value;
    ghost var i :| FirstMinimum([start], score, i) && best == Evaluated(score([start][i]), [start][i]);
    assert i == 0;
    adopted := 0;
    var steps := new Steps(fine);
    var pass := 1;
    while pass <= maxPasses
      invariant steps.Valid()
      invariant 1 <= pass <= MaxInt(1, maxPasses + 1)
      invariant Progress(start, score, improveTol, best, adopted, pMin, pMax)
    {
      var improved;
      best, improved, adopted := Pass(start, score, steps.sizes, improveTol, draws(pass), pMin, pMax, best, adopted);
      if !improved {
        ShrinkValid(steps.sizes);
        steps.Shrink();
        if steps.IsTiny() {
          passes, finalSteps := pass, steps.sizes;
          return;
        }
      }
      pass := pass + 1;
    }
    passes, finalSteps := pass - 1, steps.sizes;
  }

  /** Every neighbour the search scores is within the training range. */
  lemma {:induction false} NeighboursInRange(p: DetectorParams, s: GridStepSizes, fam: Family, order: seq<int>,
                                             pMin: int, pMax: int)
    ensures forall k :: 0 <= k < |Neighbours(p, s, fam, order, pMin, pMax)|
                        ==> InRange(Neighbours(p, s, fam, order, pMin, pMax)[k], pMin, pMax)
  {
    NeighboursSpec(p, s, fam, order, pMin, pMax);
  }

  /** Adopting the best neighbour (or the start) when it improves by more than the tolerance keeps Progress. */
  lemma {:induction false} Adopt(start: DetectorParams, score: DetectorParams -> real, improveTol: real,
                                 best: GridCandidateResult, adopted: nat, res: GridCandidateResult,
                                 cands: seq<DetectorParams>, pMin: int, pMax: int)
    requires Progress(start, score, improveTol, best, adopted, pMin, pMax)
    requires cands == [] ==> res == Evaluated(score(start), start)
    requires cands != [] ==> exists i :: FirstMinimum(cands, score, i) && res == Evaluated(score(cands[i]), cands[i])
    requires forall k :: 0 <= k < |cands| ==> InRange(cands[k], pMin, pMax)
    requires res.score + improveTol < best.score
    ensures Progress(start, score, improveTol, res, adopted + 1, pMin, pMax)
  {
    if cands != [] {
      var i :| FirstMinimum(cands, score, i) && res == Evaluated(score(cands[i]), cands[i]);
      assert InRange(cands[i], pMin, pMax);
    }
    if improveTol >= 0.0 {
      ToleranceStep(best.score, res.score, adopted, improveTol, score(start));
    }
  }

  /**
   * With a positive tolerance and scores bounded below, the number of
   * adoptions is bounded: each one costs more than the tolerance.
   */
  lemma {:induction false} AdoptionsBounded(start: DetectorParams, score: DetectorParams -> real, improveTol: real,
                                            best: GridCandidateResult, adopted: nat, pMin: int, pMax: int, lower: real)
    requires Progress(start, score, improveTol, best, adopted, pMin, pMax)
    requires improveTol > 0.0 && score(best.params) >= lower
    ensures adopted as real <= (score(start) - lower) / improveTol
  {
    AdoptionBound(adopted, improveTol, score(start), lower, best.score);
  }
}

=== FILE: grid_signal.dfy ===
/**
 * GridSignal: the one-dimensional signal processing of the grid-period
 * detector.  A profile is the column (or row) sum of the gradient image,
 * given here as a sequence of reals; everything that produced it (CLAHE,
 * Sobel, Detrend) is pixel work outside this model.
 */
module GridSignal {
  import opened Common
  import opened Sorting

  // ---------------------------------------------------------------- sums

  /** s[lo] + ... + s[hi - 1]. */
  function RangeSum(s: seq<real>, lo: int, hi: int): real
    requires 0 <= lo <= hi <= |s|
    decreases hi - lo
  {
    if lo == hi then 0.0 else RangeSum(s, lo, hi - 1) + s[hi - 1]
  }

  lemma {:induction false} RangeSumDropFirst(s: seq<real>, lo: int, hi: int)
    requires 0 <= lo < hi <= |s|
    ensures RangeSum(s, lo + 1, hi) == RangeSum(s, lo, hi) - s[lo]
    decreases hi - lo
  {
    if lo + 1 < hi {
      RangeSumDropFirst(s, lo, hi - 1);
    }
  }

  // ------------------------------------------------------- MovingAverage

  /** First index of the window MovingAverage puts around `i`. */
  function WindowLo(i: int, half: int): int { MaxInt(0, i - half) }

  /** Last index of that window, clipped to a profile of length `n`. */
  function WindowHi(n: int, i: int, half: int): int { MinInt(n - 1, i + half) }

  /** The mean of `s` over the clipped window of half-width `half` around `i`. */
  function WindowMean(s: seq<real>, half: nat, i: int): real
    requires 0 <= i < |s|
  {
    var lo, hi := WindowLo(i, half), WindowHi(|s|, i, half);
    RangeSum(s, lo, hi + 1) / (hi - lo + 1) as real
  }

  /**
   * The running sum MovingAverage keeps at index `i`: the first window is
   * summed outright, and every later step adds s[min(n-1, i+half)] and
   * subtracts s[max(0, i-1-half)] whether or not those indices were clipped.
   */
  function DriftingSum(s: seq<real>, half: nat, i: int): real
    requires 0 <= i < |s|
  {
    if i == 0 then RangeSum(s, 0, WindowHi(|s|, 0, half) + 1)
    else DriftingSum(s, half, i - 1) + s[WindowHi(|s|, i, half)] - s[WindowLo(i - 1, half)]
  }

  /** The value MovingAverage writes at `i`: the drifting sum over the window's size. */
  function DriftingMean(s: seq<real>, half: nat, i: int): real
    requires 0 <= i < |s|
  {
    DriftingSum(s, half, i) / (WindowHi(|s|, i, half) - WindowLo(i, half) + 1) as real
  }

  /**
   * MovingAverage as written.  Its only caller, Detrend, passes an odd
   * window of at least 3.
   */
  method MovingAverageAsWritten(s: seq<real>, win: int) returns (res: seq<real>)
    requires win >= 0
    ensures |res| == |s|
    ensures forall i :: 0 <= i < |s| ==> res[i] == DriftingMean(s, win / 2, i)
  {
    res := [];
    var sum := 0.0;
    var half := win / 2;
    for i := 0 to |s|
      invariant |res| == i
      invariant i > 0 ==> sum == DriftingSum(s, half, i - 1)
      invariant forall k :: 0 <= k < i ==> res[k] == DriftingMean(s, half, k)
    {
      var i0 := MaxInt(0, i - half);
      var i1 := MinInt(|s| - 1, i + half);
      if i == 0 {
        sum := 0.0;
        for k := i0 to i1 + 1
          invariant sum == RangeSum(s, i0, k)
        {
          sum := sum + s[k];
        }
      } else {
        var prev0 := MaxInt(0, i - 1 - half);
        var new1 := MinInt(|s| - 1, i + half);
        sum := sum + s[new1];
        if prev0 >= 0 && prev0 < |s| {
          sum := sum - s[prev0];
        }
      }
      var count := i1 - i0 + 1;
      res := res + [sum / MaxInt(1, count) as real];
    }
  }

  /**
   * The windowed mean MovingAverage evidently means to compute: the running
   * sum only gains an element that enters the window and only loses one that
   * leaves it.
   */
  method MovingAverage(s: seq<real>, win: int) returns (res: seq<real>)
    requires win >= 0
    ensures |res| == |s|
    ensures forall i :: 0 <= i < |s| ==> res[i] == WindowMean(s, win / 2, i)
  {
    res := [];
    var sum := 0.0;
    var half := win / 2;
    for i := 0 to |s|
      invariant |res| == i
      invariant i > 0 ==> sum == RangeSum(s, WindowLo(i - 1, half), WindowHi(|s|, i - 1, half) + 1)
      invariant forall k :: 0 <= k < i ==> res[k] == WindowMean(s, half, k)
    {
      var i0 := MaxInt(0, i - half);
      var i1 := MinInt(|s| - 1, i + half);
      if i == 0 {
        sum := 0.0;
        for k := i0 to i1 + 1
          invariant sum == RangeSum(s, i0, k)
        {
          sum := sum + s[k];
        }
      } else {
        WindowStep(s, half, i);
        if i + half <= |s| - 1 {
          sum := sum + s[i + half];
        }
        if i - 1 - half >= 0 {
          sum := sum - s[i - 1 - half];
        }
      }
      res := res + [sum / (i1 - i0 + 1) as real];
    }
  }

  /** Moving the window one place right gains the entering element and loses the leaving one. */
  lemma {:induction false} WindowStep(s: seq<real>, half: nat, i: int)
    requires 0 < i < |s|
    ensures RangeSum(s, WindowLo(i, half), WindowHi(|s|, i, half) + 1)
         == RangeSum(s, WindowLo(i - 1, half), WindowHi(|s|, i - 1, half) + 1)
            + (if i + half <= |s| - 1 then s[i + half] else 0.0)
            - (if i - 1 - half >= 0 then s[i - 1 - half] else 0.0)
  {
    var lo, hi := WindowLo(i - 1, half), WindowHi(|s|, i - 1, half) + 1;
    if i - 1 - half >= 0 {
      RangeSumDropFirst(s, lo, hi);
    }
  }

  /** Windows MovingAverage clips at the right end by step i (the steps 1..i with i + half > n - 1). */
  function ClippedRight(n: int, half: int, i: int): int
  {
    MaxInt(0, i - MaxInt(1, n - half) + 1)
  }

  /** x added to itself k times. */
  function Times(k: nat, x: real): real
  {
    if k == 0 then 0.0 else Times(k - 1, x) + x
  }

  /**
   * The running sum of MovingAverage drifts from the window sum: it has lost
   * s[0] once for each of the first `half` steps and gained s[n-1] once for
   * each step whose window is clipped at the right end.
   */
  lemma {:induction false} DriftClosedForm(s: seq<real>, half: nat, i: int)
    requires 0 <= i < |s|
    ensures DriftingSum(s, half, i)
         == RangeSum(s, WindowLo(i, half), WindowHi(|s|, i, half) + 1)
            - Times(MinInt(i, half), s[0])
            + Times(ClippedRight(|s|, half, i), s[|s| - 1])
  {
    if i > 0 {
      var n := |s|;
      DriftClosedForm(s, half, i - 1);
      WindowStep(s, half, i);
      var enters, leaves := i + half <= n - 1, i - 1 - half >= 0;
      Rebalance(DriftingSum(s, half, i - 1), RangeSum(s, WindowLo(i - 1, half), WindowHi(n, i - 1, half) + 1),
                Times(MinInt(i - 1, half), s[0]), Times(ClippedRight(n, half, i - 1), s[n - 1]),
                DriftingSum(s, half, i), RangeSum(s, WindowLo(i, half), WindowHi(n, i, half) + 1),
                Times(MinInt(i, half), s[0]), Times(ClippedRight(n, half, i), s[n - 1]),
                if enters then s[i + half] else 0.0, if leaves then s[i - 1 - half] else 0.0,
                s[WindowHi(n, i, half)], s[WindowLo(i - 1, half)]);
    }
  }

  /** The bookkeeping step of DriftClosedForm, as plain linear arithmetic. */
  lemma {:induction false} Rebalance(d0: real, w0: real, p0: real, q0: real, d1: real, w1: real, p1: real, q1: real,
                  gain: real, loss: real, added: real, removed: real)
    requires d0 == w0 - p0 + q0
    requires d1 == d0 + added - removed
    requires w1 == w0 + gain - loss
    requires added == gain + (q1 - q0) && removed == loss + (p1 - p0)
    ensures d1 == w1 - p1 + q1
  {
  }

  /** On [1, 0, 0, 0, 0] with window 3, MovingAverage gives 0 at index 1 where the window mean is 1/3. */
  lemma {:induction false} MovingAverageCounterexample()
    ensures DriftingSum([1.0, 0.0, 0.0, 0.0, 0.0], 1, 1) / 3.0 == 0.0
    ensures WindowMean([1.0, 0.0, 0.0, 0.0, 0.0], 1, 1) == 1.0 / 3.0
  {
    var s := [1.0, 0.0, 0.0, 0.0, 0.0];
    assert DriftingSum(s, 1, 0) == RangeSum(s, 0, 2) == 1.0;
    assert RangeSum(s, 0, 3) == 1.0;
  }

  // ---------------------------------------------------------- ComputeACF

  /** The smallest lag ComputeACF scores, after its clamp. */
  function AcfLo(n: int, pmin: int, pmax: int): int
  {
    ClampInt(pmin, 2, MaxInt(2, MinInt(pmax - 1, n / 2)))
  }

  /** The largest lag ComputeACF scores; the result has this length plus one. */
  function AcfHi(n: int, pmin: int, pmax: int): int
  {
    var lo := AcfLo(n, pmin, pmax);
    ClampInt(pmax, lo + 1, MaxInt(lo + 1, n - 2))
  }

  function SumSquares(s: seq<real>): real
  {
    if s == [] then 0.0 else SumSquares(s[..|s| - 1]) + s[|s| - 1] * s[|s| - 1]
  }

  /** The 1e-9 energy floor below which a profile has no autocorrelation. */
  const EnergyFloor: real := 1.0 / 1000000000.0

  /** ComputeACF returns all zeros: too short a profile, or (almost) no energy. */
  predicate AcfDegenerate(s: seq<real>, pmin: int, pmax: int)
  {
    |s| < AcfLo(|s|, pmin, pmax) + 3 || SumSquares(s) < EnergyFloor
  }

  /** s[0]*s[lag] + ... + s[c-1]*s[c-1+lag]. */
  function LagSum(s: seq<real>, lag: nat, c: nat): real
    requires c + lag <= |s|
  {
    if c == 0 then 0.0 else LagSum(s, lag, c - 1) + s[c - 1] * s[c - 1 + lag]
  }

  /** The mean lagged product at `lag`. */
  function Autocorr(s: seq<real>, lag: nat): real
  {
    if lag < |s| then LagSum(s, lag, |s| - lag) / (|s| - lag) as real else 0.0
  }

  /** The autocorrelation before smoothing: zero below `lo`, the mean lagged product from `lo` to `hi`. */
  function RawAcf(s: seq<real>, lo: nat, hi: nat): seq<real>
  {
    seq(hi + 1, k => if lo <= k then Autocorr(s, k) else 0.0)
  }

  /** How the three-point smoothing reads its left neighbour. */
  datatype Smoothing =
    | InPlace   // the neighbour already smoothed in this pass, as ComputeACF does
    | Centered  // the neighbour's raw value

  /** Value at `i` after the in-place pass has swept lo+1 .. i. */
  function InPlaceAt(a: seq<real>, lo: nat, i: int): real
    requires lo <= i && i + 1 < |a|
    decreases i - lo
  {
    if i == lo then a[lo] else (InPlaceAt(a, lo, i - 1) + a[i] + a[i + 1]) / 3.0
  }

  /** The plain three-point average at `i`. */
  function CenteredAt(a: seq<real>, i: int): real
    requires 1 <= i && i + 1 < |a|
  {
    (a[i - 1] + a[i] + a[i + 1]) / 3.0
  }

  /** The three-point smoothing of a[lo+1 .. hi-1]; every other entry is untouched. */
  function Smoothed(rule: Smoothing, a: seq<real>, lo: nat, hi: int): (r: seq<real>)
    requires hi < |a|
    ensures |r| == |a|
  {
    seq(|a|, k requires 0 <= k < |a| =>
      if lo < k < hi then
        (if rule == InPlace then InPlaceAt(a, lo, k) else CenteredAt(a, k))
      else a[k])
  }

  /** The smoothing loop of ComputeACF, which writes each average back before reading the next. */
  method SmoothInPlace(a: array<real>, lo: nat, hi: int)
    requires hi < a.Length
    modifies a
    ensures a[..] == Smoothed(InPlace, old(a[..]), lo, hi)
  {
    ghost var raw := a[..];
    var i := lo + 1;
    while i < hi
      invariant lo + 1 <= i && (i <= hi || i == lo + 1)
      invariant forall k :: 0 <= k < a.Length ==>
        a[k] == if lo < k < i then InPlaceAt(raw, lo, k) else raw[k]
    {
      assert a[i - 1] == InPlaceAt(raw, lo, i - 1);
      a[i] := (a[i - 1] + a[i] + a[i + 1]) / 3.0;
      assert a[i] == InPlaceAt(raw, lo, i);
      i := i + 1;
    }
    assert forall k :: 0 <= k < a.Length ==> a[..][k] == Smoothed(InPlace, raw, lo, hi)[k];
  }

  /** The smoothing with the raw left neighbour, kept in a copy. */
  method SmoothCentered(a: array<real>, lo: nat, hi: int)
    requires lo < hi < a.Length
    modifies a
    ensures a[..] == Smoothed(Centered, old(a[..]), lo, hi)
  {
    var raw := a[..];
    var i := lo + 1;
    while i < hi
      invariant lo + 1 <= i <= hi
      invariant a[..] == Smoothed(Centered, raw, lo, i)
    {
      a[i] := (raw[i - 1] + raw[i] + raw[i + 1]) / 3.0;
      assert forall k :: 0 <= k < a.Length ==> a[..][k] == Smoothed(Centered, raw, lo, i + 1)[k];
      i := i + 1;
    }
  }

  /** The energy loop of ComputeACF: the sum of squares. */
  method Energy(s: seq<real>) returns (denom: real)
    ensures denom == SumSquares(s)
  {
    denom := 0.0;
    for i := 0 to |s|
      invariant denom == SumSquares(s[..i])
    {
      assert s[..i + 1][..i] == s[..i];
      denom := denom + s[i] * s[i];
    }
    assert s[..|s|] == s;
  }

  /** The inner loop of ComputeACF: the mean lagged product at one lag. */
  method MeanLagProduct(s: seq<real>, lag: nat) returns (m: real)
    requires lag < |s|
    ensures m == Autocorr(s, lag)
  {
    var sum := 0.0;
    var count := |s| - lag;
    for i := 0 to count
      invariant sum == LagSum(s, lag, i)
    {
      sum := sum + s[i] * s[i + lag];
    }
    m := sum / MaxInt(1, count) as real;
  }

  /** The lag loop of ComputeACF, writing each mean lagged product into a zeroed array. */
  method FillAcf(s: seq<real>, lo: nat, hi: nat, acf: array<real>)
    requires lo <= hi < |s| && acf.Length == hi + 1
    requires forall k :: 0 <= k < acf.Length ==> acf[k] == 0.0
    modifies acf
    ensures acf[..] == RawAcf(s, lo, hi)
  {
    for lag := lo to hi + 1
      invariant forall k :: 0 <= k < acf.Length ==> acf[k] == if lo <= k < lag then Autocorr(s, k) else 0.0
    {
      acf[lag] := MeanLagProduct(s, lag);
    }
    assert forall k :: 0 <= k < acf.Length ==> acf[..][k] == RawAcf(s, lo, hi)[k];
  }

  /** What ComputeACF returns for `s`: the clamped length, zeros when degenerate, the smoothed products otherwise. */
  predicate IsAcf(s: seq<real>, pmin: int, pmax: int, rule: Smoothing, r: seq<real>)
  {
    |r| == AcfHi(|s|, pmin, pmax) + 1
    && (AcfDegenerate(s, pmin, pmax) ==> forall k :: 0 <= k < |r| ==> r[k] == 0.0)
    && (!AcfDegenerate(s, pmin, pmax) ==>
          r == Smoothed(rule, RawAcf(s, AcfLo(|s|, pmin, pmax), AcfHi(|s|, pmin, pmax)),
                        AcfLo(|s|, pmin, pmax), AcfHi(|s|, pmin, pmax)))
  }

  /**
   * ComputeACF: the clamped lag range, all zeros for a degenerate profile,
   * otherwise the mean lagged products smoothed with `rule` (the source
   * smooths InPlace).
   */
  method ComputeACF(s: seq<real>, pmin: int, pmax: int, rule: Smoothing) returns (r: seq<real>)
    ensures |r| == AcfHi(|s|, pmin, pmax) + 1
    ensures AcfDegenerate(s, pmin, pmax) ==> forall k :: 0 <= k < |r| ==> r[k] == 0.0
    ensures !AcfDegenerate(s, pmin, pmax) ==>
      r == Smoothed(rule, RawAcf(s, AcfLo(|s|, pmin, pmax), AcfHi(|s|, pmin, pmax)),
                    AcfLo(|s|, pmin, pmax), AcfHi(|s|, pmin, pmax))
  {
    var n := |s|;
    var lo := ClampInt(pmin, 2, MaxInt(2, MinInt(pmax - 1, n / 2)));
    var hi := ClampInt(pmax, lo + 1, MaxInt(lo + 1, n - 2));
    var acf := new real[hi + 1](_ => 0.0);
    if n < lo + 3 {
      return acf[..];
    }
    var denom := Energy(s);
    if denom < EnergyFloor {
      return acf[..];
    }
    FillAcf(s, lo, hi, acf);
    if rule == InPlace {
      SmoothInPlace(acf, lo, hi);
    } else {
      SmoothCentered(acf, lo, hi);
    }
    r := acf[..];
  }

  /** Every value of a[lo..hi] lies in [m, M]. */
  predicate Bounded(a: seq<real>, lo: nat, hi: int, m: real, M: real)
    requires hi < |a|
  {
    forall k :: lo <= k <= hi ==> m <= a[k] <= M
  }

  lemma {:induction false} InPlaceBounded(a: seq<real>, lo: nat, hi: int, i: int, m: real, M: real)
    requires hi < |a| && lo <= i < hi && Bounded(a, lo, hi, m, M)
    ensures m <= InPlaceAt(a, lo, i) <= M
    decreases i - lo
  {
    if i > lo {
      InPlaceBounded(a, lo, hi, i - 1, m, M);
    }
  }

  /** Smoothing, either way, never leaves the range of the values it averages. */
  lemma {:induction false} SmoothingKeepsRange(rule: Smoothing, a: seq<real>, lo: nat, hi: int, m: real, M: real)
    requires hi < |a| && Bounded(a, lo, hi, m, M)
    ensures Bounded(Smoothed(rule, a, lo, hi), lo, hi, m, M)
  {
    var r := Smoothed(rule, a, lo, hi);
    forall k | lo < k < hi
      ensures m <= r[k] <= M
    {
      if rule == InPlace {
        InPlaceBounded(a, lo, hi, k, m, M);
      }
    }
  }

  /**
   * ComputeACF smooths in place: on raw values 3, 0, 0, 0 the third entry
   * becomes 1/3, where the centred three-point average is 0.
   */
  lemma {:induction false} InPlaceSmoothingCounterexample()
    ensures Smoothed(InPlace, [3.0, 0.0, 0.0, 0.0], 0, 3)[2] == 1.0 / 3.0
    ensures Smoothed(Centered, [3.0, 0.0, 0.0, 0.0], 0, 3)[2] == 0.0
  {
    var a := [3.0, 0.0, 0.0, 0.0];
    assert InPlaceAt(a, 0, 1) == 1.0;
  }

  // -------------------------------------------------------- FindTopPeaks

  /** An ACF peak: refined lag, value, and prominence over the median in MAD units. */
  datatype Peak = Peak(lag: real, value: real, prominence: real)

  function Id(x: real): real { x }
  function NegProminence(p: Peak): real { -p.prominence }

  const Eps6: real := 1.0 / 1000000.0

  /** |v - median| for every value v of `data`, in order. */
  function Deviations(data: seq<real>, median: real): (r: seq<real>)
    ensures |r| == |data|
    ensures forall i :: 0 <= i < |data| ==> r[i] == AbsReal(data[i] - median)
  {
    seq(|data|, i requires 0 <= i < |data| => AbsReal(data[i] - median))
  }

  /** The middle of the sorted deviations is the deviation of one of the values. */
  lemma {:induction false} MiddleDeviation(data: seq<real>, median: real)
    requires |data| > 0
    ensures var dev := Deviations(data, median);
      exists i :: 0 <= i < |data| && SortBy(dev, Id)[|dev| / 2] == AbsReal(data[i] - median)
  {
    var dev := Deviations(data, median);
    SortedMember(dev, Id, |dev| / 2);
    var i :| 0 <= i < |dev| && dev[i] == SortBy(dev, Id)[|dev| / 2];
    assert dev[i] == AbsReal(data[i] - median);
  }

  /** MedianAbsoluteDeviation: the middle of the sorted absolute deviations, plus 1e-9. */
  function MedianAbsoluteDeviation(data: seq<real>, median: real): (r: real)
    requires |data| > 0
    ensures r >= EnergyFloor
    ensures exists i :: 0 <= i < |data| && r == AbsReal(data[i] - median) + EnergyFloor
  {
    var dev := Deviations(data, median);
    MiddleDeviation(data, median);
    SortBy(dev, Id)[|dev| / 2] + EnergyFloor
  }

  /** acf[i] is a local maximum: strictly above its left and not below its right neighbour. */
  predicate IsLocalMax(acf: seq<real>, i: int)
    requires 1 <= i < |acf| - 1
  {
    acf[i] > acf[i - 1] && acf[i] >= acf[i + 1]
  }

  /** The peak FindTopPeaks records at index `i`, with the parabolic lag refinement. */
  function PeakAt(acf: seq<real>, i: int, median: real, scale: real): Peak
    requires 1 <= i < |acf| - 1 && scale > 0.0
  {
    var y0, y1, y2 := acf[i - 1], acf[i], acf[i + 1];
    var denom := y0 - 2.0 * y1 + y2;
    var delta := if AbsReal(denom) > Eps6 then 0.5 * (y0 - y2) / denom else 0.0;
    Peak(i as real + delta, y1, (y1 - median) / scale)
  }

  /** The peaks at the local maxima among indices lo+1 .. j-1, in index order. */
  function LocalPeaks(acf: seq<real>, lo: nat, j: int, median: real, scale: real): seq<Peak>
    requires (j < |acf| || j <= lo + 1) && scale > 0.0
    decreases j - lo
  {
    if j <= lo + 1 then []
    else LocalPeaks(acf, lo, j - 1, median, scale)
         + (if IsLocalMax(acf, j - 1) then [PeakAt(acf, j - 1, median, scale)] else [])
  }

  /** Some kept peak lies closer than `minDist` to `pk`. */
  predicate TooClose(acc: seq<Peak>, pk: Peak, minDist: int)
  {
    exists q :: q in acc && AbsReal(q.lag - pk.lag) < minDist as real
  }

  /** The greedy pass of FindTopPeaks: keep a peak unless too close to a kept one; stop at topN. */
  function Filter(ordered: seq<Peak>, minDist: int, topN: int, acc: seq<Peak>): seq<Peak>
    decreases |ordered|
  {
    if ordered == [] then acc
    else if TooClose(acc, ordered[0], minDist) then Filter(ordered[1..], minDist, topN, acc)
    else if |acc| + 1 >= topN then acc + [ordered[0]]
    else Filter(ordered[1..], minDist, topN, acc + [ordered[0]])
  }

  /** max(2, round(0.03 * (pmax - pmin))). */
  function MinPeakDistance(pmin: int, pmax: int): int
  {
    MaxInt(2, RoundEven((pmax - pmin) as real * (3.0 / 100.0)))
  }

  /** What FindTopPeaks returns; None where the source indexes outside `acf` and throws. */
  function TopPeaks(acf: seq<real>, pmin: int, pmax: int, topN: int): Option<seq<Peak>>
  {
    if !(0 <= pmin <= pmax < |acf|) then None
    else
      var sorted := SortBy(acf[pmin..pmax + 1], Id);
      var median := sorted[|sorted| / 2];
      var scale := MaxReal(Eps6, MedianAbsoluteDeviation(sorted, median));
      var ordered := SortBy(LocalPeaks(acf, pmin, pmax, median, scale), NegProminence);
      Some(Filter(ordered, MinPeakDistance(pmin, pmax), topN, []))
  }

  method FindTopPeaks(acf: seq<real>, pmin: int, pmax: int, topN: int) returns (r: Option<seq<Peak>>)
    ensures r == TopPeaks(acf, pmin, pmax, topN)
  {
    if !(0 <= pmin <= pmax < |acf|) {
      return None;
    }
    var vals := [];
    for i := pmin to pmax + 1
      invariant vals == acf[pmin..i]
    {
      vals := vals + [acf[i]];
    }
    assert vals == acf[pmin..pmax + 1];
    var sorted := SortBy(vals, Id);
    var median := sorted[|sorted| / 2];
    var scale := MaxReal(Eps6, MedianAbsoluteDeviation(sorted, median));
    var peaks := CollectPeaks(acf, pmin, pmax, median, scale);
    var ordered := SortBy(peaks, NegProminence);
    var filtered := GreedyFilter(ordered, MinPeakDistance(pmin, pmax), topN);
    r := Some(filtered);
  }

  /** The scan of FindTopPeaks over pmin+1 .. pmax-1 for local maxima. */
  method CollectPeaks(acf: seq<real>, pmin: nat, pmax: int, median: real, scale: real) returns (peaks: seq<Peak>)
    requires pmax < |acf| && scale > 0.0
    ensures peaks == LocalPeaks(acf, pmin, pmax, median, scale)
  {
    peaks := [];
    var i := pmin + 1;
    while i <= pmax - 1
      invariant pmin + 1 <= i <= MaxInt(pmin + 1, pmax)
      invariant peaks == LocalPeaks(acf, pmin, i, median, scale)
    {
      var y0, y1, y2 := acf[i - 1], acf[i], acf[i + 1];
      if y1 > y0 && y1 >= y2 {
        peaks := peaks + [PeakAt(acf, i, median, scale)];
      }
      i := i + 1;
    }
  }

  /** The greedy loop of FindTopPeaks over the peaks in descending prominence. */
  method GreedyFilter(ordered: seq<Peak>, minDist: int, topN: int) returns (filtered: seq<Peak>)
    ensures filtered == Filter(ordered, minDist, topN, [])
  {
    filtered := [];
    var k := 0;
    while k < |ordered|
      invariant 0 <= k <= |ordered|
      invariant Filter(ordered[k..], minDist, topN, filtered) == Filter(ordered, minDist, topN, [])
    {
      var pk := ordered[k];
      assert ordered[k..][0] == pk && ordered[k..][1..] == ordered[k + 1..];
      if !TooClose(filtered, pk, minDist) {
        filtered := filtered + [pk];
        if |filtered| >= topN {
          break;
        }
      }
      k := k + 1;
    }
  }

  predicate ProminenceDescending(ps: seq<Peak>)
  {
    forall i, j :: 0 <= i < j < |ps| ==> ps[i].prominence >= ps[j].prominence
  }

  predicate Separated(ps: seq<Peak>, minDist: int)
  {
    forall i, j :: 0 <= i < j < |ps| ==> AbsReal(ps[i].lag - ps[j].lag) >= minDist as real
  }

  /** The peak sits within half a sample of a local maximum strictly inside (pmin, pmax). */
  predicate NearLocalMax(acf: seq<real>, pmin: int, pmax: int, pk: Peak)
    requires pmax < |acf|
  {
    exists i :: pmin < i < pmax && 1 <= i && IsLocalMax(acf, i)
                && pk.value == acf[i] && AbsReal(pk.lag - i as real) <= 0.5
  }

  lemma {:induction false} FilterFacts(ordered: seq<Peak>, minDist: int, topN: int, acc: seq<Peak>)
    requires ProminenceDescending(acc) && Separated(acc, minDist) && |acc| < MaxInt(topN, 1)
    requires SortedBy(ordered, NegProminence)
    requires forall a, o :: a in acc && o in ordered ==> a.prominence >= o.prominence
    ensures var r := Filter(ordered, minDist, topN, acc);
      ProminenceDescending(r) && Separated(r, minDist) && |r| <= MaxInt(topN, 1)
      && forall x :: x in r ==> x in acc || x in ordered
    decreases |ordered|
  {
    if ordered != [] {
      var x, rest := ordered[0], ordered[1..];
      TailFacts(ordered);
      if !TooClose(acc, x, minDist) {
        KeepOne(acc, x, minDist, ordered);
        if |acc| + 1 < topN {
          FilterFacts(rest, minDist, topN, acc + [x]);
        }
      } else {
        FilterFacts(rest, minDist, topN, acc);
      }
    }
  }

  /** The tail of a list sorted by descending prominence is sorted, and lies below its head. */
  lemma {:induction false} TailFacts(ordered: seq<Peak>)
    requires ordered != [] && SortedBy(ordered, NegProminence)
    ensures SortedBy(ordered[1..], NegProminence)
    ensures forall o :: o in ordered[1..] ==> o in ordered && ordered[0].prominence >= o.prominence
  {
    var rest := ordered[1..];
    forall o | o in rest
      ensures o in ordered && ordered[0].prominence >= o.prominence
    {
      var j :| 0 <= j < |rest| && rest[j] == o;
      assert ordered[j + 1] == o;
    }
  }

  /** Appending a peak that is far enough from the kept ones, and no more prominent, keeps their order and spacing. */
  lemma {:induction false} KeepOne(acc: seq<Peak>, x: Peak, minDist: int, ordered: seq<Peak>)
    requires ProminenceDescending(acc) && Separated(acc, minDist)
    requires ordered != [] && x == ordered[0]
    requires forall a, o :: a in acc && o in ordered ==> a.prominence >= o.prominence
    requires forall o :: o in ordered[1..] ==> o in ordered && x.prominence >= o.prominence
    requires !TooClose(acc, x, minDist)
    ensures ProminenceDescending(acc + [x]) && Separated(acc + [x], minDist)
    ensures forall a, o :: a in acc + [x] && o in ordered[1..] ==> a.prominence >= o.prominence
  {
    var acc' := acc + [x];
    forall i | 0 <= i < |acc|
      ensures acc[i].prominence >= x.prominence && AbsReal(acc[i].lag - x.lag) >= minDist as real
    {
      assert acc[i] in acc;
    }
  }

  /** The parabolic refinement moves the lag by at most half a sample from a local maximum. */
  lemma {:induction false} RefinementWithinHalf(y0: real, y1: real, y2: real)
    requires y1 > y0 && y1 >= y2
    ensures var denom := y0 - 2.0 * y1 + y2;
      AbsReal(denom) > Eps6 ==> AbsReal(0.5 * (y0 - y2) / denom) <= 0.5
  {
    var denom := y0 - 2.0 * y1 + y2;
    if AbsReal(denom) > Eps6 {
      var q := (y0 - y2) / denom;
      assert (q - 1.0) * denom == 2.0 * (y1 - y2);
      assert (q + 1.0) * denom == 2.0 * (y0 - y1);
      SignOfFactor(q - 1.0, denom);
      SignOfFactor(q + 1.0, denom);
      assert 0.5 * (y0 - y2) / denom == 0.5 * q;
    }
  }

  /** A factor of a product with a negative number has the opposite sign of the product. */
  lemma {:induction false} SignOfFactor(a: real, d: real)
    requires d < 0.0
    ensures a * d >= 0.0 ==> a <= 0.0
    ensures a * d < 0.0 ==> a > 0.0
  {
    if a > 0.0 {
      assert a * d < 0.0;
    } else {
      assert a * d >= 0.0;
    }
  }

  lemma {:induction false} LocalPeaksNear(acf: seq<real>, lo: nat, j: int, median: real, scale: real, pmax: int)
    requires j <= pmax < |acf| && scale > 0.0
    ensures forall x :: x in LocalPeaks(acf, lo, j, median, scale) ==> NearLocalMax(acf, lo, pmax, x)
    decreases j - lo
  {
    if j > lo + 1 {
      LocalPeaksNear(acf, lo, j - 1, median, scale, pmax);
      var i := j - 1;
      if IsLocalMax(acf, i) {
        RefinementWithinHalf(acf[i - 1], acf[i], acf[i + 1]);
        assert NearLocalMax(acf, lo, pmax, PeakAt(acf, i, median, scale));
      }
    }
  }

  /**
   * What FindTopPeaks promises: at most max(topN, 1) peaks, in non-increasing
   * prominence, pairwise at least the minimum distance apart, each within half
   * a sample of a local maximum of the ACF.
   */
  lemma {:induction false} TopPeaksFacts(acf: seq<real>, pmin: int, pmax: int, topN: int)
    ensures var r := TopPeaks(acf, pmin, pmax, topN);
      r.None? <==> !(0 <= pmin <= pmax < |acf|)
    ensures var r := TopPeaks(acf, pmin, pmax, topN);
      r.Some? ==> |r.value| <= MaxInt(topN, 1) && ProminenceDescending(r.value)
                  && Separated(r.value, MinPeakDistance(pmin, pmax))
                  && forall k :: 0 <= k < |r.value| ==> NearLocalMax(acf, pmin, pmax, r.value[k])
  {
    if 0 <= pmin <= pmax < |acf| {
      var sorted := SortBy(acf[pmin..pmax + 1], Id);
      var median := sorted[|sorted| / 2];
      var scale := MaxReal(Eps6, MedianAbsoluteDeviation(sorted, median));
      FilteredPeaksFacts(acf, pmin, pmax, median, scale, topN);
    }
  }

  /** TopPeaksFacts for a given median and scale. */
  lemma {:induction false} FilteredPeaksFacts(acf: seq<real>, pmin: nat, pmax: int, median: real, scale: real, topN: int)
    requires pmax < |acf| && scale > 0.0
    ensures var r := Filter(SortBy(LocalPeaks(acf, pmin, pmax, median, scale), NegProminence),
                            MinPeakDistance(pmin, pmax), topN, []);
      |r| <= MaxInt(topN, 1) && ProminenceDescending(r) && Separated(r, MinPeakDistance(pmin, pmax))
      && forall k :: 0 <= k < |r| ==> NearLocalMax(acf, pmin, pmax, r[k])
  {
    var peaks := LocalPeaks(acf, pmin, pmax, median, scale);
    var ordered := SortBy(peaks, NegProminence);
    LocalPeaksNear(acf, pmin, pmax, median, scale, pmax);
    FilterFacts(ordered, MinPeakDistance(pmin, pmax), topN, []);
    var r := Filter(ordered, MinPeakDistance(pmin, pmax), topN, []);
    forall k | 0 <= k < |r|
      ensures NearLocalMax(acf, pmin, pmax, r[k])
    {
      assert r[k] in ordered;
      assert r[k] in multiset(ordered);
      assert r[k] in peaks;
    }
  }

  // -------------------------------------------------------- PeakPromNear

  predicate Near(p: Peak, lag: real, tol: real)
  {
    AbsReal(p.lag - lag) <= tol
  }

  /** The greatest prominence among the peaks within `tol` of `lag`, if any. */
  function BestNear(peaks: seq<Peak>, lag: real, tol: real): Option<real>
  {
    if peaks == [] then None
    else
      var last := peaks[|peaks| - 1];
      var rest := BestNear(peaks[..|peaks| - 1], lag, tol);
      if !Near(last, lag, tol) then rest
      else if rest.Some? && rest.value >= last.prominence then rest
      else Some(last.prominence)
  }

  /** BestNear is None exactly when no peak is near, and otherwise the greatest near prominence. */
  lemma {:induction false} BestNearSpec(peaks: seq<Peak>, lag: real, tol: real)
    ensures BestNear(peaks, lag, tol).None? <==> forall i :: 0 <= i < |peaks| ==> !Near(peaks[i], lag, tol)
    ensures BestNear(peaks, lag, tol).Some? ==>
      exists i :: 0 <= i < |peaks| && Near(peaks[i], lag, tol) && BestNear(peaks, lag, tol).value == peaks[i].prominence
    ensures BestNear(peaks, lag, tol).Some? ==>
      forall i :: 0 <= i < |peaks| && Near(peaks[i], lag, tol) ==> peaks[i].prominence <= BestNear(peaks, lag, tol).value
  {
    if peaks != [] {
      var init := peaks[..|peaks| - 1];
      BestNearSpec(init, lag, tol);
      assert forall i :: 0 <= i < |init| ==> init[i] == peaks[i];
      var r := BestNear(peaks, lag, tol);
      if r.Some? && r != BestNear(init, lag, tol) {
        assert Near(peaks[|peaks| - 1], lag, tol) && r.value == peaks[|peaks| - 1].prominence;
      }
    }
  }

  /**
   * PeakPromNear: the prominence of the most prominent peak within `tol` of
   * `lag`, or 0 when there is none.
   */
  function PeakPromNear(peaks: seq<Peak>, lag: real, tol: real): real
  {
    match BestNear(peaks, lag, tol)
    case None => 0.0
    case Some(v) => v
  }

  /** PeakPromNear is 0 when no peak is near, and otherwise the prominence of a near peak no other near peak exceeds. */
  lemma {:induction false} PeakPromNearSpec(peaks: seq<Peak>, lag: real, tol: real)
    ensures (forall i :: 0 <= i < |peaks| ==> !Near(peaks[i], lag, tol)) ==> PeakPromNear(peaks, lag, tol) == 0.0
    ensures (exists i :: 0 <= i < |peaks| && Near(peaks[i], lag, tol)) ==>
      (exists i :: 0 <= i < |peaks| && Near(peaks[i], lag, tol) && PeakPromNear(peaks, lag, tol) == peaks[i].prominence)
      && forall i :: 0 <= i < |peaks| && Near(peaks[i], lag, tol) ==> peaks[i].prominence <= PeakPromNear(peaks, lag, tol)
  {
    BestNearSpec(peaks, lag, tol);
  }
}

=== FILE: grid_steps.dfy ===
/**
 * The step sizes of the grid trainer's local search (ProgramGrid.Steps): how
 * far one move goes for each knob, the coarse and fine schedules, and how
 * the steps shrink after a pass that improved nothing.
 */
module GridSteps {
  import opened Common

  datatype GridStepSizes = GridStepSizes(
    claheClip: real, blur: real, unsharp: real, gradGamma: real,
    minRelPeak: real, consistencyTol: real, harmTol: real, k1Boost: real, familyTol: real, decadePenalty: real,
    weight: real, alpha: real, beta: real, gammaW: real, priorWeight: real, priorSigma: real, anchorMargin: real,
    claheTile: int, detrend: int, tiles: int, lineHalfWidth: int, anchorJitter: int,
    shrinkFactor: real, harmonicMaxTries: int)

  /** MakeSteps: the fine and the coarse schedule. */
  function MakeSteps(fine: bool): (s: GridStepSizes)
    ensures StepsValid(s)
  {
    if fine then
      GridStepSizes(0.25, 0.10, 0.08, 0.05, 0.20, 0.01, 0.01, 0.10, 0.01, 0.2,
                    0.10, 0.10, 0.10, 0.10, 0.15, 0.015, 0.10, 1, 8, 1, 1, 1, 0.6, 2)
    else
      GridStepSizes(0.50, 0.25, 0.15, 0.10, 0.40, 0.02, 0.02, 0.20, 0.02, 0.5,
                    0.20, 0.20, 0.20, 0.20, 0.30, 0.03, 0.20, 2, 20, 1, 1, 1, 0.6, 3)
  }

  /** What every schedule keeps: non-negative real steps, integer steps of at least 1, the factor 0.6. */
  predicate StepsValid(s: GridStepSizes)
  {
    s.claheClip >= 0.0 && s.blur >= 0.0 && s.unsharp >= 0.0 && s.gradGamma >= 0.0
    && s.minRelPeak >= 0.0 && s.consistencyTol >= 0.0 && s.harmTol >= 0.0 && s.k1Boost >= 0.0
    && s.familyTol >= 0.0 && s.decadePenalty >= 0.0
    && s.weight >= 0.0 && s.alpha >= 0.0 && s.beta >= 0.0 && s.gammaW >= 0.0
    && s.priorWeight >= 0.0 && s.priorSigma >= 0.0 && s.anchorMargin >= 0.0
    && s.claheTile >= 1 && s.detrend >= 1 && s.tiles >= 1 && s.lineHalfWidth >= 1 && s.anchorJitter >= 1
    && s.harmonicMaxTries >= 1 && s.shrinkFactor == 0.6
  }

  /** Steps.IsTiny. */
  predicate Tiny(s: GridStepSizes)
  {
    s.claheClip < 0.05 && s.blur < 0.05 && s.unsharp < 0.05 && s.gradGamma < 0.02
    && s.minRelPeak < 0.05 && s.consistencyTol < 0.005 && s.harmTol < 0.01
    && s.k1Boost < 0.05 && s.familyTol < 0.01 && s.decadePenalty < 0.1
    && s.weight < 0.05 && s.alpha < 0.05 && s.beta < 0.05 && s.gammaW < 0.05
    && s.priorWeight < 0.1 && s.priorSigma < 0.01 && s.anchorMargin < 0.05
    && s.claheTile <= 1 && s.detrend <= 1 && s.tiles <= 1 && s.lineHalfWidth <= 1 && s.anchorJitter <= 1
    && s.harmonicMaxTries <= 1
  }

  /** A real step after a shrink. */
  function Scale(x: real, f: real): real
  {
    x * f
  }

  /** An integer step after a shrink: Math.Max(1, (int)Math.Round(n * factor)). */
  function ShrinkCount(n: int, f: real): int
  {
    MaxInt(1, RoundEven(n as real * f))
  }

  /** Steps.Shrink on a snapshot. */
  function ShrinkSizes(s: GridStepSizes): GridStepSizes
  {
    var f := s.shrinkFactor;
    s.(claheClip := Scale(s.claheClip, f), blur := Scale(s.blur, f), unsharp := Scale(s.unsharp, f), gradGamma := Scale(s.gradGamma, f),
       minRelPeak := Scale(s.minRelPeak, f), consistencyTol := Scale(s.consistencyTol, f), harmTol := Scale(s.harmTol, f),
       k1Boost := Scale(s.k1Boost, f), familyTol := Scale(s.familyTol, f), decadePenalty := Scale(s.decadePenalty, f),
       weight := Scale(s.weight, f), alpha := Scale(s.alpha, f), beta := Scale(s.beta, f), gammaW := Scale(s.gammaW, f),
       priorWeight := Scale(s.priorWeight, f), priorSigma := Scale(s.priorSigma, f), anchorMargin := Scale(s.anchorMargin, f),
       claheTile := ShrinkCount(s.claheTile, f), detrend := ShrinkCount(s.detrend, f), tiles := ShrinkCount(s.tiles, f),
       lineHalfWidth := ShrinkCount(s.lineHalfWidth, f), anchorJitter := ShrinkCount(s.anchorJitter, f),
       harmonicMaxTries := ShrinkCount(s.harmonicMaxTries, f))
  }

  /**
   * The mutable step holder of the local search.  Its public fields are
   * held together as one GridStepSizes record, which Shrink replaces.
   */
  class Steps {
    var sizes: GridStepSizes

    predicate Valid()
      reads this
    {
      StepsValid(sizes)
    }

    predicate IsTiny()
      reads this
    {
      Tiny(sizes)
    }

    /** MakeSteps(fine). */
    constructor (fine: bool)
      ensures sizes == MakeSteps(fine) && Valid()
    {
      sizes := MakeSteps(fine);
    }

    /** Steps.Shrink: every real step scaled by the factor, every integer step rounded towards 1. */
    method Shrink()
      modifies this
      ensures sizes == ShrinkSizes(old(sizes))
    {
      sizes := ShrinkSizes(sizes);
    }
  }
}

/**
 * Why the local search's shrinking ends: a natural-number measure that no
 * shrink raises and every shrink of steps that are not yet tiny lowers.
 */
module GridStepsProgress {
  import opened Common
  import opened GridSteps

  /** A real step counted in units of 1/k (rounded up). */
  function Ticks(x: real, k: real): nat
    requires x >= 0.0 && k > 0.0
  {
    var c := Ceil(x * k);
    assert c as real >= x * k >= 0.0;
    c
  }

  /** 1 when a real step is at or above its tiny threshold t, else 0. */
  function Drop(x: real, t: real): int
  {
    if x >= t then 1 else 0
  }

  /** 1 when an integer step is above 1, else 0. */
  function CountDrop(n: int): int
  {
    if n >= 2 then 1 else 0
  }

  /**
   * Scaling by 0.6 never adds a tick (with k = 2.5 / t), and a step at or
   * above its threshold t loses at least one.
   */
  lemma {:induction false} ScaleTicks(x: real, t: real, k: real)
    requires x >= 0.0 && k > 0.0 && t * k == 2.5
    ensures Ticks(Scale(x, 0.6), k) + Drop(x, t) <= Ticks(x, k)
  {
    assert Scale(x, 0.6) * k == 0.6 * (x * k);
    if x >= t {
      assert x * k >= t * k;
    }
  }

  /** An integer step of at least 1 shrinks to at least 1, and strictly from 2 on. */
  lemma {:induction false} CountShrinks(n: int)
    requires n >= 1
    ensures 1 <= ShrinkCount(n, 0.6)
    ensures ShrinkCount(n, 0.6) + CountDrop(n) <= n
  {
    var r := RoundEven(n as real * 0.6);
    assert r as real <= n as real * 0.6 + 0.5;
  }

  function PreprocessingTicks(s: GridStepSizes): nat
    requires StepsValid(s)
  {
    Ticks(s.claheClip, 50.0) + Ticks(s.blur, 50.0) + Ticks(s.unsharp, 50.0) + Ticks(s.gradGamma, 125.0)
  }

  function PreprocessingDrops(s: GridStepSizes): int
  {
    Drop(s.claheClip, 0.05) + Drop(s.blur, 0.05) + Drop(s.unsharp, 0.05) + Drop(s.gradGamma, 0.02)
  }

  function GatingTicks(s: GridStepSizes): nat
    requires StepsValid(s)
  {
    Ticks(s.minRelPeak, 50.0) + Ticks(s.consistencyTol, 500.0) + Ticks(s.harmTol, 250.0)
    + Ticks(s.k1Boost, 50.0) + Ticks(s.familyTol, 250.0) + Ticks(s.decadePenalty, 25.0)
  }

  function GatingDrops(s: GridStepSizes): int
  {
    Drop(s.minRelPeak, 0.05) + Drop(s.consistencyTol, 0.005) + Drop(s.harmTol, 0.01)
    + Drop(s.k1Boost, 0.05) + Drop(s.familyTol, 0.01) + Drop(s.decadePenalty, 0.1)
  }

  function WeightTicks(s: GridStepSizes): nat
    requires StepsValid(s)
  {
    Ticks(s.weight, 50.0) + Ticks(s.alpha, 50.0) + Ticks(s.beta, 50.0) + Ticks(s.gammaW, 50.0)
    + Ticks(s.priorWeight, 25.0) + Ticks(s.priorSigma, 250.0) + Ticks(s.anchorMargin, 50.0)
  }

  function WeightDrops(s: GridStepSizes): int
  {
    Drop(s.weight, 0.05) + Drop(s.alpha, 0.05) + Drop(s.beta, 0.05) + Drop(s.gammaW, 0.05)
    + Drop(s.priorWeight, 0.1) + Drop(s.priorSigma, 0.01) + Drop(s.anchorMargin, 0.05)
  }

  function CountTicks(s: GridStepSizes): nat
    requires StepsValid(s)
  {
    (s.claheTile - 1) + (s.detrend - 1) + (s.tiles - 1) + (s.lineHalfWidth - 1) + (s.anchorJitter - 1)
    + (s.harmonicMaxTries - 1)
  }

  function CountDrops(s: GridStepSizes): int
  {
    CountDrop(s.claheTile) + CountDrop(s.detrend) + CountDrop(s.tiles) + CountDrop(s.lineHalfWidth)
    + CountDrop(s.anchorJitter) + CountDrop(s.harmonicMaxTries)
  }

  /** How far the steps are from tiny. */
  function Measure(s: GridStepSizes): nat
    requires StepsValid(s)
  {
    PreprocessingTicks(s) + GatingTicks(s) + WeightTicks(s) + CountTicks(s)
  }

  /** Shrinking keeps the steps valid. */
  lemma {:induction false} ShrinkValid(s: GridStepSizes)
    requires StepsValid(s)
    ensures StepsValid(ShrinkSizes(s))
  {
    CountShrinks(s.claheTile);
    CountShrinks(s.detrend);
    CountShrinks(s.tiles);
    CountShrinks(s.lineHalfWidth);
    CountShrinks(s.anchorJitter);
    CountShrinks(s.harmonicMaxTries);
  }

  lemma {:induction false} PreprocessingShrink(s: GridStepSizes)
    requires StepsValid(s) && StepsValid(ShrinkSizes(s))
    ensures PreprocessingTicks(ShrinkSizes(s)) + PreprocessingDrops(s) <= PreprocessingTicks(s)
  {
    ScaleTicks(s.claheClip, 0.05, 50.0);
    ScaleTicks(s.blur, 0.05, 50.0);
    ScaleTicks(s.unsharp, 0.05, 50.0);
    ScaleTicks(s.gradGamma, 0.02, 125.0);
  }

  lemma {:induction false} GatingShrink(s: GridStepSizes)
    requires StepsValid(s) && StepsValid(ShrinkSizes(s))
    ensures GatingTicks(ShrinkSizes(s)) + GatingDrops(s) <= GatingTicks(s)
  {
    ScaleTicks(s.minRelPeak, 0.05, 50.0);
    ScaleTicks(s.consistencyTol, 0.005, 500.0);
    ScaleTicks(s.harmTol, 0.01, 250.0);
    ScaleTicks(s.k1Boost, 0.05, 50.0);
    ScaleTicks(s.familyTol, 0.01, 250.0);
    ScaleTicks(s.decadePenalty, 0.1, 25.0);
  }

  lemma {:induction false} WeightShrink(s: GridStepSizes)
    requires StepsValid(s) && StepsValid(ShrinkSizes(s))
    ensures WeightTicks(ShrinkSizes(s)) + WeightDrops(s) <= WeightTicks(s)
  {
    ScaleTicks(s.weight, 0.05, 50.0);
    ScaleTicks(s.alpha, 0.05, 50.0);
    ScaleTicks(s.beta, 0.05, 50.0);
    ScaleTicks(s.gammaW, 0.05, 50.0);
    ScaleTicks(s.priorWeight, 0.1, 25.0);
    ScaleTicks(s.priorSigma, 0.01, 250.0);
    ScaleTicks(s.anchorMargin, 0.05, 50.0);
  }

  lemma {:induction false} CountsShrink(s: GridStepSizes)
    requires StepsValid(s) && StepsValid(ShrinkSizes(s))
    ensures CountTicks(ShrinkSizes(s)) + CountDrops(s) <= CountTicks(s)
  {
    CountShrinks(s.claheTile);
    CountShrinks(s.detrend);
    CountShrinks(s.tiles);
    CountShrinks(s.lineHalfWidth);
    CountShrinks(s.anchorJitter);
    CountShrinks(s.harmonicMaxTries);
  }

  /** Steps that are not tiny have at least one step at or above its threshold. */
  lemma {:induction false} NotTinyDrops(s: GridStepSizes)
    requires !Tiny(s)
    ensures PreprocessingDrops(s) + GatingDrops(s) + WeightDrops(s) + CountDrops(s) >= 1
  {
  }

  /**
   * Shrink keeps the steps valid, never raises the measure, and lowers it
   * from steps that are not yet tiny: the shrink-until-tiny loop is finite.
   */
  lemma {:induction false} ShrinkProgress(s: GridStepSizes)
    requires StepsValid(s)
    ensures StepsValid(ShrinkSizes(s))
    ensures Measure(ShrinkSizes(s)) <= Measure(s)
    ensures Measure(ShrinkSizes(s)) == Measure(s) ==> Tiny(s)
  {
    ShrinkValid(s);
    PreprocessingShrink(s);
    GatingShrink(s);
    WeightShrink(s);
    CountsShrink(s);
    if !Tiny(s) {
      NotTinyDrops(s);
    }
  }

  /** Tiny steps stay tiny: a shrink only lowers them. */
  lemma {:induction false} TinyStaysTiny(s: GridStepSizes)
    requires StepsValid(s) && Tiny(s)
    ensures Tiny(ShrinkSizes(s))
  {
    CountShrinks(s.claheTile);
    CountShrinks(s.detrend);
    CountShrinks(s.tiles);
    CountShrinks(s.lineHalfWidth);
    CountShrinks(s.anchorJitter);
    CountShrinks(s.harmonicMaxTries);
  }

  /** Measure zero means every real step is 0 and every integer step is 1. */
  lemma {:induction false} ZeroMeasureTiny(s: GridStepSizes)
    requires StepsValid(s) && Measure(s) == 0
    ensures Tiny(s)
  {
    assert PreprocessingTicks(s) == 0 && GatingTicks(s) == 0 && WeightTicks(s) == 0;
  }

  /** n shrinks in a row. */
  function ShrinkTimes(s: GridStepSizes, n: nat): GridStepSizes
    decreases n
  {
    if n == 0 then s else ShrinkTimes(ShrinkSizes(s), n - 1)
  }

  /** Measure(s) shrinks in a row make valid steps tiny: IsTiny is eventually reached. */
  lemma {:induction false} EventuallyTiny(s: GridStepSizes, n: nat)
    requires StepsValid(s) && n >= Measure(s)
    ensures StepsValid(ShrinkTimes(s, n)) && Tiny(ShrinkTimes(s, n))
    decreases n
  {
    if n == 0 {
      ZeroMeasureTiny(s);
    } else {
      var t := ShrinkSizes(s);
      assert ShrinkTimes(s, n) == ShrinkTimes(t, n - 1);
      ShrinkProgress(s);
      if Measure(t) < Measure(s) {
        EventuallyTiny(t, n - 1);
      } else {
        StaysTiny(s, n);
      }
    }
  }

  /** Once tiny, always tiny. */
  lemma {:induction false} StaysTiny(s: GridStepSizes, n: nat)
    requires StepsValid(s) && Tiny(s)
    ensures StepsValid(ShrinkTimes(s, n)) && Tiny(ShrinkTimes(s, n))
    decreases n
  {
    if n > 0 {
      var t := ShrinkSizes(s);
      assert ShrinkTimes(s, n) == ShrinkTimes(t, n - 1);
      ShrinkValid(s);
      TinyStaysTiny(s);
      StaysTiny(t, n - 1);
    }
  }
}

=== FILE: pin_detect.dfy ===
/**
 * The decision layer of PinDetector: the hue window of a colour mask, the
 * bottom-tip rule, per-colour contour selection and the non-maximum
 * suppression that runs across colours.  Masks, contours, areas, bounding
 * boxes, tip angles and template overlaps come from OpenCV and are inputs.
 */
module PinDetection {
  import opened Common
  import opened PinParams
  import opened ShapeMatch

  /** int.MinValue: the starting value of the running maximum in FindBottomTip. */
  const IntMin := -0x8000_0000

  // ---------------------------------------------------------------------------
  // Util.ClampPoint

  /** Util.ClampPoint: each coordinate clamped into [0, size-1]. */
  function ClampPoint(p: Point, w: int, h: int): (r: Point)
    ensures w >= 1 ==> 0 <= r.x < w
    ensures h >= 1 ==> 0 <= r.y < h
    ensures 0 <= p.x < w ==> r.x == p.x
    ensures 0 <= p.y < h ==> r.y == p.y
  {
    Point(MaxInt(0, MinInt(w - 1, p.x)), MaxInt(0, MinInt(h - 1, p.y)))
  }

  // ---------------------------------------------------------------------------
  // CreateMaskCpu: the hue window

  /** C#'s `%`: the remainder takes the sign of the dividend. */
  function CsRem(a: int, b: int): int
    requires b > 0
  {
    if a >= 0 then a % b else -((-a) % b)
  }

  /** (x % 180 + 180) % 180 with C#'s `%`: the hue wrapped into [0, 180). */
  function WrapHue(x: int): (r: int)
    ensures 0 <= r < 180
    ensures r == x % 180
  {
    (CsRem(x, 180) + 180) % 180
  }

  /** An inclusive hue interval handed to CvInvoke.InRange. */
  datatype HueRange = HueRange(lo: int, hi: int)

  /** One interval when [c - tol, c + tol] fits in [0, 179], otherwise the two wrapped halves. */
  function HueRanges(cp: ColorParams): (rs: seq<HueRange>)
    ensures 1 <= |rs| <= 2
    ensures forall r :: r in rs ==> r.hi <= 179 && 0 <= r.lo
  {
    var hLo := cp.hueCenter - cp.hueTol;
    var hHi := cp.hueCenter + cp.hueTol;
    if hLo >= 0 && hHi <= 179 then [HueRange(hLo, hHi)]
    else [HueRange(WrapHue(hLo), 179), HueRange(0, WrapHue(hHi))]
  }

  predicate InRanges(rs: seq<HueRange>, h: int)
  {
    exists r :: r in rs && r.lo <= h <= r.hi
  }

  /** Whether CreateMaskCpu sets the pixel with OpenCV HSV value (h, s, v). */
  predicate MaskPixel(cp: ColorParams, h: int, s: int, v: int)
  {
    InRanges(HueRanges(cp), h) && cp.satMin <= s <= 255 && cp.valMin <= v <= 255
  }

  /** Distance on OpenCV's hue circle of 180 steps. */
  function CircularHueDistance(h: int, c: int): int
  {
    MinInt(AbsInt(h - c), 180 - AbsInt(h - c))
  }

  /** For tolerances below half the circle the mask's hue test is a circular window. */
  lemma HueWindowIsCircular(cp: ColorParams, h: int)
    requires 0 <= cp.hueCenter <= 179 && 0 <= cp.hueTol <= 89 && 0 <= h <= 179
    ensures InRanges(HueRanges(cp), h) <==> CircularHueDistance(h, cp.hueCenter) <= cp.hueTol
  {
    var c, t := cp.hueCenter, cp.hueTol;
    var rs := HueRanges(cp);
    if c - t >= 0 && c + t <= 179 {
      if CircularHueDistance(h, c) <= t {
        assert rs[0].lo <= h <= rs[0].hi;
      }
    } else if c - t < 0 {
      assert rs == [HueRange(c - t + 180, 179), HueRange(0, c + t)];
      if CircularHueDistance(h, c) <= t {
        if h <= c + t {
          assert rs[1].lo <= h <= rs[1].hi;
        } else {
          assert rs[0].lo <= h <= rs[0].hi;
        }
      }
    } else {
      assert rs == [HueRange(c - t, 179), HueRange(0, c + t - 180)];
      if CircularHueDistance(h, c) <= t {
        if h >= c - t {
          assert rs[0].lo <= h <= rs[0].hi;
        } else {
          assert rs[1].lo <= h <= rs[1].hi;
        }
      }
    }
  }

  // ---------------------------------------------------------------------------
  // FindBottomTip

  function Xs(pts: seq<Point>): seq<int>
  {
    seq(|pts|, i requires 0 <= i < |pts| => pts[i].x)
  }

  /** pts.Average(pt => pt.X). */
  function MeanX(pts: seq<Point>): real
    requires |pts| > 0
  {
    SumInts(Xs(pts)) as real / |pts| as real
  }

  function Dev(p: Point, avg: real): real
  {
    AbsReal(p.x as real - avg)
  }

  predicate Increasing(s: seq<int>)
  {
    forall a, b :: 0 <= a < b < |s| ==> s[a] < s[b]
  }

  /**
   * The tip rule: a point of maximal Y; among those the smallest |X - mean X|;
   * among those the first in contour order.
   */
  predicate IsBottomTipIndex(pts: seq<Point>, k: int)
  {
    0 <= k < |pts|
    && (forall j :: 0 <= j < |pts| ==> pts[j].y <= pts[k].y)
    && (forall j :: 0 <= j < |pts| && pts[j].y == pts[k].y ==> Dev(pts[k], MeanX(pts)) <= Dev(pts[j], MeanX(pts)))
    && (forall j :: 0 <= j < k && pts[j].y == pts[k].y ==> Dev(pts[j], MeanX(pts)) > Dev(pts[k], MeanX(pts)))
  }

  /** The rule picks one point: ties are fully broken. */
  lemma BottomTipUnique(pts: seq<Point>, k1: int, k2: int)
    requires IsBottomTipIndex(pts, k1) && IsBottomTipIndex(pts, k2)
    ensures k1 == k2
  {
    var m := MeanX(pts);
    assert pts[k1].y == pts[k2].y;
    assert Dev(pts[k1], m) == Dev(pts[k2], m);
  }

  predicate IsTipOf(pts: seq<Point>, tip: Point, w: int, h: int)
  {
    exists k :: 0 <= k < |pts| && IsBottomTipIndex(pts, k) && tip == ClampPoint(pts[k], w, h)
  }

  /** Indices j < i with pts[j].y == y, in contour order (the `bottoms` list). */
  function IdxWithY(pts: seq<Point>, i: nat, y: int): seq<int>
    requires i <= |pts|
  {
    if i == 0 then [] else IdxWithY(pts, i - 1, y) + (if pts[i - 1].y == y then [i - 1] else [])
  }

  lemma {:induction false} IdxWithYFacts(pts: seq<Point>, i: nat, y: int)
    requires i <= |pts|
    ensures var r := IdxWithY(pts, i, y);
      Increasing(r)
      && (forall t :: 0 <= t < |r| ==> 0 <= r[t] < i && pts[r[t]].y == y)
      && (forall j :: 0 <= j < i && pts[j].y == y ==> j in r)
  {
    if i > 0 {
      IdxWithYFacts(pts, i - 1, y);
    }
  }

  lemma {:induction false} IdxWithYEmpty(pts: seq<Point>, i: nat, y: int)
    requires i <= |pts| && forall j :: 0 <= j < i ==> pts[j].y < y
    ensures IdxWithY(pts, i, y) == []
  {
    if i > 0 {
      IdxWithYEmpty(pts, i - 1, y);
    }
  }

  predicate ContourPointsOk(pts: seq<Point>)
  {
    |pts| > 0 && forall j :: 0 <= j < |pts| ==> IntMin <= pts[j].y
  }

  /** PinDetector.FindBottomTip on a contour's point list and the image size. */
  method FindBottomTip(pts: seq<Point>, w: int, h: int) returns (tip: Point)
    requires ContourPointsOk(pts)
    ensures IsTipOf(pts, tip, w, h)
  {
    var maxY := IntMin;
    var bottoms: seq<Point> := [];
    ghost var idx: seq<int> := [];
    var i := 0;
    while i < |pts|
      invariant 0 <= i <= |pts|
      invariant forall j :: 0 <= j < i ==> pts[j].y <= maxY
      invariant idx == IdxWithY(pts, i, maxY)
      invariant |bottoms| == |idx|
      invariant forall t :: 0 <= t < |idx| ==> 0 <= idx[t] < i && bottoms[t] == pts[idx[t]]
      invariant i == 0 ==> maxY == IntMin
      invariant i > 0 ==> |idx| > 0
    {
      var p := pts[i];
      if p.y > maxY {
        IdxWithYEmpty(pts, i, p.y);
        maxY := p.y;
        bottoms := [p];
        idx := [i];
      } else if p.y == maxY {
        bottoms := bottoms + [p];
        idx := idx + [i];
      }
      i := i + 1;
    }
    var best := 0;
    if |bottoms| != 1 {
      best := ClosestToMean(bottoms, MeanX(pts));
    }
    tip := ClampPoint(bottoms[best], w, h);
    BottomTipFromScan(pts, maxY, idx, bottoms, best);
  }

  /** The second loop of FindBottomTip: the first point with the smallest deviation. */
  method ClosestToMean(bottoms: seq<Point>, avgX: real) returns (best: int)
    requires |bottoms| >= 1
    ensures 0 <= best < |bottoms|
    ensures forall u :: 0 <= u < |bottoms| ==> Dev(bottoms[best], avgX) <= Dev(bottoms[u], avgX)
    ensures forall u :: 0 <= u < best ==> Dev(bottoms[u], avgX) > Dev(bottoms[best], avgX)
  {
    best := 0;
    var t := 1;
    while t < |bottoms|
      invariant 1 <= t <= |bottoms|
      invariant 0 <= best < t
      invariant forall u :: 0 <= u < t ==> Dev(bottoms[best], avgX) <= Dev(bottoms[u], avgX)
      invariant forall u :: 0 <= u < best ==> Dev(bottoms[u], avgX) > Dev(bottoms[best], avgX)
    {
      if Dev(bottoms[t], avgX) < Dev(bottoms[best], avgX) {
        best := t;
      }
      t := t + 1;
    }
  }

  lemma BottomTipFromScan(pts: seq<Point>, maxY: int, idx: seq<int>, bottoms: seq<Point>, best: int)
    requires |pts| > 0 && (forall j :: 0 <= j < |pts| ==> pts[j].y <= maxY)
    requires idx == IdxWithY(pts, |pts|, maxY) && |idx| > 0
    requires |bottoms| == |idx| && forall t :: 0 <= t < |idx| ==> 0 <= idx[t] < |pts| && bottoms[t] == pts[idx[t]]
    requires 0 <= best < |bottoms|
    requires forall u :: 0 <= u < |bottoms| ==> Dev(bottoms[best], MeanX(pts)) <= Dev(bottoms[u], MeanX(pts))
    requires forall u :: 0 <= u < best ==> Dev(bottoms[u], MeanX(pts)) > Dev(bottoms[best], MeanX(pts))
    ensures IsBottomTipIndex(pts, idx[best])
  {
    IdxWithYFacts(pts, |pts|, maxY);
    var k := idx[best];
    var avg := MeanX(pts);
    forall j | 0 <= j < |pts| && pts[j].y == pts[k].y
      ensures Dev(pts[k], avg) <= Dev(pts[j], avg)
      ensures j < k ==> Dev(pts[j], avg) > Dev(pts[k], avg)
    {
      assert j in idx;
      var u :| 0 <= u < |idx| && idx[u] == j;
      assert bottoms[u] == pts[j];
      if j < k {
        assert u < best;
      }
    }
  }

  // ---------------------------------------------------------------------------
  // ComputeNmsKeepIndices

  /** The RejectReason strings DetectInternal writes ("pass", "allRejected", "suppressedNMS"); null is NoReason. */
  datatype Reason = NoReason | Pass | AllRejected | SuppressedNms

  /** Per-contour record written by DetectInternal. */
  datatype ContourDiag = ContourDiag(
    color: int,
    area: int,
    bboxW: int,
    bboxH: int,
    aspect: real,
    tipAngle: real,
    kernelOpen: int,
    kernelClose: int,
    scale: real,
    maskNonZero: int,
    maskNonZeroRaw: int,
    imgArea: int,
    tip: Point,
    usedAsPrediction: bool,
    rejectReason: Reason,
    templateScore: real,
    templateIoUFill: real,
    templateIoUEdge: real)

  /** The local Score of ComputeNmsKeepIndices. */
  function NmsScore(d: ContourDiag): real
  {
    (6.0 / 10.0) * d.aspect + (15.0 / 10000.0) * d.area as real - (1.0 / 100.0) * d.tipAngle
  }

  function Scores(diags: seq<ContourDiag>, n: nat): (sc: seq<real>)
    requires n <= |diags|
    ensures |sc| == n && forall i :: 0 <= i < n ==> sc[i] == NmsScore(diags[i])
  {
    seq(n, i requires 0 <= i < n => NmsScore(diags[i]))
  }

  /** i precedes j in a stable descending sort by score. */
  predicate Before(sc: seq<real>, i: int, j: int)
    requires 0 <= i < |sc| && 0 <= j < |sc|
  {
    sc[i] > sc[j] || (sc[i] == sc[j] && i < j)
  }

  predicate Ranked(sc: seq<real>, r: seq<int>)
  {
    (forall a :: 0 <= a < |r| ==> 0 <= r[a] < |sc|)
    && forall a, b :: 0 <= a < b < |r| ==> Before(sc, r[a], r[b])
  }

  /** Inserts x after every element whose score is at least x's. */
  function Insert(sc: seq<real>, x: int, s: seq<int>): seq<int>
    requires 0 <= x < |sc| && forall t :: 0 <= t < |s| ==> 0 <= s[t] < |sc|
  {
    if s == [] then [x]
    else if sc[s[0]] >= sc[x] then [s[0]] + Insert(sc, x, s[1..])
    else [x] + s
  }

  lemma {:induction false} InsertRanked(sc: seq<real>, x: int, s: seq<int>)
    requires 0 <= x < |sc| && Ranked(sc, s) && forall y :: y in s ==> y < x
    ensures var r := Insert(sc, x, s);
      |r| == |s| + 1 && (forall y :: y in r <==> y == x || y in s) && Ranked(sc, r)
  {
    if s != [] && sc[s[0]] >= sc[x] {
      RankedTail(sc, s);
      assert forall y :: y in s[1..] ==> y in s;
      InsertRanked(sc, x, s[1..]);
      var tail := Insert(sc, x, s[1..]);
      var r := [s[0]] + tail;
      forall b | 1 <= b < |r|
        ensures Before(sc, s[0], r[b])
      {
        var y := r[b];
        assert y == tail[b - 1] && y in tail;
        if y == x {
          assert s[0] in s;
        } else {
          assert y in s[1..];
          var e :| 0 <= e < |s| - 1 && s[1..][e] == y;
          assert s[e + 1] == y;
        }
      }
    } else if s != [] {
      var r := [x] + s;
      forall b | 1 <= b < |r|
        ensures Before(sc, x, r[b])
      {
        if b > 1 {
          assert Before(sc, s[0], s[b - 1]);
        }
      }
    }
  }

  lemma RankedTail(sc: seq<real>, s: seq<int>)
    requires Ranked(sc, s) && |s| >= 1
    ensures Ranked(sc, s[1..])
  {
    forall a, b | 0 <= a < b < |s| - 1
      ensures Before(sc, s[1..][a], s[1..][b])
    {
      assert s[1..][a] == s[a + 1] && s[1..][b] == s[b + 1];
    }
  }

  /** Enumerable.Range(0, k).OrderByDescending(score): a stable sort. */
  function OrderDesc(sc: seq<real>, k: nat): (r: seq<int>)
    requires k <= |sc|
    ensures |r| == k && (forall y :: y in r <==> 0 <= y < k)
    ensures Ranked(sc, r)
  {
    if k == 0 then []
    else
      var s := OrderDesc(sc, k - 1);
      InsertRanked(sc, k - 1, s);
      Insert(sc, k - 1, s)
  }

  /** t has the highest score, and the smallest index among equal highest scores. */
  predicate IsTop(sc: seq<real>, t: int, n: int)
    requires n <= |sc|
  {
    0 <= t < n && forall j :: 0 <= j < n ==> sc[j] < sc[t] || (sc[j] == sc[t] && t <= j)
  }

  lemma RankedHead(sc: seq<real>, r: seq<int>, n: nat)
    requires n <= |sc| && n >= 1 && Ranked(sc, r) && (forall y :: y in r <==> 0 <= y < n)
    ensures |r| >= 1 && IsTop(sc, r[0], n)
  {
    assert 0 in r;
    assert r[0] in r;
    forall j | 0 <= j < n
      ensures sc[j] < sc[r[0]] || (sc[j] == sc[r[0]] && r[0] <= j)
    {
      assert j in r;
      var b :| 0 <= b < |r| && r[b] == j;
      if b > 0 {
        assert Before(sc, r[0], r[b]);
      }
    }
  }

  predicate NearPts(a: Point, b: Point, radius: real)
  {
    SqDist(a, b) as real <= radius * radius
  }

  lemma NearSymmetric(a: Point, b: Point, radius: real)
    ensures NearPts(a, b, radius) <==> NearPts(b, a, radius)
  {
    assert (a.x - b.x) * (a.x - b.x) == (b.x - a.x) * (b.x - a.x);
    assert (a.y - b.y) * (a.y - b.y) == (b.y - a.y) * (b.y - a.y);
  }

  /** keepIdx.Sort() on distinct indices below n: the increasing enumeration. */
  function Ascending(s: seq<int>, n: nat): (r: seq<int>)
    ensures Increasing(r)
    ensures forall t :: 0 <= t < |r| ==> 0 <= r[t] < n
    ensures forall x :: x in r <==> x in s && 0 <= x < n
  {
    if n == 0 then [] else Ascending(s, n - 1) + (if n - 1 in s then [n - 1] else [])
  }

  /** Every taken tip is within `radius` of the kept tip recorded as having taken it. */
  predicate TakenWitnessed(preds: seq<Point>, radius: real, tk: seq<bool>, kept: seq<int>, owner: seq<int>)
  {
    |tk| == |preds| == |owner|
    && forall j :: 0 <= j < |tk| && tk[j] ==>
      owner[j] in kept && 0 <= owner[j] < |preds| && NearPts(preds[owner[j]], preds[j], radius)
  }

  /** Kept tip x has taken every other tip within `radius`. */
  predicate Covers(preds: seq<Point>, radius: real, x: int, tk: seq<bool>)
    requires |tk| == |preds| && 0 <= x < |preds|
  {
    forall j :: 0 <= j < |tk| && j != x && NearPts(preds[x], preds[j], radius) ==> tk[j]
  }

  predicate KeptInvariant(preds: seq<Point>, radius: real, tk: seq<bool>, kept: seq<int>)
    requires |tk| == |preds|
  {
    forall x :: x in kept ==> 0 <= x < |preds| && !tk[x] && Covers(preds, radius, x, tk)
  }

  /** Every taken tip was taken by a tip that precedes it in the descending score order. */
  predicate TakenByEarlier(sc: seq<real>, tk: seq<bool>, owner: seq<int>)
  {
    |tk| == |owner| == |sc|
    && forall j :: 0 <= j < |tk| && tk[j] ==> 0 <= owner[j] < |sc| && Before(sc, owner[j], j)
  }

  /**
   * The inner loop of ComputeNmsKeepIndices: tip i, at place t of the
   * descending order, takes every free tip within `radius`.
   */
  method TakeNeighbours(preds: seq<Point>, radius: real, i: int, taken: array<bool>,
                        ghost kept: seq<int>, ghost takenBy: seq<int>,
                        ghost sc: seq<real>, ghost order: seq<int>, ghost t: int)
    returns (ghost takenBy': seq<int>)
    requires taken.Length == |preds| && 0 <= i < |preds| && !taken[i]
    requires KeptInvariant(preds, radius, taken[..], kept)
    requires TakenWitnessed(preds, radius, taken[..], kept + [i], takenBy)
    requires |sc| == |order| == |preds| && Ranked(sc, order) && (forall y :: y in order <==> 0 <= y < |preds|)
    requires 0 <= t < |order| && order[t] == i
    requires forall s :: 0 <= s < t ==> order[s] in kept || taken[order[s]]
    requires TakenByEarlier(sc, taken[..], takenBy)
    modifies taken
    ensures KeptInvariant(preds, radius, taken[..], kept + [i])
    ensures TakenWitnessed(preds, radius, taken[..], kept + [i], takenBy')
    ensures TakenByEarlier(sc, taken[..], takenBy')
    ensures forall q :: 0 <= q < taken.Length && old(taken[q]) ==> taken[q]
  {
    var n := |preds|;
    takenBy' := takenBy;
    var j := 0;
    while j < n
      invariant 0 <= j <= n && !taken[i]
      invariant forall q :: 0 <= q < n && old(taken[q]) ==> taken[q]
      invariant forall x :: x in kept ==> !taken[x]
      invariant forall j' :: 0 <= j' < j && j' != i && NearPts(preds[i], preds[j'], radius) ==> taken[j']
      invariant TakenWitnessed(preds, radius, taken[..], kept + [i], takenBy')
      invariant TakenByEarlier(sc, taken[..], takenBy')
    {
      if !taken[j] && j != i {
        if NearPts(preds[i], preds[j], radius) {
          if j in kept {
            NearSymmetric(preds[i], preds[j], radius);
            assert false;
          }
          assert j in order;
          ghost var s :| 0 <= s < |order| && order[s] == j;
          assert !old(taken[j]);
          assert t < s;
          assert Before(sc, order[t], order[s]);
          taken[j] := true;
          takenBy' := takenBy'[j := i];
        }
      }
      j := j + 1;
    }
    forall x | x in kept + [i]
      ensures 0 <= x < n && !taken[x] && Covers(preds, radius, x, taken[..])
    {
      if x != i {
        assert Covers(preds, radius, x, old(taken[..]));
      }
    }
  }

  /**
   * PinDetector.ComputeNmsKeepIndices: greedy suppression in descending score
   * order; a kept tip takes every not yet taken tip within `radius`.
   */
  method ComputeNmsKeepIndices(preds: seq<Point>, diags: seq<ContourDiag>, radius: real)
    returns (keep: seq<int>)
    requires |diags| >= |preds|
    ensures |preds| <= 1 ==> keep == seq(|preds|, i => i)
    ensures Increasing(keep) && forall x :: x in keep ==> 0 <= x < |preds|
    ensures |preds| >= 1 ==> exists t :: t in keep && IsTop(Scores(diags, |preds|), t, |preds|)
    ensures forall a, b :: a in keep && b in keep && a != b ==> !NearPts(preds[a], preds[b], radius)
    ensures forall j :: 0 <= j < |preds| && j !in keep ==>
      exists i :: i in keep && 0 <= i < |preds| && NearPts(preds[i], preds[j], radius)
                   && Before(Scores(diags, |preds|), i, j)
  {
    var n := |preds|;
    if n <= 1 {
      keep := seq(n, i => i);
      if n == 1 {
        assert keep[0] == 0;
        assert IsTop(Scores(diags, n), 0, n);
      }
      return;
    }
    var sc := Scores(diags, n);
    var order := OrderDesc(sc, n);
    var taken := new bool[n](_ => false);
    var kept: seq<int> := [];
    ghost var takenBy: seq<int> := seq(n, _ => 0);
    var t := 0;
    while t < n
      invariant 0 <= t <= n
      invariant KeptInvariant(preds, radius, taken[..], kept)
      invariant TakenWitnessed(preds, radius, taken[..], kept, takenBy)
      invariant TakenByEarlier(sc, taken[..], takenBy)
      invariant forall s :: 0 <= s < t ==> order[s] in kept || taken[order[s]]
      invariant t == 0 ==> kept == [] && forall q :: 0 <= q < n ==> !taken[q]
      invariant t >= 1 ==> |kept| >= 1 && kept[0] == order[0]
    {
      var i := order[t];
      if !taken[i] {
        takenBy := TakeNeighbours(preds, radius, i, taken, kept, takenBy, sc, order, t);
        kept := kept + [i];
      }
      t := t + 1;
    }
    RankedHead(sc, order, n);
    keep := Ascending(kept, n);
    assert order[0] in kept;
    assert order[0] in keep;
    forall a, b | a in keep && b in keep && a != b
      ensures !NearPts(preds[a], preds[b], radius)
    {
      assert Covers(preds, radius, a, taken[..]);
    }
    forall j | 0 <= j < n && j !in keep
      ensures exists i :: i in keep && 0 <= i < n && NearPts(preds[i], preds[j], radius) && Before(sc, i, j)
    {
      assert j in order;
      var s :| 0 <= s < n && order[s] == j;
      assert taken[j];
      assert takenBy[j] in keep;
    }
  }

  // ---------------------------------------------------------------------------
  // DetectInternal: per-colour selection and the NMS bookkeeping

  /** One contour as OpenCV reports it, with the template overlap computed for it. */
  datatype Contour = Contour(
    area: real,            // CvInvoke.ContourArea
    rectW: int, rectH: int, // CvInvoke.BoundingRectangle
    points: seq<Point>,
    tipAngle: real,        // ComputeTipAngleDeg at the tip (acos, not modelled)
    template: TemplateScore)

  /** The cleaned mask of one colour: pixel counts and its external contours. */
  datatype ColorMask = ColorMask(color: int, rawNonZero: int, rawComponents: int, maskNonZero: int,
                                 contours: seq<Contour>)

  datatype DetectionResultPin = DetectionResultPin(
    path: string, error: Option<string>, predictions: seq<Point>, diags: seq<ContourDiag>)

  /** ToOdd(max(1, round(size * scale))): the morphology kernel side. */
  function KernelSize(size: int, scale: real): (k: int)
    ensures k >= 1 && k % 2 == 1
  {
    ToOdd(MaxInt(1, RoundEven(size as real * scale)))
  }

  function MinArea(p: ParameterSet, imgArea: int): (r: real)
    ensures r >= 10.0 && r >= p.minAreaRatio * imgArea as real
  {
    MaxReal(10.0, p.minAreaRatio * imgArea as real)
  }

  function MaxArea(p: ParameterSet, imgArea: int): (r: real)
    ensures r >= 2.0 * MinArea(p, imgArea) && r >= p.maxAreaRatio * imgArea as real
  {
    MaxReal(MinArea(p, imgArea) * 2.0, p.maxAreaRatio * imgArea as real)
  }

  function Aspect(c: Contour): real
  {
    if c.rectH > 0 then c.rectH as real / MaxInt(1, c.rectW) as real else 0.0
  }

  /** A contour that survives the area, aspect and template gates. */
  predicate Passes(c: Contour, p: ParameterSet, minA: real, maxA: real, hasTpl: bool)
  {
    minA <= c.area <= maxA && Aspect(c) >= p.aspectMin && (!hasTpl || c.template.score >= p.tplMinScore)
  }

  /** With templates the best contour has the best template score, otherwise the largest area. */
  function RankKey(c: Contour, hasTpl: bool): real
  {
    if hasTpl then c.template.score else c.area
  }

  /** Among the first n contours, k is the first passing one with the highest key. */
  predicate IsChoiceUpTo(cs: seq<Contour>, n: int, k: int, p: ParameterSet, minA: real, maxA: real, hasTpl: bool)
    requires 0 <= n <= |cs|
  {
    0 <= k < n && Passes(cs[k], p, minA, maxA, hasTpl)
    && (forall j :: 0 <= j < n && Passes(cs[j], p, minA, maxA, hasTpl) ==> RankKey(cs[j], hasTpl) <= RankKey(cs[k], hasTpl))
    && (forall j :: 0 <= j < k && Passes(cs[j], p, minA, maxA, hasTpl) ==> RankKey(cs[j], hasTpl) < RankKey(cs[k], hasTpl))
  }

  predicate NonePassUpTo(cs: seq<Contour>, n: int, p: ParameterSet, minA: real, maxA: real, hasTpl: bool)
    requires 0 <= n <= |cs|
  {
    forall j :: 0 <= j < n ==> !Passes(cs[j], p, minA, maxA, hasTpl)
  }

  predicate IsChoice(cs: seq<Contour>, k: int, p: ParameterSet, minA: real, maxA: real, hasTpl: bool)
  {
    IsChoiceUpTo(cs, |cs|, k, p, minA, maxA, hasTpl)
  }

  predicate NonePass(cs: seq<Contour>, p: ParameterSet, minA: real, maxA: real, hasTpl: bool)
  {
    NonePassUpTo(cs, |cs|, p, minA, maxA, hasTpl)
  }

  predicate ContoursOk(masks: seq<ColorMask>)
  {
    forall k, c :: 0 <= k < |masks| && c in masks[k].contours ==> ContourPointsOk(c.points)
  }

  /** The diagnostic DetectInternal records for the chosen contour c of mask m, whose tip is `tip`. */
  function PassDiag(m: ColorMask, c: Contour, kOpen: int, kClose: int, scale: real, imgArea: int,
                    tip: Point, hasTpl: bool): ContourDiag
  {
    var t := if hasTpl then c.template else TemplateScore(-1.0, 0.0, 0.0);
    ContourDiag(m.color, RoundEven(c.area), c.rectW, c.rectH, Aspect(c), c.tipAngle, kOpen, kClose, scale,
                m.maskNonZero, 0, imgArea, tip, true, Pass, t.score, t.iouFill, t.iouEdge)
  }

  /** The contour loop of DetectInternal for one colour. */
  method SelectContour(m: ColorMask, p: ParameterSet, minA: real, maxA: real, hasTpl: bool,
                       kOpen: int, kClose: int, imgArea: int, w: int, h: int)
    returns (bestIdx: int, bestDiag: ContourDiag)
    requires minA >= 10.0
    requires forall c :: c in m.contours ==> ContourPointsOk(c.points)
    ensures bestIdx == -1 <==> NonePass(m.contours, p, minA, maxA, hasTpl)
    ensures bestIdx != -1 ==> IsChoice(m.contours, bestIdx, p, minA, maxA, hasTpl)
    ensures bestIdx != -1 ==> (IsTipOf(m.contours[bestIdx].points, bestDiag.tip, w, h)
      && bestDiag == PassDiag(m, m.contours[bestIdx], kOpen, kClose, p.scale, imgArea, bestDiag.tip, hasTpl))
  {
    var cs := m.contours;
    bestIdx := -1;
    bestDiag := ContourDiag(m.color, 0, 0, 0, 0.0, 0.0, 0, 0, 0.0, 0, 0, 0, Point(0, 0), false, NoReason, 0.0, 0.0, 0.0);
    var bestArea := -1.0;
    var i := 0;
    while i < |cs|
      invariant 0 <= i <= |cs|
      invariant bestIdx == -1 <==> NonePassUpTo(cs, i, p, minA, maxA, hasTpl)
      invariant bestIdx != -1 ==> IsChoiceUpTo(cs, i, bestIdx, p, minA, maxA, hasTpl)
      invariant bestIdx != -1 ==> (bestArea == cs[bestIdx].area && IsTipOf(cs[bestIdx].points, bestDiag.tip, w, h)
        && bestDiag == PassDiag(m, cs[bestIdx], kOpen, kClose, p.scale, imgArea, bestDiag.tip, hasTpl))
      invariant bestIdx == -1 ==> bestArea == -1.0
    {
      var c := cs[i];
      if c.area < minA || c.area > maxA {
        ChoiceSkip(cs, i, bestIdx, p, minA, maxA, hasTpl);
        i := i + 1;
        continue;
      }
      var aspect := Aspect(c);
      var aspectOk := aspect >= p.aspectMin;
      var tplScore, iouFill, iouEdge := -1.0, 0.0, 0.0;
      if hasTpl {
        tplScore, iouFill, iouEdge := c.template.score, c.template.iouFill, c.template.iouEdge;
        if tplScore < p.tplMinScore {
          aspectOk := false;
        }
      }
      if !aspectOk {
        ChoiceSkip(cs, i, bestIdx, p, minA, maxA, hasTpl);
        i := i + 1;
        continue;
      }
      var better: bool;
      if hasTpl {
        better := bestIdx == -1 || tplScore > bestDiag.templateScore;
      } else {
        better := c.area > bestArea;
      }
      if better {
        ChoiceTake(cs, i, bestIdx, p, minA, maxA, hasTpl);
        bestArea := c.area;
        bestIdx := i;
        assert c in cs;
        var tip := FindBottomTip(c.points, w, h);
        bestDiag := ContourDiag(m.color, RoundEven(c.area), c.rectW, c.rectH, aspect, c.tipAngle,
                                kOpen, kClose, p.scale, m.maskNonZero, 0, imgArea, tip, true, Pass,
                                tplScore, iouFill, iouEdge);
      } else {
        ChoiceSkip(cs, i, bestIdx, p, minA, maxA, hasTpl);
      }
      i := i + 1;
    }
  }

  /** Contour n does not displace the current choice k (-1 for none). */
  lemma ChoiceSkip(cs: seq<Contour>, n: int, k: int, p: ParameterSet, minA: real, maxA: real, hasTpl: bool)
    requires 0 <= n < |cs|
    requires k == -1 <==> NonePassUpTo(cs, n, p, minA, maxA, hasTpl)
    requires k != -1 ==> IsChoiceUpTo(cs, n, k, p, minA, maxA, hasTpl)
    requires Passes(cs[n], p, minA, maxA, hasTpl) ==> k != -1 && RankKey(cs[n], hasTpl) <= RankKey(cs[k], hasTpl)
    ensures k == -1 <==> NonePassUpTo(cs, n + 1, p, minA, maxA, hasTpl)
    ensures k != -1 ==> IsChoiceUpTo(cs, n + 1, k, p, minA, maxA, hasTpl)
  {
  }

  /** A passing contour n with a strictly higher key becomes the choice. */
  lemma ChoiceTake(cs: seq<Contour>, n: int, k: int, p: ParameterSet, minA: real, maxA: real, hasTpl: bool)
    requires 0 <= n < |cs| && Passes(cs[n], p, minA, maxA, hasTpl)
    requires k == -1 <==> NonePassUpTo(cs, n, p, minA, maxA, hasTpl)
    requires k != -1 ==> IsChoiceUpTo(cs, n, k, p, minA, maxA, hasTpl) && RankKey(cs[n], hasTpl) > RankKey(cs[k], hasTpl)
    ensures !NonePassUpTo(cs, n + 1, p, minA, maxA, hasTpl)
    ensures IsChoiceUpTo(cs, n + 1, n, p, minA, maxA, hasTpl)
  {
  }

  /** The diagnostic recorded for a colour none of whose contours pass. */
  function RejectedDiag(m: ColorMask, kOpen: int, kClose: int, scale: real, imgArea: int): ContourDiag
  {
    ContourDiag(m.color, 0, 0, 0, 0.0, 180.0, kOpen, kClose, scale, m.maskNonZero, m.rawNonZero, imgArea,
                Point(0, 0), false, AllRejected, 0.0, 0.0, 0.0)
  }

  /** Positions below i of the diagnostics marked UsedAsPrediction, in order. */
  function UsedUpTo(d: seq<ContourDiag>, i: nat): seq<int>
    requires i <= |d|
  {
    if i == 0 then [] else UsedUpTo(d, i - 1) + (if d[i - 1].usedAsPrediction then [i - 1] else [])
  }

  function UsedIndices(d: seq<ContourDiag>): seq<int>
  {
    UsedUpTo(d, |d|)
  }

  /** `pos` lists, in increasing order, exactly the positions of the diagnostics used as predictions. */
  predicate Enumerates(d: seq<ContourDiag>, pos: seq<int>)
  {
    Increasing(pos)
    && (forall t :: 0 <= t < |pos| ==> 0 <= pos[t] < |d|)
    && (forall g :: 0 <= g < |d| ==> (g in pos <==> d[g].usedAsPrediction))
  }

  lemma {:induction false} UsedUpToFacts(d: seq<ContourDiag>, i: nat)
    requires i <= |d|
    ensures var r := UsedUpTo(d, i);
      Increasing(r)
      && (forall t :: 0 <= t < |r| ==> 0 <= r[t] < i)
      && (forall g :: 0 <= g < i ==> (g in r <==> d[g].usedAsPrediction))
  {
    if i > 0 {
      UsedUpToFacts(d, i - 1);
    }
  }

  lemma UsedIndicesFacts(d: seq<ContourDiag>)
    ensures Enumerates(d, UsedIndices(d))
  {
    UsedUpToFacts(d, |d|);
  }

  function TipsAt(d: seq<ContourDiag>, idx: seq<int>): (r: seq<Point>)
    requires forall t :: 0 <= t < |idx| ==> 0 <= idx[t] < |d|
    ensures |r| == |idx|
  {
    seq(|idx|, t requires 0 <= t < |idx| => d[idx[t]].tip)
  }

  /** The predictions of a result: the tips of the diagnostics marked UsedAsPrediction. */
  function UsedTips(d: seq<ContourDiag>): seq<Point>
  {
    UsedIndicesFacts(d);
    TipsAt(d, UsedIndices(d))
  }

  lemma EmptyIfNoElements(s: seq<int>)
    requires forall x :: x !in s
    ensures s == []
  {
    var y: int := if |s| == 0 then 0 else s[0];
    assert |s| == 0 || y in s;
  }

  /** The head of an increasing sequence is its least element, and the tail holds the rest. */
  lemma IncreasingHead(s: seq<int>)
    requires Increasing(s) && |s| > 0
    ensures Increasing(s[1..])
    ensures forall x :: x in s ==> s[0] <= x
    ensures forall x :: x in s[1..] <==> x in s && x != s[0]
  {
    forall x | x in s
      ensures s[0] <= x
    {
      var i :| 0 <= i < |s| && s[i] == x;
    }
    forall x
      ensures x in s[1..] <==> x in s && x != s[0]
    {
      if x in s[1..] {
        var i :| 0 <= i < |s| - 1 && s[1..][i] == x;
        assert s[i + 1] == x;
      }
      if x in s && x != s[0] {
        var i :| 0 <= i < |s| && s[i] == x;
        assert s[1..][i - 1] == x;
      }
    }
  }

  /** An increasing sequence is determined by its set of elements. */
  lemma {:induction false} IncreasingUnique(a: seq<int>, b: seq<int>)
    requires Increasing(a) && Increasing(b) && forall x :: x in a <==> x in b
    ensures a == b
  {
    if a == [] || b == [] {
      assert forall x :: x !in a && x !in b;
      EmptyIfNoElements(a);
      EmptyIfNoElements(b);
    } else {
      IncreasingHead(a);
      IncreasingHead(b);
      assert a[0] in b && b[0] in a;
      IncreasingUnique(a[1..], b[1..]);
      assert a == [a[0]] + a[1..] && b == [b[0]] + b[1..];
    }
  }

  lemma {:induction false} UsedUpToAppend(d: seq<ContourDiag>, e: ContourDiag, i: nat)
    requires i <= |d|
    ensures UsedUpTo(d + [e], i) == UsedUpTo(d, i)
  {
    if i > 0 {
      UsedUpToAppend(d, e, i - 1);
    }
  }

  lemma UsedTipsAppend(d: seq<ContourDiag>, e: ContourDiag)
    ensures UsedIndices(d + [e]) == UsedIndices(d) + (if e.usedAsPrediction then [|d|] else [])
    ensures UsedTips(d + [e]) == UsedTips(d) + (if e.usedAsPrediction then [e.tip] else [])
  {
    UsedUpToAppend(d, e, |d|);
    UsedIndicesFacts(d);
    UsedIndicesFacts(d + [e]);
  }

  /** The diagnostic after the NMS step decided whether it stays a prediction. */
  function Suppress(d: ContourDiag, keep: bool): ContourDiag
  {
    d.(usedAsPrediction := keep, rejectReason := if keep then d.rejectReason else SuppressedNms)
  }

  /**
   * The "NMS" block of DetectInternal: gather the diagnostics used as
   * predictions, and when there are several, keep the NMS survivors and mark
   * the others "suppressedNMS".
   */
  method ApplyNms(diag: seq<ContourDiag>, predictions: seq<Point>, radius: real)
    returns (diag': seq<ContourDiag>, predictions': seq<Point>)
    requires predictions == UsedTips(diag)
    ensures predictions' == UsedTips(diag')
    ensures SuppressedOnly(diag, diag', radius)
  {
    var predAligned, diagAligned, mapAligned := AlignUsed(diag);
    UsedIndicesFacts(diag);
    diag', predictions' := diag, predictions;
    if |predAligned| > 1 {
      var keepIdx := ComputeNmsKeepIndices(predAligned, diagAligned, radius);
      diag', predictions' := MarkSuppressed(diag, mapAligned, predAligned, keepIdx);
      MarkedTips(diag, mapAligned, keepIdx);
      ghost var sc := Scores(diagAligned, |predAligned|);
      MarkedSuppression(diag, mapAligned, predAligned, sc, keepIdx, radius);
    } else {
      forall a, b | 0 <= a < |diag| && 0 <= b < |diag| && diag[a].usedAsPrediction && diag[b].usedAsPrediction
        ensures a == b
      {
        var x := AlignedPos(diag, mapAligned, a);
        var y := AlignedPos(diag, mapAligned, b);
      }
    }
  }

  /** The first loop of the NMS block: the diagnostics used as predictions, with their positions. */
  method AlignUsed(diag: seq<ContourDiag>)
    returns (predAligned: seq<Point>, diagAligned: seq<ContourDiag>, mapAligned: seq<int>)
    ensures mapAligned == UsedIndices(diag)
    ensures |predAligned| == |diagAligned| == |mapAligned|
    ensures forall t :: 0 <= t < |mapAligned| ==> 0 <= mapAligned[t] < |diag|
    ensures forall t :: 0 <= t < |mapAligned| ==>
      predAligned[t] == diag[mapAligned[t]].tip && diagAligned[t] == diag[mapAligned[t]]
  {
    predAligned, diagAligned, mapAligned := [], [], [];
    var i := 0;
    while i < |diag|
      invariant 0 <= i <= |diag|
      invariant mapAligned == UsedUpTo(diag, i)
      invariant |predAligned| == |diagAligned| == |mapAligned|
      invariant forall t :: 0 <= t < |mapAligned| ==> 0 <= mapAligned[t] < i
      invariant forall t :: 0 <= t < |mapAligned| ==>
        predAligned[t] == diag[mapAligned[t]].tip && diagAligned[t] == diag[mapAligned[t]]
    {
      if diag[i].usedAsPrediction {
        predAligned := predAligned + [diag[i].tip];
        diagAligned := diagAligned + [diag[i]];
        mapAligned := mapAligned + [i];
      }
      i := i + 1;
    }
  }

  /** The diagnostics after the update loop has handled the first k aligned positions. */
  function Marked(d: seq<ContourDiag>, pos: seq<int>, keepIdx: seq<int>, k: nat): (r: seq<ContourDiag>)
    requires k <= |pos| && forall t :: 0 <= t < |pos| ==> 0 <= pos[t] < |d|
    ensures |r| == |d|
  {
    if k == 0 then d
    else
      var m := Marked(d, pos, keepIdx, k - 1);
      m[pos[k - 1] := Suppress(m[pos[k - 1]], k - 1 in keepIdx)]
  }

  /** The positions of the first k aligned entries that NMS keeps (newPreds' sources). */
  function KeptPositions(pos: seq<int>, keepIdx: seq<int>, k: nat, n: int): (r: seq<int>)
    requires k <= |pos| && forall t :: 0 <= t < |pos| ==> 0 <= pos[t] < n
    ensures forall t :: 0 <= t < |r| ==> 0 <= r[t] < n
  {
    if k == 0 then [] else KeptPositions(pos, keepIdx, k - 1, n) + (if k - 1 in keepIdx then [pos[k - 1]] else [])
  }

  /** One more aligned entry adds its tip to the kept tips exactly when NMS keeps it. */
  lemma KeptPositionsStep(d: seq<ContourDiag>, pos: seq<int>, keepIdx: seq<int>, k: nat)
    requires k < |pos| && forall t :: 0 <= t < |pos| ==> 0 <= pos[t] < |d|
    ensures TipsAt(d, KeptPositions(pos, keepIdx, k + 1, |d|))
      == TipsAt(d, KeptPositions(pos, keepIdx, k, |d|)) + (if k in keepIdx then [d[pos[k]].tip] else [])
  {
    var r := KeptPositions(pos, keepIdx, k, |d|);
    if k in keepIdx {
      assert KeptPositions(pos, keepIdx, k + 1, |d|) == r + [pos[k]];
      assert TipsAt(d, r + [pos[k]]) == TipsAt(d, r) + [d[pos[k]].tip];
    } else {
      assert KeptPositions(pos, keepIdx, k + 1, |d|) == r + [];
      assert r + [] == r;
    }
  }

  lemma {:induction false} MarkedFacts(d: seq<ContourDiag>, pos: seq<int>, keepIdx: seq<int>, k: nat)
    requires Enumerates(d, pos) && k <= |pos|
    ensures forall g :: 0 <= g < |d| && g !in pos[..k] ==> Marked(d, pos, keepIdx, k)[g] == d[g]
    ensures forall x :: 0 <= x < k ==> Marked(d, pos, keepIdx, k)[pos[x]] == Suppress(d[pos[x]], x in keepIdx)
  {
    if k > 0 {
      MarkedFacts(d, pos, keepIdx, k - 1);
      assert pos[..k] == pos[..k - 1] + [pos[k - 1]];
      assert pos[k - 1] !in pos[..k - 1];
    }
  }

  lemma {:induction false} KeptPositionsFacts(pos: seq<int>, keepIdx: seq<int>, k: nat, n: int)
    requires Increasing(pos) && k <= |pos| && forall t :: 0 <= t < |pos| ==> 0 <= pos[t] < n
    ensures var r := KeptPositions(pos, keepIdx, k, n);
      Increasing(r)
      && (forall t :: 0 <= t < |r| ==> r[t] in pos[..k])
      && (forall x :: 0 <= x < k ==> (pos[x] in r <==> x in keepIdx))
  {
    if k > 0 {
      KeptPositionsFacts(pos, keepIdx, k - 1, n);
      var r := KeptPositions(pos, keepIdx, k - 1, n);
      assert pos[..k] == pos[..k - 1] + [pos[k - 1]];
      assert forall t :: 0 <= t < |r| ==> r[t] < pos[k - 1] by {
        forall t | 0 <= t < |r|
          ensures r[t] < pos[k - 1]
        {
          assert r[t] in pos[..k - 1];
        }
      }
    }
  }

  /**
   * What the NMS pass promises about the indices it keeps: they are pairwise
   * farther apart than the radius, and every dropped tip is near a kept one
   * that precedes it in the descending score order sc.
   */
  predicate NmsKeepSet(pts: seq<Point>, sc: seq<real>, keepIdx: seq<int>, radius: real)
  {
    |sc| == |pts|
    && (forall x :: x in keepIdx ==> 0 <= x < |pts|)
    && (forall a, b :: a in keepIdx && b in keepIdx && a != b ==> !NearPts(pts[a], pts[b], radius))
    && (forall j :: 0 <= j < |pts| && j !in keepIdx ==>
          exists i :: i in keepIdx && 0 <= i < |pts| && NearPts(pts[i], pts[j], radius) && Before(sc, i, j))
  }

  /** Diagnostic a at list position ga comes before b at gb in the stable descending NMS-score order. */
  predicate Outranks(a: ContourDiag, ga: int, b: ContourDiag, gb: int)
  {
    NmsScore(a) > NmsScore(b) || (NmsScore(a) == NmsScore(b) && ga < gb)
  }

  /** sc holds the NMS scores of the diagnostics at the aligned positions. */
  predicate AlignedScores(diag: seq<ContourDiag>, mapAligned: seq<int>, sc: seq<real>)
  {
    |sc| == |mapAligned|
    && forall t :: 0 <= t < |mapAligned| ==> 0 <= mapAligned[t] < |diag| && sc[t] == NmsScore(diag[mapAligned[t]])
  }

  /**
   * diag' is diag after suppression: only predictions were demoted, the
   * remaining predictions are pairwise apart, and each demoted one lies near
   * a remaining prediction that outranks it.
   */
  predicate SuppressedOnly(diag: seq<ContourDiag>, diag': seq<ContourDiag>, radius: real)
  {
    |diag'| == |diag|
    && (forall g :: 0 <= g < |diag| ==>
          diag'[g] == diag[g] || (diag[g].usedAsPrediction && diag'[g] == Suppress(diag[g], false)))
    && (forall a, b :: (0 <= a < |diag'| && 0 <= b < |diag'| && a != b
          && diag'[a].usedAsPrediction && diag'[b].usedAsPrediction) ==> !NearPts(diag'[a].tip, diag'[b].tip, radius))
    && (forall g :: 0 <= g < |diag'| && diag'[g] != diag[g] ==>
          exists g' :: 0 <= g' < |diag'| && diag'[g'].usedAsPrediction && NearPts(diag'[g'].tip, diag'[g].tip, radius)
                       && Outranks(diag'[g'], g', diag'[g], g))
  }

  /**
   * The update loop of the NMS block: the diagnostic at aligned position ai
   * stays a prediction iff ai is in keepIdx, and newPreds collects the kept tips.
   */
  method MarkSuppressed(diag: seq<ContourDiag>, mapAligned: seq<int>, predAligned: seq<Point>, keepIdx: seq<int>)
    returns (diag': seq<ContourDiag>, predictions': seq<Point>)
    requires |predAligned| == |mapAligned|
    requires forall t :: 0 <= t < |mapAligned| ==> 0 <= mapAligned[t] < |diag| && predAligned[t] == diag[mapAligned[t]].tip
    ensures diag' == Marked(diag, mapAligned, keepIdx, |mapAligned|)
    ensures predictions' == TipsAt(diag, KeptPositions(mapAligned, keepIdx, |mapAligned|, |diag|))
  {
    diag' := diag;
    var newPreds: seq<Point> := [];
    var ai := 0;
    while ai < |predAligned|
      invariant 0 <= ai <= |predAligned|
      invariant diag' == Marked(diag, mapAligned, keepIdx, ai)
      invariant newPreds == TipsAt(diag, KeptPositions(mapAligned, keepIdx, ai, |diag|))
    {
      var gi := mapAligned[ai];
      var keep := ai in keepIdx;
      var d := diag'[gi];
      d := d.(usedAsPrediction := keep);
      if !keep {
        d := d.(rejectReason := SuppressedNms);
      } else {
        newPreds := newPreds + [predAligned[ai]];
      }
      diag' := diag'[gi := d];
      KeptPositionsStep(diag, mapAligned, keepIdx, ai);
      ai := ai + 1;
    }
    predictions' := newPreds;
  }

  /** After the whole loop, the collected tips are exactly the predictions left in the diagnostics. */
  lemma MarkedTips(diag: seq<ContourDiag>, mapAligned: seq<int>, keepIdx: seq<int>)
    requires Enumerates(diag, mapAligned)
    ensures TipsAt(diag, KeptPositions(mapAligned, keepIdx, |mapAligned|, |diag|))
      == UsedTips(Marked(diag, mapAligned, keepIdx, |mapAligned|))
  {
    var n := |mapAligned|;
    var diag' := Marked(diag, mapAligned, keepIdx, n);
    var kept := KeptPositions(mapAligned, keepIdx, n, |diag|);
    MarkedFacts(diag, mapAligned, keepIdx, n);
    KeptPositionsFacts(mapAligned, keepIdx, n, |diag|);
    assert mapAligned[..n] == mapAligned;
    UsedIndicesFacts(diag');
    forall g | 0 <= g < |diag|
      ensures g in kept <==> diag'[g].usedAsPrediction
    {
      if diag[g].usedAsPrediction {
        var x := AlignedPos(diag, mapAligned, g);
      }
      if g in kept {
        var t :| 0 <= t < |kept| && kept[t] == g;
        assert g in mapAligned;
      }
    }
    IncreasingUnique(kept, UsedIndices(diag'));
    assert TipsAt(diag, kept) == TipsAt(diag', kept);
  }

  /** After the whole loop, only NMS losers were demoted, and each lies near a survivor that outranks it. */
  lemma MarkedSuppression(diag: seq<ContourDiag>, mapAligned: seq<int>, predAligned: seq<Point>,
                          sc: seq<real>, keepIdx: seq<int>, radius: real)
    requires Enumerates(diag, mapAligned) && |predAligned| == |mapAligned| && AlignedScores(diag, mapAligned, sc)
    requires forall t :: 0 <= t < |mapAligned| ==> predAligned[t] == diag[mapAligned[t]].tip
    requires NmsKeepSet(predAligned, sc, keepIdx, radius)
    ensures SuppressedOnly(diag, Marked(diag, mapAligned, keepIdx, |mapAligned|), radius)
  {
    var n := |mapAligned|;
    MarkedFacts(diag, mapAligned, keepIdx, n);
    assert mapAligned[..n] == mapAligned;
    SuppressionOutcome(diag, Marked(diag, mapAligned, keepIdx, n), mapAligned, predAligned, sc, keepIdx, radius);
  }

  /** What the update loop leaves behind, stated on whole diagnostics. */
  lemma SuppressionOutcome(diag: seq<ContourDiag>, diag': seq<ContourDiag>, mapAligned: seq<int>,
                           predAligned: seq<Point>, sc: seq<real>, keepIdx: seq<int>, radius: real)
    requires Enumerates(diag, mapAligned) && |predAligned| == |mapAligned| && |diag'| == |diag|
    requires AlignedScores(diag, mapAligned, sc)
    requires forall t :: 0 <= t < |mapAligned| ==> predAligned[t] == diag[mapAligned[t]].tip
    requires NmsKeepSet(predAligned, sc, keepIdx, radius)
    requires forall g :: 0 <= g < |diag| && !diag[g].usedAsPrediction ==> diag'[g] == diag[g]
    requires forall x :: 0 <= x < |mapAligned| ==> diag'[mapAligned[x]] == Suppress(diag[mapAligned[x]], x in keepIdx)
    ensures SuppressedOnly(diag, diag', radius)
  {
    var n := |diag|;
    forall g | 0 <= g < n && diag[g].usedAsPrediction
      ensures diag'[g] == diag[g] || diag'[g] == Suppress(diag[g], false)
    {
      var x := AlignedPos(diag, mapAligned, g);
    }
    SurvivorsApart(diag, diag', mapAligned, predAligned, keepIdx, radius);
    DemotedNearSurvivor(diag, diag', mapAligned, predAligned, sc, keepIdx, radius);
  }

  lemma SurvivorsApart(diag: seq<ContourDiag>, diag': seq<ContourDiag>, mapAligned: seq<int>,
                       predAligned: seq<Point>, keepIdx: seq<int>, radius: real)
    requires Enumerates(diag, mapAligned) && |predAligned| == |mapAligned| && |diag'| == |diag|
    requires forall t :: 0 <= t < |mapAligned| ==> predAligned[t] == diag[mapAligned[t]].tip
    requires forall x :: x in keepIdx ==> 0 <= x < |predAligned|
    requires forall a, b :: a in keepIdx && b in keepIdx && a != b ==> !NearPts(predAligned[a], predAligned[b], radius)
    requires forall g :: 0 <= g < |diag| && !diag[g].usedAsPrediction ==> diag'[g] == diag[g]
    requires forall x :: 0 <= x < |mapAligned| ==> diag'[mapAligned[x]] == Suppress(diag[mapAligned[x]], x in keepIdx)
    ensures forall a, b :: (0 <= a < |diag'| && 0 <= b < |diag'| && a != b
      && diag'[a].usedAsPrediction && diag'[b].usedAsPrediction) ==> !NearPts(diag'[a].tip, diag'[b].tip, radius)
  {
    var n := |diag|;
    forall a, b | 0 <= a < n && 0 <= b < n && a != b && diag'[a].usedAsPrediction && diag'[b].usedAsPrediction
      ensures !NearPts(diag'[a].tip, diag'[b].tip, radius)
    {
      var x := AlignedPos(diag, mapAligned, a);
      var y := AlignedPos(diag, mapAligned, b);
    }
  }

  lemma DemotedNearSurvivor(diag: seq<ContourDiag>, diag': seq<ContourDiag>, mapAligned: seq<int>,
                            predAligned: seq<Point>, sc: seq<real>, keepIdx: seq<int>, radius: real)
    requires Enumerates(diag, mapAligned) && |predAligned| == |mapAligned| && |diag'| == |diag|
    requires AlignedScores(diag, mapAligned, sc)
    requires forall t :: 0 <= t < |mapAligned| ==> predAligned[t] == diag[mapAligned[t]].tip
    requires forall x :: x in keepIdx ==> 0 <= x < |predAligned|
    requires forall j :: 0 <= j < |predAligned| && j !in keepIdx ==>
      exists i :: i in keepIdx && 0 <= i < |predAligned| && NearPts(predAligned[i], predAligned[j], radius)
                  && Before(sc, i, j)
    requires forall g :: 0 <= g < |diag| && !diag[g].usedAsPrediction ==> diag'[g] == diag[g]
    requires forall x :: 0 <= x < |mapAligned| ==> diag'[mapAligned[x]] == Suppress(diag[mapAligned[x]], x in keepIdx)
    ensures forall g :: 0 <= g < |diag'| && diag'[g] != diag[g] ==>
      exists g' :: 0 <= g' < |diag'| && diag'[g'].usedAsPrediction && NearPts(diag'[g'].tip, diag'[g].tip, radius)
                   && Outranks(diag'[g'], g', diag'[g], g)
  {
    var n := |diag|;
    forall g | 0 <= g < n && diag'[g] != diag[g]
      ensures exists g' :: 0 <= g' < n && diag'[g'].usedAsPrediction && NearPts(diag'[g'].tip, diag'[g].tip, radius)
                           && Outranks(diag'[g'], g', diag'[g], g)
    {
      var x := AlignedPos(diag, mapAligned, g);
      var i :| i in keepIdx && 0 <= i < |predAligned| && NearPts(predAligned[i], predAligned[x], radius) && Before(sc, i, x);
      var g' := mapAligned[i];
      assert diag'[g'].usedAsPrediction;
      assert NmsScore(diag'[g']) == sc[i] && NmsScore(diag'[g]) == sc[x];
      assert i < x ==> g' < g;
      assert Outranks(diag'[g'], g', diag'[g], g);
    }
  }

  /** The aligned position of a diagnostic marked UsedAsPrediction. */
  lemma AlignedPos(diag: seq<ContourDiag>, mapAligned: seq<int>, g: int) returns (x: int)
    requires Enumerates(diag, mapAligned) && 0 <= g < |diag| && diag[g].usedAsPrediction
    ensures 0 <= x < |mapAligned| && mapAligned[x] == g
  {
    assert g in mapAligned;
    x :| 0 <= x < |mapAligned| && mapAligned[x] == g;
  }

  /**
   * What the colour loop of DetectInternal records for mask m: the chosen
   * contour c (-1 when none passes) and its diagnostic d.
   */
  predicate Selected(m: ColorMask, p: ParameterSet, w: int, h: int, hasTpl: bool, c: int, d: ContourDiag)
  {
    var minA, maxA := MinArea(p, w * h), MaxArea(p, w * h);
    var kOpen := KernelSize(p.openSize, p.scale);
    var kClose := if m.rawComponents <= p.closeIfComponentsLE then KernelSize(p.closeSize, p.scale) else 0;
    (c == -1 <==> NonePass(m.contours, p, minA, maxA, hasTpl))
    && (c == -1 ==> d == RejectedDiag(m, kOpen, kClose, p.scale, w * h))
    && (c != -1 ==> (IsChoice(m.contours, c, p, minA, maxA, hasTpl)
          && IsTipOf(m.contours[c].points, d.tip, w, h)
          && d == PassDiag(m, m.contours[c], kOpen, kClose, p.scale, w * h, d.tip, hasTpl)))
  }

  /** One pass of the colour loop of DetectInternal: the diagnostic it adds for mask m. */
  method DetectColor(m: ColorMask, p: ParameterSet, w: int, h: int, hasTpl: bool,
                     kOpen: int, kClose: int, minArea: real, maxArea: real)
    returns (e: ContourDiag, bestIdx: int)
    requires kOpen == KernelSize(p.openSize, p.scale) && kClose == KernelSize(p.closeSize, p.scale)
    requires minArea == MinArea(p, w * h) && maxArea == MaxArea(p, w * h)
    requires forall c :: c in m.contours ==> ContourPointsOk(c.points)
    ensures Selected(m, p, w, h, hasTpl, bestIdx, e)
    ensures bestIdx >= -1 && (e.usedAsPrediction <==> bestIdx >= 0)
    ensures e.rejectReason != SuppressedNms
  {
    var doClose := m.rawComponents <= p.closeIfComponentsLE;
    var kc := if doClose then kClose else 0;
    var bestDiag;
    bestIdx, bestDiag := SelectContour(m, p, minArea, maxArea, hasTpl, kOpen, kc, w * h, w, h);
    e := if bestIdx >= 0 then bestDiag else RejectedDiag(m, kOpen, kc, p.scale, w * h);
  }

  lemma SelectedExtend(masks: seq<ColorMask>, p: ParameterSet, w: int, h: int, hasTpl: bool,
                       chosen: seq<int>, diag: seq<ContourDiag>, b: int, e: ContourDiag)
    requires |chosen| == |diag| < |masks|
    requires forall k :: 0 <= k < |chosen| ==> Selected(masks[k], p, w, h, hasTpl, chosen[k], diag[k])
    requires Selected(masks[|chosen|], p, w, h, hasTpl, b, e)
    ensures forall k :: 0 <= k < |chosen| + 1 ==> Selected(masks[k], p, w, h, hasTpl, (chosen + [b])[k], (diag + [e])[k])
  {
  }

  /**
   * PinDetector.DetectInternal once the pixel work is done: `empty` stands for
   * an empty Mat, (w, h) is the image size and `masks` holds one entry per
   * active colour, in order.  `before` is the diagnostic list as the colour
   * loop leaves it, ahead of the NMS step.
   */
  method DetectInternal(path: string, empty: bool, w: int, h: int, p: ParameterSet,
                        masks: seq<ColorMask>, hasTpl: bool)
    returns (r: DetectionResultPin, ghost chosen: seq<int>, ghost before: seq<ContourDiag>)
    requires ContoursOk(masks)
    ensures r.path == path
    ensures empty ==> r.error == Some("Empty Mat for: " + path) && r.predictions == [] && r.diags == []
    ensures !empty ==> r.error == None && |r.diags| == |masks| == |chosen| == |before|
    ensures !empty ==> forall k :: 0 <= k < |masks| ==> Selected(masks[k], p, w, h, hasTpl, chosen[k], before[k])
    ensures !empty ==> forall k :: 0 <= k < |masks| ==>
      r.diags[k] == before[k] || (before[k].usedAsPrediction && r.diags[k] == Suppress(before[k], false))
    ensures r.predictions == UsedTips(r.diags)
    ensures forall a, b :: (0 <= a < |r.diags| && 0 <= b < |r.diags| && a != b
      && r.diags[a].usedAsPrediction && r.diags[b].usedAsPrediction) ==> !NearPts(r.diags[a].tip, r.diags[b].tip, p.nmsRadius)
    ensures forall g :: 0 <= g < |r.diags| && r.diags[g].rejectReason == SuppressedNms ==>
      exists g' :: 0 <= g' < |r.diags| && r.diags[g'].usedAsPrediction && NearPts(r.diags[g'].tip, r.diags[g].tip, p.nmsRadius)
                   && Outranks(r.diags[g'], g', r.diags[g], g)
  {
    if empty {
      r := DetectionResultPin(path, Some("Empty Mat for: " + path), [], []);
      chosen, before := [], [];
      return;
    }
    var imgArea := w * h;
    var kOpen := KernelSize(p.openSize, p.scale);
    var kClose := KernelSize(p.closeSize, p.scale);
    var minArea := MinArea(p, imgArea);
    var maxArea := MaxArea(p, imgArea);
    var predictions: seq<Point> := [];
    var diag: seq<ContourDiag> := [];
    chosen := [];
    var ci := 0;
    while ci < |masks|
      invariant 0 <= ci <= |masks| && |diag| == ci == |chosen|
      invariant predictions == UsedTips(diag)
      invariant forall k :: 0 <= k < ci ==> Selected(masks[k], p, w, h, hasTpl, chosen[k], diag[k])
      invariant forall k :: 0 <= k < ci ==> diag[k].rejectReason != SuppressedNms
    {
      var e, bestIdx := DetectColor(masks[ci], p, w, h, hasTpl, kOpen, kClose, minArea, maxArea);
      UsedTipsAppend(diag, e);
      if bestIdx >= 0 {
        predictions := predictions + [e.tip];
      }
      SelectedExtend(masks, p, w, h, hasTpl, chosen, diag, bestIdx, e);
      diag := diag + [e];
      chosen := chosen + [bestIdx];
      ci := ci + 1;
    }
    before := diag;
    var diag', predictions' := ApplyNms(diag, predictions, p.nmsRadius);
    r := DetectionResultPin(path, None, predictions', diag');
  }
}

=== FILE: pin_evaluator.dfy ===
/**
 * Scoring of pin predictions against ground truth (the pin trainer's Evaluator).
 *
 * EvaluateOne searches every one-to-one assignment of ground-truth pins to
 * predictions by branch and bound.  The functions Search/TryFrom are the
 * reference model of that recursion, parameterised by the pruning rule; the
 * class Matcher is the in-place implementation with its shared `used` array
 * and pushed/popped list of matched distances.
 */
module PinEvaluation {
  import opened Common

  const DistCapPx: real := 120.0
  const FalsePosPenaltyPx: real := 80.0
  const MatchRewardPx: real := 40.0
  const MaxMatchDistPx: real := 90.0
  const MissingPenaltyPx: real := 300.0

  /** dist[g][p] is the distance from ground truth g to prediction p (n predictions). */
  predicate WellFormed(dist: seq<seq<real>>, n: nat)
  {
    forall g :: 0 <= g < |dist| ==> |dist[g]| == n && forall p :: 0 <= p < n ==> dist[g][p] >= 0.0
  }

  /** d is the Euclidean distance between a and b (the square root of the squared distance). */
  predicate IsDistance(d: real, a: Point, b: Point)
  {
    d >= 0.0 && d * d == SqDist(a, b) as real
  }

  /** The table holds the Euclidean distances between the points. */
  predicate IsDistanceTable(preds: seq<Point>, gt: seq<Point>, dist: seq<seq<real>>)
  {
    |dist| == |gt| &&
    forall g :: 0 <= g < |gt| ==>
      |dist[g]| == |preds| && forall p :: 0 <= p < |preds| ==> IsDistance(dist[g][p], preds[p], gt[g])
  }

  /** The 90 px match radius read on squared integer distances. */
  lemma MatchRadiusBySquares(d: real, sq: int)
    requires d >= 0.0 && d * d == sq as real
    ensures d <= MaxMatchDistPx <==> sq <= 8100
  {
    if d > 90.0 {
      assert d * d > 90.0 * d >= 90.0 * 90.0;
    } else {
      assert d * d <= 90.0 * d <= 90.0 * 90.0;
    }
  }

  // ---------------------------------------------------------------------------
  // The recursion as a function

  /** Pruning rules: none, the source's `cost >= best`, and a bound that accounts for pending rewards. */
  datatype Prune = Exhaustive | AsWritten | Bounded

  /** The captured `best`, `bestMatched`, `bestFp`; found == false stands for best == +infinity. */
  datatype Best = Best(found: bool, score: real, matched: seq<real>, fp: int)

  const NoBest: Best := Best(false, 0.0, [], 0)

  predicate Prunes(rule: Prune, st: Best, cost: real, matchedCount: nat, remainingGt: nat)
  {
    match rule
    case Exhaustive => false
    case AsWritten => st.found && cost >= st.score
    case Bounded => st.found && cost - MatchRewardPx * (matchedCount + remainingGt) as real >= st.score
  }

  /** A complete assignment: false positives and match rewards are added and the best updated. */
  function Leaf(n: nat, cost: real, matched: seq<real>, used: seq<bool>, st: Best): Best
  {
    var fp := n - CountTrue(used);
    var total := cost + fp as real * FalsePosPenaltyPx - |matched| as real * MatchRewardPx;
    if !st.found || total < st.score then Best(true, total, matched, fp) else st
  }

  /** Recurse(gi, cost, matchedDists) of the source, threading the captured best. */
  function Search(dist: seq<seq<real>>, n: nat, rule: Prune, gi: nat, cost: real,
                  matched: seq<real>, used: seq<bool>, st: Best): Best
    requires WellFormed(dist, n) && gi <= |dist| && |used| == n
    decreases |dist| - gi, n + 1
  {
    if Prunes(rule, st, cost, |matched|, |dist| - gi) then st
    else if gi == |dist| then Leaf(n, cost, matched, used, st)
    else
      var skipped := Search(dist, n, rule, gi + 1, cost + MissingPenaltyPx, matched, used, st);
      TryFrom(dist, n, rule, gi, 0, cost, matched, used, skipped)
  }

  /** The loop over predictions pi, pi+1, ... for ground truth gi. */
  function TryFrom(dist: seq<seq<real>>, n: nat, rule: Prune, gi: nat, pi: nat, cost: real,
                   matched: seq<real>, used: seq<bool>, st: Best): Best
    requires WellFormed(dist, n) && gi < |dist| && pi <= n && |used| == n
    decreases |dist| - gi, n - pi
  {
    if pi == n then st
    else if used[pi] || dist[gi][pi] > MaxMatchDistPx then
      TryFrom(dist, n, rule, gi, pi + 1, cost, matched, used, st)
    else
      var d := dist[gi][pi];
      var st' := Search(dist, n, rule, gi + 1, cost + MinReal(d, DistCapPx), matched + [d], used[pi := true], st);
      TryFrom(dist, n, rule, gi, pi + 1, cost, matched, used, st')
  }

  /** The per-image outcome: score, matched distances, missing and false-positive counts. */
  datatype Outcome = Outcome(score: real, distances: seq<real>, missing: int, falsePos: int)

  function AllFalse(n: nat): seq<bool> { seq(n, _ => false) }

  function RootSearch(dist: seq<seq<real>>, n: nat, rule: Prune): Best
    requires WellFormed(dist, n)
  {
    Search(dist, n, rule, 0, 0.0, [], AllFalse(n), NoBest)
  }

  /** EvaluateOne: both lists empty give 0, otherwise the best found by the search. */
  function EvaluateOneSpec(dist: seq<seq<real>>, n: nat, rule: Prune): Outcome
    requires WellFormed(dist, n)
  {
    if n == 0 && |dist| == 0 then Outcome(0.0, [], 0, 0)
    else
      var r := RootSearch(dist, n, rule);
      Outcome(r.score, r.matched, MaxInt(0, |dist| - |r.matched|), r.fp)
  }

  // ---------------------------------------------------------------------------
  // Assignments: a[g] is the prediction matched to ground truth g, or -1

  function UsedBy(a: seq<int>, n: nat): (u: seq<bool>)
    ensures |u| == n
  {
    if a == [] then AllFalse(n)
    else
      var x := a[|a| - 1];
      if 0 <= x < n then UsedBy(a[..|a| - 1], n)[x := true] else UsedBy(a[..|a| - 1], n)
  }

  /** A partial assignment over the first |a| ground truths: in radius and one-to-one. */
  predicate IsAssignment(dist: seq<seq<real>>, n: nat, a: seq<int>)
    requires WellFormed(dist, n)
  {
    |a| <= |dist| &&
    (a == [] ||
      (IsAssignment(dist, n, a[..|a| - 1]) &&
        var g, x := |a| - 1, a[|a| - 1];
        x == -1 || (0 <= x < n && dist[g][x] <= MaxMatchDistPx && !UsedBy(a[..|a| - 1], n)[x])))
  }

  function MatchCount(a: seq<int>): (k: nat)
    ensures k <= |a|
  {
    if a == [] then 0 else MatchCount(a[..|a| - 1]) + (if a[|a| - 1] >= 0 then 1 else 0)
  }

  function CostOf(dist: seq<seq<real>>, n: nat, a: seq<int>): real
    requires WellFormed(dist, n) && IsAssignment(dist, n, a)
  {
    if a == [] then 0.0
    else
      var x := a[|a| - 1];
      CostOf(dist, n, a[..|a| - 1]) +
        (if x < 0 then MissingPenaltyPx else MinReal(dist[|a| - 1][x], DistCapPx))
  }

  function DistsOf(dist: seq<seq<real>>, n: nat, a: seq<int>): seq<real>
    requires WellFormed(dist, n) && IsAssignment(dist, n, a)
  {
    if a == [] then []
    else
      var x := a[|a| - 1];
      DistsOf(dist, n, a[..|a| - 1]) + (if x < 0 then [] else [dist[|a| - 1][x]])
  }

  /** The score of a complete assignment, as the source defines it. */
  function Total(dist: seq<seq<real>>, n: nat, a: seq<int>): real
    requires WellFormed(dist, n) && IsAssignment(dist, n, a)
  {
    CostOf(dist, n, a) + (n - MatchCount(a)) as real * FalsePosPenaltyPx - MatchCount(a) as real * MatchRewardPx
  }

  predicate Consistent(dist: seq<seq<real>>, n: nat, pa: seq<int>, cost: real, matched: seq<real>, used: seq<bool>)
    requires WellFormed(dist, n)
  {
    IsAssignment(dist, n, pa) && cost == CostOf(dist, n, pa) &&
    matched == DistsOf(dist, n, pa) && used == UsedBy(pa, n)
  }

  predicate Completes(dist: seq<seq<real>>, n: nat, full: seq<int>, pa: seq<int>)
    requires WellFormed(dist, n)
  {
    IsAssignment(dist, n, full) && |full| == |dist| && |pa| <= |full| && full[..|pa|] == pa
  }

  /** r records the total, the distances and the false positives of some completion of pa. */
  ghost predicate Achieved(dist: seq<seq<real>>, n: nat, pa: seq<int>, r: Best)
    requires WellFormed(dist, n)
  {
    r.found &&
    exists full :: Completes(dist, n, full, pa) &&
      r.score == Total(dist, n, full) && r.matched == DistsOf(dist, n, full) && r.fp == n - MatchCount(full)
  }

  /** Either nothing changed or the best strictly improved to an achieved completion of pa. */
  ghost predicate SoundFrom(dist: seq<seq<real>>, n: nat, pa: seq<int>, st: Best, r: Best)
    requires WellFormed(dist, n)
  {
    r == st || (Achieved(dist, n, pa, r) && (st.found ==> r.score < st.score))
  }

  /** The score formula of a complete assignment. */
  ghost predicate IsOptimum(dist: seq<seq<real>>, n: nat, v: real)
    requires WellFormed(dist, n)
  {
    (exists a :: IsAssignment(dist, n, a) && |a| == |dist| && Total(dist, n, a) == v) &&
    (forall a :: IsAssignment(dist, n, a) && |a| == |dist| ==> v <= Total(dist, n, a))
  }

  // ---------------------------------------------------------------------------
  // Facts about assignments

  lemma {:induction false} UsedByMeans(a: seq<int>, n: nat, p: nat)
    requires p < n
    ensures UsedBy(a, n)[p] <==> exists g :: 0 <= g < |a| && a[g] == p
  {
    if a != [] {
      var b := a[..|a| - 1];
      UsedByMeans(b, n, p);
      if UsedBy(a, n)[p] && a[|a| - 1] != p {
        var g :| 0 <= g < |b| && b[g] == p;
        assert a[g] == p;
      }
      if (exists g :: 0 <= g < |a| && a[g] == p) && a[|a| - 1] != p {
        var g :| 0 <= g < |a| && a[g] == p;
        assert g < |b| && b[g] == p;
      }
    } else {
      assert AllFalse(n)[p] == false;
    }
  }

  lemma {:induction false} UsedCountIsMatchCount(dist: seq<seq<real>>, n: nat, a: seq<int>)
    requires WellFormed(dist, n) && IsAssignment(dist, n, a)
    ensures CountTrue(UsedBy(a, n)) == MatchCount(a) == |DistsOf(dist, n, a)|
    ensures MatchCount(a) <= n
  {
    if a == [] {
      CountTrueAllFalse(n);
    } else {
      var b := a[..|a| - 1];
      UsedCountIsMatchCount(dist, n, b);
      var x := a[|a| - 1];
      if x >= 0 {
        CountTrueSet(UsedBy(b, n), x);
      }
    }
  }

  lemma {:induction false} PrefixIsAssignment(dist: seq<seq<real>>, n: nat, a: seq<int>, k: nat)
    requires WellFormed(dist, n) && IsAssignment(dist, n, a) && k <= |a|
    ensures IsAssignment(dist, n, a[..k])
    decreases |a| - k
  {
    if k < |a| {
      PrefixIsAssignment(dist, n, a[..|a| - 1], k);
      assert a[..|a| - 1][..k] == a[..k];
    } else {
      assert a[..k] == a;
    }
  }

  /** Extending a consistent prefix the way the recursion does keeps it consistent. */
  lemma ExtendSkip(dist: seq<seq<real>>, n: nat, pa: seq<int>, cost: real, matched: seq<real>, used: seq<bool>)
    requires WellFormed(dist, n) && Consistent(dist, n, pa, cost, matched, used) && |pa| < |dist|
    ensures Consistent(dist, n, pa + [-1], cost + MissingPenaltyPx, matched, used)
  {
    assert (pa + [-1])[..|pa|] == pa;
  }

  lemma ExtendMatch(dist: seq<seq<real>>, n: nat, pa: seq<int>, cost: real, matched: seq<real>, used: seq<bool>, p: nat)
    requires WellFormed(dist, n) && Consistent(dist, n, pa, cost, matched, used) && |pa| < |dist|
    requires p < n && !used[p] && dist[|pa|][p] <= MaxMatchDistPx
    ensures Consistent(dist, n, pa + [p], cost + MinReal(dist[|pa|][p], DistCapPx),
                       matched + [dist[|pa|][p]], used[p := true])
  {
    assert (pa + [p])[..|pa|] == pa;
  }

  lemma CompletesNext(dist: seq<seq<real>>, n: nat, full: seq<int>, pa: seq<int>)
    requires WellFormed(dist, n) && Completes(dist, n, full, pa) && |pa| < |dist|
    ensures Completes(dist, n, full, pa + [full[|pa|]])
  {
    assert full[..|pa| + 1] == pa + [full[|pa|]];
  }

  lemma AchievedWeaken(dist: seq<seq<real>>, n: nat, pa: seq<int>, x: int, r: Best)
    requires WellFormed(dist, n) && Achieved(dist, n, pa + [x], r)
    ensures Achieved(dist, n, pa, r)
  {
    var full :| Completes(dist, n, full, pa + [x]) &&
      r.score == Total(dist, n, full) && r.matched == DistsOf(dist, n, full) && r.fp == n - MatchCount(full);
    assert full[..|pa|] == full[..|pa| + 1][..|pa|];
    assert Completes(dist, n, full, pa);
  }

  lemma SoundTrans(dist: seq<seq<real>>, n: nat, pa: seq<int>, st: Best, mid: Best, r: Best)
    requires WellFormed(dist, n)
    requires SoundFrom(dist, n, pa, st, mid) && SoundFrom(dist, n, pa, mid, r)
    ensures SoundFrom(dist, n, pa, st, r)
  {
  }

  // ---------------------------------------------------------------------------
  // Soundness: the best is always the total of a real assignment

  lemma {:induction false} SearchSound(dist: seq<seq<real>>, n: nat, rule: Prune, pa: seq<int>, cost: real,
                                       matched: seq<real>, used: seq<bool>, st: Best)
    requires WellFormed(dist, n) && |pa| <= |dist| && |used| == n
    requires Consistent(dist, n, pa, cost, matched, used)
    ensures SoundFrom(dist, n, pa, st, Search(dist, n, rule, |pa|, cost, matched, used, st))
    decreases |dist| - |pa|, n + 1
  {
    var gi := |pa|;
    if Prunes(rule, st, cost, |matched|, |dist| - gi) {
    } else if gi == |dist| {
      var r := Leaf(n, cost, matched, used, st);
      if r != st {
        UsedCountIsMatchCount(dist, n, pa);
        assert Completes(dist, n, pa, pa) by { assert pa[..|pa|] == pa; }
      }
    } else {
      ExtendSkip(dist, n, pa, cost, matched, used);
      SearchSound(dist, n, rule, pa + [-1], cost + MissingPenaltyPx, matched, used, st);
      var skipped := Search(dist, n, rule, gi + 1, cost + MissingPenaltyPx, matched, used, st);
      if skipped != st { AchievedWeaken(dist, n, pa, -1, skipped); }
      TryFromSound(dist, n, rule, pa, 0, cost, matched, used, skipped);
    }
  }

  lemma {:induction false} TryFromSound(dist: seq<seq<real>>, n: nat, rule: Prune, pa: seq<int>, pi: nat, cost: real,
                                        matched: seq<real>, used: seq<bool>, st: Best)
    requires WellFormed(dist, n) && |pa| < |dist| && pi <= n && |used| == n
    requires Consistent(dist, n, pa, cost, matched, used)
    ensures SoundFrom(dist, n, pa, st, TryFrom(dist, n, rule, |pa|, pi, cost, matched, used, st))
    decreases |dist| - |pa|, n - pi
  {
    var gi := |pa|;
    if pi == n {
    } else if used[pi] || dist[gi][pi] > MaxMatchDistPx {
      TryFromSound(dist, n, rule, pa, pi + 1, cost, matched, used, st);
    } else {
      var d := dist[gi][pi];
      ExtendMatch(dist, n, pa, cost, matched, used, pi);
      SearchSound(dist, n, rule, pa + [pi], cost + MinReal(d, DistCapPx), matched + [d], used[pi := true], st);
      var st' := Search(dist, n, rule, gi + 1, cost + MinReal(d, DistCapPx), matched + [d], used[pi := true], st);
      if st' != st { AchievedWeaken(dist, n, pa, pi, st'); }
      TryFromSound(dist, n, rule, pa, pi + 1, cost, matched, used, st');
      SoundTrans(dist, n, pa, st, st', TryFrom(dist, n, rule, gi, pi + 1, cost, matched, used, st'));
    }
  }

  /** Some complete assignment is always recorded: the skip-everything branch is never pruned. */
  lemma {:induction false} SearchFinds(dist: seq<seq<real>>, n: nat, rule: Prune, pa: seq<int>, cost: real,
                                       matched: seq<real>, used: seq<bool>, st: Best)
    requires WellFormed(dist, n) && |pa| <= |dist| && |used| == n
    requires Consistent(dist, n, pa, cost, matched, used)
    ensures Search(dist, n, rule, |pa|, cost, matched, used, st).found
    decreases |dist| - |pa|
  {
    var gi := |pa|;
    SearchSound(dist, n, rule, pa, cost, matched, used, st);
    if !st.found && gi < |dist| {
      ExtendSkip(dist, n, pa, cost, matched, used);
      SearchFinds(dist, n, rule, pa + [-1], cost + MissingPenaltyPx, matched, used, st);
      var skipped := Search(dist, n, rule, gi + 1, cost + MissingPenaltyPx, matched, used, st);
      TryFromSound(dist, n, rule, pa, 0, cost, matched, used, skipped);
    }
  }

  // ---------------------------------------------------------------------------
  // Completeness without pruning and with the bounded prune

  /** Every completion of pa scores at least the bound the corrected prune uses. */
  lemma {:induction false} CompletionLowerBound(dist: seq<seq<real>>, n: nat, full: seq<int>, pa: seq<int>)
    requires WellFormed(dist, n) && Completes(dist, n, full, pa) && IsAssignment(dist, n, pa)
    ensures Total(dist, n, full) >=
      CostOf(dist, n, pa) - MatchRewardPx * (MatchCount(pa) + (|dist| - |pa|)) as real
  {
    UsedCountIsMatchCount(dist, n, full);
    SuffixBound(dist, n, full, |pa|);
    assert full[..|pa|] == pa;
  }

  lemma {:induction false} SuffixBound(dist: seq<seq<real>>, n: nat, a: seq<int>, k: nat)
    requires WellFormed(dist, n) && IsAssignment(dist, n, a) && k <= |a|
    ensures IsAssignment(dist, n, a[..k])
    ensures CostOf(dist, n, a) - MatchRewardPx * MatchCount(a) as real >=
      CostOf(dist, n, a[..k]) - MatchRewardPx * (MatchCount(a[..k]) + (|a| - k)) as real
    decreases |a| - k
  {
    PrefixIsAssignment(dist, n, a, k);
    if k < |a| {
      var b := a[..|a| - 1];
      SuffixBound(dist, n, b, k);
      assert b[..k] == a[..k];
      var x := a[|a| - 1];
      if x >= 0 {
        assert MinReal(dist[|a| - 1][x], DistCapPx) >= 0.0;
      }
    } else {
      assert a[..k] == a;
    }
  }

  lemma {:induction false} SearchComplete(dist: seq<seq<real>>, n: nat, rule: Prune, pa: seq<int>, cost: real,
                                          matched: seq<real>, used: seq<bool>, st: Best, full: seq<int>)
    requires WellFormed(dist, n) && |pa| <= |dist| && |used| == n && rule != AsWritten
    requires Consistent(dist, n, pa, cost, matched, used) && Completes(dist, n, full, pa)
    ensures var r := Search(dist, n, rule, |pa|, cost, matched, used, st);
      r.found && r.score <= Total(dist, n, full)
    decreases |dist| - |pa|, n + 1
  {
    var gi := |pa|;
    if Prunes(rule, st, cost, |matched|, |dist| - gi) {
      UsedCountIsMatchCount(dist, n, pa);
      CompletionLowerBound(dist, n, full, pa);
    } else if gi == |dist| {
      assert full == pa by { assert full[..|pa|] == full; }
      UsedCountIsMatchCount(dist, n, pa);
    } else {
      ExtendSkip(dist, n, pa, cost, matched, used);
      var skipped := Search(dist, n, rule, gi + 1, cost + MissingPenaltyPx, matched, used, st);
      CompletesNext(dist, n, full, pa);
      var x := full[gi];
      PrefixIsAssignment(dist, n, full, gi + 1);
      assert full[..gi + 1][..gi] == pa;
      if x < 0 {
        SearchComplete(dist, n, rule, pa + [-1], cost + MissingPenaltyPx, matched, used, st, full);
        TryFromSound(dist, n, rule, pa, 0, cost, matched, used, skipped);
      } else {
        TryFromComplete(dist, n, rule, pa, 0, cost, matched, used, skipped, full);
      }
    }
  }

  /** The prediction a completion matches to the next ground truth is free and within the radius. */
  lemma NextMatch(dist: seq<seq<real>>, n: nat, pa: seq<int>, used: seq<bool>, full: seq<int>)
    requires WellFormed(dist, n) && |pa| < |dist| && Completes(dist, n, full, pa) && used == UsedBy(pa, n)
    requires full[|pa|] >= 0
    ensures full[|pa|] < n && dist[|pa|][full[|pa|]] <= MaxMatchDistPx && !used[full[|pa|]]
  {
    var gi := |pa|;
    PrefixIsAssignment(dist, n, full, gi + 1);
    assert full[..gi + 1][..gi] == pa;
    assert full[..gi + 1][gi] == full[gi];
  }

  lemma {:induction false} TryFromComplete(dist: seq<seq<real>>, n: nat, rule: Prune, pa: seq<int>, pi: nat, cost: real,
                                           matched: seq<real>, used: seq<bool>, st: Best, full: seq<int>)
    requires WellFormed(dist, n) && |pa| < |dist| && |used| == n && rule != AsWritten
    requires Consistent(dist, n, pa, cost, matched, used) && Completes(dist, n, full, pa)
    requires full[|pa|] >= 0 && pi <= full[|pa|] && pi <= n
    ensures var r := TryFrom(dist, n, rule, |pa|, pi, cost, matched, used, st);
      r.found && r.score <= Total(dist, n, full)
    decreases |dist| - |pa|, n - pi
  {
    var gi := |pa|;
    var x := full[gi];
    NextMatch(dist, n, pa, used, full);
    if used[pi] || dist[gi][pi] > MaxMatchDistPx {
      assert pi != x;
      TryFromComplete(dist, n, rule, pa, pi + 1, cost, matched, used, st, full);
    } else {
      var d := dist[gi][pi];
      ExtendMatch(dist, n, pa, cost, matched, used, pi);
      var st' := Search(dist, n, rule, gi + 1, cost + MinReal(d, DistCapPx), matched + [d], used[pi := true], st);
      if pi == x {
        CompletesNext(dist, n, full, pa);
        SearchComplete(dist, n, rule, pa + [pi], cost + MinReal(d, DistCapPx), matched + [d], used[pi := true], st, full);
        TryFromSound(dist, n, rule, pa, pi + 1, cost, matched, used, st');
      } else {
        TryFromComplete(dist, n, rule, pa, pi + 1, cost, matched, used, st', full);
      }
    }
  }

  // ---------------------------------------------------------------------------
  // What EvaluateOne returns

  lemma RootConsistent(dist: seq<seq<real>>, n: nat)
    requires WellFormed(dist, n)
    ensures Consistent(dist, n, [], 0.0, [], AllFalse(n))
  {
  }

  /**
   * Under every pruning rule the score is the total of a one-to-one assignment
   * that pairs only points at most 90 px apart, so the 120 px cap never binds:
   * score = sum of distances + 300 * missing + 80 * false positives - 40 * matched.
   */
  lemma {:induction false} EvaluateOneIsAssignmentScore(dist: seq<seq<real>>, n: nat, rule: Prune)
    requires WellFormed(dist, n)
    ensures var o := EvaluateOneSpec(dist, n, rule);
      exists a :: IsAssignment(dist, n, a) && |a| == |dist| &&
        o.score == Total(dist, n, a) && o.distances == DistsOf(dist, n, a) &&
        o.missing == |dist| - MatchCount(a) && o.falsePos == n - MatchCount(a) &&
        o.score == SumReals(o.distances) + MissingPenaltyPx * o.missing as real
                   + FalsePosPenaltyPx * o.falsePos as real - MatchRewardPx * |o.distances| as real
  {
    var o := EvaluateOneSpec(dist, n, rule);
    RootConsistent(dist, n);
    if n == 0 && |dist| == 0 {
      assert IsAssignment(dist, n, []);
    } else {
      SearchSound(dist, n, rule, [], 0.0, [], AllFalse(n), NoBest);
      SearchFinds(dist, n, rule, [], 0.0, [], AllFalse(n), NoBest);
      var r := RootSearch(dist, n, rule);
      var a :| Completes(dist, n, a, []) &&
        r.score == Total(dist, n, a) && r.matched == DistsOf(dist, n, a) && r.fp == n - MatchCount(a);
      UsedCountIsMatchCount(dist, n, a);
      CostIsSumOfDistances(dist, n, a);
      assert o.missing == |a| - MatchCount(a) && o.falsePos == n - MatchCount(a);
      assert |o.distances| == MatchCount(a);
      assert o.score == Total(dist, n, a);
    }
  }

  /** Within the match radius the cap is inert, so the cost is the plain distance sum plus 300 per skip. */
  lemma {:induction false} CostIsSumOfDistances(dist: seq<seq<real>>, n: nat, a: seq<int>)
    requires WellFormed(dist, n) && IsAssignment(dist, n, a)
    ensures CostOf(dist, n, a) == SumReals(DistsOf(dist, n, a)) + MissingPenaltyPx * (|a| - MatchCount(a)) as real
  {
    if a != [] {
      var b := a[..|a| - 1];
      CostIsSumOfDistances(dist, n, b);
      var x := a[|a| - 1];
      if x >= 0 {
        var ds := DistsOf(dist, n, b) + [dist[|a| - 1][x]];
        assert ds[..|ds| - 1] == DistsOf(dist, n, b);
      } else {
        assert DistsOf(dist, n, a) == DistsOf(dist, n, b);
      }
    }
  }

  /** Without pruning, and with the bounded prune, the search returns the minimum over all assignments. */
  lemma {:induction false} EvaluateOneOptimal(dist: seq<seq<real>>, n: nat, rule: Prune)
    requires WellFormed(dist, n) && rule != AsWritten
    ensures IsOptimum(dist, n, EvaluateOneSpec(dist, n, rule).score)
  {
    EvaluateOneIsAssignmentScore(dist, n, rule);
    RootConsistent(dist, n);
    var v := EvaluateOneSpec(dist, n, rule).score;
    forall a | IsAssignment(dist, n, a) && |a| == |dist|
      ensures v <= Total(dist, n, a)
    {
      if n == 0 && |dist| == 0 {
        assert a == [];
      } else {
        assert a[..0] == [];
        SearchComplete(dist, n, rule, [], 0.0, [], AllFalse(n), NoBest, a);
      }
    }
  }

  /** The corrected prune loses nothing against exhaustive search. */
  lemma BoundedEqualsExhaustive(dist: seq<seq<real>>, n: nat)
    requires WellFormed(dist, n)
    ensures EvaluateOneSpec(dist, n, Bounded).score == EvaluateOneSpec(dist, n, Exhaustive).score
  {
    EvaluateOneOptimal(dist, n, Bounded);
    EvaluateOneOptimal(dist, n, Exhaustive);
    var a :| IsAssignment(dist, n, a) && |a| == |dist| && Total(dist, n, a) == EvaluateOneSpec(dist, n, Bounded).score;
    var b :| IsAssignment(dist, n, b) && |b| == |dist| && Total(dist, n, b) == EvaluateOneSpec(dist, n, Exhaustive).score;
  }

  /** Both lists empty score 0; no predictions score 300 per ground truth; no ground truth 80 per prediction. */
  lemma {:induction false} EvaluateOneDegenerate(dist: seq<seq<real>>, n: nat, rule: Prune)
    requires WellFormed(dist, n)
    ensures n == 0 && |dist| == 0 ==> EvaluateOneSpec(dist, n, rule).score == 0.0
    ensures n == 0 ==> EvaluateOneSpec(dist, n, rule).score == MissingPenaltyPx * |dist| as real
    ensures |dist| == 0 ==> EvaluateOneSpec(dist, n, rule).score == FalsePosPenaltyPx * n as real
  {
    EvaluateOneIsAssignmentScore(dist, n, rule);
    var o := EvaluateOneSpec(dist, n, rule);
    var a :| IsAssignment(dist, n, a) && |a| == |dist| &&
        o.score == Total(dist, n, a) && o.distances == DistsOf(dist, n, a) &&
        o.missing == |dist| - MatchCount(a) && o.falsePos == n - MatchCount(a);
    UsedCountIsMatchCount(dist, n, a);
    if n == 0 {
      NoPredictionsNoMatches(dist, a);
      CostIsSumOfDistances(dist, n, a);
    }
  }

  lemma {:induction false} NoPredictionsNoMatches(dist: seq<seq<real>>, a: seq<int>)
    requires WellFormed(dist, 0) && IsAssignment(dist, 0, a)
    ensures MatchCount(a) == 0
  {
    if a != [] { NoPredictionsNoMatches(dist, a[..|a| - 1]); }
  }

  // ---------------------------------------------------------------------------
  // The as-written prune on coincident, mutually distant pairs

  /** Prediction i sits on ground truth i and every other pair is more than 90 px apart. */
  predicate CoincidentFar(dist: seq<seq<real>>, size: nat)
  {
    |dist| == size && WellFormed(dist, size) &&
    forall g, p :: 0 <= g < size && 0 <= p < size ==>
      (g == p ==> dist[g][p] == 0.0) && (g != p ==> dist[g][p] > MaxMatchDistPx)
  }

  /** Points 1000 px apart on a line, used both as predictions and as ground truth. */
  function SpacedPoints(size: nat): seq<Point> { seq(size, i => Point(1000 * i, 0)) }

  function SpacedTable(size: nat): seq<seq<real>>
  {
    seq(size, g => seq(size, p => 1000.0 * AbsInt(g - p) as real))
  }

  lemma SpacedEntry(size: nat, g: nat, p: nat)
    requires g < size && p < size
    ensures IsDistance(SpacedTable(size)[g][p], SpacedPoints(size)[p], SpacedPoints(size)[g])
  {
    var pts, t := SpacedPoints(size), SpacedTable(size);
    var k := AbsInt(g - p);
    assert k * k == (p - g) * (p - g);
    assert SqDist(pts[p], pts[g]) == 1000000 * (k * k);
    assert t[g][p] == 1000.0 * k as real;
    assert (1000.0 * k as real) * (1000.0 * k as real) == (1000000 * (k * k)) as real;
  }

  lemma SpacedTableIsCoincident(size: nat)
    ensures IsDistanceTable(SpacedPoints(size), SpacedPoints(size), SpacedTable(size))
    ensures CoincidentFar(SpacedTable(size), size)
  {
    var pts, t := SpacedPoints(size), SpacedTable(size);
    forall g | 0 <= g < size
      ensures |t[g]| == |pts|
      ensures forall p :: 0 <= p < |pts| ==> IsDistance(t[g][p], pts[p], pts[g])
    {
      forall p | 0 <= p < size
        ensures IsDistance(t[g][p], pts[p], pts[g])
      {
        SpacedEntry(size, g, p);
      }
    }
    SpacedTableFar(size);
  }

  lemma SpacedTableFar(size: nat)
    ensures CoincidentFar(SpacedTable(size), size)
  {
    var t := SpacedTable(size);
    forall g, p | 0 <= g < size && 0 <= p < size
      ensures t[g][p] >= 0.0 && (g == p ==> t[g][p] == 0.0) && (g != p ==> t[g][p] > MaxMatchDistPx)
    {
      assert t[g][p] == 1000.0 * AbsInt(g - p) as real;
    }
  }

  function Skips(a: seq<int>): nat { |a| - MatchCount(a) }

  lemma {:induction false} CoincidentEntries(dist: seq<seq<real>>, size: nat, a: seq<int>)
    requires CoincidentFar(dist, size) && IsAssignment(dist, size, a)
    ensures forall g :: 0 <= g < |a| ==> a[g] == -1 || a[g] == g
    ensures CostOf(dist, size, a) == MissingPenaltyPx * Skips(a) as real
  {
    if a != [] {
      var b := a[..|a| - 1];
      CoincidentEntries(dist, size, b);
      var x := a[|a| - 1];
      assert x >= 0 ==> x == |a| - 1 && dist[|a| - 1][x] == 0.0;
      forall g | 0 <= g < |a| ensures a[g] == -1 || a[g] == g {
        if g < |b| { assert a[g] == b[g]; }
      }
    }
  }

  lemma CoincidentTotal(dist: seq<seq<real>>, size: nat, a: seq<int>)
    requires CoincidentFar(dist, size) && IsAssignment(dist, size, a) && |a| == size
    ensures Total(dist, size, a) == 420.0 * Skips(a) as real - 40.0 * size as real
  {
    CoincidentEntries(dist, size, a);
  }

  lemma {:induction false} SkipsGrow(dist: seq<seq<real>>, n: nat, full: seq<int>, k: nat)
    requires WellFormed(dist, n) && IsAssignment(dist, n, full) && k <= |full|
    ensures Skips(full) >= Skips(full[..k])
    decreases |full| - k
  {
    if k < |full| {
      SkipsGrow(dist, n, full[..|full| - 1], k);
      assert full[..|full| - 1][..k] == full[..k];
      PrefixIsAssignment(dist, n, full, |full| - 1);
    } else {
      assert full[..k] == full;
    }
  }

  /** For pi != gi the prediction is out of radius, so the loop only matches gi with gi. */
  lemma {:induction false} TryFromFar(dist: seq<seq<real>>, size: nat, rule: Prune, gi: nat, pi: nat, cost: real,
                                      matched: seq<real>, used: seq<bool>, st: Best)
    requires CoincidentFar(dist, size) && gi < size && gi < pi <= size && |used| == size
    ensures TryFrom(dist, size, rule, gi, pi, cost, matched, used, st) == st
    decreases size - pi
  {
    if pi < size { TryFromFar(dist, size, rule, gi, pi + 1, cost, matched, used, st); }
  }

  lemma {:induction false} TryFromBefore(dist: seq<seq<real>>, size: nat, rule: Prune, gi: nat, pi: nat, cost: real,
                                         matched: seq<real>, used: seq<bool>, st: Best)
    requires CoincidentFar(dist, size) && pi <= gi < size && |used| == size
    ensures TryFrom(dist, size, rule, gi, pi, cost, matched, used, st) ==
            TryFrom(dist, size, rule, gi, gi, cost, matched, used, st)
    decreases gi - pi
  {
    if pi < gi { TryFromBefore(dist, size, rule, gi, pi + 1, cost, matched, used, st); }
  }

  /** Every leaf below a skip of the next ground truth scores at least 420 * (s0 + 1) - 40 * N. */
  lemma SkipBranchAbove(dist: seq<seq<real>>, size: nat, pa: seq<int>, cost: real,
                        matched: seq<real>, used: seq<bool>, st: Best, bound: real)
    requires CoincidentFar(dist, size) && |pa| < size && |used| == size
    requires Consistent(dist, size, pa, cost, matched, used)
    requires 420.0 * (Skips(pa) + 1) as real - 40.0 * size as real > bound
    requires st.found ==> st.score > bound
    ensures var r := Search(dist, size, AsWritten, |pa| + 1, cost + MissingPenaltyPx, matched, used, st);
      r.found ==> r.score > bound
  {
    var gi := |pa|;
    ExtendSkip(dist, size, pa, cost, matched, used);
    SearchSound(dist, size, AsWritten, pa + [-1], cost + MissingPenaltyPx, matched, used, st);
    var skipped := Search(dist, size, AsWritten, gi + 1, cost + MissingPenaltyPx, matched, used, st);
    if skipped != st {
      var full :| Completes(dist, size, full, pa + [-1]) && skipped.score == Total(dist, size, full);
      SkipsGrow(dist, size, full, gi + 1);
      assert full[..gi + 1] == pa + [-1];
      assert Skips(pa + [-1]) == Skips(pa) + 1 by { assert (pa + [-1])[..gi] == pa; }
      CoincidentTotal(dist, size, full);
    }
  }

  lemma NextUnused(dist: seq<seq<real>>, size: nat, pa: seq<int>)
    requires CoincidentFar(dist, size) && |pa| < size && IsAssignment(dist, size, pa)
    ensures !UsedBy(pa, size)[|pa|]
  {
    CoincidentEntries(dist, size, pa);
    UsedByMeans(pa, size, |pa|);
  }

  /**
   * Along the branch that matches every remaining ground truth (cost 300 * s0 so far),
   * the as-written prune never fires while every leaf with one more skip scores above
   * that cost; the branch then ends with 420 * s0 - 40 * size.
   */
  lemma {:induction false} AsWrittenAllMatchedBranch(dist: seq<seq<real>>, size: nat, pa: seq<int>, cost: real,
                                                     matched: seq<real>, used: seq<bool>, st: Best)
    requires CoincidentFar(dist, size) && |pa| <= size && |used| == size
    requires Consistent(dist, size, pa, cost, matched, used)
    requires 3 * Skips(pa) < size && 420 * (Skips(pa) + 1) - 40 * size > 300 * Skips(pa)
    requires st.found ==> st.score > 300.0 * Skips(pa) as real
    ensures var r := Search(dist, size, AsWritten, |pa|, cost, matched, used, st);
      r.found && r.score == 420.0 * Skips(pa) as real - 40.0 * size as real
    decreases size - |pa|
  {
    var gi, s0 := |pa|, Skips(pa);
    if gi < size {
      AllMatchedStep(dist, size, pa, cost, matched, used, st);
      var skipped := Search(dist, size, AsWritten, gi + 1, cost + MissingPenaltyPx, matched, used, st);
      AsWrittenAllMatchedBranch(dist, size, pa + [gi], cost, matched + [dist[gi][gi]], used[gi := true], skipped);
    } else {
      CoincidentEntries(dist, size, pa);
      UsedCountIsMatchCount(dist, size, pa);
      assert !Prunes(AsWritten, st, cost, |matched|, 0);
      AllMatchedLeaf(size, s0, cost, matched, used, st);
    }
  }

  /**
   * One step down the all-matched branch: the skip subtree leaves a best above
   * 300 * s0, and the loop then descends only through the diagonal match.
   */
  lemma AllMatchedStep(dist: seq<seq<real>>, size: nat, pa: seq<int>, cost: real,
                       matched: seq<real>, used: seq<bool>, st: Best)
    requires CoincidentFar(dist, size) && |pa| < size && |used| == size
    requires Consistent(dist, size, pa, cost, matched, used)
    requires 3 * Skips(pa) < size && 420 * (Skips(pa) + 1) - 40 * size > 300 * Skips(pa)
    requires st.found ==> st.score > 300.0 * Skips(pa) as real
    ensures var gi := |pa|;
      var skipped := Search(dist, size, AsWritten, gi + 1, cost + MissingPenaltyPx, matched, used, st);
      Consistent(dist, size, pa + [gi], cost, matched + [dist[gi][gi]], used[gi := true])
      && Skips(pa + [gi]) == Skips(pa)
      && (skipped.found ==> skipped.score > 300.0 * Skips(pa) as real)
      && Search(dist, size, AsWritten, gi, cost, matched, used, st)
         == Search(dist, size, AsWritten, gi + 1, cost, matched + [dist[gi][gi]], used[gi := true], skipped)
  {
    var gi, s0 := |pa|, Skips(pa);
    CoincidentEntries(dist, size, pa);
    SkipBranchAbove(dist, size, pa, cost, matched, used, st, 300.0 * s0 as real);
    var skipped := Search(dist, size, AsWritten, gi + 1, cost + MissingPenaltyPx, matched, used, st);
    NextUnused(dist, size, pa);
    ExtendMatch(dist, size, pa, cost, matched, used, gi);
    var d := dist[gi][gi];
    assert cost + MinReal(d, DistCapPx) == cost;
    var pa' := pa + [gi];
    assert Skips(pa') == s0 by { assert pa'[..|pa'| - 1] == pa; }
    OnlyDiagonalMatch(dist, size, gi, cost, matched, used, skipped);
    assert !Prunes(AsWritten, st, cost, |matched|, size - gi);
    assert Search(dist, size, AsWritten, gi, cost, matched, used, st)
        == TryFrom(dist, size, AsWritten, gi, 0, cost, matched, used, skipped);
  }

  /** The leaf of the all-matched branch: s0 skips, s0 false positives, size - s0 rewards. */
  lemma AllMatchedLeaf(size: nat, s0: nat, cost: real, matched: seq<real>, used: seq<bool>, st: Best)
    requires cost == MissingPenaltyPx * s0 as real && 3 * s0 < size
    requires CountTrue(used) == size - s0 && |matched| == size - s0
    requires st.found ==> st.score > 300.0 * s0 as real
    ensures Leaf(size, cost, matched, used, st).found
    ensures Leaf(size, cost, matched, used, st).score == 420.0 * s0 as real - 40.0 * size as real
  {
    var total := cost + (size - CountTrue(used)) as real * FalsePosPenaltyPx - |matched| as real * MatchRewardPx;
    assert total == 300.0 * s0 as real + 80.0 * s0 as real - 40.0 * (size - s0) as real;
  }

  /** The loop over predictions for ground truth gi only descends through prediction gi. */
  lemma OnlyDiagonalMatch(dist: seq<seq<real>>, size: nat, gi: nat, cost: real,
                          matched: seq<real>, used: seq<bool>, st: Best)
    requires CoincidentFar(dist, size) && gi < size && |used| == size && !used[gi]
    ensures TryFrom(dist, size, AsWritten, gi, 0, cost, matched, used, st) ==
            Search(dist, size, AsWritten, gi + 1, cost, matched + [dist[gi][gi]], used[gi := true], st)
  {
    TryFromBefore(dist, size, AsWritten, gi, 0, cost, matched, used, st);
    var d := dist[gi][gi];
    assert cost + MinReal(d, DistCapPx) == cost;
    var st' := Search(dist, size, AsWritten, gi + 1, cost, matched + [d], used[gi := true], st);
    TryFromFar(dist, size, AsWritten, gi, gi + 1, cost, matched, used, st');
    assert TryFrom(dist, size, AsWritten, gi, gi, cost, matched, used, st) ==
           TryFrom(dist, size, AsWritten, gi, gi + 1, cost, matched, used, st');
  }

  /** With at most ten coincident pairs the as-written search still finds the all-matched optimum -40 * N. */
  lemma CoincidentUpToTen(dist: seq<seq<real>>, size: nat)
    requires CoincidentFar(dist, size) && size <= 10
    ensures EvaluateOneSpec(dist, size, AsWritten).score == -40.0 * size as real
  {
    if size > 0 {
      RootConsistent(dist, size);
      AsWrittenAllMatchedBranch(dist, size, [], 0.0, [], AllFalse(size), NoBest);
    }
  }

  /** With eleven pairs the as-written prune cuts the all-matched branch at the root: -20 instead of -440. */
  lemma CoincidentEleven(dist: seq<seq<real>>)
    requires CoincidentFar(dist, 11)
    ensures EvaluateOneSpec(dist, 11, AsWritten).score == -20.0
    ensures EvaluateOneSpec(dist, 11, Bounded).score == -440.0
  {
    RootConsistent(dist, 11);
    ExtendSkip(dist, 11, [], 0.0, [], AllFalse(11));
    var used := AllFalse(11);
    AsWrittenAllMatchedBranch(dist, 11, [-1], MissingPenaltyPx, [], used, NoBest);
    var skipped := Search(dist, 11, AsWritten, 1, 0.0 + MissingPenaltyPx, [], used, NoBest);
    assert skipped.found && skipped.score == -20.0;
    var d := dist[0][0];
    var matchedFirst := Search(dist, 11, AsWritten, 1, 0.0 + MinReal(d, DistCapPx), [] + [d], used[0 := true], skipped);
    assert matchedFirst == skipped;
    assert !used[0];
    assert TryFrom(dist, 11, AsWritten, 0, 0, 0.0, [], used, skipped) ==
           TryFrom(dist, 11, AsWritten, 0, 1, 0.0, [], used, matchedFirst);
    TryFromFar(dist, 11, AsWritten, 0, 1, 0.0, [], used, skipped);
    assert RootSearch(dist, 11, AsWritten) == TryFrom(dist, 11, AsWritten, 0, 0, 0.0, [], used, skipped);
    CoincidentOptimum(dist, 11);
  }

  lemma {:induction false} IdentityAssignment(dist: seq<seq<real>>, size: nat, k: nat)
    requires CoincidentFar(dist, size) && k <= size
    ensures IsAssignment(dist, size, seq(k, i => i)) && Skips(seq(k, i => i)) == 0
  {
    if k > 0 {
      var a := seq(k, i => i);
      assert a[..k - 1] == seq(k - 1, i => i);
      IdentityAssignment(dist, size, k - 1);
      UsedByMeans(a[..k - 1], size, k - 1);
    }
  }

  /** The optimum over coincident pairs matches everything: -40 * N. */
  lemma CoincidentOptimum(dist: seq<seq<real>>, size: nat)
    requires CoincidentFar(dist, size)
    ensures EvaluateOneSpec(dist, size, Bounded).score == -40.0 * size as real
  {
    EvaluateOneOptimal(dist, size, Bounded);
    var v := EvaluateOneSpec(dist, size, Bounded).score;
    IdentityAssignment(dist, size, size);
    CoincidentTotal(dist, size, seq(size, i => i));
    var a :| IsAssignment(dist, size, a) && |a| == size && Total(dist, size, a) == v;
    CoincidentTotal(dist, size, a);
  }

  // ---------------------------------------------------------------------------
  // The in-place search

  /** The closure state of EvaluateOne: the shared used[] array, the matched list and the captured best. */
  class Matcher {
    const dist: seq<seq<real>>
    const n: nat
    const rule: Prune
    const used: array<bool>
    var matchedDists: seq<real>
    var found: bool
    var best: real
    var bestMatched: seq<real>
    var bestFp: int

    predicate Valid()
      reads this
    {
      WellFormed(dist, n) && used.Length == n
    }

    function State(): Best
      reads this
    {
      Best(found, best, bestMatched, bestFp)
    }

    constructor (dist: seq<seq<real>>, n: nat, rule: Prune)
      requires WellFormed(dist, n)
      ensures Valid() && fresh(used)
      ensures this.dist == dist && this.n == n && this.rule == rule
      ensures used[..] == AllFalse(n) && matchedDists == [] && State() == NoBest
    {
      this.dist := dist;
      this.n := n;
      this.rule := rule;
      used := new bool[n](_ => false);
      matchedDists := [];
      found, best, bestMatched, bestFp := false, 0.0, [], 0;
    }

    /** used.Count(u => u) */
    method CountUsed() returns (c: nat)
      requires Valid()
      ensures c == CountTrue(used[..])
    {
      c := 0;
      var i := 0;
      while i < used.Length
        invariant 0 <= i <= used.Length
        invariant c == CountTrue(used[..i])
      {
        assert used[..i + 1][..i] == used[..i];
        if used[i] { c := c + 1; }
        i := i + 1;
      }
      assert used[..used.Length] == used[..];
    }

    method Recurse(gi: nat, cost: real)
      requires Valid() && gi <= |dist|
      modifies this, used
      ensures used[..] == old(used[..]) && matchedDists == old(matchedDists)
      ensures State() == Search(dist, n, rule, gi, cost, old(matchedDists), old(used[..]), old(State()))
      decreases |dist| - gi
    {
      if Prunes(rule, State(), cost, |matchedDists|, |dist| - gi) {
        return;
      }
      if gi == |dist| {
        var usedCount := CountUsed();
        var fp := n - usedCount;
        var total := cost + fp as real * FalsePosPenaltyPx - |matchedDists| as real * MatchRewardPx;
        if !found || total < best {
          found, best, bestMatched, bestFp := true, total, matchedDists, fp;
        }
        return;
      }
      ghost var used0, matched0 := used[..], matchedDists;
      Recurse(gi + 1, cost + MissingPenaltyPx);
      var pi := 0;
      while pi < n
        invariant 0 <= pi <= n
        invariant used[..] == used0 && matchedDists == matched0
        invariant Search(dist, n, rule, gi, cost, matched0, used0, old(State())) ==
                  TryFrom(dist, n, rule, gi, pi, cost, matched0, used0, State())
      {
        if !used[pi] {
          var d := dist[gi][pi];
          if d <= MaxMatchDistPx {
            var eff := MinReal(d, DistCapPx);
            used[pi] := true;
            matchedDists := matchedDists + [d];
            Recurse(gi + 1, cost + eff);
            matchedDists := matchedDists[..|matchedDists| - 1];
            used[pi] := false;
            assert used[..] == used0;
          }
        }
        pi := pi + 1;
      }
    }
  }

  /** EvaluateOne(path, preds, gt): the search over the in-place matcher. */
  method EvaluateOne(preds: seq<Point>, gt: seq<Point>, dist: seq<seq<real>>, rule: Prune) returns (o: Outcome)
    requires IsDistanceTable(preds, gt, dist)
    ensures WellFormed(dist, |preds|) && o == EvaluateOneSpec(dist, |preds|, rule)
  {
    var n, m := |preds|, |gt|;
    if n == 0 && m == 0 {
      return Outcome(0.0, [], 0, 0);
    }
    var matcher := new Matcher(dist, n, rule);
    matcher.Recurse(0, 0.0);
    o := Outcome(matcher.best, matcher.bestMatched, MaxInt(0, m - |matcher.bestMatched|), matcher.bestFp);
  }

  // ---------------------------------------------------------------------------
  // EvaluateDataset

  datatype DatasetItem = DatasetItem(path: string, gtPins: seq<Point>)

  /** What the detector returned for one image; a non-empty error means the detection failed. */
  datatype Detection = Detection(error: string, predictions: seq<Point>)

  datatype DatasetScore = DatasetScore(score: real, matched: int, missing: int, falsePos: int, distances: seq<real>)

  /** The detector's outputs and distance tables line up with the items. */
  predicate Aligned(items: seq<DatasetItem>, dets: seq<Detection>, tables: seq<seq<seq<real>>>)
  {
    |dets| == |items| && |tables| == |items| &&
    forall i :: 0 <= i < |items| && dets[i].error == "" ==>
      IsDistanceTable(dets[i].predictions, items[i].gtPins, tables[i])
  }

  /** The contribution of one image: a failed detection misses every ground-truth pin. */
  function ImageOutcome(item: DatasetItem, det: Detection, table: seq<seq<real>>, rule: Prune): Outcome
    requires det.error == "" ==> IsDistanceTable(det.predictions, item.gtPins, table)
  {
    if det.error != "" then Outcome(MissingPenaltyPx * |item.gtPins| as real, [], |item.gtPins|, 0)
    else EvaluateOneSpec(table, |det.predictions|, rule)
  }

  /** The totals over the first i images. */
  function DatasetUpTo(items: seq<DatasetItem>, dets: seq<Detection>, tables: seq<seq<seq<real>>>,
                       rule: Prune, i: nat): DatasetScore
    requires Aligned(items, dets, tables) && i <= |items|
  {
    if i == 0 then DatasetScore(0.0, 0, 0, 0, [])
    else
      var prev := DatasetUpTo(items, dets, tables, rule, i - 1);
      var o := ImageOutcome(items[i - 1], dets[i - 1], tables[i - 1], rule);
      DatasetScore(prev.score + o.score, prev.matched + |o.distances|, prev.missing + o.missing,
                   prev.falsePos + o.falsePos, prev.distances + o.distances)
  }

  function DatasetSpec(items: seq<DatasetItem>, dets: seq<Detection>, tables: seq<seq<seq<real>>>, rule: Prune): DatasetScore
    requires Aligned(items, dets, tables)
  {
    DatasetUpTo(items, dets, tables, rule, |items|)
  }

  method EvaluateDataset(items: seq<DatasetItem>, dets: seq<Detection>, tables: seq<seq<seq<real>>>, rule: Prune)
    returns (r: DatasetScore)
    requires Aligned(items, dets, tables)
    ensures r == DatasetSpec(items, dets, tables, rule)
  {
    r := DatasetScore(0.0, 0, 0, 0, []);
    var i := 0;
    while i < |items|
      invariant 0 <= i <= |items|
      invariant r == DatasetUpTo(items, dets, tables, rule, i)
    {
      var item, det := items[i], dets[i];
      var o: Outcome;
      if det.error != "" {
        o := Outcome(MissingPenaltyPx * |item.gtPins| as real, [], |item.gtPins|, 0);
      } else {
        o := EvaluateOne(det.predictions, item.gtPins, tables[i], rule);
      }
      r := DatasetScore(r.score + o.score, r.matched + |o.distances|, r.missing + o.missing,
                        r.falsePos + o.falsePos, r.distances + o.distances);
      i := i + 1;
    }
  }

  /**
   * The dataset score is the sum of the per-image scores, and it decomposes into
   * distances + 300 * missing + 80 * false positives - 40 * matched over the whole set.
   */
  lemma DatasetScoreDecomposes(items: seq<DatasetItem>, dets: seq<Detection>,
                               tables: seq<seq<seq<real>>>, rule: Prune)
    requires Aligned(items, dets, tables)
    ensures var r := DatasetSpec(items, dets, tables, rule);
      r.matched == |r.distances| &&
      r.score == SumReals(r.distances) + MissingPenaltyPx * r.missing as real
                 + FalsePosPenaltyPx * r.falsePos as real - MatchRewardPx * r.matched as real
  {
    DecomposesUpTo(items, dets, tables, rule, |items|);
  }

  lemma {:induction false} DecomposesUpTo(items: seq<DatasetItem>, dets: seq<Detection>,
                                          tables: seq<seq<seq<real>>>, rule: Prune, i: nat)
    requires Aligned(items, dets, tables) && i <= |items|
    ensures var r := DatasetUpTo(items, dets, tables, rule, i);
      r.matched == |r.distances| &&
      r.score == SumReals(r.distances) + MissingPenaltyPx * r.missing as real
                 + FalsePosPenaltyPx * r.falsePos as real - MatchRewardPx * r.matched as real
  {
    if i > 0 {
      DecomposesUpTo(items, dets, tables, rule, i - 1);
      var prev := DatasetUpTo(items, dets, tables, rule, i - 1);
      var o := ImageOutcome(items[i - 1], dets[i - 1], tables[i - 1], rule);
      if dets[i - 1].error == "" {
        EvaluateOneIsAssignmentScore(tables[i - 1], |dets[i - 1].predictions|, rule);
      }
      SumAppend(prev.distances, o.distances);
    }
  }

  lemma {:induction false} SumAppend(a: seq<real>, b: seq<real>)
    ensures SumReals(a + b) == SumReals(a) + SumReals(b)
    decreases |b|
  {
    if b != [] {
      var b' := b[..|b| - 1];
      assert (a + b)[..|a + b| - 1] == a + b';
      SumAppend(a, b');
    } else {
      assert a + b == a;
    }
  }
}

=== FILE: pin_neighbours.dfy ===
/**
 * The neighbourhoods of the pin trainer's coordinate descent (SmartTrainer):
 * for one family of parameters, the candidates one step away from the
 * current best, kept in range, made area-consistent and deduplicated.
 */
module PinNeighbours {
  import opened Common
  import opened PinParams
  import PinSampler
  import opened PinSteps

  // ------------------------------------------------------------------
  // Area consistency

  /**
   * FixAreaConsistency: clamp both area ratios, then raise the maximum to
   * 1.7 times the minimum when it is below that.
   */
  function FixAreaConsistency(p: ParameterSet): (r: ParameterSet)
    ensures AreaConsistent(r)
    ensures r == p.(minAreaRatio := r.minAreaRatio, maxAreaRatio := r.maxAreaRatio)
    ensures 1.0 / 1000000.0 <= p.minAreaRatio <= 2.0 / 100.0 ==> r.minAreaRatio == p.minAreaRatio
    ensures 5.0 / 10000.0 <= p.maxAreaRatio <= 5.0 / 100.0 ==> r.maxAreaRatio >= p.maxAreaRatio
    ensures AreaConsistent(p) ==> r == p
  {
    var mn := ClampReal(p.minAreaRatio, 1.0 / 1000000.0, 2.0 / 100.0);
    var mx := ClampReal(p.maxAreaRatio, 5.0 / 10000.0, 5.0 / 100.0);
    p.(minAreaRatio := mn,
       maxAreaRatio := if mx < mn * (17.0 / 10.0) then MaxReal(mx, mn * (17.0 / 10.0)) else mx)
  }

  // ------------------------------------------------------------------
  // Families of parameters and what a neighbour is

  /** The families the trainer moves one at a time, in the order of one pass. */
  datatype Family =
    | ScaleBlur | OpenClose | ErodeDilate | Area | Color(index: int)
    | Nms | Aspect | TplScore | TplWeight | TplBuildFrac | CloseGate

  const FamilyOrder: seq<Family> :=
    [ScaleBlur, OpenClose, ErodeDilate, Area, Color(0), Color(1), Color(2), Color(3),
     Nms, Aspect, TplScore, TplWeight, TplBuildFrac, CloseGate]

  /** `p` with the fields of `fam` blanked: two sets agree outside `fam` iff their masks are equal. */
  function Mask(p: ParameterSet, fam: Family): ParameterSet
  {
    match fam
    case ScaleBlur => p.(scale := 0.0, blur := 0)
    case OpenClose => p.(openSize := 0, closeSize := 0)
    case ErodeDilate => p.(erodeIterations := 0, dilateIterations := 0)
    case Area => p.(minAreaRatio := 0.0, maxAreaRatio := 0.0)
    case Color(i) =>
      if 0 <= i < |p.colors|
      then p.(colors := p.colors[i := p.colors[i].(hueTol := 0, satMin := 0, valMin := 0)])
      else p
    case Nms => p.(nmsRadius := 0.0)
    case Aspect => p.(aspectMin := 0.0)
    case TplScore => p.(tplMinScore := 0.0)
    case TplWeight => p.(tplEdgeWeight := 0.0)
    case TplBuildFrac => p.(templateBuildFillFrac := 0.0, templateBuildEdgeFrac := 0.0)
    case CloseGate => p.(closeIfComponentsLE := 0)
  }

  /** A neighbour stays in range, differs from its parent only in `fam`, and does differ. */
  predicate IsNeighbour(p: ParameterSet, c: ParameterSet, fam: Family)
  {
    InRange(c) && Mask(c, fam) == Mask(p, fam) && c != p
  }

  predicate AllNeighbours(p: ParameterSet, s: seq<ParameterSet>, fam: Family)
  {
    forall k :: 0 <= k < |s| ==> IsNeighbour(p, s[k], fam)
  }

  // ------------------------------------------------------------------
  // Dedup

  /**
   * Which fields the dedup key spells out.  PartialKey is the key as written:
   * scale, blur, morphology, iterations, the two area ratios and the colours,
   * but none of the seven template/NMS/aspect/gate fields.  FullKey adds them.
   */
  datatype KeyRule = PartialKey | FullKey

  datatype DedupKey = DedupKey(
    scale: int, blur: int, openSize: int, closeSize: int, erode: int, dilate: int,
    minArea: int, maxArea: int, colors: seq<ColorParams>, rest: seq<real>, closeGate: int)

  /** Number formatting with a fixed count of decimals: nearest, a tie away from zero. */
  function RoundAway(x: real): (r: int)
    ensures AbsReal(r as real - x) <= 1.0 / 2.0
  {
    if x >= 0.0 then (x + 1.0 / 2.0).Floor else -((-x + 1.0 / 2.0).Floor)
  }

  /** The key string of Dedup, as the values it is made of ("0.000" scale, "0.######" areas). */
  function KeyOf(c: ParameterSet, rule: KeyRule): DedupKey
  {
    DedupKey(RoundAway(c.scale * 1000.0), c.blur, c.openSize, c.closeSize, c.erodeIterations,
             c.dilateIterations, RoundAway(c.minAreaRatio * 1000000.0),
             RoundAway(c.maxAreaRatio * 1000000.0), c.colors,
             if rule == FullKey
             then [c.nmsRadius, c.aspectMin, c.tplMinScore, c.tplEdgeWeight,
                   c.templateBuildFillFrac, c.templateBuildEdgeFrac]
             else [],
             if rule == FullKey then c.closeIfComponentsLE else 0)
  }

  /** The keys of list[..n]. */
  function KeysUpTo<T(==), K(==)>(list: seq<T>, key: T -> K, n: nat): set<K>
    requires n <= |list|
  {
    if n == 0 then {} else KeysUpTo(list, key, n - 1) + {key(list[n - 1])}
  }

  /** Dedup of list[..n]: an element is kept when no earlier element has its key. */
  function DedupUpTo<T(==), K(==)>(list: seq<T>, key: T -> K, n: nat): seq<T>
    requires n <= |list|
  {
    if n == 0 then []
    else if key(list[n - 1]) in KeysUpTo(list, key, n - 1) then DedupUpTo(list, key, n - 1)
    else DedupUpTo(list, key, n - 1) + [list[n - 1]]
  }

  /** The keys collected so far are exactly the keys of list[..n]. */
  lemma {:induction false} KeysUpToAre<T, K>(list: seq<T>, key: T -> K, n: nat)
    requires n <= |list|
    ensures forall i :: 0 <= i < n ==> key(list[i]) in KeysUpTo(list, key, n)
    ensures forall x :: x in KeysUpTo(list, key, n) ==> exists i :: 0 <= i < n && key(list[i]) == x
  {
    if n > 0 {
      KeysUpToAre(list, key, n - 1);
    }
  }

  /** Dedup keeps only elements of the list. */
  lemma {:induction false} DedupFromList<T, K>(list: seq<T>, key: T -> K, n: nat)
    requires n <= |list|
    ensures |DedupUpTo(list, key, n)| <= n
    ensures forall k :: 0 <= k < |DedupUpTo(list, key, n)| ==>
      exists i :: 0 <= i < n && DedupUpTo(list, key, n)[k] == list[i]
  {
    if n > 0 {
      DedupFromList(list, key, n - 1);
      var d, d' := DedupUpTo(list, key, n - 1), DedupUpTo(list, key, n);
      forall k | 0 <= k < |d'|
        ensures exists i :: 0 <= i < n && d'[k] == list[i]
      {
        if k < |d| {
          var i :| 0 <= i < n - 1 && d[k] == list[i];
          assert d'[k] == list[i];
        } else {
          assert d'[k] == list[n - 1];
        }
      }
    } else {
      assert DedupUpTo(list, key, n) == [];
    }
  }

  /** Dedup never keeps two elements with the same key. */
  lemma {:induction false} DedupDistinct<T, K>(list: seq<T>, key: T -> K, n: nat)
    requires n <= |list|
    ensures forall a, b :: 0 <= a < b < |DedupUpTo(list, key, n)| ==>
      key(DedupUpTo(list, key, n)[a]) != key(DedupUpTo(list, key, n)[b])
  {
    if n == 0 {
      assert DedupUpTo(list, key, n) == [];
    } else if key(list[n - 1]) in KeysUpTo(list, key, n - 1) {
      DedupDistinct(list, key, n - 1);
      assert DedupUpTo(list, key, n) == DedupUpTo(list, key, n - 1);
    } else {
      DedupDistinct(list, key, n - 1);
      DedupFromList(list, key, n - 1);
      KeysUpToAre(list, key, n - 1);
      var d, d' := DedupUpTo(list, key, n - 1), DedupUpTo(list, key, n);
      assert d' == d + [list[n - 1]];
      forall a, b | 0 <= a < b < |d'|
        ensures key(d'[a]) != key(d'[b])
      {
        if b == |d| {
          var i :| 0 <= i < n - 1 && d[a] == list[i];
          assert key(list[i]) in KeysUpTo(list, key, n - 1);
        }
      }
    }
  }

  /** Every key of the list is represented in Dedup. */
  lemma {:induction false} DedupCovers<T, K>(list: seq<T>, key: T -> K, n: nat)
    requires n <= |list|
    ensures forall i :: 0 <= i < n ==>
      exists k :: 0 <= k < |DedupUpTo(list, key, n)| && key(DedupUpTo(list, key, n)[k]) == key(list[i])
  {
    if n > 0 {
      DedupCovers(list, key, n - 1);
      var d, d' := DedupUpTo(list, key, n - 1), DedupUpTo(list, key, n);
      var x := list[n - 1];
      if key(x) in KeysUpTo(list, key, n - 1) {
        assert d' == d;
        KeysUpToAre(list, key, n - 1);
        var j :| 0 <= j < n - 1 && key(list[j]) == key(x);
        var k :| 0 <= k < |d| && key(d[k]) == key(list[j]);
        forall i | 0 <= i < n
          ensures exists k :: 0 <= k < |d'| && key(d'[k]) == key(list[i])
        {
          if i == n - 1 {
            assert 0 <= k < |d'| && key(d'[k]) == key(list[i]);
          } else {
            var k' :| 0 <= k' < |d| && key(d[k']) == key(list[i]);
            assert 0 <= k' < |d'| && key(d'[k']) == key(list[i]);
          }
        }
        assert d' == DedupUpTo(list, key, n);
      } else {
        assert d' == d + [x];
        forall i | 0 <= i < n
          ensures exists k :: 0 <= k < |d'| && key(d'[k]) == key(list[i])
        {
          if i < n - 1 {
            var k :| 0 <= k < |d| && key(d[k]) == key(list[i]);
            assert d'[k] == d[k];
          } else {
            assert 0 <= |d| < |d'| && key(d'[|d|]) == key(list[i]);
          }
        }
        assert d' == DedupUpTo(list, key, n);
      }
    }
  }

  /** The first element of the list with a given key is the one Dedup keeps. */
  lemma {:induction false} DedupKeepsFirst<T, K>(list: seq<T>, key: T -> K, n: nat)
    requires n <= |list|
    ensures forall i :: 0 <= i < n && key(list[i]) !in KeysUpTo(list, key, i) ==>
      list[i] in DedupUpTo(list, key, n)
  {
    if n > 0 {
      DedupKeepsFirst(list, key, n - 1);
      var d, d' := DedupUpTo(list, key, n - 1), DedupUpTo(list, key, n);
      if key(list[n - 1]) in KeysUpTo(list, key, n - 1) {
        assert d' == d;
      } else {
        assert d' == d + [list[n - 1]];
        forall i | 0 <= i < n - 1 && list[i] in d
          ensures list[i] in d'
        {
          var k :| 0 <= k < |d| && d[k] == list[i];
          assert d'[k] == list[i];
        }
        assert d'[|d|] == list[n - 1];
      }
    }
  }

  /** When every candidate has the same key, Dedup keeps the first one only. */
  lemma {:induction false} OneKeyKeepsFirst<T, K>(list: seq<T>, key: T -> K, n: nat)
    requires n <= |list|
    requires forall i :: 0 <= i < |list| ==> key(list[i]) == key(list[0])
    ensures DedupUpTo(list, key, n) == if n == 0 then [] else [list[0]]
  {
    if n == 0 {
      assert DedupUpTo(list, key, n) == [];
    } else if n == 1 {
      assert KeysUpTo(list, key, 0) == {};
    } else {
      OneKeyKeepsFirst(list, key, n - 1);
      KeysUpToAre(list, key, n - 1);
      assert key(list[n - 1]) == key(list[0]);
    }
  }

  /** When the candidates' keys are pairwise different, Dedup keeps all of them, in order. */
  lemma {:induction false} DistinctKeysKeepAll<T, K>(list: seq<T>, key: T -> K, n: nat)
    requires n <= |list|
    requires forall i, j :: 0 <= i < j < |list| ==> key(list[i]) != key(list[j])
    ensures DedupUpTo(list, key, n) == list[..n]
  {
    if n > 0 {
      DistinctKeysKeepAll(list, key, n - 1);
      KeysUpToAre(list, key, n - 1);
      assert list[..n] == list[..n - 1] + [list[n - 1]];
    } else {
      assert DedupUpTo(list, key, n) == [];
    }
  }

  /** The dedup key under a rule, as a function value. */
  function KeyFn(rule: KeyRule): ParameterSet -> DedupKey
  {
    c => KeyOf(c, rule)
  }

  /** No two candidates share a key. */
  predicate DistinctKeys(s: seq<ParameterSet>, rule: KeyRule)
  {
    forall a, b :: 0 <= a < b < |s| ==> KeyOf(s[a], rule) != KeyOf(s[b], rule)
  }

  /** Two candidates with different keys are both kept. */
  lemma KeepBoth<T, K>(list: seq<T>, key: T -> K)
    requires |list| <= 2
    requires |list| == 2 ==> key(list[0]) != key(list[1])
    ensures DedupUpTo(list, key, |list|) == list
  {
    DistinctKeysKeepAll(list, key, |list|);
    assert list[..|list|] == list;
  }

  /** Dedup: keep the first candidate of every key, in order. */
  method Dedup(list: seq<ParameterSet>, rule: KeyRule) returns (r: seq<ParameterSet>)
    ensures r == DedupUpTo(list, KeyFn(rule), |list|)
    ensures DistinctKeys(r, rule) && |r| <= |list|
    ensures forall k :: 0 <= k < |r| ==> r[k] in list
  {
    var seen: set<DedupKey> := {};
    r := [];
    for i := 0 to |list|
      invariant seen == KeysUpTo(list, KeyFn(rule), i) && r == DedupUpTo(list, KeyFn(rule), i)
    {
      var key := KeyOf(list[i], rule);
      if key !in seen {
        seen := seen + {key};
        r := r + [list[i]];
      }
    }
    DedupFromList(list, KeyFn(rule), |list|);
    DedupDistinct(list, KeyFn(rule), |list|);
  }

  // ------------------------------------------------------------------
  // Moves that stay inside one family

  /** `c` is in range and agrees with `p` outside `fam`. */
  predicate SameOutside(p: ParameterSet, c: ParameterSet, fam: Family)
  {
    InRange(c) && Mask(c, fam) == Mask(p, fam)
  }

  /** Candidates drawn from a list of neighbours are neighbours. */
  lemma NeighboursKept(p: ParameterSet, list: seq<ParameterSet>, r: seq<ParameterSet>, fam: Family)
    requires AllNeighbours(p, list, fam)
    requires forall k :: 0 <= k < |r| ==> r[k] in list
    ensures AllNeighbours(p, r, fam)
  {
    forall k | 0 <= k < |r|
      ensures IsNeighbour(p, r[k], fam)
    {
      var i :| 0 <= i < |list| && list[i] == r[k];
    }
  }

  /** Appending a neighbour keeps a list of neighbours. */
  lemma AddNeighbour(p: ParameterSet, list: seq<ParameterSet>, c: ParameterSet, fam: Family)
    requires AllNeighbours(p, list, fam) && IsNeighbour(p, c, fam)
    ensures AllNeighbours(p, list + [c], fam)
  {
  }

  /** A set already in range is left alone by FixAreaConsistency. */
  lemma FixKeepsInRange(c: ParameterSet)
    requires InRange(c)
    ensures FixAreaConsistency(c) == c
  {
  }

  lemma MoveScaleBlur(p: ParameterSet, scale: real, blur: int)
    requires InRange(p) && 1.0 / 2.0 <= scale <= 3.0 && 1 <= blur <= 11
    ensures FixAreaConsistency(p.(scale := scale, blur := blur)) == p.(scale := scale, blur := blur)
    ensures SameOutside(p, p.(scale := scale, blur := blur), ScaleBlur)
  {
    FixKeepsInRange(p.(scale := scale, blur := blur));
  }

  lemma MoveOpenClose(p: ParameterSet, openSize: int, closeSize: int)
    requires InRange(p) && 1 <= openSize <= 15 && 1 <= closeSize <= 15
    ensures FixAreaConsistency(p.(openSize := openSize, closeSize := closeSize))
      == p.(openSize := openSize, closeSize := closeSize)
    ensures SameOutside(p, p.(openSize := openSize, closeSize := closeSize), OpenClose)
  {
    FixKeepsInRange(p.(openSize := openSize, closeSize := closeSize));
  }

  lemma MoveErodeDilate(p: ParameterSet, erode: int, dilate: int)
    requires InRange(p) && 0 <= erode <= 4 && 0 <= dilate <= 4
    ensures FixAreaConsistency(p.(erodeIterations := erode, dilateIterations := dilate))
      == p.(erodeIterations := erode, dilateIterations := dilate)
    ensures SameOutside(p, p.(erodeIterations := erode, dilateIterations := dilate), ErodeDilate)
  {
    FixKeepsInRange(p.(erodeIterations := erode, dilateIterations := dilate));
  }

  /** Whatever the two area ratios, FixAreaConsistency brings the set back in range. */
  lemma MoveArea(p: ParameterSet, q: ParameterSet)
    requires InRange(p)
    requires q == p.(minAreaRatio := q.minAreaRatio, maxAreaRatio := q.maxAreaRatio)
    ensures SameOutside(p, FixAreaConsistency(q), Area)
  {
  }

  lemma MoveColor(p: ParameterSet, idx: int, cp: ColorParams)
    requires InRange(p) && 0 <= idx < |p.colors|
    requires ColorInRange(cp) && cp.hueCenter == p.colors[idx].hueCenter
    ensures FixAreaConsistency(p.(colors := p.colors[idx := cp])) == p.(colors := p.colors[idx := cp])
    ensures SameOutside(p, p.(colors := p.colors[idx := cp]), Color(idx))
  {
    var c := p.(colors := p.colors[idx := cp]);
    assert forall i :: 0 <= i < |c.colors| ==> ColorInRange(c.colors[i]);
    FixKeepsInRange(c);
  }

  lemma MoveCloseGate(p: ParameterSet, gate: int)
    requires InRange(p) && 0 <= gate <= 2
    ensures FixAreaConsistency(p.(closeIfComponentsLE := gate)) == p.(closeIfComponentsLE := gate)
    ensures SameOutside(p, p.(closeIfComponentsLE := gate), CloseGate)
  {
    FixKeepsInRange(p.(closeIfComponentsLE := gate));
  }

  // ------------------------------------------------------------------
  // The real-valued fields moved one at a time

  /** The six real fields the later families move by an additive step. */
  datatype RealField =
    | NmsRadius | AspectMin | TplMinScore | TplEdgeWeight | BuildFillFrac | BuildEdgeFrac

  function Get(p: ParameterSet, f: RealField): real
  {
    match f
    case NmsRadius => p.nmsRadius
    case AspectMin => p.aspectMin
    case TplMinScore => p.tplMinScore
    case TplEdgeWeight => p.tplEdgeWeight
    case BuildFillFrac => p.templateBuildFillFrac
    case BuildEdgeFrac => p.templateBuildEdgeFrac
  }

  function With(p: ParameterSet, f: RealField, v: real): (c: ParameterSet)
    ensures Get(c, f) == v
  {
    match f
    case NmsRadius => p.(nmsRadius := v)
    case AspectMin => p.(aspectMin := v)
    case TplMinScore => p.(tplMinScore := v)
    case TplEdgeWeight => p.(tplEdgeWeight := v)
    case BuildFillFrac => p.(templateBuildFillFrac := v)
    case BuildEdgeFrac => p.(templateBuildEdgeFrac := v)
  }

  /** The bounds the trainer clamps each field to. */
  function Lo(f: RealField): real
  {
    match f
    case NmsRadius => 8.0
    case AspectMin => 9.0 / 10.0
    case TplMinScore => 0.0
    case TplEdgeWeight => 0.0
    case BuildFillFrac => 3.0 / 10.0
    case BuildEdgeFrac => 3.0 / 10.0
  }

  function Hi(f: RealField): (h: real)
    ensures Lo(f) < h
  {
    match f
    case NmsRadius => 50.0
    case AspectMin => 16.0 / 10.0
    case TplMinScore => 1.0
    case TplEdgeWeight => 1.0
    case BuildFillFrac => 8.0 / 10.0
    case BuildEdgeFrac => 8.0 / 10.0
  }

  function FamilyOf(f: RealField): Family
  {
    match f
    case NmsRadius => Nms
    case AspectMin => Aspect
    case TplMinScore => TplScore
    case TplEdgeWeight => TplWeight
    case BuildFillFrac => TplBuildFrac
    case BuildEdgeFrac => TplBuildFrac
  }

  /** The field's value after a move by `d`, clamped. */
  function Moved(p: ParameterSet, f: RealField, d: real): (v: real)
    ensures Lo(f) <= v <= Hi(f)
  {
    ClampReal(Get(p, f) + d, Lo(f), Hi(f))
  }

  /** A move counts when it changes the field by more than 1e-9. */
  predicate Moves(p: ParameterSet, f: RealField, d: real)
  {
    AbsReal(Moved(p, f, d) - Get(p, f)) > 1.0 / 1000000000.0
  }

  /** The candidate a move by `d` makes. */
  function Shifted(p: ParameterSet, f: RealField, d: real): ParameterSet
  {
    FixAreaConsistency(With(p, f, Moved(p, f, d)))
  }

  lemma MoveField(p: ParameterSet, f: RealField, v: real)
    requires InRange(p) && Lo(f) <= v <= Hi(f)
    ensures FixAreaConsistency(With(p, f, v)) == With(p, f, v)
    ensures SameOutside(p, With(p, f, v), FamilyOf(f))
  {
    FixKeepsInRange(With(p, f, v));
  }

  /** Whatever the field and the move, the as-written key of the candidate is that of `p`, made consistent. */
  lemma ShiftedPartialKey(p: ParameterSet, f: RealField, d: real)
    ensures KeyOf(Shifted(p, f, d), PartialKey) == KeyOf(FixAreaConsistency(p), PartialKey)
  {
  }

  /** A move that moves is a neighbour of an in-range set. */
  lemma ShiftedNeighbour(p: ParameterSet, f: RealField, d: real)
    requires InRange(p) && Moves(p, f, d)
    ensures IsNeighbour(p, Shifted(p, f, d), FamilyOf(f))
  {
    MoveField(p, f, Moved(p, f, d));
    assert Get(Shifted(p, f, d), f) != Get(p, f);
  }

  /** The full key tells two candidates apart by any of the six fields. */
  lemma FullKeySeparates(c: ParameterSet, c': ParameterSet, f: RealField)
    requires Get(c, f) != Get(c', f)
    ensures KeyOf(c, FullKey) != KeyOf(c', FullKey)
  {
    var r, r' := KeyOf(c, FullKey).rest, KeyOf(c', FullKey).rest;
    match f
    case NmsRadius => assert r[0] != r'[0];
    case AspectMin => assert r[1] != r'[1];
    case TplMinScore => assert r[2] != r'[2];
    case TplEdgeWeight => assert r[3] != r'[3];
    case BuildFillFrac => assert r[4] != r'[4];
    case BuildEdgeFrac => assert r[5] != r'[5];
  }

  // ------------------------------------------------------------------
  // The builders

  const BlurGrid: seq<int> := [1, 3, 5, 7]

  /** Array.IndexOf: the first position of `x`, or -1. */
  function IndexOf(s: seq<int>, x: int): (i: int)
    ensures -1 <= i < |s|
    ensures i >= 0 ==> s[i] == x && x !in s[..i]
    ensures i == -1 <==> x !in s
  {
    if s == [] then -1
    else if s[0] == x then 0
    else
      var j := IndexOf(s[1..], x);
      assert s == [s[0]] + s[1..];
      if j == -1 then -1 else j + 1
  }

  /** The blur values next to `blur` on the grid; none when `blur` is off the grid. */
  function BlurOptions(blur: int): (r: seq<int>)
    ensures |r| <= 2
    ensures forall k :: 0 <= k < |r| ==> r[k] in BlurGrid && (r[k] == blur - 2 || r[k] == blur + 2)
    ensures blur in BlurGrid <==> |r| >= 1
  {
    var idx := IndexOf(BlurGrid, blur);
    (if idx > 0 then [BlurGrid[idx - 1]] else [])
    + (if 0 <= idx < |BlurGrid| - 1 then [BlurGrid[idx + 1]] else [])
  }

  /** 1 / x, for the downward move of a multiplicative step. */
  function Inverse(x: real): (r: real)
    requires x > 0.0
    ensures r > 0.0 && r * x == 1.0
  {
    1.0 / x
  }

  /** ClampExp: scale by `mul`, then clamp. */
  function ClampExp(v: real, mul: real, lo: real, hi: real): (r: real)
    requires lo <= hi
    ensures lo <= r <= hi
  {
    ClampReal(v * mul, lo, hi)
  }

  /**
   * BuildScaleBlurNeighbors: the scale divided and multiplied by the scale
   * step, each with the current blur and with every neighbouring blur, then
   * every neighbouring blur alone.
   */
  method BuildScaleBlurNeighbours(p: ParameterSet, st: StepSizes, rule: KeyRule)
    returns (r: seq<ParameterSet>)
    requires StepsValid(st)
    ensures InRange(p) ==> AllNeighbours(p, r, ScaleBlur)
    ensures DistinctKeys(r, rule) && |r| <= 8
  {
    var opts := BlurOptions(p.blur);
    var muls := [Inverse(st.scaleMul), st.scaleMul];
    var list: seq<ParameterSet> := [];
    for m := 0 to 2
      invariant |list| <= 3 * m
      invariant InRange(p) ==> AllNeighbours(p, list, ScaleBlur)
    {
      var c := FixAreaConsistency(p.(scale := ClampExp(p.scale, muls[m], 1.0 / 2.0, 3.0)));
      if AbsReal(c.scale - p.scale) > 1.0 / 1000000.0 {
        if InRange(p) {
          MoveScaleBlur(p, c.scale, p.blur);
          AddNeighbour(p, list, c, ScaleBlur);
        }
        list := list + [c];
      }
      for k := 0 to |opts|
        invariant |list| <= 3 * m + 1 + k
        invariant InRange(p) ==> AllNeighbours(p, list, ScaleBlur)
      {
        var cb := FixAreaConsistency(p.(scale := c.scale, blur := opts[k]));
        if cb.blur != p.blur || AbsReal(cb.scale - p.scale) > 1.0 / 1000000.0 {
          if InRange(p) {
            MoveScaleBlur(p, c.scale, opts[k]);
            AddNeighbour(p, list, cb, ScaleBlur);
          }
          list := list + [cb];
        }
      }
    }
    for k := 0 to |opts|
      invariant |list| <= 6 + k
      invariant InRange(p) ==> AllNeighbours(p, list, ScaleBlur)
    {
      var c := FixAreaConsistency(p.(blur := opts[k]));
      if c.blur != p.blur {
        if InRange(p) {
          MoveScaleBlur(p, p.scale, opts[k]);
          AddNeighbour(p, list, c, ScaleBlur);
        }
        list := list + [c];
      }
    }
    r := Dedup(list, rule);
    if InRange(p) {
      NeighboursKept(p, list, r, ScaleBlur);
    }
  }

  /** BuildOpenCloseNeighbors: both sizes moved by the morphology step, kept odd in [1,15]. */
  method BuildOpenCloseNeighbours(p: ParameterSet, st: StepSizes, rule: KeyRule)
    returns (r: seq<ParameterSet>)
    ensures InRange(p) ==> AllNeighbours(p, r, OpenClose)
    ensures DistinctKeys(r, rule) && |r| <= 4
  {
    var deltas := [st.morphStep, -st.morphStep];
    var list: seq<ParameterSet> := [];
    for i := 0 to 2
      invariant |list| <= 2 * i
      invariant InRange(p) ==> AllNeighbours(p, list, OpenClose)
    {
      for j := 0 to 2
        invariant |list| <= 2 * i + j
        invariant InRange(p) ==> AllNeighbours(p, list, OpenClose)
      {
        var openSize := PinSampler.OddClamp(p.openSize + deltas[i], 1, 15);
        var closeSize := PinSampler.OddClamp(p.closeSize + deltas[j], 1, 15);
        if openSize != p.openSize || closeSize != p.closeSize {
          var c := FixAreaConsistency(p.(openSize := openSize, closeSize := closeSize));
          if InRange(p) {
            MoveOpenClose(p, openSize, closeSize);
            AddNeighbour(p, list, c, OpenClose);
          }
          list := list + [c];
        }
      }
    }
    r := Dedup(list, rule);
    if InRange(p) {
      NeighboursKept(p, list, r, OpenClose);
    }
  }

  /** BuildErodeDilateNeighbors: erode alone, dilate alone, then both, by the step, in [0,4]. */
  method BuildErodeDilateNeighbours(p: ParameterSet, st: StepSizes, rule: KeyRule)
    returns (r: seq<ParameterSet>)
    ensures InRange(p) ==> AllNeighbours(p, r, ErodeDilate)
    ensures DistinctKeys(r, rule) && |r| <= 8
  {
    var deltas := [st.edStep, -st.edStep];
    var list: seq<ParameterSet> := [];
    for i := 0 to 2
      invariant |list| <= i
      invariant InRange(p) ==> AllNeighbours(p, list, ErodeDilate)
    {
      var erode := ClampInt(p.erodeIterations + deltas[i], 0, 4);
      if erode != p.erodeIterations {
        var c := FixAreaConsistency(p.(erodeIterations := erode));
        if InRange(p) {
          MoveErodeDilate(p, erode, p.dilateIterations);
          AddNeighbour(p, list, c, ErodeDilate);
        }
        list := list + [c];
      }
    }
    for i := 0 to 2
      invariant |list| <= 2 + i
      invariant InRange(p) ==> AllNeighbours(p, list, ErodeDilate)
    {
      var dilate := ClampInt(p.dilateIterations + deltas[i], 0, 4);
      if dilate != p.dilateIterations {
        var c := FixAreaConsistency(p.(dilateIterations := dilate));
        if InRange(p) {
          MoveErodeDilate(p, p.erodeIterations, dilate);
          AddNeighbour(p, list, c, ErodeDilate);
        }
        list := list + [c];
      }
    }
    for i := 0 to 2
      invariant |list| <= 4 + 2 * i
      invariant InRange(p) ==> AllNeighbours(p, list, ErodeDilate)
    {
      for j := 0 to 2
        invariant |list| <= 4 + 2 * i + j
        invariant InRange(p) ==> AllNeighbours(p, list, ErodeDilate)
      {
        var erode := ClampInt(p.erodeIterations + deltas[i], 0, 4);
        var dilate := ClampInt(p.dilateIterations + deltas[j], 0, 4);
        if erode != p.erodeIterations || dilate != p.dilateIterations {
          var c := FixAreaConsistency(p.(erodeIterations := erode, dilateIterations := dilate));
          if InRange(p) {
            MoveErodeDilate(p, erode, dilate);
            AddNeighbour(p, list, c, ErodeDilate);
          }
          list := list + [c];
        }
      }
    }
    r := Dedup(list, rule);
    if InRange(p) {
      NeighboursKept(p, list, r, ErodeDilate);
    }
  }

  /**
   * BuildAreaNeighbors: the minimum ratio alone, the maximum alone, then both,
   * each divided and multiplied by its step, clamped and made consistent.
   */
  method BuildAreaNeighbours(p: ParameterSet, st: StepSizes, rule: KeyRule)
    returns (r: seq<ParameterSet>)
    requires StepsValid(st)
    ensures InRange(p) ==> AllNeighbours(p, r, Area)
    ensures DistinctKeys(r, rule) && |r| <= 8
  {
    var minMuls := [Inverse(st.minAreaMul), st.minAreaMul];
    var maxMuls := [Inverse(st.maxAreaMul), st.maxAreaMul];
    var list: seq<ParameterSet> := [];
    for i := 0 to 2
      invariant |list| <= i
      invariant InRange(p) ==> AllNeighbours(p, list, Area)
    {
      var q := p.(minAreaRatio := ClampExp(p.minAreaRatio, minMuls[i], 1.0 / 1000000.0, 2.0 / 100.0));
      var c := FixAreaConsistency(q);
      if AbsReal(c.minAreaRatio - p.minAreaRatio) > 1.0 / 1000000000.0 {
        if InRange(p) {
          MoveArea(p, q);
          AddNeighbour(p, list, c, Area);
        }
        list := list + [c];
      }
    }
    for i := 0 to 2
      invariant |list| <= 2 + i
      invariant InRange(p) ==> AllNeighbours(p, list, Area)
    {
      var q := p.(maxAreaRatio := ClampExp(p.maxAreaRatio, maxMuls[i], 5.0 / 10000.0, 5.0 / 100.0));
      var c := FixAreaConsistency(q);
      if AbsReal(c.maxAreaRatio - p.maxAreaRatio) > 1.0 / 1000000000.0 {
        if InRange(p) {
          MoveArea(p, q);
          AddNeighbour(p, list, c, Area);
        }
        list := list + [c];
      }
    }
    for i := 0 to 2
      invariant |list| <= 4 + 2 * i
      invariant InRange(p) ==> AllNeighbours(p, list, Area)
    {
      for j := 0 to 2
        invariant |list| <= 4 + 2 * i + j
        invariant InRange(p) ==> AllNeighbours(p, list, Area)
      {
        var q := p.(minAreaRatio := ClampExp(p.minAreaRatio, minMuls[i], 1.0 / 1000000.0, 2.0 / 100.0),
                    maxAreaRatio := ClampExp(p.maxAreaRatio, maxMuls[j], 5.0 / 10000.0, 5.0 / 100.0));
        var c := FixAreaConsistency(q);
        if AbsReal(c.minAreaRatio - p.minAreaRatio) > 1.0 / 1000000000.0
           || AbsReal(c.maxAreaRatio - p.maxAreaRatio) > 1.0 / 1000000000.0 {
          if InRange(p) {
            MoveArea(p, q);
            AddNeighbour(p, list, c, Area);
          }
          list := list + [c];
        }
      }
    }
    r := Dedup(list, rule);
    if InRange(p) {
      NeighboursKept(p, list, r, Area);
    }
  }

  /**
   * BuildColorNeighbors: the hue tolerance, the saturation floor and the value
   * floor of one colour, each moved up and down by its step.
   */
  method BuildColorNeighbours(p: ParameterSet, st: StepSizes, idx: int, rule: KeyRule)
    returns (r: seq<ParameterSet>)
    requires 0 <= idx < |p.colors|
    ensures InRange(p) ==> AllNeighbours(p, r, Color(idx))
    ensures DistinctKeys(r, rule) && |r| <= 6
  {
    var cp := p.colors[idx];
    var list: seq<ParameterSet> := [];
    var hueDeltas := [st.hueTolStep, -st.hueTolStep];
    for i := 0 to 2
      invariant |list| <= i
      invariant InRange(p) ==> AllNeighbours(p, list, Color(idx))
    {
      var cc := cp.(hueTol := ClampInt(cp.hueTol + hueDeltas[i], 1, 40));
      if cc.hueTol != cp.hueTol {
        AddColorMove(p, idx, cc, list);
        list := list + [FixAreaConsistency(p.(colors := p.colors[idx := cc]))];
      }
    }
    var satDeltas := [st.satStep, -st.satStep];
    for i := 0 to 2
      invariant |list| <= 2 + i
      invariant InRange(p) ==> AllNeighbours(p, list, Color(idx))
    {
      var cc := cp.(satMin := ClampInt(cp.satMin + satDeltas[i], 30, 220));
      if cc.satMin != cp.satMin {
        AddColorMove(p, idx, cc, list);
        list := list + [FixAreaConsistency(p.(colors := p.colors[idx := cc]))];
      }
    }
    var valDeltas := [st.valStep, -st.valStep];
    for i := 0 to 2
      invariant |list| <= 4 + i
      invariant InRange(p) ==> AllNeighbours(p, list, Color(idx))
    {
      var cc := cp.(valMin := ClampInt(cp.valMin + valDeltas[i], 30, 220));
      if cc.valMin != cp.valMin {
        AddColorMove(p, idx, cc, list);
        list := list + [FixAreaConsistency(p.(colors := p.colors[idx := cc]))];
      }
    }
    r := Dedup(list, rule);
    if InRange(p) {
      NeighboursKept(p, list, r, Color(idx));
    }
  }

  /** A colour that changed and stayed in its window is a neighbour in its colour's family. */
  lemma AddColorMove(p: ParameterSet, idx: int, cc: ColorParams, list: seq<ParameterSet>)
    requires 0 <= idx < |p.colors| && cc != p.colors[idx] && cc.hueCenter == p.colors[idx].hueCenter
    requires 1 <= cc.hueTol <= 40 || cc.hueTol == p.colors[idx].hueTol
    requires 30 <= cc.satMin <= 220 || cc.satMin == p.colors[idx].satMin
    requires 30 <= cc.valMin <= 220 || cc.valMin == p.colors[idx].valMin
    ensures InRange(p) && AllNeighbours(p, list, Color(idx)) ==>
      AllNeighbours(p, list + [FixAreaConsistency(p.(colors := p.colors[idx := cc]))], Color(idx))
  {
    if InRange(p) && AllNeighbours(p, list, Color(idx)) {
      assert ColorInRange(p.colors[idx]);
      MoveColor(p, idx, cc);
      var c := p.(colors := p.colors[idx := cc]);
      assert c.colors[idx] != p.colors[idx];
      AddNeighbour(p, list, c, Color(idx));
    }
  }

  /** Get sees through FixAreaConsistency: it only touches the area ratios. */
  lemma FixKeepsField(c: ParameterSet, f: RealField)
    ensures Get(FixAreaConsistency(c), f) == Get(c, f)
  {
  }

  /** The candidates of the moves deltas[..n], in order, each kept when it moves. */
  function MovesUpTo(p: ParameterSet, f: RealField, deltas: seq<real>, n: nat): seq<ParameterSet>
    requires n <= |deltas|
  {
    if n == 0 then []
    else MovesUpTo(p, f, deltas, n - 1)
         + (if Moves(p, f, deltas[n - 1]) then [Shifted(p, f, deltas[n - 1])] else [])
  }

  lemma {:induction false} MovesAreNeighbours(p: ParameterSet, f: RealField, deltas: seq<real>, n: nat)
    requires n <= |deltas| && InRange(p)
    ensures AllNeighbours(p, MovesUpTo(p, f, deltas, n), FamilyOf(f))
  {
    if n > 0 {
      MovesAreNeighbours(p, f, deltas, n - 1);
      var d := deltas[n - 1];
      if Moves(p, f, d) {
        ShiftedNeighbour(p, f, d);
        AddNeighbour(p, MovesUpTo(p, f, deltas, n - 1), Shifted(p, f, d), FamilyOf(f));
      }
    }
  }

  /**
   * BuildNmsNeighbors, BuildAspectNeighbors, BuildTplScoreNeighbors and
   * BuildTplWeightNeighbors: one real field moved up and down by its step.
   */
  method BuildFieldNeighbours(p: ParameterSet, f: RealField, step: real, rule: KeyRule)
    returns (r: seq<ParameterSet>)
    ensures InRange(p) ==> AllNeighbours(p, r, FamilyOf(f))
    ensures DistinctKeys(r, rule) && |r| <= 2
    ensures rule == PartialKey ==> |r| <= 1
    ensures rule == FullKey && InRange(p) ==>
      (Moves(p, f, step) ==> Shifted(p, f, step) in r) && (Moves(p, f, -step) ==> Shifted(p, f, -step) in r)
  {
    var deltas := [step, -step];
    var list: seq<ParameterSet> := [];
    for i := 0 to 2
      invariant list == MovesUpTo(p, f, deltas, i)
    {
      var v := ClampReal(Get(p, f) + deltas[i], Lo(f), Hi(f));
      if AbsReal(v - Get(p, f)) > 1.0 / 1000000000.0 {
        list := list + [FixAreaConsistency(With(p, f, v))];
      }
    }
    r := Dedup(list, rule);
    FieldCandidates(p, f, step, rule);
  }

  /** What the field builder's candidates are, stated on the list it deduplicates. */
  lemma FieldCandidates(p: ParameterSet, f: RealField, step: real, rule: KeyRule)
    ensures var list := MovesUpTo(p, f, [step, -step], 2);
      var d := DedupUpTo(list, KeyFn(rule), |list|);
      (InRange(p) ==> AllNeighbours(p, d, FamilyOf(f)))
      && |d| <= 2
      && (rule == PartialKey ==> |d| <= 1)
      && (rule == FullKey && InRange(p) ==>
            (Moves(p, f, step) ==> Shifted(p, f, step) in d)
            && (Moves(p, f, -step) ==> Shifted(p, f, -step) in d))
  {
    var list := MovesUpTo(p, f, [step, -step], 2);
    var d := DedupUpTo(list, KeyFn(rule), |list|);
    UpDown(p, f, step);
    DedupFromList(list, KeyFn(rule), |list|);
    if InRange(p) {
      MovesAreNeighbours(p, f, [step, -step], 2);
      forall k | 0 <= k < |d|
        ensures d[k] in list
      {
        var i :| 0 <= i < |list| && d[k] == list[i];
      }
      NeighboursKept(p, list, d, FamilyOf(f));
    }
    if rule == PartialKey {
      OnePartialKey(p, f, step);
    } else if InRange(p) {
      TwoFullKeys(p, f, step);
    }
  }

  /**
   * The as-written key loses the down move: when a field sits at least one
   * step inside its bounds, both moves are different candidates, yet Dedup
   * keeps the up move only, so the field can never be lowered.
   */
  lemma DownMoveLost(p: ParameterSet, f: RealField, step: real)
    requires step > 1.0 / 1000000000.0 && Lo(f) + step <= Get(p, f) <= Hi(f) - step
    ensures var list := MovesUpTo(p, f, [step, -step], 2);
      list == [Shifted(p, f, step), Shifted(p, f, -step)]
      && Shifted(p, f, step) != Shifted(p, f, -step)
      && DedupUpTo(list, KeyFn(PartialKey), 2) == [Shifted(p, f, step)]
  {
    var list := MovesUpTo(p, f, [step, -step], 2);
    UpDown(p, f, step);
    FixKeepsField(With(p, f, Moved(p, f, step)), f);
    FixKeepsField(With(p, f, Moved(p, f, -step)), f);
    assert Get(Shifted(p, f, step), f) != Get(Shifted(p, f, -step), f);
    OnePartialKey(p, f, step);
    DedupKeepsFirst(list, KeyFn(PartialKey), 2);
    assert KeysUpTo(list, KeyFn(PartialKey), 0) == {};
  }

  /** The up move, then the down move, each when it moves. */
  lemma UpDown(p: ParameterSet, f: RealField, step: real)
    ensures MovesUpTo(p, f, [step, -step], 2)
      == (if Moves(p, f, step) then [Shifted(p, f, step)] else [])
         + (if Moves(p, f, -step) then [Shifted(p, f, -step)] else [])
  {
    assert MovesUpTo(p, f, [step, -step], 0) == [];
  }

  /** Under the as-written key the up and down moves of one field collide. */
  lemma OnePartialKey(p: ParameterSet, f: RealField, step: real)
    ensures var list := MovesUpTo(p, f, [step, -step], 2);
      |DedupUpTo(list, KeyFn(PartialKey), |list|)| <= 1
  {
    var list := MovesUpTo(p, f, [step, -step], 2);
    UpDown(p, f, step);
    if list != [] {
      forall i | 0 <= i < |list|
        ensures KeyFn(PartialKey)(list[i]) == KeyFn(PartialKey)(list[0])
      {
        ShiftedPartialKey(p, f, step);
        ShiftedPartialKey(p, f, -step);
      }
      OneKeyKeepsFirst(list, KeyFn(PartialKey), |list|);
    }
  }

  /** Under the full key the up and down moves of one field are both kept. */
  lemma TwoFullKeys(p: ParameterSet, f: RealField, step: real)
    requires Lo(f) <= Get(p, f) <= Hi(f)
    ensures var list := MovesUpTo(p, f, [step, -step], 2);
      DedupUpTo(list, KeyFn(FullKey), |list|) == list
    ensures var list := MovesUpTo(p, f, [step, -step], 2);
      var d := DedupUpTo(list, KeyFn(FullKey), |list|);
      (Moves(p, f, step) ==> Shifted(p, f, step) in d) && (Moves(p, f, -step) ==> Shifted(p, f, -step) in d)
  {
    var list := MovesUpTo(p, f, [step, -step], 2);
    var up, down := Shifted(p, f, step), Shifted(p, f, -step);
    UpDown(p, f, step);
    if Moves(p, f, step) && Moves(p, f, -step) {
      FixKeepsField(With(p, f, Moved(p, f, step)), f);
      FixKeepsField(With(p, f, Moved(p, f, -step)), f);
      assert Get(up, f) != Get(down, f);
      FullKeySeparates(up, down, f);
    }
    KeepBoth(list, KeyFn(FullKey));
    if Moves(p, f, -step) {
      assert list[|list| - 1] == down;
    }
  }

  /** When every candidate has the as-written key of `p`, Dedup keeps at most one. */
  lemma OneKeyAtMostOne(p: ParameterSet, list: seq<ParameterSet>)
    requires forall k :: 0 <= k < |list| ==> KeyOf(list[k], PartialKey) == KeyOf(FixAreaConsistency(p), PartialKey)
    ensures |DedupUpTo(list, KeyFn(PartialKey), |list|)| <= 1
  {
    if list != [] {
      OneKeyKeepsFirst(list, KeyFn(PartialKey), |list|);
    }
  }

  /** BuildTplBuildFracNeighbors: for each direction, the fill fraction moved, then the edge fraction. */
  method BuildTplBuildFracNeighbours(p: ParameterSet, st: StepSizes, rule: KeyRule)
    returns (r: seq<ParameterSet>)
    ensures InRange(p) ==> AllNeighbours(p, r, TplBuildFrac)
    ensures DistinctKeys(r, rule) && |r| <= 4
    ensures rule == PartialKey ==> |r| <= 1
  {
    var deltas := [st.tplBuildFracStep, -st.tplBuildFracStep];
    var list: seq<ParameterSet> := [];
    for i := 0 to 2
      invariant |list| <= 2 * i
      invariant InRange(p) ==> AllNeighbours(p, list, TplBuildFrac)
      invariant forall k :: 0 <= k < |list| ==>
        KeyOf(list[k], PartialKey) == KeyOf(FixAreaConsistency(p), PartialKey)
    {
      var fields := [BuildFillFrac, BuildEdgeFrac];
      for j := 0 to 2
        invariant |list| <= 2 * i + j
        invariant InRange(p) ==> AllNeighbours(p, list, TplBuildFrac)
        invariant forall k :: 0 <= k < |list| ==>
          KeyOf(list[k], PartialKey) == KeyOf(FixAreaConsistency(p), PartialKey)
      {
        var f := fields[j];
        if Moves(p, f, deltas[i]) {
          ShiftedPartialKey(p, f, deltas[i]);
          if InRange(p) {
            ShiftedNeighbour(p, f, deltas[i]);
            AddNeighbour(p, list, Shifted(p, f, deltas[i]), TplBuildFrac);
          }
          list := list + [Shifted(p, f, deltas[i])];
        }
      }
    }
    r := Dedup(list, rule);
    if InRange(p) {
      NeighboursKept(p, list, r, TplBuildFrac);
    }
    if rule == PartialKey {
      OneKeyAtMostOne(p, list);
    }
  }

  /** BuildCloseGateNeighbors: the component gate moved up and down by its step, in [0,2]. */
  method BuildCloseGateNeighbours(p: ParameterSet, st: StepSizes, rule: KeyRule)
    returns (r: seq<ParameterSet>)
    ensures InRange(p) ==> AllNeighbours(p, r, CloseGate)
    ensures DistinctKeys(r, rule) && |r| <= 2
    ensures rule == PartialKey ==> |r| <= 1
  {
    var deltas := [st.closeGateStep, -st.closeGateStep];
    var list: seq<ParameterSet> := [];
    for i := 0 to 2
      invariant |list| <= i
      invariant InRange(p) ==> AllNeighbours(p, list, CloseGate)
      invariant forall k :: 0 <= k < |list| ==>
        KeyOf(list[k], PartialKey) == KeyOf(FixAreaConsistency(p), PartialKey)
    {
      var gate := ClampInt(p.closeIfComponentsLE + deltas[i], 0, 2);
      if gate != p.closeIfComponentsLE {
        var c := FixAreaConsistency(p.(closeIfComponentsLE := gate));
        assert KeyOf(c, PartialKey) == KeyOf(FixAreaConsistency(p), PartialKey);
        if InRange(p) {
          MoveCloseGate(p, gate);
          AddNeighbour(p, list, c, CloseGate);
        }
        list := list + [c];
      }
    }
    r := Dedup(list, rule);
    if InRange(p) {
      NeighboursKept(p, list, r, CloseGate);
    }
    if rule == PartialKey {
      OneKeyAtMostOne(p, list);
    }
  }

  /** One family's neighbours; None where the source indexes past the colour list. */
  method BuildNeighbours(p: ParameterSet, st: StepSizes, fam: Family, rule: KeyRule)
    returns (r: Option<seq<ParameterSet>>)
    requires StepsValid(st)
    ensures r.None? <==> fam.Color? && !(0 <= fam.index < |p.colors|)
    ensures r.Some? ==> DistinctKeys(r.value, rule)
    ensures r.Some? && InRange(p) ==> AllNeighbours(p, r.value, fam)
  {
    var list: seq<ParameterSet>;
    match fam {
      case ScaleBlur => list := BuildScaleBlurNeighbours(p, st, rule);
      case OpenClose => list := BuildOpenCloseNeighbours(p, st, rule);
      case ErodeDilate => list := BuildErodeDilateNeighbours(p, st, rule);
      case Area => list := BuildAreaNeighbours(p, st, rule);
      case Color(i) =>
        if !(0 <= i < |p.colors|) {
          return None;
        }
        list := BuildColorNeighbours(p, st, i, rule);
      case Nms => list := BuildFieldNeighbours(p, NmsRadius, st.nmsRadiusStep, rule);
      case Aspect => list := BuildFieldNeighbours(p, AspectMin, st.aspectMinStep, rule);
      case TplScore => list := BuildFieldNeighbours(p, TplMinScore, st.tplMinScoreStep, rule);
      case TplWeight => list := BuildFieldNeighbours(p, TplEdgeWeight, st.tplEdgeWeightStep, rule);
      case TplBuildFrac => list := BuildTplBuildFracNeighbours(p, st, rule);
      case CloseGate => list := BuildCloseGateNeighbours(p, st, rule);
    }
    r := Some(list);
  }
}

=== FILE: pin_params.dfy ===
/**
 * The pin detector's tunable parameters (ParameterSet / ColorParams) and the
 * random mutation the sampler applies to them.  Every mutation in the source
 * works on a fresh Clone(), so the records are values here.
 */
module PinParams {
  import opened Common

  /** One colour's HSV window (OpenCV hue is 0..179). */
  datatype ColorParams = ColorParams(hueCenter: int, hueTol: int, satMin: int, valMin: int)

  datatype ParameterSet = ParameterSet(
    blur: int,
    closeSize: int,
    colors: seq<ColorParams>,
    dilateIterations: int,
    erodeIterations: int,
    maxAreaRatio: real,
    minAreaRatio: real,
    openSize: int,
    scale: real,
    tplMinScore: real,
    aspectMin: real,
    nmsRadius: real,
    tplEdgeWeight: real,
    templateBuildFillFrac: real,
    templateBuildEdgeFrac: real,
    closeIfComponentsLE: int)

  /** The four pin colours Green, Orange, Yellow, Blue index `colors`. */
  const ColorCount := 4

  /** Util.ToOdd: the smallest odd number that is at least max(1, x). */
  function ToOdd(x: int): (r: int)
    ensures r % 2 == 1 && r >= 1 && r >= x
    ensures r <= MaxInt(1, x) + 1
    ensures x >= 1 && x % 2 == 1 ==> r == x
  {
    if x <= 1 then 1 else if x % 2 == 1 then x else x + 1
  }

  /** The ranges the coordinate-descent trainer keeps every candidate in. */
  predicate ColorInRange(c: ColorParams)
  {
    1 <= c.hueTol <= 40 && 30 <= c.satMin <= 220 && 30 <= c.valMin <= 220
  }

  predicate AreaConsistent(p: ParameterSet)
  {
    1.0 / 1000000.0 <= p.minAreaRatio <= 2.0 / 100.0
    && 5.0 / 10000.0 <= p.maxAreaRatio <= 5.0 / 100.0
    && p.maxAreaRatio >= p.minAreaRatio * (17.0 / 10.0)
  }

  predicate InRange(p: ParameterSet)
  {
    |p.colors| == ColorCount
    && (forall i :: 0 <= i < |p.colors| ==> ColorInRange(p.colors[i]))
    && 1.0 / 2.0 <= p.scale <= 3.0
    && 1 <= p.blur <= 11
    && 1 <= p.openSize <= 15 && 1 <= p.closeSize <= 15
    && 0 <= p.erodeIterations <= 4 && 0 <= p.dilateIterations <= 4
    && AreaConsistent(p)
    && 8.0 <= p.nmsRadius <= 50.0
    && 9.0 / 10.0 <= p.aspectMin <= 16.0 / 10.0
    && 0.0 <= p.tplMinScore <= 1.0
    && 0.0 <= p.tplEdgeWeight <= 1.0
    && 3.0 / 10.0 <= p.templateBuildFillFrac <= 8.0 / 10.0
    && 3.0 / 10.0 <= p.templateBuildEdgeFrac <= 8.0 / 10.0
    && 0 <= p.closeIfComponentsLE <= 2
  }
}

/**
 * Sampler.Mutate: every Gaussian draw (and the exp of a draw) is an input,
 * so the lemma-level statement is "whatever the draws, the clamps hold".
 */
module PinSampler {
  import opened Common
  import opened PinParams

  /** The random numbers one Mutate call consumes, in the order it draws them. */
  datatype ColorNoise = ColorNoise(hue: real, sat: real, val: real)
  datatype Noise = Noise(
    scaleFactor: real,   // exp(N(0, 0.07))
    blur: real, open: real, close: real, erode: real, dilate: real,
    minFactor: real,     // exp(N(0, 0.105))
    maxFactor: real,     // exp(N(0, 0.105))
    colors: seq<ColorNoise>,
    tplMin: real, aspect: real, nms: real, tplEdge: real,
    fillFrac: real, edgeFrac: real, closeGate: real)

  /** Sampler.OddClamp: clamp, then round up to odd. */
  function OddClamp(v: int, lo: int, hi: int): (r: int)
    requires 1 <= lo <= hi
    ensures r % 2 == 1 && r >= lo
    ensures hi % 2 == 1 ==> r <= hi
  {
    ToOdd(ClampInt(v, lo, hi))
  }

  function MutateColor(c: ColorParams, n: ColorNoise): (r: ColorParams)
    ensures r.hueCenter == c.hueCenter
    ensures 3 <= r.hueTol <= 40 && 30 <= r.satMin <= 220 && 30 <= r.valMin <= 220
  {
    c.(hueTol := ClampInt(RoundEven(c.hueTol as real + n.hue), 3, 40),
       satMin := ClampInt(RoundEven(c.satMin as real + n.sat), 30, 220),
       valMin := ClampInt(RoundEven(c.valMin as real + n.val), 30, 220))
  }

  function MutateColors(cs: seq<ColorParams>, ns: seq<ColorNoise>): (r: seq<ColorParams>)
    requires |ns| == |cs|
    ensures |r| == |cs|
    ensures forall i :: 0 <= i < |r| ==> r[i] == MutateColor(cs[i], ns[i])
  {
    if cs == [] then [] else [MutateColor(cs[0], ns[0])] + MutateColors(cs[1..], ns[1..])
  }

  /** Sampler.Mutate on a clone of `best`. */
  function Mutate(best: ParameterSet, n: Noise): (p: ParameterSet)
    requires |n.colors| == |best.colors|
    ensures 1.0 / 2.0 <= p.scale <= 3.0
    ensures 1 <= p.blur <= 11 && p.blur % 2 == 1
    ensures 1 <= p.openSize <= 15 && 1 <= p.closeSize <= 15
    ensures 0 <= p.erodeIterations <= 4 && 0 <= p.dilateIterations <= 4
    ensures 1.0 / 1000000.0 <= p.minAreaRatio <= 1.0 / 100.0
    ensures 5.0 / 10000.0 <= p.maxAreaRatio <= 5.0 / 100.0
    ensures |p.colors| == |best.colors|
    ensures forall i :: 0 <= i < |p.colors| ==>
      p.colors[i].hueCenter == best.colors[i].hueCenter
      && 3 <= p.colors[i].hueTol <= 40
      && 30 <= p.colors[i].satMin <= 220 && 30 <= p.colors[i].valMin <= 220
    ensures 0.0 <= p.tplMinScore <= 1.0 && 0.0 <= p.tplEdgeWeight <= 1.0
    ensures 9.0 / 10.0 <= p.aspectMin <= 16.0 / 10.0
    ensures 8.0 <= p.nmsRadius <= 50.0
    ensures 3.0 / 10.0 <= p.templateBuildFillFrac <= 8.0 / 10.0
    ensures 3.0 / 10.0 <= p.templateBuildEdgeFrac <= 8.0 / 10.0
    ensures 0 <= p.closeIfComponentsLE <= 2
  {
    best.(
      scale := ClampReal(best.scale * n.scaleFactor, 1.0 / 2.0, 3.0),
      blur := OddClamp(RoundEven(best.blur as real + n.blur), 1, 11),
      openSize := ClampInt(RoundEven(best.openSize as real + n.open), 1, 15),
      closeSize := ClampInt(RoundEven(best.closeSize as real + n.close), 1, 15),
      erodeIterations := ClampInt(RoundEven(best.erodeIterations as real + n.erode), 0, 4),
      dilateIterations := ClampInt(RoundEven(best.dilateIterations as real + n.dilate), 0, 4),
      minAreaRatio := ClampReal(best.minAreaRatio * n.minFactor, 1.0 / 1000000.0, 1.0 / 100.0),
      maxAreaRatio := ClampReal(best.maxAreaRatio * n.maxFactor, 5.0 / 10000.0, 5.0 / 100.0),
      colors := MutateColors(best.colors, n.colors),
      tplMinScore := ClampReal(best.tplMinScore + n.tplMin, 0.0, 1.0),
      aspectMin := ClampReal(best.aspectMin + n.aspect, 9.0 / 10.0, 16.0 / 10.0),
      nmsRadius := ClampReal(best.nmsRadius + n.nms, 8.0, 50.0),
      tplEdgeWeight := ClampReal(best.tplEdgeWeight + n.tplEdge, 0.0, 1.0),
      templateBuildFillFrac := ClampReal(best.templateBuildFillFrac + n.fillFrac, 3.0 / 10.0, 8.0 / 10.0),
      templateBuildEdgeFrac := ClampReal(best.templateBuildEdgeFrac + n.edgeFrac, 3.0 / 10.0, 8.0 / 10.0),
      closeIfComponentsLE := ClampInt(RoundEven(best.closeIfComponentsLE as real + n.closeGate), 0, 2))
  }

  /** A mutation keeps everything the trainer keeps in range except the 1.7 area ratio. */
  lemma {:induction false} MutateNearlyInRange(best: ParameterSet, n: Noise)
    requires |n.colors| == |best.colors| == ColorCount
    ensures var p := Mutate(best, n);
      p.maxAreaRatio >= p.minAreaRatio * (17.0 / 10.0) ==> InRange(p)
  {
    var p := Mutate(best, n);
    assert forall i :: 0 <= i < |p.colors| ==> ColorInRange(p.colors[i]);
  }
}

=== FILE: pin_shape.dfy ===
/**
 * ShapeMatch: the arithmetic around template matching.  A binary mask is a
 * sequence of pixels (true = non-zero), the edge mask of a patch (a
 * morphological gradient) is an input, and the ROI logic follows
 * System.Drawing.Rectangle.
 */
module ShapeMatch {
  import opened Common

  /** Pixels set in both masks (CountNonZero of BitwiseAnd). */
  function CountAnd(a: seq<bool>, b: seq<bool>): (r: nat)
    requires |a| == |b|
    ensures r <= |a|
  {
    if a == [] then 0
    else CountAnd(a[..|a| - 1], b[..|b| - 1]) + (if a[|a| - 1] && b[|b| - 1] then 1 else 0)
  }

  /** Pixels set in either mask (CountNonZero of BitwiseOr). */
  function CountOr(a: seq<bool>, b: seq<bool>): (r: nat)
    requires |a| == |b|
    ensures r <= |a|
  {
    if a == [] then 0
    else CountOr(a[..|a| - 1], b[..|b| - 1]) + (if a[|a| - 1] || b[|b| - 1] then 1 else 0)
  }

  lemma {:induction false} AndAtMostOr(a: seq<bool>, b: seq<bool>)
    requires |a| == |b|
    ensures CountAnd(a, b) <= CountOr(a, b)
    ensures CountAnd(a, b) == CountOr(a, b) <==> a == b
  {
    if a != [] {
      var a', b' := a[..|a| - 1], b[..|b| - 1];
      AndAtMostOr(a', b');
      if a == b {
        assert a' == b';
      } else if a' == b' {
        assert a[|a| - 1] != b[|b| - 1];
      } else {
        assert CountAnd(a', b') < CountOr(a', b');
      }
    }
  }

  /** ShapeMatch.IoU: |a ∩ b| / max(1, |a ∪ b|). */
  function IoU(a: seq<bool>, b: seq<bool>): (r: real)
    requires |a| == |b|
    ensures 0.0 <= r <= 1.0
  {
    AndAtMostOr(a, b);
    Ratio(CountAnd(a, b), MaxInt(1, CountOr(a, b)));
    CountAnd(a, b) as real / MaxInt(1, CountOr(a, b)) as real
  }

  /** A ratio of counts x / y with x <= y is in [0,1], and 1 only when x == y. */
  lemma Ratio(x: nat, y: nat)
    requires x <= y && y >= 1
    ensures 0.0 <= x as real / y as real <= 1.0
    ensures x as real / y as real == 1.0 <==> x == y
  {
    var q := x as real / y as real;
    assert q * y as real == x as real;
    if q == 1.0 {
      assert x as real == y as real;
    }
  }

  lemma {:induction false} CountsSymmetric(a: seq<bool>, b: seq<bool>)
    requires |a| == |b|
    ensures CountAnd(a, b) == CountAnd(b, a) && CountOr(a, b) == CountOr(b, a)
  {
    if a != [] {
      CountsSymmetric(a[..|a| - 1], b[..|b| - 1]);
    }
  }

  /** The overlap is symmetric, and it is 1 exactly for two equal masks with a set pixel. */
  lemma IoUFacts(a: seq<bool>, b: seq<bool>)
    requires |a| == |b|
    ensures IoU(a, b) == IoU(b, a)
    ensures IoU(a, b) == 1.0 <==> a == b && CountOr(a, b) > 0
  {
    CountsSymmetric(a, b);
    AndAtMostOr(a, b);
    Ratio(CountAnd(a, b), MaxInt(1, CountOr(a, b)));
    if CountOr(a, b) == 0 {
      assert IoU(a, b) == 0.0;
    }
  }

  /** The three numbers ScoreAgainstTemplates returns. */
  datatype TemplateScore = TemplateScore(score: real, iouFill: real, iouEdge: real)

  /**
   * ShapeMatch.ScoreAgainstTemplates: the edge weight is clamped to [0,1] and
   * blends the IoU of the edge masks with the IoU of the filled masks.
   */
  function ScoreAgainstTemplates(patch: seq<bool>, patchEdge: seq<bool>, tplFill: seq<bool>,
                                 tplEdge: seq<bool>, edgeWeight: real): (t: TemplateScore)
    requires |patch| == |tplFill| && |patchEdge| == |tplEdge|
    ensures t.iouFill == IoU(patch, tplFill) && t.iouEdge == IoU(patchEdge, tplEdge)
    ensures MinReal(t.iouFill, t.iouEdge) <= t.score <= MaxReal(t.iouFill, t.iouEdge)
    ensures 0.0 <= t.score <= 1.0
    ensures edgeWeight <= 0.0 ==> t.score == t.iouFill
    ensures edgeWeight >= 1.0 ==> t.score == t.iouEdge
  {
    var iouFill := IoU(patch, tplFill);
    var iouEdge := IoU(patchEdge, tplEdge);
    var w := MaxReal(0.0, MinReal(1.0, edgeWeight));
    Blend(w, iouFill, iouEdge);
    TemplateScore(w * iouEdge + (1.0 - w) * iouFill, iouFill, iouEdge)
  }

  /** A convex combination lies between its two ends. */
  lemma Blend(w: real, a: real, b: real)
    requires 0.0 <= w <= 1.0
    ensures MinReal(a, b) <= w * b + (1.0 - w) * a <= MaxReal(a, b)
    ensures w == 0.0 ==> w * b + (1.0 - w) * a == a
    ensures w == 1.0 ==> w * b + (1.0 - w) * a == b
  {
    var x := b - a;
    Shift(w, a, b);
    Fraction(w, x);
    Between(a, b, w * b + (1.0 - w) * a, w * x);
  }

  /** a + t lies between a and b when t lies between 0 and b - a. */
  lemma Between(a: real, b: real, v: real, t: real)
    requires v == a + t
    requires a <= b ==> 0.0 <= t <= b - a
    requires b <= a ==> b - a <= t <= 0.0
    ensures MinReal(a, b) <= v <= MaxReal(a, b)
  {
  }

  lemma Shift(w: real, a: real, b: real)
    ensures w * b + (1.0 - w) * a == a + w * (b - a)
  {
  }

  /** w * x for w in [0,1] lies between 0 and x. */
  lemma Fraction(w: real, x: real)
    requires 0.0 <= w <= 1.0
    ensures x >= 0.0 ==> 0.0 <= w * x <= x
    ensures x <= 0.0 ==> x <= w * x <= 0.0
    ensures w == 0.0 ==> w * x == 0.0
    ensures w == 1.0 ==> w * x == x
  {
    if x >= 0.0 {
      MulMono(0.0, w, x);
      MulMono(w, 1.0, x);
    } else {
      MulMono(0.0, w, -x);
      MulMono(w, 1.0, -x);
      assert w * -x == -(w * x);
    }
  }

  /** System.Drawing.Rectangle (X, Y, Width, Height). */
  datatype Rect = Rect(x: int, y: int, w: int, h: int)

  /** Rectangle.Contains(x, y): the right and bottom edges are exclusive. */
  predicate Contains(r: Rect, p: Point)
  {
    r.x <= p.x < r.x + r.w && r.y <= p.y < r.y + r.h
  }

  /** Rectangle.Intersect: the overlap, or Rectangle.Empty when there is none. */
  function Intersect(a: Rect, b: Rect): (r: Rect)
    ensures r.w >= 0 && r.h >= 0
    ensures forall p :: Contains(r, p) <==> Contains(a, p) && Contains(b, p)
  {
    var x1 := MaxInt(a.x, b.x);
    var x2 := MinInt(a.x + a.w, b.x + b.w);
    var y1 := MaxInt(a.y, b.y);
    var y2 := MinInt(a.y + a.h, b.y + b.h);
    if x2 >= x1 && y2 >= y1 then Rect(x1, y1, x2 - x1, y2 - y1) else Rect(0, 0, 0, 0)
  }

  /**
   * The translation NormalizeRoiWithTip applies after resizing the ROI (clipped
   * to the image) to outW x outH: it moves the scaled tip to (outW/2, outH-2).
   */
  function TipShift(roi: Rect, tip: Point, outW: int, outH: int, imgW: int, imgH: int): (d: (int, int))
    requires outW >= 1 && outH >= 1
    ensures Contains(Intersect(roi, Rect(0, 0, imgW, imgH)), tip) ==>
      outW / 2 - outW <= d.0 <= outW / 2 && outH - 2 - outH <= d.1 <= outH - 2
  {
    var bounded := Intersect(roi, Rect(0, 0, imgW, imgH));
    var tipX := ScaledOffset(tip.x - bounded.x, bounded.w, outW);
    var tipY := ScaledOffset(tip.y - bounded.y, bounded.h, outH);
    (outW / 2 - tipX, (outH - 2) - tipY)
  }

  /**
   * (int)Math.Round(off * (out / max(1, len))): a pixel offset inside a span of
   * `len` pixels, rescaled to a span of `out` pixels, lands in [0, out].
   */
  function ScaledOffset(off: int, len: int, out: int): (t: int)
    requires out >= 1
    ensures 0 <= off < len ==> 0 <= t <= out
  {
    var s := out as real / MaxInt(1, len) as real;
    ScaledInside(off, len, out, s);
    RoundEven(off as real * s)
  }

  lemma MulMono(a: real, b: real, s: real)
    requires a <= b && s >= 0.0
    ensures a * s <= b * s
  {
  }

  lemma ScaledInside(off: int, len: int, out: int, s: real)
    requires out >= 1 && s == out as real / MaxInt(1, len) as real
    ensures 0 <= off < len ==> 0.0 <= off as real * s <= out as real
  {
    if 0 <= off < len {
      assert s > 0.0;
      MulMono(off as real, len as real, s);
      assert len as real * s == out as real;
      MulMono(0.0, off as real, s);
    }
  }
}

=== FILE: pin_steps.dfy ===
/**
 * The step sizes of the pin trainer's coordinate descent (SmartTrainer.Steps):
 * how far one move goes in each parameter family, and how the steps shrink
 * after a pass that improved nothing.
 */
module PinSteps {
  import opened Common

  datatype StepSizes = StepSizes(
    edStep: int, hueTolStep: int, maxAreaMul: real, minAreaMul: real, morphStep: int,
    satStep: int, scaleMul: real, valStep: int, nmsRadiusStep: real, aspectMinStep: real,
    tplMinScoreStep: real, tplEdgeWeightStep: real, tplBuildFracStep: real, closeGateStep: int)

  /** The step sizes of a fresh Steps object. */
  const DefaultSteps := StepSizes(1, 2, 13.0 / 10.0, 16.0 / 10.0, 2, 10, 125.0 / 100.0, 10,
                                  3.0, 3.0 / 100.0, 5.0 / 100.0, 5.0 / 100.0, 5.0 / 100.0, 1)

  /** Every step is at least the floor Shrink keeps it at. */
  predicate StepsValid(s: StepSizes)
  {
    s.scaleMul >= 105.0 / 100.0 && s.morphStep >= 1 && s.edStep >= 1
    && s.minAreaMul >= 115.0 / 100.0 && s.maxAreaMul >= 110.0 / 100.0
    && s.hueTolStep >= 1 && s.satStep >= 3 && s.valStep >= 3
    && s.nmsRadiusStep >= 1.0 && s.aspectMinStep >= 1.0 / 100.0
    && s.tplMinScoreStep >= 2.0 / 100.0 && s.tplEdgeWeightStep >= 2.0 / 100.0
    && s.tplBuildFracStep >= 2.0 / 100.0 && s.closeGateStep >= 1
  }

  /** Steps.IsTiny. */
  predicate Tiny(s: StepSizes)
  {
    s.scaleMul <= 105.0 / 100.0 && s.morphStep <= 1 && s.edStep <= 1
    && s.minAreaMul <= 115.0 / 100.0 && s.maxAreaMul <= 110.0 / 100.0
    && s.hueTolStep <= 1 && s.satStep <= 3 && s.valStep <= 3
    && s.nmsRadiusStep <= 1.0 && s.aspectMinStep <= 1.0 / 100.0
    && s.tplMinScoreStep <= 2.0 / 100.0 && s.tplEdgeWeightStep <= 2.0 / 100.0
    && s.tplBuildFracStep <= 2.0 / 100.0 && s.closeGateStep <= 1
  }

  /** r is the square root of x. */
  predicate IsRoot(r: real, x: real)
  {
    r >= 0.0 && r * r == x
  }

  /**
   * Steps.Shrink on a snapshot.  The three square roots are supplied by the
   * caller; the floors alone keep the result valid.
   */
  function ShrinkSizes(s: StepSizes, rScale: real, rMin: real, rMax: real): (t: StepSizes)
    requires StepsValid(s)
    ensures StepsValid(t)
  {
    StepSizes(
      MaxInt(1, s.edStep / 2), MaxInt(1, s.hueTolStep / 2), MaxReal(110.0 / 100.0, rMax),
      MaxReal(115.0 / 100.0, rMin), MaxInt(1, (s.morphStep + 1) / 2), MaxInt(3, s.satStep / 2),
      MaxReal(105.0 / 100.0, rScale), MaxInt(3, s.valStep / 2),
      MaxReal(1.0, s.nmsRadiusStep / 1.5), MaxReal(1.0 / 100.0, s.aspectMinStep / 1.5),
      MaxReal(2.0 / 100.0, s.tplMinScoreStep / 1.5), MaxReal(2.0 / 100.0, s.tplEdgeWeightStep / 1.5),
      MaxReal(2.0 / 100.0, s.tplBuildFracStep / 1.5), MaxInt(1, s.closeGateStep / 2))
  }

  /** The mutable step-size holder of the trainer. */
  class Steps {
    var edStep: int
    var hueTolStep: int
    var maxAreaMul: real
    var minAreaMul: real
    var morphStep: int
    var satStep: int
    var scaleMul: real
    var valStep: int
    var nmsRadiusStep: real
    var aspectMinStep: real
    var tplMinScoreStep: real
    var tplEdgeWeightStep: real
    var tplBuildFracStep: real
    var closeGateStep: int

    function Sizes(): StepSizes
      reads this
    {
      StepSizes(edStep, hueTolStep, maxAreaMul, minAreaMul, morphStep, satStep, scaleMul, valStep,
                nmsRadiusStep, aspectMinStep, tplMinScoreStep, tplEdgeWeightStep, tplBuildFracStep,
                closeGateStep)
    }

    predicate Valid()
      reads this
    {
      StepsValid(Sizes())
    }

    constructor ()
      ensures Sizes() == DefaultSteps && Valid()
    {
      edStep, hueTolStep, maxAreaMul, minAreaMul := 1, 2, 13.0 / 10.0, 16.0 / 10.0;
      morphStep, satStep, scaleMul, valStep := 2, 10, 125.0 / 100.0, 10;
      nmsRadiusStep, aspectMinStep, tplMinScoreStep := 3.0, 3.0 / 100.0, 5.0 / 100.0;
      tplEdgeWeightStep, tplBuildFracStep, closeGateStep := 5.0 / 100.0, 5.0 / 100.0, 1;
    }

    predicate IsTiny()
      reads this
    {
      Tiny(Sizes())
    }

    method Shrink(rScale: real, rMin: real, rMax: real)
      requires Valid()
      modifies this
      ensures Sizes() == ShrinkSizes(old(Sizes()), rScale, rMin, rMax)
    {
      ShrinkMultipliers(rScale, rMin, rMax);
      ShrinkCounts();
      ShrinkFractions();
    }

    /** The three multiplicative steps move to their square roots, but not below their floors. */
    method ShrinkMultipliers(rScale: real, rMin: real, rMax: real)
      modifies this
      ensures Sizes() == old(Sizes()).(scaleMul := MaxReal(105.0 / 100.0, rScale),
        minAreaMul := MaxReal(115.0 / 100.0, rMin), maxAreaMul := MaxReal(110.0 / 100.0, rMax))
    {
      scaleMul, minAreaMul, maxAreaMul :=
        MaxReal(105.0 / 100.0, rScale), MaxReal(115.0 / 100.0, rMin), MaxReal(110.0 / 100.0, rMax);
    }

    /** The integer steps halve (the morphology step rounds up), but not below their floors. */
    method ShrinkCounts()
      modifies this
      ensures Sizes() == old(Sizes()).(morphStep := MaxInt(1, (old(morphStep) + 1) / 2),
        edStep := MaxInt(1, old(edStep) / 2), hueTolStep := MaxInt(1, old(hueTolStep) / 2),
        satStep := MaxInt(3, old(satStep) / 2), valStep := MaxInt(3, old(valStep) / 2),
        closeGateStep := MaxInt(1, old(closeGateStep) / 2))
    {
      morphStep, edStep, hueTolStep := MaxInt(1, (morphStep + 1) / 2), MaxInt(1, edStep / 2), MaxInt(1, hueTolStep / 2);
      satStep, valStep, closeGateStep := MaxInt(3, satStep / 2), MaxInt(3, valStep / 2), MaxInt(1, closeGateStep / 2);
    }

    /** The additive real steps shrink by a factor 1.5, but not below their floors. */
    method ShrinkFractions()
      modifies this
      ensures Sizes() == old(Sizes()).(nmsRadiusStep := MaxReal(1.0, old(nmsRadiusStep) / 1.5),
        aspectMinStep := MaxReal(1.0 / 100.0, old(aspectMinStep) / 1.5),
        tplMinScoreStep := MaxReal(2.0 / 100.0, old(tplMinScoreStep) / 1.5),
        tplEdgeWeightStep := MaxReal(2.0 / 100.0, old(tplEdgeWeightStep) / 1.5),
        tplBuildFracStep := MaxReal(2.0 / 100.0, old(tplBuildFracStep) / 1.5))
    {
      nmsRadiusStep, aspectMinStep := MaxReal(1.0, nmsRadiusStep / 1.5), MaxReal(1.0 / 100.0, aspectMinStep / 1.5);
      tplMinScoreStep, tplEdgeWeightStep, tplBuildFracStep := MaxReal(2.0 / 100.0, tplMinScoreStep / 1.5),
        MaxReal(2.0 / 100.0, tplEdgeWeightStep / 1.5), MaxReal(2.0 / 100.0, tplBuildFracStep / 1.5);
    }
  }

}

/**
 * Why the trainer's shrinking ends: a natural-number measure of the distance
 * of the steps from their floors, which every shrink of steps that are not
 * yet tiny lowers.
 */
module PinStepsProgress {
  import opened Common
  import opened PinSteps

  /** How far a real step is above its floor, counted in units of 1/k. */
  function Ticks(x: real, floor: real, k: real): nat
    requires k > 0.0
  {
    if x <= floor then 0 else var c := Ceil((x - floor) * k); assert c as real >= (x - floor) * k > 0.0; c
  }

  /** How far the integer steps are above their floors. */
  function CountTicks(s: StepSizes): nat
  {
    (MaxInt(0, s.edStep - 1) + MaxInt(0, s.hueTolStep - 1) + MaxInt(0, s.morphStep - 1)
     + MaxInt(0, s.satStep - 3) + MaxInt(0, s.valStep - 3) + MaxInt(0, s.closeGateStep - 1)) as nat
  }

  /** How far the three multiplicative steps are above their floors, in units of 1/20. */
  function MultiplierTicks(s: StepSizes): nat
  {
    Ticks(s.scaleMul, 105.0 / 100.0, 20.0) + Ticks(s.minAreaMul, 115.0 / 100.0, 20.0)
    + Ticks(s.maxAreaMul, 110.0 / 100.0, 20.0)
  }

  /** How far the additive real steps are above their floors, each in units of a third of its floor. */
  function FractionTicks(s: StepSizes): nat
  {
    Ticks(s.nmsRadiusStep, 1.0, 3.0) + Ticks(s.aspectMinStep, 1.0 / 100.0, 300.0)
    + Ticks(s.tplMinScoreStep, 2.0 / 100.0, 150.0) + Ticks(s.tplEdgeWeightStep, 2.0 / 100.0, 150.0)
    + Ticks(s.tplBuildFracStep, 2.0 / 100.0, 150.0)
  }

  /** A natural-number measure of how far the steps are from their floors. */
  function Measure(s: StepSizes): nat
  {
    CountTicks(s) + MultiplierTicks(s) + FractionTicks(s)
  }

  /** For valid steps, IsTiny holds exactly when every step sits at its floor. */
  lemma TinyIsMeasureZero(s: StepSizes)
    requires StepsValid(s)
    ensures Tiny(s) <==> Measure(s) == 0
  {
  }

  /** A step above its floor that moves onto the floor or down by at least 1/k loses a tick. */
  lemma TicksDrop(x: real, y: real, floor: real, k: real)
    requires k > 0.0 && floor <= y <= x
    requires y == floor || (x - y) * k >= 1.0
    ensures Ticks(y, floor, k) <= Ticks(x, floor, k)
    ensures x > floor ==> Ticks(y, floor, k) < Ticks(x, floor, k)
  {
    if y > floor {
      assert (x - floor) * k == (y - floor) * k + (x - y) * k;
    }
  }

  /** Dividing a step by 1.5, but not below its floor f, costs it a tick of f/3 unless it was at the floor. */
  lemma DivStep(x: real, floor: real, k: real)
    requires floor > 0.0 && k > 0.0 && floor * k >= 3.0 && x >= floor
    ensures MaxReal(floor, x / 1.5) <= x
    ensures Ticks(MaxReal(floor, x / 1.5), floor, k) <= Ticks(x, floor, k)
    ensures x > floor ==> Ticks(MaxReal(floor, x / 1.5), floor, k) < Ticks(x, floor, k)
  {
    var y := MaxReal(floor, x / 1.5);
    if y != floor {
      assert x - y == x / 3.0;
      MulMono(floor / 3.0, x / 3.0, k);
    }
    TicksDrop(x, y, floor, k);
  }

  /** Taking the square root of a step, but not below a floor of 1.05 or more, costs it a tick of 1/20. */
  lemma RootStep(x: real, r: real, floor: real)
    requires IsRoot(r, x) && floor >= 105.0 / 100.0 && x >= floor
    ensures MaxReal(floor, r) <= x
    ensures Ticks(MaxReal(floor, r), floor, 20.0) <= Ticks(x, floor, 20.0)
    ensures x > floor ==> Ticks(MaxReal(floor, r), floor, 20.0) < Ticks(x, floor, 20.0)
  {
    var m := MinReal(r, 1.0);
    MulMono(m, 1.0, r);
    assert r >= 1.0;
    MulMono(1.0, r, r);
    if r > floor {
      MulMono(5.0 / 100.0, r - 1.0, r);
    }
    TicksDrop(x, MaxReal(floor, r), floor, 20.0);
  }

  lemma MulMono(a: real, b: real, s: real)
    requires a <= b && s >= 0.0
    ensures a * s <= b * s
  {
  }

  lemma {:induction false} MultipliersShrink(s: StepSizes, rScale: real, rMin: real, rMax: real)
    requires StepsValid(s)
    requires IsRoot(rScale, s.scaleMul) && IsRoot(rMin, s.minAreaMul) && IsRoot(rMax, s.maxAreaMul)
    ensures var t := ShrinkSizes(s, rScale, rMin, rMax);
      t.scaleMul <= s.scaleMul && t.minAreaMul <= s.minAreaMul && t.maxAreaMul <= s.maxAreaMul
      && MultiplierTicks(t) <= MultiplierTicks(s)
      && ((s.scaleMul > 105.0 / 100.0 || s.minAreaMul > 115.0 / 100.0 || s.maxAreaMul > 110.0 / 100.0)
          ==> MultiplierTicks(t) < MultiplierTicks(s))
  {
    RootStep(s.scaleMul, rScale, 105.0 / 100.0);
    RootStep(s.minAreaMul, rMin, 115.0 / 100.0);
    RootStep(s.maxAreaMul, rMax, 110.0 / 100.0);
  }

  lemma {:induction false} FractionsShrink(s: StepSizes, rScale: real, rMin: real, rMax: real)
    requires StepsValid(s)
    ensures var t := ShrinkSizes(s, rScale, rMin, rMax);
      t.nmsRadiusStep <= s.nmsRadiusStep && t.aspectMinStep <= s.aspectMinStep
      && t.tplMinScoreStep <= s.tplMinScoreStep && t.tplEdgeWeightStep <= s.tplEdgeWeightStep
      && t.tplBuildFracStep <= s.tplBuildFracStep
      && FractionTicks(t) <= FractionTicks(s)
      && ((s.nmsRadiusStep > 1.0 || s.aspectMinStep > 1.0 / 100.0 || s.tplMinScoreStep > 2.0 / 100.0
           || s.tplEdgeWeightStep > 2.0 / 100.0 || s.tplBuildFracStep > 2.0 / 100.0)
          ==> FractionTicks(t) < FractionTicks(s))
  {
    DivStep(s.nmsRadiusStep, 1.0, 3.0);
    DivStep(s.aspectMinStep, 1.0 / 100.0, 300.0);
    DivStep(s.tplMinScoreStep, 2.0 / 100.0, 150.0);
    DivStep(s.tplEdgeWeightStep, 2.0 / 100.0, 150.0);
    DivStep(s.tplBuildFracStep, 2.0 / 100.0, 150.0);
  }

  lemma CountsShrink(s: StepSizes, rScale: real, rMin: real, rMax: real)
    requires StepsValid(s)
    ensures var t := ShrinkSizes(s, rScale, rMin, rMax);
      t.morphStep <= s.morphStep && t.edStep <= s.edStep && t.hueTolStep <= s.hueTolStep
      && t.satStep <= s.satStep && t.valStep <= s.valStep && t.closeGateStep <= s.closeGateStep
      && CountTicks(t) <= CountTicks(s)
      && ((s.morphStep > 1 || s.edStep > 1 || s.hueTolStep > 1 || s.satStep > 3 || s.valStep > 3
           || s.closeGateStep > 1) ==> CountTicks(t) < CountTicks(s))
  {
  }

  /**
   * Shrink never raises a step, leaves tiny steps as they are, and from steps
   * that are not yet tiny it lowers the measure: the trainer's
   * shrink-until-tiny loop is finite.
   */
  lemma ShrinkProgress(s: StepSizes, rScale: real, rMin: real, rMax: real)
    requires StepsValid(s)
    requires IsRoot(rScale, s.scaleMul) && IsRoot(rMin, s.minAreaMul) && IsRoot(rMax, s.maxAreaMul)
    ensures var t := ShrinkSizes(s, rScale, rMin, rMax);
      t.scaleMul <= s.scaleMul && t.minAreaMul <= s.minAreaMul && t.maxAreaMul <= s.maxAreaMul
      && t.morphStep <= s.morphStep && t.edStep <= s.edStep && t.hueTolStep <= s.hueTolStep
      && t.satStep <= s.satStep && t.valStep <= s.valStep && t.closeGateStep <= s.closeGateStep
      && t.nmsRadiusStep <= s.nmsRadiusStep && t.aspectMinStep <= s.aspectMinStep
      && t.tplMinScoreStep <= s.tplMinScoreStep && t.tplEdgeWeightStep <= s.tplEdgeWeightStep
      && t.tplBuildFracStep <= s.tplBuildFracStep
    ensures !Tiny(s) ==> Measure(ShrinkSizes(s, rScale, rMin, rMax)) < Measure(s)
  {
    MultipliersShrink(s, rScale, rMin, rMax);
    FractionsShrink(s, rScale, rMin, rMax);
    CountsShrink(s, rScale, rMin, rMax);
  }

  /** Tiny steps are a fixed point of Shrink. */
  lemma TinyIsFixed(s: StepSizes, rScale: real, rMin: real, rMax: real)
    requires StepsValid(s) && Tiny(s)
    requires IsRoot(rScale, s.scaleMul) && IsRoot(rMin, s.minAreaMul) && IsRoot(rMax, s.maxAreaMul)
    ensures ShrinkSizes(s, rScale, rMin, rMax) == s
  {
    RootStep(s.scaleMul, rScale, 105.0 / 100.0);
    RootStep(s.minAreaMul, rMin, 115.0 / 100.0);
    RootStep(s.maxAreaMul, rMax, 110.0 / 100.0);
  }
}

=== FILE: pin_trainer.dfy ===
/**
 * PinTrainer: the coordinate descent of SmartTrainer.Optimize.  Each pass
 * walks the families in a fixed order, scores the neighbours of the current
 * best in one family, and adopts the best of them when it beats the current
 * best by more than a tolerance; a pass that adopts nothing shrinks the steps
 * and stops the search once they are tiny.  Scoring a candidate runs the
 * detector over the whole dataset; here it is an input function.
 */
module PinTrainer {
  import opened Common
  import opened PinParams
  import opened PinSteps
  import opened PinNeighbours
  import opened Evaluation

  /** CandidateResult, reduced to the score and the parameters it was obtained with. */
  type CandidateResult = Evaluated<ParameterSet>

  /**
   * What the trainer keeps true of its current best: the score belongs to the
   * parameters, every adoption lowered the score by more than the tolerance,
   * a best other than the start was adopted, and it stays in range.
   */
  predicate Progress(start: ParameterSet, score: ParameterSet -> real, improveTol: real,
                     best: CandidateResult, adopted: nat)
  {
    best.score == score(best.params)
    && (improveTol >= 0.0 ==> best.score + adopted as real * improveTol <= score(start))
    && (best.params != start ==> adopted >= 1)
    && (InRange(start) ==> InRange(best.params))
  }

  /** The end of one pass: it failed, or it produced a best and said whether it improved. */
  datatype PassOutcome = Failed | Passed(best: CandidateResult, improved: bool)

  /** One pass over the families in order, adopting a family's best neighbour when it improves. */
  method Pass(start: ParameterSet, score: ParameterSet -> real, st: StepSizes, improveTol: real,
              rule: KeyRule, best: CandidateResult, ghost adopted: nat)
    returns (r: PassOutcome, ghost adopted': nat)
    requires StepsValid(st) && Progress(start, score, improveTol, best, adopted)
    ensures r.Passed? ==> Progress(start, score, improveTol, r.best, adopted')
    ensures r.Passed? && !r.improved ==> r.best == best && adopted' == adopted
  {
    var cur, improved := best, false;
    adopted' := adopted;
    for k := 0 to |FamilyOrder|
      invariant Progress(start, score, improveTol, cur, adopted')
      invariant !improved ==> cur == best && adopted' == adopted
    {
      var cands := BuildNeighbours(cur.params, st, FamilyOrder[k], rule);
      if cands.None? {
        return Failed, adopted';
      }
      var res := EvaluateCandidates(cands.value, score);
      if res.None? {
        return Failed, adopted';
      }
      if res.value.score + improveTol < cur.score {
        Adopt(start, score, improveTol, cur, adopted', res.value, cands.value, FamilyOrder[k]);
        cur, improved, adopted' := res.value, true, adopted' + 1;
      }
    }
    r := Passed(cur, improved);
  }

  /**
   * SmartTrainer.Optimize.  `root` stands for Math.Sqrt, which Steps.Shrink
   * applies to the multiplicative steps.  `adopted` counts the improvements;
   * with a non-negative tolerance each one lowers the score by more than it.
   * `passes` counts the passes run, never more than maxPasses; a search that
   * ends earlier with a result ended on tiny steps, `finalSteps`.
   */
  method Optimize(start: ParameterSet, score: ParameterSet -> real, root: real -> real,
                  maxPasses: int, improveTol: real, rule: KeyRule)
    returns (r: Option<CandidateResult>, ghost adopted: nat, ghost passes: nat, ghost finalSteps: StepSizes)
    ensures r.Some? ==> Progress(start, score, improveTol, r.value, adopted)
    ensures passes <= MaxInt(0, maxPasses)
    ensures r.Some? && passes < maxPasses ==> Tiny(finalSteps)
  {
    var init := EvaluateCandidates([start], score);
    var best := init.value;
    adopted := 0;
    StartProgress(start, score, improveTol, best);
    var steps := new Steps();
    var pass := 1;
    passes, finalSteps := 0, steps.Sizes();
    while pass <= maxPasses
      invariant steps.Valid()
      invariant 1 <= pass <= MaxInt(1, maxPasses + 1)
      invariant Progress(start, score, improveTol, best, adopted)
    {
      var outcome;
      outcome, adopted := Pass(start, score, steps.Sizes(), improveTol, rule, best, adopted);
      if outcome.Failed? {
        passes := pass;
        return None, adopted, passes, finalSteps;
      }
      best := outcome.best;
      if !outcome.improved {
        steps.Shrink(root(steps.scaleMul), root(steps.minAreaMul), root(steps.maxAreaMul));
        if steps.IsTiny() {
          passes, finalSteps := pass, steps.Sizes();
          return Some(best), adopted, passes, finalSteps;
        }
      }
      pass := pass + 1;
    }
    passes, finalSteps := pass - 1, steps.Sizes();
    r := Some(best);
  }

  /** The start, scored, is where the search begins. */
  lemma {:induction false} StartProgress(start: ParameterSet, score: ParameterSet -> real, improveTol: real, best: CandidateResult)
    requires exists i :: FirstMinimum([start], score, i) && best == Evaluated(score([start][i]), [start][i])
    ensures Progress(start, score, improveTol, best, 0)
  {
  }

  /** Adopting the best neighbour when it improves by more than the tolerance keeps Progress. */
  lemma {:induction false} Adopt(start: ParameterSet, score: ParameterSet -> real, improveTol: real,
              best: CandidateResult, adopted: nat, res: CandidateResult, cands: seq<ParameterSet>, fam: Family)
    requires Progress(start, score, improveTol, best, adopted)
    requires exists i :: FirstMinimum(cands, score, i) && res == Evaluated(score(cands[i]), cands[i])
    requires InRange(best.params) ==> AllNeighbours(best.params, cands, fam)
    requires res.score + improveTol < best.score
    ensures Progress(start, score, improveTol, res, adopted + 1)
  {
    var i :| FirstMinimum(cands, score, i) && res == Evaluated(score(cands[i]), cands[i]);
    if InRange(best.params) {
      assert IsNeighbour(best.params, cands[i], fam);
    }
    if improveTol >= 0.0 {
      ToleranceStep(best.score, res.score, adopted, improveTol, score(start));
    }
  }

  /**
   * With a positive tolerance and scores bounded below, the number of
   * adoptions is bounded: each one costs more than the tolerance.
   */
  lemma {:induction false} AdoptionsBounded(start: ParameterSet, score: ParameterSet -> real, improveTol: real,
                         best: CandidateResult, adopted: nat, lower: real)
    requires Progress(start, score, improveTol, best, adopted)
    requires improveTol > 0.0 && score(best.params) >= lower
    ensures adopted as real <= (score(start) - lower) / improveTol
  {
    AdoptionBound(adopted, improveTol, score(start), lower, best.score);
  }
}

=== FILE: player_marks.dfy ===
/**
 * PlayerMarks: the player-marker detector and the trainer's scoring.  OpenCV
 * is outside the model: the contours found in a colour mask, the circles the
 * Hough transform finds and the distance between two points are inputs.
 * What is modelled is the arithmetic and the choices the C# code makes
 * around them: the HSV ranges of a mask, which contour or circle becomes the
 * prediction, which colours are looked at, and how predictions are matched
 * against the ground truth.
 */
module PlayerMarks {
  import opened Common
  import opened Sorting
  import opened PlayerParameters

  // ---------------------------------------------------------------- Median

  function Id(x: real): real { x }

  /** Utils.Median: 0 for no values, the middle of the sorted values, or the mean of the two middles. */
  function Median(xs: seq<real>): (r: real)
    ensures xs == [] ==> r == 0.0
  {
    var a := SortBy(xs, Id);
    if |a| == 0 then 0.0
    else if |a| % 2 == 1 then a[|a| / 2]
    else 0.5 * (a[|a| / 2 - 1] + a[|a| / 2])
  }

  /** The median lies between the least and the greatest of the sorted values. */
  lemma {:induction false} MedianWithinSorted(xs: seq<real>)
    requires xs != []
    ensures SortBy(xs, Id)[0] <= Median(xs) <= SortBy(xs, Id)[|xs| - 1]
    ensures |xs| % 2 == 1 ==> Median(xs) == SortBy(xs, Id)[|xs| / 2]
  {
    var a := SortBy(xs, Id);
    var n := |a|;
    assert Id(a[0]) <= Id(a[n / 2]) <= Id(a[n - 1]);
    if n % 2 == 0 {
      assert Id(a[0]) <= Id(a[n / 2 - 1]) <= Id(a[n - 1]);
    }
  }

  /**
   * The median of a non-empty list lies between two of its values, within
   * any bounds that hold for all of them, and is one of them for an odd length.
   */
  lemma {:induction false} MedianSpec(xs: seq<real>, lo: real, hi: real)
    requires xs != []
    ensures exists i :: 0 <= i < |xs| && xs[i] <= Median(xs)
    ensures exists j :: 0 <= j < |xs| && Median(xs) <= xs[j]
    ensures (forall i :: 0 <= i < |xs| ==> lo <= xs[i] <= hi) ==> lo <= Median(xs) <= hi
    ensures |xs| % 2 == 1 ==> Median(xs) in xs
  {
    var a := SortBy(xs, Id);
    MedianWithinSorted(xs);
    SortedMember(xs, Id, 0);
    SortedMember(xs, Id, |xs| - 1);
    SortedMember(xs, Id, |xs| / 2);
    var i :| 0 <= i < |xs| && xs[i] == a[0];
    var j :| 0 <= j < |xs| && xs[j] == a[|xs| - 1];
  }

  // ---------------------------------------------------------- NearestByHue

  /** The circular distance between two OpenCV hues: min(|a - b|, 180 - |a - b|). */
  function HueDistance(a: real, b: real): real
  {
    MinReal(AbsReal(a - b), 180.0 - AbsReal(a - b))
  }

  /** Between hues in [0, 180] the distance is symmetric, at most 90, and wraps round 0 and 180. */
  lemma {:induction false} HueDistanceSpec(a: real, b: real)
    requires 0.0 <= a <= 180.0 && 0.0 <= b <= 180.0
    ensures 0.0 <= HueDistance(a, b) <= 90.0 && HueDistance(a, b) == HueDistance(b, a)
    ensures HueDistance(a, b) == 0.0 <==> a == b || AbsReal(a - b) == 180.0
    ensures a + 180.0 - b <= 90.0 ==> HueDistance(a, b) == a + 180.0 - b
  {
  }

  const NoHueYet: real := 1000000000.0

  /** Position k holds the first centre at the least circular distance from h. */
  predicate NearestAt(h: real, centers: seq<(ColorName, Hsv)>, k: int)
  {
    0 <= k < |centers|
    && (forall i :: 0 <= i < |centers| ==> HueDistance(h, centers[k].1.h) <= HueDistance(h, centers[i].1.h))
    && (forall i :: 0 <= i < k ==> HueDistance(h, centers[k].1.h) < HueDistance(h, centers[i].1.h))
  }

  /**
   * NearestByHue over the centres in the dictionary's order: the colour of
   * the first centre at the least circular distance, the first key when every
   * distance is at least 1e9 (never, for hues in [0, 180]).  Keys.First()
   * throws on an empty dictionary.
   */
  method NearestByHue(h: real, centers: seq<(ColorName, Hsv)>) returns (c: ColorName)
    requires centers != []
    ensures (exists k :: NearestAt(h, centers, k) && HueDistance(h, centers[k].1.h) < NoHueYet && c == centers[k].0)
            || ((forall i :: 0 <= i < |centers| ==> HueDistance(h, centers[i].1.h) >= NoHueYet) && c == centers[0].0)
    ensures 0.0 <= h <= 180.0 && (forall i :: 0 <= i < |centers| ==> 0.0 <= centers[i].1.h <= 180.0)
            ==> exists k :: NearestAt(h, centers, k) && c == centers[k].0
  {
    var best := NoHueYet;
    c := centers[0].0;
    ghost var bk := -1;
    for i := 0 to |centers|
      invariant bk == -1 ==> best == NoHueYet && c == centers[0].0
      invariant bk != -1 ==> 0 <= bk < i && c == centers[bk].0 && best == HueDistance(h, centers[bk].1.h) < NoHueYet
      invariant forall j :: 0 <= j < i ==> best <= HueDistance(h, centers[j].1.h)
      invariant bk != -1 ==> forall j :: 0 <= j < bk ==> best < HueDistance(h, centers[j].1.h)
    {
      var d := AbsReal(h - centers[i].1.h);
      d := MinReal(d, 180.0 - d);
      if d < best {
        best, c, bk := d, centers[i].0, i;
      }
    }
    if 0.0 <= h <= 180.0 && (forall i :: 0 <= i < |centers| ==> 0.0 <= centers[i].1.h <= 180.0) {
      HueDistanceSpec(h, centers[0].1.h);
      assert bk != -1;
      assert NearestAt(h, centers, bk);
    }
  }

  // ------------------------------------------------------------ CreateMask

  /** One InRange call: the box [low, high] in H, S and V. */
  datatype HsvRange = HsvRange(lowH: int, lowS: int, lowV: int, highH: int, highS: int, highV: int)

  /**
   * ColorOps.CreateMask: the HSV boxes whose union is the mask.  S and V are
   * clamped into [0, 255]; a hue window that crosses 0 or 180 is split in two.
   */
  function CreateMask(center: Hsv, dH: int, dS: int, dV: int): (r: seq<HsvRange>)
    ensures 1 <= |r| <= 2
    ensures forall k :: 0 <= k < |r| ==> 0 <= r[k].lowS && r[k].highS <= 255 && 0 <= r[k].lowV && r[k].highV <= 255
  {
    var hc, sc, vc := RoundEven(center.h), RoundEven(center.s), RoundEven(center.v);
    var lowH, highH := hc - dH, hc + dH;
    var lowS, highS := ClampInt(sc - dS, 0, 255), ClampInt(sc + dS, 0, 255);
    var lowV, highV := ClampInt(vc - dV, 0, 255), ClampInt(vc + dV, 0, 255);
    if lowH < 0 then
      [HsvRange(0, lowS, lowV, highH, highS, highV), HsvRange(180 + lowH, lowS, lowV, 180, highS, highV)]
    else if highH > 180 then
      [HsvRange(lowH, lowS, lowV, 180, highS, highV), HsvRange(0, lowS, lowV, highH - 180, highS, highV)]
    else
      [HsvRange(lowH, lowS, lowV, highH, highS, highV)]
  }

  predicate InBox(b: HsvRange, h: int, s: int, v: int)
  {
    b.lowH <= h <= b.highH && b.lowS <= s <= b.highS && b.lowV <= v <= b.highV
  }

  /** A pixel is in the mask when it is in one of its boxes. */
  predicate InMask(r: seq<HsvRange>, h: int, s: int, v: int)
  {
    (|r| >= 1 && InBox(r[0], h, s, v)) || (|r| >= 2 && InBox(r[1], h, s, v))
  }

  /** The hue window [hc - dH, hc + dH] taken round the circle of 180 hues. */
  predicate HueWindow(hc: int, dH: int, h: int)
  {
    hc - dH <= h <= hc + dH || hc - dH <= h - 180 <= hc + dH || hc - dH <= h + 180 <= hc + dH
  }

  /**
   * For a centre inside the HSV ranges and a hue half-width below 90, a pixel
   * (hue in OpenCV's [0, 179]) is in the mask exactly when its hue is within
   * dH of the rounded centre round the circle and its S and V are within dS
   * and dV, with one exception: a window ending exactly at 180 is not split,
   * so hue 0 is left out although it lies on the window's edge.
   */
  lemma {:induction false} CreateMaskSpec(center: Hsv, dH: int, dS: int, dV: int, h: int, s: int, v: int)
    requires 0.0 <= center.h <= 180.0 && 0.0 <= center.s <= 255.0 && 0.0 <= center.v <= 255.0
    requires 0 <= dH < 90 && 0 <= dS && 0 <= dV
    requires 0 <= h < 180 && 0 <= s <= 255 && 0 <= v <= 255
    ensures InMask(CreateMask(center, dH, dS, dV), h, s, v)
            <==> HueWindow(RoundEven(center.h), dH, h) && !(h == 0 && RoundEven(center.h) + dH == 180)
                 && AbsInt(s - RoundEven(center.s)) <= dS && AbsInt(v - RoundEven(center.v)) <= dV
  {
    var hc, sc, vc := RoundEven(center.h), RoundEven(center.s), RoundEven(center.v);
    assert 0 <= hc <= 180 && 0 <= sc <= 255 && 0 <= vc <= 255;
    ClampWindow(s, sc, dS);
    ClampWindow(v, vc, dV);
    var r := CreateMask(center, dH, dS, dV);
    if hc - dH < 0 {
      assert r[0].lowH == 0 && r[0].highH == hc + dH && r[1].lowH == 180 + hc - dH && r[1].highH == 180;
    } else if hc + dH > 180 {
      assert r[0].lowH == hc - dH && r[0].highH == 180 && r[1].lowH == 0 && r[1].highH == hc + dH - 180;
    } else {
      assert |r| == 1 && r[0].lowH == hc - dH && r[0].highH == hc + dH;
    }
  }

  /** Clamping the window [c - d, c + d] into [0, 255] keeps exactly the values of [0, 255] within d of c. */
  lemma {:induction false} ClampWindow(x: int, c: int, d: int)
    requires 0 <= x <= 255 && 0 <= c <= 255 && 0 <= d
    ensures ClampInt(c - d, 0, 255) <= x <= ClampInt(c + d, 0, 255) <==> AbsInt(x - c) <= d
  {
  }

  // -------------------------------------------------------------- Contours

  /**
   * A contour as OpenCV measures it: its area, closed perimeter and moments,
   * with Math.Sqrt(area) and Math.Sqrt(area / PI) supplied alongside.
   */
  datatype Contour = Contour(area: real, perimeter: real, m00: real, m10: real, m01: real,
                             sqrtArea: real, radius: real)

  /** Math.PI. */
  const Pi: real := 3.141592653589793

  function Circularity(c: Contour): real
    requires c.perimeter > 1.0
  {
    4.0 * Pi * c.area / (c.perimeter * c.perimeter)
  }

  /** The filters a contour passes before it is scored. */
  predicate Accepted(c: Contour, p: PlayerParams)
  {
    !(c.area < p.minArea || c.area > p.maxArea) && c.perimeter > 1.0
    && !(Circularity(c) < p.minCircularity) && !(AbsReal(c.m00) < 0.000001)
  }

  /** score = circularity * sqrt(area). */
  function ContourScore(c: Contour): real
    requires c.perimeter > 1.0
  {
    Circularity(c) * c.sqrtArea
  }

  /** A player prediction. */
  datatype Prediction = Prediction(color: ColorName, point: Point, area: real, circularity: real, score: real)

  /** The prediction made of an accepted contour: its centroid, rounded. */
  function ContourPrediction(c: Contour, col: ColorName): Prediction
    requires c.perimeter > 1.0 && c.m00 != 0.0
  {
    Prediction(col, Point(RoundEven(c.m10 / c.m00), RoundEven(c.m01 / c.m00)), c.area, Circularity(c), ContourScore(c))
  }

  /** Position k holds the first accepted contour of highest score. */
  predicate BestAt(cs: seq<Contour>, p: PlayerParams, k: int)
  {
    0 <= k < |cs| && Accepted(cs[k], p)
    && (forall i :: 0 <= i < |cs| && Accepted(cs[i], p) ==> ContourScore(cs[i]) <= ContourScore(cs[k]))
    && (forall i :: 0 <= i < k && Accepted(cs[i], p) ==> ContourScore(cs[i]) < ContourScore(cs[k]))
  }

  /**
   * The running best of DetectBestCircleByContour over cs[..i]: the first
   * accepted contour of highest score with its radius, None if none is accepted.
   */
  function ScanContours(cs: seq<Contour>, col: ColorName, p: PlayerParams, i: nat): Option<(Prediction, real)>
    requires i <= |cs|
  {
    if i == 0 then None
    else
      var prev := ScanContours(cs, col, p, i - 1);
      var c := cs[i - 1];
      if Accepted(c, p) && (prev.None? || ContourScore(c) > prev.value.0.score)
      then Some((ContourPrediction(c, col), c.radius))
      else prev
  }

  /**
   * The outcome of DetectBestCircleByContour: the scan's winner if its score
   * reaches detectionScoreMin, and the winner's radius (0 when none is accepted).
   */
  function ContourBest(cs: seq<Contour>, col: ColorName, p: PlayerParams): (Option<Prediction>, real)
  {
    var s := ScanContours(cs, col, p, |cs|);
    if s.None? then (None, 0.0)
    else if s.value.0.score >= p.detectionScoreMin then (Some(s.value.0), s.value.1)
    else (None, s.value.1)
  }

  /**
   * DetectBestCircleByContour: the first accepted contour of highest score,
   * kept only if its score reaches detectionScoreMin.  bestR is the radius of
   * that contour (also when it is then rejected), 0 when none is accepted.
   */
  method DetectBestCircleByContour(cs: seq<Contour>, col: ColorName, p: PlayerParams)
    returns (best: Option<Prediction>, bestR: real)
    ensures (best, bestR) == ContourBest(cs, col, p)
    ensures best.Some? ==> exists k :: BestAt(cs, p, k) && best.value == ContourPrediction(cs[k], col)
                                       && bestR == cs[k].radius
    ensures best.Some? ==> best.value.color == col && best.value.score >= p.detectionScoreMin
    ensures best.None? ==> ((forall k :: 0 <= k < |cs| ==> !Accepted(cs[k], p)) && bestR == 0.0)
                           || exists k :: BestAt(cs, p, k) && ContourScore(cs[k]) < p.detectionScoreMin
  {
    var cand: Option<Prediction> := None;
    bestR := 0.0;
    ghost var bk := -1;
    for i := 0 to |cs|
      invariant bk == -1 ==> cand.None? && bestR == 0.0 && forall j :: 0 <= j < i ==> !Accepted(cs[j], p)
      invariant bk != -1 ==> 0 <= bk < i && Accepted(cs[bk], p) && cand == Some(ContourPrediction(cs[bk], col))
                             && bestR == cs[bk].radius
      invariant bk != -1 ==> forall j :: 0 <= j < i && Accepted(cs[j], p) ==> ContourScore(cs[j]) <= ContourScore(cs[bk])
      invariant bk != -1 ==> forall j :: 0 <= j < bk && Accepted(cs[j], p) ==> ContourScore(cs[j]) < ContourScore(cs[bk])
      invariant ScanContours(cs, col, p, i) == if cand.None? then None else Some((cand.value, bestR))
    {
      var c := cs[i];
      if Accepted(c, p) {
        var score := ContourScore(c);
        if cand.None? || score > cand.value.score {
          cand := Some(ContourPrediction(c, col));
          bestR := c.radius;
          bk := i;
        }
      }
    }
    if cand.Some? && cand.value.score >= p.detectionScoreMin {
      best := cand;
    } else {
      best := None;
    }
  }

  // ----------------------------------------------------------------- Hough

  /** A circle HoughCircles reports. */
  datatype Circle = Circle(cx: real, cy: real, radius: real)

  function Mean(xs: seq<real>): real
    requires xs != []
  {
    SumReals(xs) / |xs| as real
  }

  /** The radius bounds DetectByHough passes on: around the mean radius so far (11 with none), within [6, 40]. */
  function HoughRadii(radii: seq<real>, p: PlayerParams): (r: (int, int))
    ensures r.0 >= 6 && r.1 <= 40
    ensures r.0 == MaxInt(6, RoundEven(if radii != [] then Mean(radii) else 11.0) + p.houghMinRPad)
    ensures r.1 == MinInt(40, RoundEven(if radii != [] then Mean(radii) else 11.0) + p.houghMaxRPad)
  {
    var avgR := RoundEven(if radii != [] then Mean(radii) else 11.0);
    (MaxInt(6, avgR + p.houghMinRPad), MinInt(40, avgR + p.houghMaxRPad))
  }

  /** OrderByDescending(radius).First(): the first circle of largest radius. */
  function LargestCircle(cs: seq<Circle>): (k: int)
    requires cs != []
    ensures 0 <= k < |cs|
    ensures forall i :: 0 <= i < |cs| ==> cs[i].radius <= cs[k].radius
    ensures forall i :: 0 <= i < k ==> cs[i].radius < cs[k].radius
    decreases |cs|
  {
    if |cs| == 1 then 0
    else
      var k := LargestCircle(cs[..|cs| - 1]);
      assert forall i :: 0 <= i < |cs| - 1 ==> cs[..|cs| - 1][i] == cs[i];
      if cs[|cs| - 1].radius > cs[k].radius then |cs| - 1 else k
  }

  /**
   * DetectByHough once the circles are found: the largest circle, rejected
   * when its area is outside [minArea, maxArea]; its radius is the score.
   */
  function HoughPrediction(cs: seq<Circle>, col: ColorName, p: PlayerParams): (r: Option<Prediction>)
    ensures cs == [] ==> r.None?
    ensures cs != [] ==> var c := cs[LargestCircle(cs)];
                         (r.Some? <==> p.minArea <= Pi * c.radius * c.radius <= p.maxArea)
    ensures r.Some? ==> r.value.color == col && p.minArea <= r.value.area <= p.maxArea
                        && forall i :: 0 <= i < |cs| ==> cs[i].radius <= r.value.score
  {
    if cs == [] then None
    else
      var c := cs[LargestCircle(cs)];
      var area := Pi * c.radius * c.radius;
      if area < p.minArea || area > p.maxArea then None
      else Some(Prediction(col, Point(RoundEven(c.cx), RoundEven(c.cy)), area, 0.0, c.radius))
  }

  // ---------------------------------------------------------------- Detect

  /** Enumerable.Distinct: the first occurrence of every element, in order. */
  function Distinct(s: seq<ColorName>): (r: seq<ColorName>)
    ensures |r| <= |s|
    ensures forall i, j :: 0 <= i < j < |r| ==> r[i] != r[j]
    ensures forall x :: x in r <==> x in s
    decreases |s|
  {
    if s == [] then []
    else
      var init := Distinct(s[..|s| - 1]);
      assert forall x :: x in s <==> x in s[..|s| - 1] || x == s[|s| - 1];
      if s[|s| - 1] in init then init else init + [s[|s| - 1]]
  }

  /** The colours Detect looks at: the distinct requested colours, or all four when none is requested. */
  function ColorsToUse(colors: seq<ColorName>): (r: seq<ColorName>)
    ensures forall i, j :: 0 <= i < j < |r| ==> r[i] != r[j]
    ensures colors != [] ==> forall x :: x in r <==> x in colors
    ensures colors == [] ==> r == AllColors
  {
    if colors != [] then Distinct(colors) else AllColors
  }

  /** The double remainder x % 180 (truncating). */
  function Mod180(x: real): (r: real)
    ensures x >= 0.0 ==> 0.0 <= r < 180.0
  {
    x - 180.0 * Truncate(x / 180.0) as real
  }

  /** (H + HueShift + 180) % 180. */
  function ShiftHue(h: real, shift: int): real
  {
    Mod180(h + shift as real + 180.0)
  }

  /** The shifted hue is the sum taken round the circle of 180 hues. */
  lemma {:induction false} ShiftHueSpec(h: real, shift: int)
    requires -180.0 <= h + shift as real < 360.0
    ensures 0.0 <= ShiftHue(h, shift) < 180.0
    ensures 0.0 <= h + shift as real < 180.0 ==> ShiftHue(h, shift) == h + shift as real
    ensures h + shift as real < 0.0 ==> ShiftHue(h, shift) == h + shift as real + 180.0
    ensures 180.0 <= h + shift as real ==> ShiftHue(h, shift) == h + shift as real - 180.0
  {
    var x := h + shift as real + 180.0;
    var t := Truncate(x / 180.0);
    if x < 180.0 {
      assert t == 0;
    } else if x < 360.0 {
      assert t == 1;
    } else {
      assert t == 2;
    }
  }

  /**
   * One colour's detection on a mask of `center`: the contour winner if one
   * passes (its radius, when positive, joins the radii), else the Hough
   * circle within bounds taken from the radii so far if Hough is on, else none.
   */
  function ColorResult(col: ColorName, center: Hsv, p: PlayerParams,
                       contoursOf: seq<HsvRange> -> seq<Contour>, hough: (seq<HsvRange>, int, int) -> seq<Circle>,
                       radii: seq<real>): (Option<Prediction>, seq<real>)
  {
    var mask := CreateMask(center, p.dH, p.dS, p.dV);
    var (best, rBest) := ContourBest(contoursOf(mask), col, p);
    if best.Some? then (best, if rBest > 0.0 then radii + [rBest] else radii)
    else if p.useHough then
      var (minR, maxR) := HoughRadii(radii, p);
      (HoughPrediction(hough(mask, minR, maxR), col, p), radii)
    else (None, radii)
  }

  /** The scan's winner is always a prediction for the colour scanned. */
  lemma {:induction false} ScanContoursColor(cs: seq<Contour>, col: ColorName, p: PlayerParams, i: nat)
    requires i <= |cs|
    ensures ScanContours(cs, col, p, i).Some? ==> ScanContours(cs, col, p, i).value.0.color == col
  {
    if i > 0 {
      ScanContoursColor(cs, col, p, i - 1);
    }
  }

  /**
   * A colour's detection predicts that colour, and leaves the radii as they
   * were or extends them by one positive radius.
   */
  lemma ColorResultShape(col: ColorName, center: Hsv, p: PlayerParams,
                         contoursOf: seq<HsvRange> -> seq<Contour>, hough: (seq<HsvRange>, int, int) -> seq<Circle>,
                         radii: seq<real>)
    ensures var (pred, radii') := ColorResult(col, center, p, contoursOf, hough, radii);
            (pred.Some? ==> pred.value.color == col)
            && (radii' == radii || (|radii'| == |radii| + 1 && radii'[..|radii|] == radii && radii'[|radii|] > 0.0))
  {
    var cs := contoursOf(CreateMask(center, p.dH, p.dS, p.dV));
    ScanContoursColor(cs, col, p, |cs|);
  }

  /** Every colour among cols[..k] that has a centre has a hue shift. */
  predicate ShiftsKnown(cols: seq<ColorName>, centers: map<ColorName, Hsv>, p: PlayerParams, k: nat)
    requires k <= |cols|
  {
    forall j :: 0 <= j < k && cols[j] in centers ==> cols[j] in p.hueShift
  }

  /**
   * The predictions and contour radii Detect gathers over cols[..k], in order:
   * each colour with a centre is detected on that centre with its hue shifted
   * by the colour's HueShift.
   */
  function DetectSpec(cols: seq<ColorName>, centers: map<ColorName, Hsv>, p: PlayerParams,
                      contoursOf: seq<HsvRange> -> seq<Contour>, hough: (seq<HsvRange>, int, int) -> seq<Circle>,
                      k: nat): (seq<Prediction>, seq<real>)
    requires k <= |cols| && ShiftsKnown(cols, centers, p, k)
  {
    if k == 0 then ([], [])
    else
      var (preds, radii) := DetectSpec(cols, centers, p, contoursOf, hough, k - 1);
      var col := cols[k - 1];
      if col !in centers then (preds, radii)
      else
        var c := centers[col];
        var (pred, radii') := ColorResult(col, c.(h := ShiftHue(c.h, p.hueShift[col])), p, contoursOf, hough, radii);
        (if pred.Some? then preds + [pred.value] else preds, radii')
  }

  /**
   * What DetectSpec gathers over distinct colours: at most one prediction per
   * colour, each for a colour among cols[..k] that has a centre, no colour
   * twice, and only positive radii.
   */
  lemma {:induction false} DetectSpecShape(cols: seq<ColorName>, centers: map<ColorName, Hsv>, p: PlayerParams,
                                           contoursOf: seq<HsvRange> -> seq<Contour>,
                                           hough: (seq<HsvRange>, int, int) -> seq<Circle>, k: nat)
    requires k <= |cols| && ShiftsKnown(cols, centers, p, k)
    requires forall i, j :: 0 <= i < j < |cols| ==> cols[i] != cols[j]
    ensures var (preds, radii) := DetectSpec(cols, centers, p, contoursOf, hough, k);
            |preds| <= k
            && (forall i :: 0 <= i < |preds| ==> preds[i].color in cols[..k] && preds[i].color in centers)
            && (forall i, j :: 0 <= i < j < |preds| ==> preds[i].color != preds[j].color)
            && (forall i :: 0 <= i < |radii| ==> radii[i] > 0.0)
  {
    if k > 0 {
      DetectSpecShape(cols, centers, p, contoursOf, hough, k - 1);
      var (preds, radii) := DetectSpec(cols, centers, p, contoursOf, hough, k - 1);
      var col := cols[k - 1];
      assert cols[..k] == cols[..k - 1] + [col];
      assert col !in cols[..k - 1];
      if col in centers {
        var c := centers[col];
        ColorResultShape(col, c.(h := ShiftHue(c.h, p.hueShift[col])), p, contoursOf, hough, radii);
        var (pred, radii') := ColorResult(col, c.(h := ShiftHue(c.h, p.hueShift[col])), p, contoursOf, hough, radii);
        if radii' != radii {
          assert forall i :: 0 <= i < |radii| ==> radii'[i] == radii[i];
        }
      }
    }
  }

  /** The mean of the radii, 0 when there are none. */
  function MeanRadius(radii: seq<real>): real
  {
    if |radii| > 0 then Mean(radii) else 0.0
  }

  /** The input a colour's detection needs from OpenCV: its contours, or the Hough circles for radius bounds. */
  method DetectColor(col: ColorName, center: Hsv, p: PlayerParams,
                     contoursOf: seq<HsvRange> -> seq<Contour>, hough: (seq<HsvRange>, int, int) -> seq<Circle>,
                     radii: seq<real>)
    returns (pred: Option<Prediction>, radii': seq<real>)
    ensures (pred, radii') == ColorResult(col, center, p, contoursOf, hough, radii)
    ensures pred.Some? ==> pred.value.color == col
    ensures pred.Some? ==> pred.value.score >= p.detectionScoreMin
                           || (p.useHough && var mask := CreateMask(center, p.dH, p.dS, p.dV);
                               var (minR, maxR) := HoughRadii(radii, p);
                               pred == HoughPrediction(hough(mask, minR, maxR), col, p))
    ensures radii' == radii || (|radii'| == |radii| + 1 && radii'[..|radii|] == radii && radii'[|radii|] > 0.0)
  {
    var mask := CreateMask(center, p.dH, p.dS, p.dV);
    var best, rBest := DetectBestCircleByContour(contoursOf(mask), col, p);
    radii' := radii;
    if best.Some? {
      pred := best;
      if rBest > 0.0 {
        radii' := radii + [rBest];
      }
    } else if p.useHough {
      var (minR, maxR) := HoughRadii(radii, p);
      pred := HoughPrediction(hough(mask, minR, maxR), col, p);
    } else {
      pred := None;
    }
  }

  /**
   * PlayerDetector.Detect: for each colour to use that has a centre, the
   * centre's hue is shifted, the mask built, and the best contour (or, if
   * none passes and Hough is on, the Hough circle) becomes that colour's
   * prediction.  avgRadius is the mean radius of the contour detections.
   * `contoursOf(mask)` and `hough(mask, minR, maxR)` stand for the OpenCV work
   * on the image.  Reading HueShift[col] for a colour with a centre but no
   * hue-shift entry throws KeyNotFoundException: `missing` names that first
   * colour, and then no predictions are returned.
   */
  method Detect(colors: seq<ColorName>, centers: map<ColorName, Hsv>, p: PlayerParams,
                contoursOf: seq<HsvRange> -> seq<Contour>, hough: (seq<HsvRange>, int, int) -> seq<Circle>)
    returns (preds: seq<Prediction>, avgRadius: real, missing: Option<ColorName>)
    ensures missing.None? <==> forall c :: c in ColorsToUse(colors) && c in centers ==> c in p.hueShift
    ensures missing.Some? ==> preds == [] && avgRadius == 0.0
    ensures missing.Some? ==> exists k :: 0 <= k < |ColorsToUse(colors)| && ColorsToUse(colors)[k] == missing.value
                                          && missing.value in centers && missing.value !in p.hueShift
                                          && forall c :: c in ColorsToUse(colors)[..k] && c in centers ==> c in p.hueShift
    ensures |preds| <= |ColorsToUse(colors)|
    ensures forall i :: 0 <= i < |preds| ==> preds[i].color in ColorsToUse(colors) && preds[i].color in centers
    ensures forall i, j :: 0 <= i < j < |preds| ==> preds[i].color != preds[j].color
    ensures avgRadius >= 0.0
    ensures missing.None? ==> var cols := ColorsToUse(colors);
                              ShiftsKnown(cols, centers, p, |cols|)
                              && preds == DetectSpec(cols, centers, p, contoursOf, hough, |cols|).0
                              && avgRadius == MeanRadius(DetectSpec(cols, centers, p, contoursOf, hough, |cols|).1)
  {
    var cols := ColorsToUse(colors);
    preds := [];
    var radii: seq<real> := [];
    for k := 0 to |cols|
      invariant ShiftsKnown(cols, centers, p, k)
      invariant (preds, radii) == DetectSpec(cols, centers, p, contoursOf, hough, k)
    {
      var col := cols[k];
      if col !in centers {
        continue;
      }
      if col !in p.hueShift {
        assert cols[..k + 1] == cols[..k] + [col];
        return [], 0.0, Some(col);
      }
      var c := centers[col];
      var shifted := c.(h := ShiftHue(c.h, p.hueShift[col]));
      var pred, radii' := DetectColor(col, shifted, p, contoursOf, hough, radii);
      radii := radii';
      if pred.Some? {
        preds := preds + [pred.value];
      }
    }
    assert cols[..|cols|] == cols;
    DetectSpecShape(cols, centers, p, contoursOf, hough, |cols|);
    SumNonNegative(radii);
    avgRadius := MeanRadius(radii);
    missing := None;
  }

  // --------------------------------------------------------- MatchAndScore

  /** The index in s of the element at k after RemoveAt(s, i). */
  function Skip(i: int, k: int): int
  {
    if k < i then k else k + 1
  }

  /** List.RemoveAt. */
  function RemoveAt<T>(s: seq<T>, i: int): (r: seq<T>)
    requires 0 <= i < |s|
    ensures |r| == |s| - 1
    ensures forall k :: 0 <= k < |r| ==> 0 <= Skip(i, k) < |s| && r[k] == s[Skip(i, k)]
  {
    s[..i] + s[i + 1..]
  }

  /** (bi, bj) is the first pair, in the scan's row-major order, at the least distance. */
  predicate ClosestAt(ps: seq<Point>, gs: seq<Point>, dist: (Point, Point) -> real, bi: int, bj: int)
  {
    0 <= bi < |ps| && 0 <= bj < |gs|
    && (forall i, j :: 0 <= i < |ps| && 0 <= j < |gs| ==> dist(ps[bi], gs[bj]) <= dist(ps[i], gs[j]))
    && (forall i, j :: 0 <= i < |ps| && 0 <= j < |gs| && (i < bi || (i == bi && j < bj))
                       ==> dist(ps[bi], gs[bj]) < dist(ps[i], gs[j]))
  }

  /** At most one pair is the first closest one. */
  lemma {:induction false} ClosestUnique(ps: seq<Point>, gs: seq<Point>, dist: (Point, Point) -> real,
                                         a: int, b: int, c: int, d: int)
    requires ClosestAt(ps, gs, dist, a, b) && ClosestAt(ps, gs, dist, c, d)
    ensures a == c && b == d
  {
    assert dist(ps[a], gs[b]) <= dist(ps[c], gs[d]);
    assert dist(ps[c], gs[d]) <= dist(ps[a], gs[b]);
  }

  /** The first least element. */
  function FirstMin(xs: seq<real>): (k: int)
    requires xs != []
    ensures 0 <= k < |xs|
    ensures forall i :: 0 <= i < |xs| ==> xs[k] <= xs[i]
    ensures forall i :: 0 <= i < k ==> xs[k] < xs[i]
    decreases |xs|
  {
    if |xs| == 1 then 0
    else
      var k := FirstMin(xs[..|xs| - 1]);
      assert forall i :: 0 <= i < |xs| - 1 ==> xs[..|xs| - 1][i] == xs[i];
      if xs[|xs| - 1] < xs[k] then |xs| - 1 else k
  }

  /** The distances from one prediction to every ground-truth point. */
  function Row(pr: Point, gs: seq<Point>, dist: (Point, Point) -> real): (r: seq<real>)
    ensures |r| == |gs| && forall j :: 0 <= j < |gs| ==> r[j] == dist(pr, gs[j])
  {
    seq(|gs|, j requires 0 <= j < |gs| => dist(pr, gs[j]))
  }

  /** The least distance of every row. */
  function RowMins(ps: seq<Point>, gs: seq<Point>, dist: (Point, Point) -> real): (r: seq<real>)
    requires gs != []
    ensures |r| == |ps|
    ensures forall i :: 0 <= i < |ps| ==> r[i] == Row(ps[i], gs, dist)[FirstMin(Row(ps[i], gs, dist))]
  {
    seq(|ps|, i requires 0 <= i < |ps| => Row(ps[i], gs, dist)[FirstMin(Row(ps[i], gs, dist))])
  }

  /**
   * Some pair is the first closest one: the first row with the least row
   * minimum, at its first minimum.
   */
  lemma {:induction false} ClosestExists(ps: seq<Point>, gs: seq<Point>, dist: (Point, Point) -> real)
    requires ps != [] && gs != []
    ensures exists bi, bj :: ClosestAt(ps, gs, dist, bi, bj)
  {
    var mins := RowMins(ps, gs, dist);
    var bi := FirstMin(mins);
    var bj := FirstMin(Row(ps[bi], gs, dist));
    assert forall i, j :: 0 <= i < |ps| && 0 <= j < |gs| ==> mins[i] <= dist(ps[i], gs[j]);
    assert ClosestAt(ps, gs, dist, bi, bj);
  }

  /**
   * The distances of the pairs the greedy matching takes, in order: the
   * first closest remaining pair each time, until one side is used up.
   */
  ghost function Greedy(ps: seq<Point>, gs: seq<Point>, dist: (Point, Point) -> real): seq<real>
    decreases |ps|
  {
    if ps == [] || gs == [] then []
    else
      ClosestExists(ps, gs, dist);
      var bi, bj :| ClosestAt(ps, gs, dist, bi, bj);
      [dist(ps[bi], gs[bj])] + Greedy(RemoveAt(ps, bi), RemoveAt(gs, bj), dist)
  }

  /** (i', j') comes before (i, j) in the scan's row-major order. */
  predicate Before(i': int, j': int, i: int, j: int)
  {
    i' < i || (i' == i && j' < j)
  }

  /** No pair scanned before (i, j) is closer than (bi, bj). */
  predicate LeastSoFar(ps: seq<Point>, gs: seq<Point>, dist: (Point, Point) -> real, bi: int, bj: int, i: int, j: int)
    requires 0 <= bi < |ps| && 0 <= bj < |gs|
  {
    forall i', j' :: 0 <= i' < |ps| && 0 <= j' < |gs| && Before(i', j', i, j) ==> dist(ps[bi], gs[bj]) <= dist(ps[i'], gs[j'])
  }

  /** Every pair before (bi, bj) is farther. */
  predicate FirstSoFar(ps: seq<Point>, gs: seq<Point>, dist: (Point, Point) -> real, bi: int, bj: int)
    requires 0 <= bi < |ps| && 0 <= bj < |gs|
  {
    forall i', j' :: 0 <= i' < |ps| && 0 <= j' < |gs| && Before(i', j', bi, bj) ==> dist(ps[bi], gs[bj]) < dist(ps[i'], gs[j'])
  }

  /** One step of the inner loop: (i, j) either replaces the best pair or is no closer. */
  lemma {:induction false} ScanStep(ps: seq<Point>, gs: seq<Point>, dist: (Point, Point) -> real,
                                    bi: int, bj: int, i: int, j: int)
    requires 0 <= bi < |ps| && 0 <= bj < |gs| && 0 <= i < |ps| && 0 <= j < |gs|
    requires LeastSoFar(ps, gs, dist, bi, bj, i, j) && FirstSoFar(ps, gs, dist, bi, bj)
    ensures dist(ps[i], gs[j]) < dist(ps[bi], gs[bj])
            ==> LeastSoFar(ps, gs, dist, i, j, i, j + 1) && FirstSoFar(ps, gs, dist, i, j)
    ensures !(dist(ps[i], gs[j]) < dist(ps[bi], gs[bj])) ==> LeastSoFar(ps, gs, dist, bi, bj, i, j + 1)
  {
  }

  /** The end of a row is the start of the next. */
  lemma {:induction false} ScanRow(ps: seq<Point>, gs: seq<Point>, dist: (Point, Point) -> real, bi: int, bj: int, i: int)
    requires 0 <= bi < |ps| && 0 <= bj < |gs|
    requires LeastSoFar(ps, gs, dist, bi, bj, i, |gs|)
    ensures LeastSoFar(ps, gs, dist, bi, bj, i + 1, 0)
  {
  }

  /** The scan over every remaining pair for the first closest one. */
  method ScanClosest(ps: seq<Point>, gs: seq<Point>, dist: (Point, Point) -> real) returns (bi: int, bj: int)
    requires ps != [] && gs != []
    ensures ClosestAt(ps, gs, dist, bi, bj)
  {
    var best := dist(ps[0], gs[0]);
    bi, bj := 0, 0;
    for i := 0 to |ps|
      invariant 0 <= bi < |ps| && 0 <= bj < |gs| && best == dist(ps[bi], gs[bj])
      invariant LeastSoFar(ps, gs, dist, bi, bj, i, 0) && FirstSoFar(ps, gs, dist, bi, bj)
    {
      for j := 0 to |gs|
        invariant 0 <= bi < |ps| && 0 <= bj < |gs| && best == dist(ps[bi], gs[bj])
        invariant LeastSoFar(ps, gs, dist, bi, bj, i, j) && FirstSoFar(ps, gs, dist, bi, bj)
      {
        ScanStep(ps, gs, dist, bi, bj, i, j);
        var d := dist(ps[i], gs[j]);
        if d < best {
          best, bi, bj := d, i, j;
        }
      }
      ScanRow(ps, gs, dist, bi, bj, i);
    }
    assert LeastSoFar(ps, gs, dist, bi, bj, |ps|, 0);
  }

  /** One greedy step: the closest pair's distance, then the matching of what is left. */
  lemma {:induction false} GreedyStep(ps: seq<Point>, gs: seq<Point>, dist: (Point, Point) -> real, bi: int, bj: int)
    requires ClosestAt(ps, gs, dist, bi, bj)
    ensures Greedy(ps, gs, dist) == [dist(ps[bi], gs[bj])] + Greedy(RemoveAt(ps, bi), RemoveAt(gs, bj), dist)
  {
    ClosestExists(ps, gs, dist);
    var bi', bj' :| ClosestAt(ps, gs, dist, bi', bj');
    ClosestUnique(ps, gs, dist, bi, bj, bi', bj');
  }

  lemma {:induction false} SumSnoc(xs: seq<real>, x: real)
    ensures SumReals(xs + [x]) == SumReals(xs) + x
  {
    assert (xs + [x])[..|xs|] == xs;
  }

  /**
   * Trainer.MatchAndScore: the greedy matching's distances summed, plus
   * missPenalty per unmatched ground-truth point and fpPenalty per unmatched
   * prediction; the average error is the mean matched distance, or a
   * penalty when nothing matched.
   */
  method MatchAndScore(preds: seq<Point>, gts: seq<Point>, dist: (Point, Point) -> real,
                       missPenalty: real, fpPenalty: real)
    returns (total: real, avgErrorPx: real)
    ensures total == MatchTotal(Greedy(preds, gts, dist), |preds|, |gts|, missPenalty, fpPenalty)
    ensures avgErrorPx == MatchAverage(Greedy(preds, gts, dist), |preds|, |gts|, missPenalty, fpPenalty)
  {
    var remP, remG := preds, gts;
    total := 0.0;
    var errors: seq<real> := [];
    ghost var g := Greedy(preds, gts, dist);
    while |remP| > 0 && |remG| > 0
      invariant errors + Greedy(remP, remG, dist) == g
      invariant total == SumReals(errors)
      invariant |remP| + |errors| == |preds| && |remG| + |errors| == |gts|
      decreases |remP|
    {
      var bi, bj := ScanClosest(remP, remG, dist);
      var best := dist(remP[bi], remG[bj]);
      MatchStep(errors, remP, remG, dist, bi, bj, g);
      SumSnoc(errors, best);
      total := total + best;
      errors := errors + [best];
      remP := RemoveAt(remP, bi);
      remG := RemoveAt(remG, bj);
    }
    MatchEnd(errors, remP, remG, dist, g);
    MatchTotals(errors, |remP|, |remG|, |preds|, |gts|, missPenalty, fpPenalty);
    total := total + Penalty(|remG|, missPenalty);
    total := total + Penalty(|remP|, fpPenalty);
    avgErrorPx := if |errors| > 0 then SumReals(errors) / |errors| as real
                  else if |remG| > 0 then missPenalty else if |remP| > 0 then fpPenalty else 0.0;
  }

  /** n points left over at penalty p each. */
  function Penalty(n: int, p: real): real
  {
    n as real * p
  }

  /** The score of a matching: its distances, and a penalty for every point left over on either side. */
  function MatchTotal(g: seq<real>, nPreds: int, nGts: int, missPenalty: real, fpPenalty: real): real
  {
    SumReals(g) + Penalty(nGts - |g|, missPenalty) + Penalty(nPreds - |g|, fpPenalty)
  }

  /** The average error of a matching: its mean distance, or a penalty when nothing matched. */
  function MatchAverage(g: seq<real>, nPreds: int, nGts: int, missPenalty: real, fpPenalty: real): real
  {
    if g != [] then SumReals(g) / |g| as real
    else if nGts > 0 then missPenalty else if nPreds > 0 then fpPenalty else 0.0
  }

  /** The method's closing sums are the score and the average of the matching it built. */
  lemma {:induction false} MatchTotals(errors: seq<real>, leftPreds: int, leftGts: int, nPreds: int, nGts: int,
                                       missPenalty: real, fpPenalty: real)
    requires leftPreds + |errors| == nPreds && leftGts + |errors| == nGts
    ensures SumReals(errors) + Penalty(leftGts, missPenalty) + Penalty(leftPreds, fpPenalty)
            == MatchTotal(errors, nPreds, nGts, missPenalty, fpPenalty)
    ensures (if |errors| > 0 then SumReals(errors) / |errors| as real
             else if leftGts > 0 then missPenalty else if leftPreds > 0 then fpPenalty else 0.0)
            == MatchAverage(errors, nPreds, nGts, missPenalty, fpPenalty)
  {
  }

  /** The loop's step: the distance of the pair the scan found extends the matched prefix. */
  lemma {:induction false} MatchStep(errors: seq<real>, ps: seq<Point>, gs: seq<Point>, dist: (Point, Point) -> real,
                                     bi: int, bj: int, g: seq<real>)
    requires errors + Greedy(ps, gs, dist) == g && ClosestAt(ps, gs, dist, bi, bj)
    ensures (errors + [dist(ps[bi], gs[bj])]) + Greedy(RemoveAt(ps, bi), RemoveAt(gs, bj), dist) == g
  {
    GreedyStep(ps, gs, dist, bi, bj);
    var rest := Greedy(RemoveAt(ps, bi), RemoveAt(gs, bj), dist);
    assert errors + ([dist(ps[bi], gs[bj])] + rest) == (errors + [dist(ps[bi], gs[bj])]) + rest;
  }

  /** When one side is used up the matched prefix is the whole matching. */
  lemma {:induction false} MatchEnd(errors: seq<real>, ps: seq<Point>, gs: seq<Point>, dist: (Point, Point) -> real,
                                    g: seq<real>)
    requires errors + Greedy(ps, gs, dist) == g && (ps == [] || gs == [])
    ensures errors == g
  {
    assert Greedy(ps, gs, dist) == [];
    assert errors + [] == errors;
  }

  /** The greedy matching pairs off min(n, m) points. */
  lemma {:induction false} GreedyLength(ps: seq<Point>, gs: seq<Point>, dist: (Point, Point) -> real)
    ensures |Greedy(ps, gs, dist)| == MinInt(|ps|, |gs|)
    decreases |ps|
  {
    if ps != [] && gs != [] {
      ClosestExists(ps, gs, dist);
      var bi, bj :| ClosestAt(ps, gs, dist, bi, bj);
      GreedyStep(ps, gs, dist, bi, bj);
      GreedyLength(RemoveAt(ps, bi), RemoveAt(gs, bj), dist);
    }
  }

  /** m is no more than the distance of any pair. */
  predicate PairsAtLeast(ps: seq<Point>, gs: seq<Point>, dist: (Point, Point) -> real, m: real)
  {
    forall i, j :: 0 <= i < |ps| && 0 <= j < |gs| ==> m <= dist(ps[i], gs[j])
  }

  /** Removing a prediction and a ground-truth point keeps a lower bound of the pair distances. */
  lemma {:induction false} PairsAtLeastRemove(ps: seq<Point>, gs: seq<Point>, dist: (Point, Point) -> real, m: real,
                                              bi: int, bj: int)
    requires 0 <= bi < |ps| && 0 <= bj < |gs| && PairsAtLeast(ps, gs, dist, m)
    ensures PairsAtLeast(RemoveAt(ps, bi), RemoveAt(gs, bj), dist, m)
  {
    var ps', gs' := RemoveAt(ps, bi), RemoveAt(gs, bj);
    forall i, j | 0 <= i < |ps'| && 0 <= j < |gs'|
      ensures m <= dist(ps'[i], gs'[j])
    {
      assert ps'[i] == ps[Skip(bi, i)] && gs'[j] == gs[Skip(bj, j)];
    }
  }

  /** Every matched distance is at least any lower bound of all pair distances. */
  lemma {:induction false} GreedyAtLeast(ps: seq<Point>, gs: seq<Point>, dist: (Point, Point) -> real, m: real)
    requires PairsAtLeast(ps, gs, dist, m)
    ensures forall k :: 0 <= k < |Greedy(ps, gs, dist)| ==> m <= Greedy(ps, gs, dist)[k]
    decreases |ps|
  {
    if ps != [] && gs != [] {
      ClosestExists(ps, gs, dist);
      var bi, bj :| ClosestAt(ps, gs, dist, bi, bj);
      GreedyStep(ps, gs, dist, bi, bj);
      PairsAtLeastRemove(ps, gs, dist, m, bi, bj);
      GreedyAtLeast(RemoveAt(ps, bi), RemoveAt(gs, bj), dist, m);
      var g, g' := Greedy(ps, gs, dist), Greedy(RemoveAt(ps, bi), RemoveAt(gs, bj), dist);
      assert g == [dist(ps[bi], gs[bj])] + g';
      assert forall k :: 1 <= k < |g| ==> g[k] == g'[k - 1];
    }
  }

  /** The matched distances never decrease: each greedy step takes the closest pair left. */
  lemma {:induction false} GreedyAscending(ps: seq<Point>, gs: seq<Point>, dist: (Point, Point) -> real)
    ensures forall a, b :: 0 <= a < b < |Greedy(ps, gs, dist)| ==> Greedy(ps, gs, dist)[a] <= Greedy(ps, gs, dist)[b]
    decreases |ps|
  {
    if ps != [] && gs != [] {
      ClosestExists(ps, gs, dist);
      var bi, bj :| ClosestAt(ps, gs, dist, bi, bj);
      GreedyStep(ps, gs, dist, bi, bj);
      var ps', gs' := RemoveAt(ps, bi), RemoveAt(gs, bj);
      var d := dist(ps[bi], gs[bj]);
      assert PairsAtLeast(ps, gs, dist, d);
      PairsAtLeastRemove(ps, gs, dist, d, bi, bj);
      GreedyAtLeast(ps', gs', dist, d);
      GreedyAscending(ps', gs', dist);
      var g, g' := Greedy(ps, gs, dist), Greedy(ps', gs', dist);
      assert g == [d] + g';
      assert forall k :: 1 <= k < |g| ==> g[k] == g'[k - 1];
    }
  }

  lemma {:induction false} SumNonNegative(xs: seq<real>)
    requires forall i :: 0 <= i < |xs| ==> xs[i] >= 0.0
    ensures SumReals(xs) >= 0.0
    decreases |xs|
  {
    if xs != [] {
      var init := xs[..|xs| - 1];
      assert forall i :: 0 <= i < |init| ==> init[i] == xs[i];
      SumNonNegative(init);
    }
  }

  /** With non-negative distances the score is at least the penalties of the points left unmatched. */
  lemma {:induction false} ScoreLowerBound(ps: seq<Point>, gs: seq<Point>, dist: (Point, Point) -> real,
                                           missPenalty: real, fpPenalty: real)
    requires forall a, b :: dist(a, b) >= 0.0
    ensures MatchTotal(Greedy(ps, gs, dist), |ps|, |gs|, missPenalty, fpPenalty)
            >= MatchTotal([], |ps| - MinInt(|ps|, |gs|), |gs| - MinInt(|ps|, |gs|), missPenalty, fpPenalty)
  {
    GreedyLength(ps, gs, dist);
    GreedyAtLeast(ps, gs, dist, 0.0);
    SumNonNegative(Greedy(ps, gs, dist));
  }
}

=== FILE: player_params.dfy ===
/**
 * PlayerParameters: the parameters of the player-marker detector and the two
 * ways the trainer produces new ones, a random draw and a jittered copy.
 * Every change the trainer makes is on a fresh copy (Clone), so a parameter
 * set is a value here.  The random generator's draws are inputs: `u(i)` is
 * the i-th NextDouble of a call and `k(i)` the raw i-th integer draw.
 */
module PlayerParameters {
  import opened Common

  datatype ColorName = Green | Orange | Yellow | Blue

  /** The colours in the order of the enum. */
  const AllColors: seq<ColorName> := [Green, Orange, Yellow, Blue]

  /** An HSV triple in OpenCV's ranges: H in [0, 180], S and V in [0, 255]. */
  datatype Hsv = Hsv(h: real, s: real, v: real)

  /** BaseColorSpec; either dictionary may be null in a deserialised file. */
  datatype ColorSpec = ColorSpec(pinCenters: Option<map<ColorName, Hsv>>, playerCenters: Option<map<ColorName, Hsv>>)

  /** The empty BaseColorSpec that `new()` creates. */
  const EmptySpec: ColorSpec := ColorSpec(Some(map[]), Some(map[]))

  /** PlayerParams; `calibrated` is CalibratedColors, which may be null in a deserialised file. */
  datatype PlayerParams = PlayerParams(
    blur: int, open: int, close: int, detectionScoreMin: real,
    dH: int, dS: int, dV: int,
    houghDp: real, houghMaxRPad: int, houghMinDist: real, houghMinRPad: int, houghParam1: real, houghParam2: real,
    hueShift: map<ColorName, int>,
    minArea: real, maxArea: real, minCircularity: real,
    useHough: bool,
    calibrated: Option<ColorSpec>)

  /** `new PlayerParams()`: the field initialisers. */
  const Defaults: PlayerParams :=
    PlayerParams(0, 0, 0, 0.0, 0, 0, 0, 1.2, 6, 18.0, -4, 110.0, 16.0,
                 map[Green := 0, Orange := 0, Yellow := 0, Blue := 0],
                 0.0, 0.0, 0.0, true, Some(EmptySpec))

  /** The deep copy Clone makes of CalibratedColors: a null dictionary becomes an empty one. */
  function CopySpec(cs: Option<ColorSpec>): (r: ColorSpec)
    ensures r.pinCenters.Some? && r.playerCenters.Some?
    ensures cs.None? ==> r == EmptySpec
    ensures cs.Some? && cs.value.pinCenters.Some? ==> r.pinCenters == cs.value.pinCenters
    ensures cs.Some? && cs.value.playerCenters.Some? ==> r.playerCenters == cs.value.playerCenters
    ensures cs.Some? && cs.value.pinCenters.None? ==> r.pinCenters == Some(map[])
    ensures cs.Some? && cs.value.playerCenters.None? ==> r.playerCenters == Some(map[])
  {
    if cs.None? then EmptySpec
    else
      ColorSpec(if cs.value.pinCenters.Some? then cs.value.pinCenters else Some(map[]),
                if cs.value.playerCenters.Some? then cs.value.playerCenters else Some(map[]))
  }

  /** PlayerParams.Clone: every field copied, the colour centres deep-copied. */
  function Clone(p: PlayerParams): (c: PlayerParams)
    ensures c.(calibrated := p.calibrated) == p
    ensures c.calibrated == Some(CopySpec(p.calibrated))
  {
    p.(calibrated := Some(CopySpec(p.calibrated)))
  }

  /** A parameter set whose colour centres are all present. */
  predicate Complete(p: PlayerParams)
  {
    p.calibrated.Some? && p.calibrated.value.pinCenters.Some? && p.calibrated.value.playerCenters.Some?
  }

  /** A clone is complete and equal to a complete original; cloning a clone changes nothing. */
  lemma {:induction false} CloneSpec(p: PlayerParams)
    ensures Complete(Clone(p))
    ensures Complete(p) ==> Clone(p) == p
    ensures Clone(Clone(p)) == Clone(p)
  {
    if Complete(p) {
      assert CopySpec(p.calibrated) == p.calibrated.value;
    }
    assert CopySpec(Clone(p).calibrated) == CopySpec(p.calibrated);
  }

  /** Jit: v moved by round((2u - 1) * j * scale), then clamped into [lo, hi]. */
  function Jit(v: int, j: int, lo: int, hi: int, u: real, scale: real): (r: int)
    requires lo <= hi
    ensures lo <= r <= hi
  {
    ClampInt(v + RoundEven((u * 2.0 - 1.0) * j as real * scale), lo, hi)
  }

  /** JitD: v moved by (2u - 1) * j * scale, then clamped into [lo, hi]. */
  function JitD(v: real, j: real, lo: real, hi: real, u: real, scale: real): (r: real)
    requires lo <= hi
    ensures lo <= r <= hi
  {
    ClampReal(v + (u * 2.0 - 1.0) * j * scale, lo, hi)
  }

  const BlurChoices: seq<int> := [3, 5, 7]

  /** Array.IndexOf: the first position of x, or -1. */
  function IndexOf(s: seq<int>, x: int): (k: int)
    ensures -1 <= k < |s|
    ensures k >= 0 ==> s[k] == x && forall i :: 0 <= i < k ==> s[i] != x
    ensures k == -1 ==> forall i :: 0 <= i < |s| ==> s[i] != x
    decreases |s|
  {
    if s == [] then -1
    else if s[0] == x then 0
    else
      var k := IndexOf(s[1..], x);
      assert forall i :: 1 <= i < |s| ==> s[i] == s[1..][i - 1];
      if k == -1 then -1 else k + 1
  }

  /** The blur after a mutation: the neighbour of the current kernel in the cycle 3, 5, 7. */
  function NextBlur(blur: int, down: bool): (r: int)
  {
    BlurChoices[(IndexOf(BlurChoices, blur) + (if down then -1 else 1) + 3) % 3]
  }

  /**
   * The blur always ends in {3, 5, 7}; from one of those it moves one step
   * round the cycle; from any other value it becomes 3 or 5.
   */
  lemma {:induction false} NextBlurSpec(blur: int, down: bool)
    ensures NextBlur(blur, down) in BlurChoices
    ensures blur in BlurChoices ==> NextBlur(blur, down) != blur
    ensures blur == 3 ==> NextBlur(blur, down) == (if down then 7 else 5)
    ensures blur == 7 ==> NextBlur(blur, down) == (if down then 5 else 3)
    ensures blur !in BlurChoices ==> NextBlur(blur, down) == (if down then 5 else 3)
  {
    var k := IndexOf(BlurChoices, blur);
    if blur == 3 {
      assert k == 0;
    } else if blur == 5 {
      assert k == 1;
    } else if blur == 7 {
      assert k == 2;
    } else {
      assert k == -1;
    }
  }

  /** The position of a colour in the enum. */
  function ColorIndex(c: ColorName): (i: int)
    ensures 0 <= i < 4 && AllColors[i] == c
  {
    match c
    case Green => 0
    case Orange => 1
    case Yellow => 2
    case Blue => 3
  }

  /** A HueShift dictionary with an entry for every colour. */
  predicate HasAllColors(m: map<ColorName, int>)
  {
    Green in m && Orange in m && Yellow in m && Blue in m
  }

  /** Every colour present, every shift within [lo, hi]. */
  predicate ShiftsWithin(m: map<ColorName, int>, lo: int, hi: int)
  {
    HasAllColors(m) && forall c :: c in m ==> lo <= m[c] <= hi
  }

  /** `if (p.maxArea < p.minArea) swap`. */
  function OrderAreas(p: PlayerParams): (r: PlayerParams)
    ensures r.minArea <= r.maxArea
    ensures r.minArea == MinReal(p.minArea, p.maxArea) && r.maxArea == MaxReal(p.minArea, p.maxArea)
    ensures r.(minArea := p.minArea, maxArea := p.maxArea) == p
  {
    if p.maxArea < p.minArea then p.(minArea := p.maxArea, maxArea := p.minArea) else p
  }

  /** Every field within the clamps MutatePlayer applies, the kernel in {3, 5, 7} and the areas ordered. */
  predicate InMutateBounds(p: PlayerParams)
  {
    2 <= p.dH <= 30 && 10 <= p.dS <= 150 && 10 <= p.dV <= 150
    && p.blur in BlurChoices && 0 <= p.open <= 4 && 0 <= p.close <= 4
    && 0.5 <= p.minCircularity <= 0.98 && 50.0 <= p.minArea <= 10000.0 && 400.0 <= p.maxArea <= 20000.0
    && p.minArea <= p.maxArea && 4.0 <= p.detectionScoreMin <= 40.0
    && ShiftsWithin(p.hueShift, -20, 20)
    && 0.8 <= p.houghDp <= 2.0 && 10.0 <= p.houghMinDist <= 40.0
    && 50.0 <= p.houghParam1 <= 180.0 && 8.0 <= p.houghParam2 <= 30.0
    && -12 <= p.houghMinRPad <= 0 && 2 <= p.houghMaxRPad <= 16
  }

  /**
   * MutatePlayer(src, rng, scale): a clone with every tuned field jittered
   * and clamped, the blur moved round its cycle (`down` is rng.Next(0, 2) == 0)
   * and the areas put in order.  The hue-shift loop reads HueShift[c] for
   * every colour, so a dictionary missing one throws KeyNotFoundException:
   * None.
   */
  function MutatePlayer(src: PlayerParams, u: int -> real, down: bool, scale: real): (r: Option<PlayerParams>)
    ensures r.None? <==> !HasAllColors(src.hueShift)
    ensures r.Some? ==> r.value.useHough == src.useHough && r.value.calibrated == Clone(src).calibrated
  {
    if !HasAllColors(src.hueShift) then None else
    var c := Clone(src);
    var jittered := c.(
      dH := Jit(c.dH, 3, 2, 30, u(0), scale),
      dS := Jit(c.dS, 12, 10, 150, u(1), scale),
      dV := Jit(c.dV, 12, 10, 150, u(2), scale),
      blur := NextBlur(c.blur, down),
      open := Jit(c.open, 1, 0, 4, u(3), scale),
      close := Jit(c.close, 1, 0, 4, u(4), scale),
      minCircularity := JitD(c.minCircularity, 0.05, 0.5, 0.98, u(5), scale),
      minArea := JitD(c.minArea, 120.0, 50.0, 10000.0, u(6), scale),
      maxArea := JitD(c.maxArea, 140.0, 400.0, 20000.0, u(7), scale),
      detectionScoreMin := JitD(c.detectionScoreMin, 2.0, 4.0, 40.0, u(8), scale),
      hueShift := map col: ColorName | col in c.hueShift :: Jit(c.hueShift[col], 3, -20, 20, u(9 + ColorIndex(col)), scale),
      houghDp := JitD(c.houghDp, 0.1, 0.8, 2.0, u(13), scale),
      houghMinDist := JitD(c.houghMinDist, 2.0, 10.0, 40.0, u(14), scale),
      houghParam1 := JitD(c.houghParam1, 8.0, 50.0, 180.0, u(15), scale),
      houghParam2 := JitD(c.houghParam2, 2.0, 8.0, 30.0, u(16), scale),
      houghMinRPad := Jit(c.houghMinRPad, 2, -12, 0, u(17), scale),
      houghMaxRPad := Jit(c.houghMaxRPad, 2, 2, 16, u(18), scale));
    Some(OrderAreas(jittered))
  }

  /** Whatever the draws and the scale, a mutation that does not throw lands inside the clamps with ordered areas. */
  lemma {:induction false} MutateInBounds(src: PlayerParams, u: int -> real, down: bool, scale: real)
    ensures MutatePlayer(src, u, down, scale).Some? ==> InMutateBounds(MutatePlayer(src, u, down, scale).value)
  {
    if HasAllColors(src.hueShift) {
      NextBlurSpec(src.blur, down);
      assert HasAllColors(Clone(src).hueShift);
    }
  }

  /** Random.Next(lo, hi) from a raw draw x: a value in [lo, hi). */
  function NextInt(lo: int, hi: int, x: int): (r: int)
    requires lo < hi
    ensures lo <= r < hi
  {
    lo + x % (hi - lo)
  }

  /** RandD(a, b) = a + u * (b - a). */
  function RandD(a: real, b: real, u: real): real
  {
    a + u * (b - a)
  }

  /** With u in [0, 1), RandD(a, b) lies in [a, b]. */
  lemma {:induction false} RandDRange(a: real, b: real, u: real)
    requires 0.0 <= u < 1.0 && a <= b
    ensures a <= RandD(a, b, u) <= b
  {
    MulNonNegative(u, b - a);
    MulNonNegative(1.0 - u, b - a);
  }

  /**
   * RandomPlayerParams(rng): a fresh parameter set drawn from the stage-1
   * box (RandIn(a, b) is Next(a, b + 1)), every hue shift in [-10, 10], and
   * the areas put in order.
   */
  function RandomPlayerParams(k: int -> int, u: int -> real): (p: PlayerParams)
    ensures 10 <= p.dH <= 20 && 30 <= p.dS <= 120 && 30 <= p.dV <= 150
    ensures p.blur in BlurChoices && 0 <= p.open <= 3 && 0 <= p.close <= 3
    ensures -8 <= p.houghMinRPad < -2 && 4 <= p.houghMaxRPad < 12
    ensures ShiftsWithin(p.hueShift, -10, 10)
    ensures p.minArea <= p.maxArea && p.useHough && p.calibrated == Some(EmptySpec)
  {
    var p := Defaults.(
      dH := NextInt(10, 21, k(0)),
      dS := NextInt(30, 121, k(1)),
      dV := NextInt(30, 151, k(2)),
      blur := BlurChoices[NextInt(0, 3, k(3))],
      open := NextInt(0, 4, k(4)),
      close := NextInt(0, 4, k(5)),
      minCircularity := RandD(0.68, 0.92, u(0)),
      minArea := RandD(200.0, 1000.0, u(1)),
      maxArea := RandD(800.0, 6500.0, u(2)),
      detectionScoreMin := RandD(8.0, 20.0, u(3)),
      useHough := true,
      houghDp := RandD(1.0, 1.5, u(4)),
      houghMinDist := RandD(14.0, 28.0, u(5)),
      houghParam1 := RandD(80.0, 140.0, u(6)),
      houghParam2 := RandD(12.0, 22.0, u(7)),
      houghMinRPad := NextInt(-8, -2, k(6)),
      houghMaxRPad := NextInt(4, 12, k(7)),
      hueShift := map[Green := NextInt(-10, 11, k(8)), Orange := NextInt(-10, 11, k(9)),
                      Yellow := NextInt(-10, 11, k(10)), Blue := NextInt(-10, 11, k(11))]);
    OrderAreas(p)
  }

  /**
   * With NextDouble draws in [0, 1), a random parameter set already lies
   * inside the box MutatePlayer keeps, so refinement starts from points it
   * can reach.
   */
  lemma {:induction false} RandomWithinMutateBounds(k: int -> int, u: int -> real)
    requires forall i :: 0.0 <= u(i) < 1.0
    ensures InMutateBounds(RandomPlayerParams(k, u))
  {
    RandDRange(0.68, 0.92, u(0));
    RandDRange(200.0, 1000.0, u(1));
    RandDRange(800.0, 6500.0, u(2));
    RandDRange(8.0, 20.0, u(3));
    RandDRange(1.0, 1.5, u(4));
    RandDRange(14.0, 28.0, u(5));
    RandDRange(80.0, 140.0, u(6));
    RandDRange(12.0, 22.0, u(7));
    var p := RandomPlayerParams(k, u);
    assert p.blur in BlurChoices;
    assert ShiftsWithin(p.hueShift, -20, 20);
    assert 50.0 <= p.minArea <= 10000.0 && 400.0 <= p.maxArea <= 20000.0;
    assert 0.5 <= p.minCircularity <= 0.98;
  }
}

=== FILE: sorting.dfy ===
/**
 * The stable sort behind LINQ's OrderBy / OrderByDescending and List.Sort on
 * doubles: an insertion sort by a real-valued key.  A descending order is the
 * ascending order of the negated key, which keeps equal keys in input order
 * exactly as OrderByDescending does.
 */
module Sorting {

  /** Keys never decrease along the sequence. */
  predicate SortedBy<T>(s: seq<T>, key: T -> real)
  {
    forall i, j :: 0 <= i < j < |s| ==> key(s[i]) <= key(s[j])
  }

  /** Inserts `x` after every element whose key is at most key(x). */
  function Insert<T>(x: T, s: seq<T>, key: T -> real): (r: seq<T>)
    requires SortedBy(s, key)
    ensures SortedBy(r, key)
    ensures multiset(r) == multiset(s) + multiset{x}
    ensures |r| == |s| + 1
  {
    if s == [] then [x]
    else if key(s[|s| - 1]) <= key(x) then s + [x]
    else
      var init := s[..|s| - 1];
      assert s == init + [s[|s| - 1]];
      var r' := Insert(x, init, key);
      InsertedBelow(x, init, key, s[|s| - 1], r');
      r' + [s[|s| - 1]]
  }

  /** Appending an element whose key bounds every key of a sorted insertion keeps it sorted. */
  lemma {:induction false} InsertedBelow<T>(x: T, init: seq<T>, key: T -> real, last: T, r': seq<T>)
    requires SortedBy(r', key) && multiset(r') == multiset(init) + multiset{x}
    requires forall i :: 0 <= i < |init| ==> key(init[i]) <= key(last)
    requires key(x) < key(last)
    ensures SortedBy(r' + [last], key)
  {
    forall i | 0 <= i < |r'|
      ensures key(r'[i]) <= key(last)
    {
      assert r'[i] in multiset(r');
      if r'[i] != x {
        assert r'[i] in multiset(init);
        var k :| 0 <= k < |init| && init[k] == r'[i];
      }
    }
  }

  /** Stable insertion sort by `key`, ascending. */
  function SortBy<T>(s: seq<T>, key: T -> real): (r: seq<T>)
    ensures SortedBy(r, key)
    ensures multiset(r) == multiset(s) && |r| == |s|
  {
    if s == [] then []
    else
      assert s == s[..|s| - 1] + [s[|s| - 1]];
      Insert(s[|s| - 1], SortBy(s[..|s| - 1], key), key)
  }

  /** Every element of a sorted permutation comes from the input. */
  lemma {:induction false} SortedMember<T>(s: seq<T>, key: T -> real, k: int)
    requires 0 <= k < |s|
    ensures SortBy(s, key)[k] in s
  {
    var r := SortBy(s, key);
    assert r[k] in multiset(r);
  }
}

=== FILE: unified_cli.dfy ===
/**
 * UnifiedCli: ProgramUnified.Run, the single entry point that dispatches the
 * first argument, case-insensitively, to one of the mode runners, and the
 * alias splitter that turns "grid-train" into "grid", "train".
 */
module UnifiedCli {
  import opened Common

  /** The index of the first occurrence of c in s, or -1 (string.IndexOf). */
  function IndexOf(s: string, c: char): (r: int)
    ensures -1 <= r < |s|
    ensures r == -1 <==> c !in s
    ensures r >= 0 ==> s[r] == c && forall j :: 0 <= j < r ==> s[j] != c
    decreases |s|
  {
    if s == [] then -1
    else if s[0] == c then 0
    else
      var k := IndexOf(s[1..], c);
      assert forall j :: 1 <= j < |s| ==> s[j] == s[1..][j - 1];
      if k == -1 then -1 else k + 1
  }

  /** SplitAlias: split at the first '-' when it is not the first character. */
  function SplitAlias(alias: string): (r: seq<string>)
    ensures IndexOf(alias, '-') <= 0 ==> r == [alias]
    ensures IndexOf(alias, '-') > 0
            ==> var i := IndexOf(alias, '-'); r == [alias[..i], alias[i + 1..]] && '-' !in r[0] && r[0] != []
  {
    var i := IndexOf(alias, '-');
    if i <= 0 then [alias] else [alias[..i], alias[i + 1..]]
  }

  /** string.Join(sep, parts). */
  function Join(parts: seq<string>, sep: string): string
    decreases |parts|
  {
    if parts == [] then ""
    else if |parts| == 1 then parts[0]
    else Join(parts[..|parts| - 1], sep) + sep + parts[|parts| - 1]
  }

  /** Joining the parts of an alias with "-" gives the alias back. */
  lemma {:induction false} SplitAliasJoin(alias: string)
    ensures Join(SplitAlias(alias), "-") == alias
  {
    var i := IndexOf(alias, '-');
    if i > 0 {
      var parts := SplitAlias(alias);
      assert parts[..1] == [alias[..i]];
      assert alias == alias[..i] + "-" + alias[i + 1..];
    }
  }

  /** An alias made of a mode word without '-' and a sub-command splits into the two. */
  lemma {:induction false} AliasParts(mode: string, sub: string)
    requires mode != [] && '-' !in mode
    ensures SplitAlias(mode + "-" + sub) == [mode, sub]
  {
    var alias := mode + "-" + sub;
    var i := IndexOf(alias, '-');
    assert alias[|mode|] == '-';
    assert forall j :: 0 <= j < |mode| ==> alias[j] == mode[j];
    assert i == |mode|;
    assert alias[..i] == mode;
    assert alias[i + 1..] == sub;
  }

  /** The commands Run knows. */
  datatype Command = CombinedLive | GridMode | GridAlias | PinMode | PinAlias | MarkMode | MarkAlias | Help

  /** The switch's case labels and the command each selects. */
  const Labels: seq<(string, Command)> := [
    ("combined-live", CombinedLive),
    ("grid", GridMode), ("grid-train", GridAlias), ("grid-detect", GridAlias), ("grid-live", GridAlias),
    ("pin", PinMode), ("pin-train", PinAlias), ("pin-detect", PinAlias), ("pin-live", PinAlias),
    ("players", MarkMode), ("player", MarkMode), ("players-train", MarkAlias), ("player-train", MarkAlias),
    ("-h", Help), ("--help", Help), ("help", Help)
  ]

  /** The command of the first label equal to root, if any. */
  function Lookup(labels: seq<(string, Command)>, root: string): Option<Command>
    decreases |labels|
  {
    if labels == [] then None
    else if labels[0].0 == root then Some(labels[0].1)
    else Lookup(labels[1..], root)
  }

  function CommandOf(root: string): Option<Command>
  {
    Lookup(Labels, root)
  }

  /** Where Run sends the arguments. */
  datatype Dispatch = Exit(code: int)
                    | Combined(args: seq<string>)
                    | Grid(args: seq<string>)
                    | Pin(args: seq<string>)
                    | Mark(args: seq<string>)

  /** Where a command sends the arguments after the first; `root` is the lower-cased first argument. */
  function Route(cmd: Option<Command>, root: string, rest: seq<string>): Dispatch
  {
    match cmd
    case None => Exit(1)
    case Some(CombinedLive) => Combined(rest)
    case Some(GridMode) => Grid(rest)
    case Some(GridAlias) => Grid(SplitAlias(root) + rest)
    case Some(PinMode) => Pin(rest)
    case Some(PinAlias) => Pin(SplitAlias(root) + rest)
    case Some(MarkMode) => Mark(rest)
    case Some(MarkAlias) => Mark(SplitAlias(root) + rest)
    case Some(Help) => Exit(0)
  }

  /** Run: null or empty arguments end with 1, otherwise the lower-cased first argument picks the route. */
  function Run(args: Option<seq<string>>): (r: Dispatch)
    ensures args.None? || args.value == [] ==> r == Exit(1)
  {
    if args.None? || args.value == [] then Exit(1)
    else
      var root := LowerString(args.value[0]);
      Route(CommandOf(root), root, args.value[1..])
  }

  /**
   * Unknown commands end with 1, the help forms with 0; a mode word
   * forwards the other arguments to its runner, an alias forwards its two
   * halves followed by them.
   */
  lemma {:induction false} RouteSpec(cmd: Option<Command>, root: string, rest: seq<string>)
    ensures var r := Route(cmd, root, rest);
            (cmd.None? <==> r == Exit(1))
            && (cmd == Some(Help) <==> r == Exit(0))
            && (cmd == Some(CombinedLive) <==> r == Combined(rest))
            && (cmd == Some(GridMode) ==> r == Grid(rest))
            && (cmd == Some(GridAlias) ==> r == Grid(SplitAlias(root) + rest))
            && (cmd == Some(PinMode) ==> r == Pin(rest))
            && (cmd == Some(PinAlias) ==> r == Pin(SplitAlias(root) + rest))
            && (cmd == Some(MarkMode) ==> r == Mark(rest))
            && (cmd == Some(MarkAlias) ==> r == Mark(SplitAlias(root) + rest))
            && (r.Grid? <==> cmd == Some(GridMode) || cmd == Some(GridAlias))
            && (r.Pin? <==> cmd == Some(PinMode) || cmd == Some(PinAlias))
            && (r.Mark? <==> cmd == Some(MarkMode) || cmd == Some(MarkAlias))
  {
    match cmd
    case None =>
    case Some(c) =>
  }

  /** Commands match case-insensitively: only the lower-cased first argument matters. */
  lemma {:induction false} RunIgnoresCase(a: string, b: string, rest: seq<string>)
    requires LowerString(a) == LowerString(b)
    ensures Run(Some([a] + rest)) == Run(Some([b] + rest))
  {
    assert ([a] + rest)[1..] == rest == ([b] + rest)[1..];
  }
}

=== FILE: window_mode.dfy ===
/**
 * WindowModes: ScreenshotHelper's choice of how to capture the game window.
 * The window's style bits decide its mode; a minimised full-screen game is
 * not captured, a full-screen one is taken from the primary screen through
 * DirectX, anything else by printing the window.  Process lookup, the Win32
 * calls and the DirectX library are inputs: the window handle, the style
 * words, the window rectangle, the list of displays and the captured frame.
 */
module WindowModes {
  import opened Common

  datatype WindowMode = Unknown | Borderless | FullScreen | FullScreenMinimized

  const WS_POPUP: bv32 := 0x8000_0000
  const WS_VISIBLE: bv32 := 0x1000_0000
  const WS_MINIMIZE: bv32 := 0x2000_0000
  const WS_CLIPSIBLINGS: bv32 := 0x0400_0000
  const WS_EX_TOPMOST: bv32 := 0x0000_0008
  const WS_EX_APPWINDOW: bv32 := 0x0004_0000

  /** Has(val, flag): every bit of flag is set in val. */
  predicate Has(val: bv32, flag: bv32)
  {
    val & flag == flag
  }

  /** The style combination of an exclusive full-screen window. */
  predicate FullScreenStyle(style: bv32, ex: bv32)
  {
    Has(style, WS_VISIBLE) && Has(style, WS_CLIPSIBLINGS) && !Has(style, WS_POPUP) && !Has(style, WS_MINIMIZE)
    && Has(ex, WS_EX_TOPMOST) && Has(ex, WS_EX_APPWINDOW)
  }

  /** The style combination of a borderless window. */
  predicate BorderlessStyle(style: bv32, ex: bv32)
  {
    Has(style, WS_VISIBLE) && Has(style, WS_CLIPSIBLINGS) && Has(style, WS_POPUP) && !Has(style, WS_MINIMIZE)
    && Has(ex, WS_EX_APPWINDOW) && !Has(ex, WS_EX_TOPMOST)
  }

  /**
   * DetectWindowMode(hwnd) on the window's style and extended style.  A
   * window is reported minimised exactly when WS_MINIMIZE is set (the first
   * test of the source only picks out one such case); full screen and
   * borderless exactly on their style combinations; anything else is Unknown.
   */
  function DetectWindowMode(style: bv32, ex: bv32): (m: WindowMode)
    ensures m == FullScreenMinimized <==> Has(style, WS_MINIMIZE)
    ensures m == FullScreen <==> FullScreenStyle(style, ex)
    ensures m == Borderless <==> BorderlessStyle(style, ex)
    ensures m == Unknown <==> !Has(style, WS_MINIMIZE) && !FullScreenStyle(style, ex) && !BorderlessStyle(style, ex)
  {
    var isVisible := Has(style, WS_VISIBLE);
    var isPopup := Has(style, WS_POPUP);
    var isMinimized := Has(style, WS_MINIMIZE);
    var hasClipSiblings := Has(style, WS_CLIPSIBLINGS);
    var isTopmost := Has(ex, WS_EX_TOPMOST);
    var isAppWindow := Has(ex, WS_EX_APPWINDOW);
    if isVisible && hasClipSiblings && isPopup && isMinimized && isAppWindow then FullScreenMinimized
    else if isVisible && hasClipSiblings && !isPopup && !isMinimized && isTopmost && isAppWindow then FullScreen
    else if isVisible && hasClipSiblings && isPopup && !isMinimized && isAppWindow && !isTopmost then Borderless
    else if isMinimized then FullScreenMinimized
    else Unknown
  }

  const StyleMask: bv32 := WS_POPUP | WS_VISIBLE | WS_MINIMIZE | WS_CLIPSIBLINGS
  const ExMask: bv32 := WS_EX_TOPMOST | WS_EX_APPWINDOW

  /** Only the six flags decide the mode: windows that agree on them are in the same mode. */
  lemma {:induction false} ModeDependsOnFlags(s1: bv32, e1: bv32, s2: bv32, e2: bv32)
    requires s1 & StyleMask == s2 & StyleMask && e1 & ExMask == e2 & ExMask
    ensures DetectWindowMode(s1, e1) == DetectWindowMode(s2, e2)
  {
    SameFlag(s1, s2, StyleMask, WS_POPUP);
    SameFlag(s1, s2, StyleMask, WS_VISIBLE);
    SameFlag(s1, s2, StyleMask, WS_MINIMIZE);
    SameFlag(s1, s2, StyleMask, WS_CLIPSIBLINGS);
    SameFlag(e1, e2, ExMask, WS_EX_TOPMOST);
    SameFlag(e1, e2, ExMask, WS_EX_APPWINDOW);
  }

  /** Two words that agree under a mask agree on every flag inside it. */
  lemma {:induction false} SameFlag(a: bv32, b: bv32, mask: bv32, flag: bv32)
    requires a & mask == b & mask && flag & mask == flag
    ensures a & flag == b & flag
  {
  }

  /** What CaptureSmart captures. */
  datatype Capture = NoImage | ScreenImage | WindowImage(hwnd: int)

  /**
   * CaptureSmart(processName).  `handle` is the main window handle of the
   * last process of that name (None when there is no such process); style
   * and ex are that window's style words.
   */
  function CaptureSmart(handle: Option<int>, style: bv32, ex: bv32): (r: (Capture, WindowMode))
    ensures (handle.None? || handle.value == 0) ==> r == (NoImage, Unknown)
    ensures handle.Some? && handle.value != 0 ==> r.1 == DetectWindowMode(style, ex)
  {
    if handle.None? || handle.value == 0 then (NoImage, Unknown)
    else
      var mode := DetectWindowMode(style, ex);
      match mode
      case FullScreenMinimized => (NoImage, mode)
      case FullScreen => (ScreenImage, mode)
      case _ => (WindowImage(handle.value), mode)
  }

  /**
   * A minimised window is never captured; the screen is captured exactly for
   * an exclusive full-screen window; any other window is printed by its own
   * handle.
   */
  lemma {:induction false} CaptureSmartSpec(handle: Option<int>, style: bv32, ex: bv32)
    requires handle.Some? && handle.value != 0
    ensures Has(style, WS_MINIMIZE) ==> CaptureSmart(handle, style, ex).0 == NoImage
    ensures CaptureSmart(handle, style, ex).0 == ScreenImage <==> FullScreenStyle(style, ex)
    ensures CaptureSmart(handle, style, ex).0 == WindowImage(handle.value)
            <==> !Has(style, WS_MINIMIZE) && !FullScreenStyle(style, ex)
  {
    var m := DetectWindowMode(style, ex);
    assert m == FullScreenMinimized <==> Has(style, WS_MINIMIZE);
    assert m == FullScreen <==> FullScreenStyle(style, ex);
  }

  /** A window rectangle as GetWindowRect reports it. */
  datatype Rect = Rect(left: int, top: int, right: int, bottom: int)

  /** The size of a bitmap. */
  datatype Size = Size(width: int, height: int)

  /**
   * CaptureWindow(hwnd): no bitmap for the null handle or when the window
   * rectangle cannot be read; otherwise a bitmap of the window's size, at
   * least one pixel each way.  A failed PrintWindow still returns the bitmap.
   */
  function CaptureWindow(hwnd: int, rect: Option<Rect>): (r: Option<Size>)
    ensures r.Some? <==> hwnd != 0 && rect.Some?
    ensures r.Some? ==> r.value.width >= 1 && r.value.height >= 1
    ensures r.Some? && rect.value.right - rect.value.left >= 1 ==> r.value.width == rect.value.right - rect.value.left
    ensures r.Some? && rect.value.bottom - rect.value.top >= 1 ==> r.value.height == rect.value.bottom - rect.value.top
  {
    if hwnd == 0 then None
    else if rect.None? then None
    else Some(Size(MaxInt(1, rect.value.right - rect.value.left), MaxInt(1, rect.value.bottom - rect.value.top)))
  }

  /** A display the DirectX service offers. */
  datatype Display = Display(width: nat, height: nat)

  predicate OfSize(d: Display, w: int, h: int)
  {
    d.width == w && d.height == h
  }

  /** The first display with the given size, if any. */
  function FirstOfSize(displays: seq<Display>, w: int, h: int): (r: Option<Display>)
    ensures r.Some? ==> OfSize(r.value, w, h) && r.value in displays
    ensures r.None? ==> forall i :: 0 <= i < |displays| ==> !OfSize(displays[i], w, h)
    decreases |displays|
  {
    if displays == [] then None
    else if OfSize(displays[0], w, h) then Some(displays[0])
    else
      var r := FirstOfSize(displays[1..], w, h);
      assert forall i :: 1 <= i < |displays| ==> displays[i] == displays[1..][i - 1];
      r
  }

  /**
   * The display EnsureDxForPrimaryScreen picks for a primary screen of size
   * w x h: one of that size, else the first; none when there are no
   * displays (the source throws, and the capture returns no bitmap).
   */
  function SelectDisplay(displays: seq<Display>, w: int, h: int): (r: Option<Display>)
    ensures r.None? <==> displays == []
    ensures r.Some? ==> r.value in displays
    ensures r.Some? ==> (OfSize(r.value, w, h) <==> exists i :: 0 <= i < |displays| && OfSize(displays[i], w, h))
    ensures r.Some? && (forall i :: 0 <= i < |displays| ==> !OfSize(displays[i], w, h)) ==> r.value == displays[0]
  {
    if displays == [] then None
    else
      var m := FirstOfSize(displays, w, h);
      if m.Some? then m else Some(displays[0])
  }

  /** The frame with every fourth byte, from the fourth on (the alpha of each BGRA pixel), set to 255. */
  function OpaqueAlpha(raw: seq<bv8>): seq<bv8>
  {
    seq(|raw|, i requires 0 <= i < |raw| => if i % 4 == 3 then 255 else raw[i])
  }

  /** The four bytes of pixel k. */
  function Pixel(s: seq<bv8>, k: int): seq<bv8>
    requires 0 <= k && 4 * k + 4 <= |s|
  {
    s[4 * k..4 * k + 4]
  }

  /**
   * Making a frame opaque keeps its length and the blue, green and red of
   * every pixel, and makes every alpha 255; doing it twice changes nothing more.
   */
  lemma {:induction false} OpaqueAlphaPixels(raw: seq<bv8>)
    ensures |OpaqueAlpha(raw)| == |raw|
    ensures forall k :: 0 <= k && 4 * k + 4 <= |raw| ==> Pixel(OpaqueAlpha(raw), k) == Pixel(raw, k)[..3] + [255]
    ensures OpaqueAlpha(OpaqueAlpha(raw)) == OpaqueAlpha(raw)
  {
    var o := OpaqueAlpha(raw);
    forall k | 0 <= k && 4 * k + 4 <= |raw|
      ensures Pixel(o, k) == Pixel(raw, k)[..3] + [255]
    {
      assert (4 * k + 3) % 4 == 3;
      assert (4 * k) % 4 == 0 && (4 * k + 1) % 4 == 1 && (4 * k + 2) % 4 == 2;
    }
  }

  /** CopyTo: the frame's bytes into the buffer. */
  method Blit(raw: seq<bv8>, a: array<bv8>)
    requires |raw| == a.Length
    modifies a
    ensures a[..] == raw
  {
    for j := 0 to |raw|
      invariant forall k :: 0 <= k < j ==> a[k] == raw[k]
    {
      a[j] := raw[j];
    }
  }

  /** The alpha loop: from index 3 in steps of four, every byte set to 255. */
  method FillAlpha(a: array<bv8>)
    modifies a
    ensures a[..] == OpaqueAlpha(old(a[..]))
  {
    var i := 3;
    while i < a.Length
      invariant 3 <= i && i % 4 == 3
      invariant forall j :: 0 <= j < a.Length ==> a[j] == if j % 4 == 3 && j < i then 255 else old(a[j])
    {
      a[i] := 255;
      i := i + 4;
    }
  }

  /** A captured bitmap: 32-bit BGRA rows of width * 4 bytes. */
  datatype Bitmap = Bitmap(width: int, height: int, bgra: seq<bv8>)

  /**
   * The DirectX state of ScreenshotHelper: whether the service and the
   * capture zone exist, the zone's size and the reused frame buffer.
   */
  class DxCapture {
    var ready: bool
    var width: nat
    var height: nat
    var buffer: array<bv8>

    /** The buffer always holds one frame of the zone's size. */
    predicate Valid()
      reads this
    {
      buffer.Length == width * height * 4
    }

    /** The zone already serves a primary screen of size w x h. */
    predicate Serves(w: int, h: int)
      reads this
    {
      ready && width == w && height == h
    }

    /** The initial static state: no service, size 0, an empty buffer. */
    constructor ()
      ensures !ready && width == 0 && height == 0 && Valid()
    {
      ready := false;
      width, height := 0, 0;
      buffer := new bv8[0];
    }

    /**
     * EnsureDxForPrimaryScreen: nothing to do when the zone already has the
     * primary screen's size; otherwise the old state is disposed of and a
     * zone is registered on the display SelectDisplay picks, with a fresh
     * buffer.  `ok` is false when there is no display (the source throws).
     */
    method Ensure(w: int, h: int, displays: seq<Display>) returns (ok: bool)
      requires Valid()
      modifies this
      ensures Valid()
      ensures old(Serves(w, h)) ==> ok && ready && width == old(width) && height == old(height) && buffer == old(buffer)
      ensures !old(Serves(w, h)) && displays == [] ==> !ok && !ready && width == 0 && height == 0
      ensures !old(Serves(w, h)) && displays != [] ==>
                (ok && ready && fresh(buffer) && Some(Display(width, height)) == SelectDisplay(displays, w, h))
    {
      if Serves(w, h) {
        return true;
      }
      ready := false;
      width, height := 0, 0;
      buffer := new bv8[0];
      var d := SelectDisplay(displays, w, h);
      if d.None? {
        return false;
      }
      width, height := d.value.width, d.value.height;
      buffer := new bv8[width * height * 4];
      ready := true;
      ok := true;
    }

    /**
     * CaptureFullScreen for a primary screen of size w x h.  `grab(d)` is
     * the raw frame of a zone registered on display d, one BGRA quadruple
     * per pixel.  The bitmap is the zone's frame made opaque, and the buffer
     * keeps it; there is no bitmap only when there is no display to capture.
     */
    method CaptureFullScreen(w: int, h: int, displays: seq<Display>, grab: Display -> seq<bv8>)
      returns (bmp: Option<Bitmap>)
      requires Valid()
      requires forall d: Display :: |grab(d)| == d.width * d.height * 4
      modifies this, buffer
      ensures Valid()
      ensures bmp.None? <==> !old(Serves(w, h)) && displays == []
      ensures bmp.Some? ==> ready && bmp.value == Bitmap(width, height, OpaqueAlpha(grab(Display(width, height))))
                            && buffer[..] == bmp.value.bgra
      ensures bmp.Some? && old(Serves(w, h)) ==> width == old(width) && height == old(height)
      ensures bmp.Some? && !old(Serves(w, h)) ==> Some(Display(width, height)) == SelectDisplay(displays, w, h)
    {
      var ok := Ensure(w, h, displays);
      if !ok {
        return None;
      }
      // The source reallocates a buffer whose length is not width * height * 4; Valid rules that out.
      var raw := grab(Display(width, height));
      Blit(raw, buffer);
      FillAlpha(buffer);
      bmp := Some(Bitmap(width, height, buffer[..]));
    }
  }
}
